=== FILE: README.md ===
# Wage-ETL in Dafny

A model of the Wage-ETL pipeline and proofs about it. The pipeline scrapes the Living Wage Calculator's county pages, which hold one table of hourly wages and one of annual expenses per county. It reshapes each table from its wide form, one column per household type, into one row per county, household and wage type or expense category. It validates those rows and upserts them into PostgreSQL staging tables, and it records each run in a run table.

The model follows the repository's layers:

- **Transform.**
  - `Families`: the twelve-entry family table.
  - `Normalizers` and `Legacy`: header and category normalisation.
  - `Records`: the record validators.
  - `Currency`: currency cells.
  - `Tables` and `Frames`: table operations.
  - `Normalize`: the wage and expense normalisers.
  - `Validation`: the wide-table check.
- **Extract.**
  - `WageTables`: reading the two result tables of a county page.
  - `Census`: parsing Census API answers.
  - `Urls`: URLs and cache keys.
  - `Codecs`: Base64 per section 4 of RFC 4648, and UTF-8.
  - `Caches`: the three file caches.
  - `Retry`: the three retry loops.
  - `Clients`: cache-or-fetch.
  - `CsvStore`: the raw CSV files and their county index.
  - `Scraping`: the per-county scrape results.
- **Load.**
  - `Staging`: the natural-key upsert and reject rows.
  - `RunTracker`: the run table.
  - `Pipeline`: `main`.

State codes are two digits (FIPS PUB 5-2) and county codes three (FIPS PUB 6-4). A full code is the two joined.

The model is functional throughout:

- A table is a list of column names plus rows, where a row maps every column to a cell.
- Cache directories, CSV directories and staging tables are maps. The run table is a sequence.
- The clock is a parameter, and so is the network: a function from attempt number to outcome. Retry loops return the calls made, the sleeps they would have slept, and how they ended.
- HTML parsing, JSON serialisation, the database and each county lookup are also parameters, or arrive already done.

Python exceptions are `Failure` values that carry what `str(e)` would print, except where a caller inspects the kind of failure (the caches and retry loops give a structured error) and the one CSV read failure named under Left out. Where a pandas or PostgreSQL call would raise, the model has an error case, not a precondition. The category map is not part of the repository's `constants.py`. Its entries are taken from the expectations in `tests/unit/test_transform_normalizers.py`.

Nine places where the code as written cannot do what it evidently means are listed under Findings. For each one the model holds both versions: the code as written, with a lemma that exhibits the failure, and a corrected definition with the intended property proved. The rest of the model uses the corrected definitions. Where the newer and older copies of an operation differ, both are modelled and related by a lemma. The two wage scrapers, the two Census extractors, the three retry loops and the two CSV upserts are such copies.

## Model

| member | source | states |
|---|---|---|
| `Families.LookupMapKeys` | src/transform/constants.py:5-18 | every key of the family table names a valid household (1 or 2 adults, 1 ≤ working ≤ adults, 0–3 children), and the key is the canonical header of that household |
| `Families.LookupMapCovers` | src/transform/constants.py:5-18 | every household a record accepts has an entry, stored under its canonical header |
| `Families.LookupMapValues` | src/transform/constants.py:5-18 | the table's values are exactly the households the validators accept |
| `Families.LookupMapInjective` | src/transform/constants.py:5-18 | no two keys share a household: the twelve triples are pairwise distinct |
| `Families.LookupMapSize` | src/transform/constants.py:5-18 | the table has exactly twelve entries |
| `Families.ConfigMapKeys` | src/transform/constants.py:5-18 | the title-case table as written maps each key to a valid household named by that key |
| `Families.ConfigMapCovers` | src/transform/constants.py:5-18 | the title-case table has an entry for every valid household |
| `Families.ConfigMapSize` | src/transform/constants.py:5-18 | the title-case table has exactly twelve entries |
| `Families.LookupMapIsLowered` | src/transform/constants.py:5-18 | the lowercase table is the title-case table with every key lowercased and the same household |
| `Records.ExpenseCategoriesSize` | src/transform/models.py:66-78 | the expense category literal allows exactly eleven values |
| `Records.ValidateCountyFips` | src/transform/models.py:16-26 | accepted iff zero-padding to width 5 gives five digits (at most five characters, all digits); the result is five digits ending in the input and denoting the same number; otherwise the fixed message |
| `Records.FipsPadding` | src/transform/models.py:22-23 | the padded code is five digits exactly when the input is acceptable, and then it keeps the input as its suffix |
| `Records.ValidateAdults` | src/transform/models.py:28-33 | accepted iff the value is 1 or 2; otherwise the fixed message |
| `Records.ValidateWorkingAdults` | src/transform/models.py:35-43 | accepted iff the value is at least 1 and, when adults validated, at most adults; the two failure messages are told apart |
| `Records.ValidateChildren` | src/transform/models.py:45-50 | accepted iff 0 ≤ children ≤ 3 |
| `Records.ValidateAmount` | src/transform/models.py:55-62 | a non-negative amount is accepted unchanged (zero included); a negative one fails with the `ge=0` message |
| `Records.ValidateLiteral` | src/transform/models.py:54 | a `Literal` field accepts exactly the listed values |
| `Records.ValidateBase` | src/transform/models.py:9-50 | a base record is built iff every common field is present and valid; it carries the input household and the 5-digit padded county code; on failure the errors are the common fields' errors in declaration order, never empty |
| `Records.ValidateWage` | src/transform/models.py:53-62 | a wage record is built iff the base is valid, the wage type is living, poverty or minimum, and the wage is ≥ 0; otherwise base errors followed by wage errors |
| `Records.ValidateExpense` | src/transform/models.py:65-86 | an expense record is built iff the base is valid, the category is one of the eleven, and the amount is ≥ 0; otherwise base errors followed by expense errors |
| `Records.AcceptedFamiliesAreTable` | src/transform/models.py:28-50 | for present, valid code and date fields, the base validates exactly when the household is a value of the family table, and then that household is stored under its canonical key |
| `Records.BaseErrorFields` | src/transform/models.py:35-43 | which common fields fail, each with its iff condition (working adults checked against adults only when adults validated), and that the error count is the number of failing fields |
| `Records.CountyFipsExamples` | src/transform/models.py:22-25 | "101" becomes "00101"; "abc" and "123456" are rejected |
| `Records.ZeroWageAccepted` | src/transform/models.py:55-62 | a zero hourly wage is accepted |
| `Normalizers.SpaceBeforeParen` | src/transform/normalizers.py:18 | the result has no word character directly before "(" and consists of the input's characters in order |
| `Normalizers.SpaceBeforeParenOnlyInserts` | src/transform/normalizers.py:18 | the substitution only inserts spaces: removing spaces from its output and from its input gives the same text |
| `Normalizers.SpaceBeforeParenIdentity` | src/transform/normalizers.py:18 | text with no word character before "(" is left unchanged |
| `Normalizers.SpaceBeforeParenOnce` | src/transform/normalizers.py:18 | "a(b)" with a word character at the end of a gets exactly one space: "a (b)" |
| `Normalizers.NormalizeHeader` | src/transform/normalizers.py:5-33 | the normalised header is lowercase and single-spaced (no leading, trailing or doubled space) |
| `Normalizers.NormalizeHeaderIgnoresCase` | src/transform/normalizers.py:12 | a header and its lowercase form normalise alike |
| `Normalizers.NormalizeCanonical` | src/transform/normalizers.py:12-31 | a header already in canonical form (lowercase, single-spaced, none of the rewritten patterns) is a fixed point |
| `Normalizers.FamilyConfigOfKey` | src/transform/normalizers.py:36-47 | each of the twelve lowercase keys is a fixed point of the normaliser and looks up its own household |
| `Normalizers.FamilyConfigOfTitle` | src/transform/normalizers.py:36-47 | each title-case header from the original table also finds its household, since lowercasing comes first |
| `Normalizers.FamilyConfig` | src/transform/normalizers.py:36-47 | a household is returned iff the normalised header is a key of the lowercase table, and then it is valid and named by that header |
| `Normalizers.FamilyConfigAt` | src/transform/normalizers.py:36-47 | the lookup depends only on the normalised header: unknown keys give None, known keys give their table entry |
| `Normalizers.FamilyConfigUnknownExamples` | src/transform/normalizers.py:36-47 | "3 adults" and "invalid config" find nothing |
| `Normalizers.NormalizeBothWorkingExample` | src/transform/normalizers.py:15-28 | "2 ADULTS (BOTH WORKING) - 2 CHILDREN" normalises to "2 adults 2 children" |
| `Normalizers.NormalizeParenExample` | src/transform/normalizers.py:18 | "2 adults(1 working)" normalises to "2 adults (1 working)" and finds two adults, one working, no children |
| `Normalizers.FamilyConfigAsWritten` | src/transform/normalizers.py:36-47 | the lookup against the title-case keys as written: a household is found iff the lowercase normalised header is a title-case key |
| `Normalizers.FamilyConfigAsWrittenMisses` | src/transform/normalizers.py:46-47 | against the title-case keys as written, no header at all finds a household, since the normalised header is lowercase and every key has an upper-case letter |
| `Normalizers.NormalizeCategoryKey` | src/transform/normalizers.py:50-59 | the key is lowercase, has no leading or trailing space, and consists of word characters separated by single spaces |
| `Normalizers.NormalizeCategoryKeyIdentity` | src/transform/normalizers.py:50-59 | a text already in key form is its own key |
| `Normalizers.NormalizeCategoryKeyIdempotent` | src/transform/normalizers.py:50-59 | normalising a key again changes nothing |
| `Normalizers.NormalizeCategoryKeyWords` | src/transform/normalizers.py:57 | the key keeps exactly the input's word characters, lowercased, in order |
| `Normalizers.NormalizeCategoryKeyIgnoresCase` | src/transform/normalizers.py:54 | a text and its lowercase form give the same key |
| `Normalizers.CategoryNoneExample` | src/transform/normalizers.py:54 | a missing cell, printed as "None", gives the key "none" |
| `Normalizers.Slug` | src/transform/normalizers.py:72 | the fallback slug has the key's length and replaces exactly the spaces with "_" |
| `Normalizers.LookupCategoryValue` | src/transform/normalizers.py:62-72 | the result consists of lowercase word characters only, so it never contains a space |
| `Normalizers.LookupCategoryValueCases` | src/transform/normalizers.py:66-72 | a known key gives its mapped canonical value; an unknown key gives the key with spaces turned into "_" |
| `Normalizers.LookupCategoryValueIdempotent` | src/transform/normalizers.py:62-72 | looking up a looked-up value returns it unchanged |
| `Normalizers.LookupCanonicalValue` | src/transform/normalizers.py:62-72 | every canonical category value looks up to itself |
| `Normalizers.CategoryMapValues` | tests/unit/test_transform_normalizers.py:111-146 | every value of the category table is one of the canonical category values |
| `Normalizers.CategoryCaseExamples` | tests/unit/test_transform_normalizers.py:133-146 | "FOOD" gives "food" and "Living Wage" gives "living" |
| `Normalizers.CategoryPunctuationExample` | tests/unit/test_transform_normalizers.py:133-146 | "internet & mobile" has the key "internet mobile" and, being unknown, the slug "internet_mobile" |
| `Legacy.NormalizeAsWritten` | src/transform/constants.py:21-36 | the older normaliser's result has no leading or trailing space |
| `Legacy.LookupAsWritten` | src/transform/constants.py:39-50 | a household is found iff the older normalised header is a title-case key, and then it is named by that header |
| `Legacy.NormalizeFixed` | src/transform/constants.py:21-36 | the older normaliser followed by a whitespace collapse is single-spaced |
| `Legacy.LookupFixed` | src/transform/constants.py:39-50 | the lookup through the collapsing normaliser finds a household iff its result is a title-case key |
| `Legacy.UntouchedFixed` | src/transform/constants.py:26-34 | single-spaced text with none of the removed patterns is left unchanged by both normalisers |
| `Legacy.LookupTitleKey` | src/transform/constants.py:39-50 | every title-case key finds its household through either lookup |
| `Legacy.LookupLowercaseMisses` | src/transform/constants.py:26-34 | the older lookup is case-sensitive: the lowercase keys find nothing |
| `Legacy.AsWrittenMissesBothWorking` | src/transform/constants.py:27-36 | for any two labels the normaliser leaves alone, the both-working header "a (Both Working) - b" normalises, as written, to "a", two spaces, "b", which is never a key, so the lookup finds nothing |
| `Legacy.FixedFindsBothWorking` | src/transform/constants.py:27-36 | with a final collapse the same header normalises to "a b" and finds exactly the household that key names, if any |
| `Legacy.BothWorkingExample` | src/transform/constants.py:27-36 | "2 Adults (Both Working) - 1 Child" misses as written and finds two working adults with one child once corrected |
| `Currency.DropMoneyChars` | src/transform/pandas_ops.py:62 | the cleaned text is no longer than the input and holds no "$" and no "," |
| `Currency.DropMoneyCharsAppend` | src/transform/pandas_ops.py:62 | removing "$" and "," works piecewise over concatenation |
| `Currency.ParseDecimal` | src/transform/pandas_ops.py:66 | the restricted decimal grammar used in place of `pd.to_numeric` rejects the empty string |
| `Currency.ParseDigits` | src/transform/pandas_ops.py:66 | a run of digits parses to its decimal value |
| `Currency.ParseFraction` | src/transform/pandas_ops.py:66 | "d.t" with digit runs d (non-empty) and t parses to d plus t as a fraction |
| `Currency.GroupedDigits` | src/transform/pandas_ops.py:59-64 | a thousands-grouped amount, once its commas are removed, is a non-empty digit run denoting the same number |
| `Currency.MoneyRoundTrip` | src/transform/pandas_ops.py:45-67 | cleaning a formatted amount "$1,234.56" gives back the amount: cleaning inverts formatting for every whole number of cents |
| `Currency.MoneyExample` | src/transform/pandas_ops.py:59-66 | "$1,234.56" cleans to 1234.56 |
| `Currency.NotANumberExample` | src/transform/pandas_ops.py:66 | an unparseable cell such as "N/A" cleans to 0 |
| `Validation.RowNulls` | src/transform/validation.py:31-32 | a row's null count is at most the column count; zero iff no present cell is null; the column count iff every cell is present and null |
| `Validation.ValidateWideFormat` | src/transform/validation.py:5-37 | the flag is true iff there are no errors; an empty table gives exactly the empty-table error; otherwise the category error appears iff no column lowercases to "category", the null error appears iff 10·nulls > rows·columns, and the two accumulate independently |
| `Validation.RatioOverTenth` | src/transform/validation.py:31-34 | the ratio test `nulls / cells > 0.10` is the integer test 10·nulls > cells |
| `Validation.NullsBounded` | src/transform/validation.py:31-32 | the null count never exceeds the number of cells |
| `Validation.NoNullsNoError` | src/transform/validation.py:31-35 | a table with no null cell counts no nulls |
| `Validation.AllNullTableFails` | src/transform/validation.py:31-37 | a non-empty table whose every cell is null fails with the null error |
| `Tables.FromDicts` | src/transform/pandas_ops.py:34 | `pd.DataFrame(data)`: one row per dict, columns are the keys in first-seen order, each cell is the dict's value or null when the key is absent |
| `Tables.FromDictsKeepsEntries` | src/transform/pandas_ops.py:34 | every entry of every dict appears in the table at its row and column |
| `Frames.TableToDataframe` | src/transform/pandas_ops.py:21-42 | empty input gives the empty table; otherwise one row per dict; a present `county_fips` column is zero-padded to width 3, an absent one stays absent, and every other cell is the dict's value |
| `Frames.TableToDataframePadsFips` | src/transform/pandas_ops.py:36-38 | a county code of at most three digits becomes exactly three digits with the same value ("1" → "001") |
| `Frames.ValueVars` | src/transform/pandas_ops.py:128-129 | the value columns are exactly the columns whose lowercase name is neither "category" nor "county_fips" |
| `Frames.Melt` | src/transform/pandas_ops.py:124-132 | the melt succeeds iff a "category" column exists, and otherwise fails with `str` of pandas' `KeyError`, the double-quoted repr of its message; the result has columns category, family, value and one row per (value column, row), so |value columns| × |rows| rows |
| `Frames.MeltRowsAt` | src/transform/pandas_ops.py:130-132 | the row at position j·n + i of the melt is row i melted at value column j, column-major as pandas orders it |
| `Frames.MeltRowCells` | src/transform/pandas_ops.py:130-132 | a melted row keeps the category, names the value column as its family, and carries that column's cell as its value |
| `Frames.FamilyOf` | src/transform/pandas_ops.py:77-81 | a header cell names a household only if it is a valid household |
| `Frames.FamilyOfHeader` | src/transform/pandas_ops.py:77-81 | a header the lookup knows gives the lookup's household |
| `Frames.WithFamily` | src/transform/pandas_ops.py:84-87 | the three family columns are set from the household, or all null for an unknown header; every other cell is kept |
| `Frames.AddFamilyConfigColumns` | src/transform/pandas_ops.py:70-89 | the row count is unchanged, the three family columns are added, and each row gets the household its header names |
| `Frames.NormalizeCategoryColumn` | src/transform/pandas_ops.py:92-105 | the row count is unchanged and each row gets the target column set from its source cell, other cells kept |
| `Frames.CategoryCellIsLookup` | src/transform/pandas_ops.py:99-103 | the target cell is the category lookup of the key, since that lookup is never empty where the fallback would apply |
| `Frames.CleanCurrencyColumns` | src/transform/pandas_ops.py:45-67 | the columns and row count are unchanged; each cleaned cell becomes the parsed amount (0 when unparseable or null); every other cell is kept |
| `Frames.MoneyAmount` | src/transform/pandas_ops.py:59-66 | a cell holding a formatted amount cleans to that amount |
| `Frames.NullAmount` | src/transform/pandas_ops.py:66 | a null cell cleans to 0 |
| `Frames.LowerSpecialColumns` | src/transform/pandas_ops.py:153-154 | "Category" is renamed "category" and no other column changes; a table with both spellings is reported as a failure |
| `Frames.FullFipsValid` | src/transform/pandas_ops.py:149-151 | the assembled code zfill(state, 2) + zfill(county, 3) is five digits, passes the record's county validator, and denotes 1000·state + county |
| `Frames.DataframeToModels` | src/transform/pandas_ops.py:108-121 | the models are the accepted rows' records in order and the errors are the rejected rows' errors, each tagged with its row index |
| `Frames.PartitionCount` | src/transform/pandas_ops.py:108-121 | every row becomes exactly one model or one error: models + errors = rows |
| `Frames.RejectedSound` | src/transform/pandas_ops.py:117-120 | each error names a row that failed with exactly those errors, and the row indexes increase |
| `Frames.RejectedComplete` | src/transform/pandas_ops.py:117-120 | every failing row has its error entry |
| `Frames.NoneRejected` | src/transform/pandas_ops.py:108-121 | there are no errors iff every row validates, and then the models are all rows' records in order |
| `Frames.LongTable` | src/transform/pandas_ops.py:153-162 | the long table exists iff the lowered columns include "category"; it has the fixed long columns and |value columns| × |rows| rows |
| `Frames.LongTableRow` | src/transform/pandas_ops.py:156-162 | each long row carries its source row's category, its column as family, that family's three counts, the looked-up category, the cleaned amount, the full FIPS code and the page date |
| `Normalize.DumpTable` | src/transform/pandas_ops.py:169 | `pd.DataFrame([m.model_dump() ...])`: the rows are the dumps in order, with the record's field columns, or no columns when there are none |
| `Normalize.Validated` | src/transform/pandas_ops.py:164-171 | with validation on and no row rejected, the output has one row per long row, each the dump of that row's record; otherwise the unvalidated long table is returned as it is |
| `Normalize.NormalizeWages` | src/transform/pandas_ops.py:135-171 | an empty table is returned unchanged; otherwise the result exists iff the long table does (a "category" column after lowering), and it is that long table, stamped with the full 5-digit code and the page date, passed through validation against `WageRecord` |
| `Normalize.NormalizeExpenses` | src/transform/pandas_ops.py:174-212 | the same for expense tables, validated against `ExpenseRecord` |
| `Normalize.ValidatedWageIsStable` | src/transform/pandas_ops.py:164-169 | a validated wage record, dumped and read back, validates to the same record |
| `Normalize.ValidatedExpenseIsStable` | src/transform/pandas_ops.py:204-210 | a validated expense record, dumped and read back, validates to the same record |
| `WageTables.AdultConfigs` | src/extract/wage_scraper.py:107-113 | the adult labels kept are exactly the non-blank header cells, with their colspans, in order |
| `WageTables.Expand` | src/extract/wage_scraper.py:130-134 | one label spread over its colspan yields min(colspan, child cells left) headers "adult - child", advancing the child index by as many |
| `WageTables.SpreadPairs` | src/extract/wage_scraper.py:129-134 | spreading all labels pairs the k-th expanded label with the k-th remaining child cell, for as many as the shorter of the two allows |
| `WageTables.Headers` | src/extract/wage_scraper.py:99-136 | fewer than two header groups raise "Unexpected table header format" in the extractor and "list index out of range" or the `NoneType` `find_all` text in the scraper; a header group without a row fails with that `find_all` text; on success the first header is the first child cell or "Category" when blank, followed by min(Σcolspan, |child| − 1) combined headers |
| `WageTables.BodyRows` | src/extract/wage_scraper.py:138-146 | the body rows are the tbody rows; without a tbody the extractor yields none while the scraper variant fails with "'NoneType' object has no attribute 'find_all'" |
| `WageTables.Fit` | src/extract/wage_scraper.py:83-91 | a row is padded with nulls or truncated to exactly the header count, keeping its cells in place |
| `WageTables.RowDict` | src/extract/wage_scraper.py:93-94 | every row dict carries the county code zero-padded to width 3 |
| `WageTables.RowDictContents` | src/extract/wage_scraper.py:83-95 | with distinct headers, the dict's keys are the headers then `county_fips`, each header mapped to its cell or null past the row's end |
| `WageTables.ExtractTable` | src/extract/wage_scraper.py:74-97 | extraction succeeds iff the headers and body do; a header failure is passed on; on success there is one dict per body row, in order |
| `WageTables.ParsePage` | src/extract/wage_scraper.py:60-72 | fewer than two tables raise "Expected at least 2 tables, found N"; otherwise table 0 gives the wage rows and table 1 the expense rows |
| `WageTables.CountyEndpoint` | src/extract/wage_scraper.py:52-55 | the endpoint is "counties/" followed by the padded state and county codes |
| `WageTables.CountyEndpointDigits` | src/extract/wage_scraper.py:52-55 | for digit codes within width, the endpoint ends in five digits denoting 1000·state + county |
| `WageTables.BuildUrl` | src/extract/scrapers/wage_scraper.py:14-20 | the scraper URL is base + "/counties/" + state + county with no padding |
| `WageTables.VariantsAgreeOnFullCodes` | src/extract/scrapers/wage_scraper.py:14-20 | with full-width codes the two variants address the same page |
| `WageTables.VariantsDifferOnShortCodes` | src/extract/scrapers/wage_scraper.py:19 | with a short code (state "1", county "1") the scraper's unpadded URL differs from the extractor's padded endpoint |
| `Census.CountyOf` | src/extract/census_api.py:49-56 | the county name is the text before the first comma, stripped; the state code (the row's own, or the caller's in the older extractor) is padded to 2, the county code to 3, and the full code is their concatenation |
| `Census.ParseCounties` | src/extract/census_api.py:45-58 | the header row is dropped and every remaining row becomes one county, in order; a row too short to index fails at the first such row |
| `Census.ExtractorCountiesAgree` | src/extract/api_extractor.py:43-54 | when every row's state matches the requested state, the older extractor's use of the argument gives the same counties as reading each row's state |
| `Census.CountyCodes` | src/extract/census_api.py:94-97 | the county codes are the padded county column of the parsed counties, same order and length |
| `Census.FullFipsIsFiveDigits` | src/extract/census_api.py:50-56 | for digit codes within width, the full code is five digits, denotes 1000·state + county, and passes the record's county validator |
| `Census.CountyRowExample` | src/extract/census_api.py:49-51 | "A County, B" with codes "1" gives the name "A County" and codes "01" and "001" |
| `Census.ParseStates` | src/extract/census_api.py:60-65 | the header row is dropped; each state keeps its name and has its code padded to 2; a short row fails at the first one |
| `Census.Lookup` | src/extract/api_extractor.py:85 | `fips_map.get(key)`: none iff no entry has that abbreviation, else the entry's code |
| `Census.AbbrFor` | src/extract/census_api.py:86-91 | the abbreviation is that of the first entry whose code equals the state's code, or none when no entry has it |
| `Census.AbbrForInvertsLookup` | src/extract/census_api.py:86-91 | the reverse search inverts the abbreviation map: it finds abbr for code exactly when abbr maps to code, given distinct abbreviations and codes |
| `Census.GetStates` | src/extract/census_api.py:77-92 | the states are the parsed states, each with the abbreviation the reverse search finds for its code |
| `Census.ExtractorAbbrAsWritten` | src/extract/api_extractor.py:79-85 | the older extractor looks the state code up as if it were an abbreviation: what it finds is an entry keyed by the code itself, and when every key starts with a capital letter a digit code finds nothing |
| `Census.ExtractorAbbrAlwaysMissing` | src/extract/api_extractor.py:85 | since the map's keys are abbreviations starting with a capital letter, a digit code never finds one, while the reverse search finds "NJ" for "34" |
| `Census.CountyParams` | src/extract/census_api.py:69-73 | the county query has the distinct parameters get=NAME, for=county:*, in=state:{fips} |
| `Census.CountyKeyShape` | src/extract/census_api.py:67-74 | sorted, the county query is for, get, in with those values |
| `Census.CountyKeysDiffer` | src/extract/census_api.py:67-74 | different states give different cache keys, so their answers are cached apart |
| `Census.CountyApiUrl` | src/extract/api_extractor.py:24-28 | the county URL starts with the base and ends with the state code |
| `Census.StateApiUrl` | src/extract/api_extractor.py:60-64 | the state URL starts with the base |
| `Census.AllCountiesApiUrl` | src/extract/api_extractor.py:105 | the nationwide URL is the county URL for state "*" |
| `Census.CountyApiUrlInjective` | src/extract/api_extractor.py:24-28 | different state codes give different county URLs, and no county URL is the state URL |
| `Urls.StrLessTotal` | src/extract/http.py:81 | Python's string order, used by `sorted`, is total on distinct strings |
| `Urls.StrLessTransitive` | src/extract/http.py:81 | the string order is transitive |
| `Urls.SortParams` | src/extract/http.py:81 | `sorted(params.items())` gives the same items ordered by key |
| `Urls.SortedUnique` | src/extract/http.py:81 | two key-sorted arrangements of the same items are identical, so the sorted order is unique |
| `Urls.QuoteBytes` | src/extract/http.py:82 | percent-encoding never produces "=" or "&", so encoded parameters cannot run together |
| `Urls.QuoteBytesRoundTrip` | src/extract/http.py:82 | percent-decoding inverts the percent-encoding of any byte string |
| `Urls.QuotePlusInjective` | src/extract/http.py:82 | distinct parameter texts encode differently |
| `Urls.CacheKey` | src/extract/http.py:76-84 | no parameters give the endpoint itself; otherwise the key is endpoint + "?" + the encoding of the key-sorted parameters |
| `Urls.ApiKey` | src/extract/apis/base_api_client.py:152-153 | the client's key is url + "?" + the encoding of the sorted parameters, even when there are none |
| `Urls.CacheKeyOrderFree` | src/extract/http.py:80-83 | both keys depend only on the set of parameters, not on their order |
| `Urls.LStripSlash` | src/extract/http.py:72 | `lstrip('/')` removes exactly the leading slashes |
| `Urls.BuildUrl` | src/extract/http.py:65-74 | absolute http(s) endpoints are returned unchanged; any other endpoint is appended to base + "/" with its leading slashes removed |
| `Urls.BuildUrlSlashes` | src/extract/http.py:72 | a relative endpoint with or without a leading "/" resolves to the same URL |
| `Codecs.Base64Encode` | src/extract/cache.py:72 | the encoding has a length divisible by 4 and is non-empty for non-empty content |
| `Codecs.Base64RoundTrip` | src/extract/cache.py:58-72 | decoding inverts encoding for every byte string, the property section 4 of RFC 4648 guarantees and `get` relies on |
| `Codecs.DecodeEncodeGroup` | src/extract/cache.py:58-72 | one 4-character group decodes back to the 1, 2 or 3 bytes it encodes |
| `Codecs.Utf8Encode` | src/extract/caching/scraper_cache.py:76-78 | UTF-8 encoding takes one to four bytes per character |
| `Codecs.Utf8RoundTrip` | src/extract/caching/scraper_cache.py:61-78 | decoding inverts encoding for every string of scalar values |
| `Codecs.Utf8Canonical` | src/extract/caching/scraper_cache.py:61-78 | a byte string that decodes re-encodes to itself, so the cache's decode-then-encode round trip is exact for valid UTF-8 |
| `Caches.FirstRaise` | src/extract/cache.py:97-116 | a clearing loop stops at the first file whose handling raises, and at no earlier file |
| `Caches.Sweep` | src/extract/cache.py:77-116 | a clearing pass only removes files, counts exactly the ones it removed, keeps every file it does not visit or keeps, and reports an error only for a file whose handling raises |
| `Caches.Kept` | src/extract/cache.py:77-95 | the files a pass would keep are exactly those whose verdict is keep |
| `Caches.SweepIsKept` | src/extract/cache.py:77-95 | a pass over every file that raises nothing leaves exactly the kept files |
| `Caches.ResponseGet` | src/extract/cache.py:45-62 | a missing key is a miss that changes nothing; it raises exactly on a mistyped file (not an object, or a timestamp that is not a string or carries an offset) or a fresh entry whose content is not a string, changing nothing; it deletes exactly the files that are not UTF-8, not JSON, lack a timestamp, have a bad one, or are fresh without content or with content that is not base64; a hit is a fresh entry's base64-decoded content; an expired entry is a miss and is left on disk |
| `Caches.ResponseStore` | src/extract/cache.py:64-75 | storing adds or replaces the one key and leaves every other entry as it was |
| `Caches.ResponseRoundTrip` | src/extract/cache.py:45-75 | bytes stored and read back within the time to live come back unchanged, and the read changes nothing |
| `Caches.ResponseStoreOthers` | src/extract/cache.py:64-75 | storing one key changes what no other key reads back |
| `Caches.ResponseExpiredStays` | src/extract/cache.py:55-57 | reading an entry older than the time to live misses and does not delete the file |
| `Caches.ResponseClearExpired` | src/extract/cache.py:77-95 | `clear_expired` raises exactly when a visited file is mistyped; a pass that does not raise keeps exactly the fresh entries; every fresh entry it visits survives and it deletes nothing mistyped; it keeps the remaining files' contents, leaves files outside the glob alone and adds none, and its count plus what remains is what there was |
| `Caches.ClearExpiredInvisible` | src/extract/cache.py:45-95 | clearing expired entries, even when a mistyped file stops it, does not change what any key reads back |
| `Caches.ResponseClearAll` | src/extract/cache.py:97-116 | `clear_all` keeps every fresh entry it visits and deletes only stale or unreadable ones; it raises exactly when a visited file is not UTF-8, has a timestamp that does not parse, or is mistyped; a pass that does not raise keeps exactly the fresh entries; it keeps the remaining files' contents and adds none, and its count plus what remains is what there was |
| `Caches.ExpiredOrNone` | src/extract/caching/cache_interface.py:61-70 | the expiry test raises exactly when the time to live is missing, and otherwise is strict age-beyond-the-time-to-live |
| `Caches.ApiGet` | src/extract/caching/api_cache.py:18-52 | a missing key is a miss; it raises exactly on a file that is not UTF-8, a bad or mistyped timestamp, or any dated entry when the time to live is missing, changing nothing; it deletes exactly the files that are not JSON, lack a timestamp, or are fresh without `response_data`; a hit comes from a fresh entry and is the object of its data and status code, 200 when none was stored |
| `Caches.ApiStore` | src/extract/caching/api_cache.py:54-71 | storing a non-object or an object without `data` raises; otherwise the one key is added or replaced and every other entry is kept |
| `Caches.ApiCacheTtl` | src/extract/caching/cache_interface.py:21-31 | the corrected time to live is always present and is the given one when one is given |
| `Caches.ApiRoundTrip` | src/extract/caching/api_cache.py:18-71 | a response stored and read back within a given time to live returns its data and status code (200 when absent) and changes nothing |
| `Caches.ApiNoTtlRaises` | src/extract/caching/cache_interface.py:31 | with the constructor's default time to live of `None`, reading back any stored entry raises |
| `Caches.ApiDefaultTtlHits` | src/extract/caching/api_cache.py:18-71 | with the corrected default time to live a fresh stored response is a hit |
| `Caches.ApiClearExpired` | src/extract/caching/api_cache.py:74-96 | the count plus what remains is what there was; it raises exactly when a visited file is not UTF-8, has a bad or mistyped timestamp, is not an object, or is dated while the time to live is missing; a pass that does not raise keeps exactly the fresh entries; no fresh entry is deleted; kept files keep their contents and none is added |
| `Caches.ExpiryVerdicts` | src/extract/cache.py:82-94 | the response cache's `clear_expired`, which also catches `ValueError`, keeps exactly the fresh files and raises exactly on the mistyped ones, with a `TypeError` |
| `Caches.StrictVerdicts` | src/extract/caching/api_cache.py:84-94 | a loop that catches only `JSONDecodeError` and `KeyError` raises on a file exactly when the file is not UTF-8, is not an object, or has a bad or mistyped timestamp, or when it is dated and the time to live is missing, and keeps exactly the fresh files |
| `Caches.ScraperTtl` | src/extract/caching/scraper_cache.py:22-24 | a missing or zero time to live becomes the configured default, any other is kept |
| `Caches.ScraperGet` | src/extract/caching/scraper_cache.py:37-65 | a missing URL is a miss; it raises exactly on a file that is not UTF-8, has a bad or mistyped timestamp, or is not an object, or on a fresh entry whose content is not a string, changing nothing; it deletes exactly the files that are not JSON, lack a timestamp, or are fresh without content; a hit is a fresh entry's text encoded as UTF-8 |
| `Caches.ScraperSet` | src/extract/caching/scraper_cache.py:67-78 | storing fails exactly when the page is not valid UTF-8; otherwise the one URL is added or replaced and every other entry is kept |
| `Caches.ScraperRoundTrip` | src/extract/caching/scraper_cache.py:37-78 | a page stored and read back within the time to live comes back byte for byte, and the read changes nothing |
| `Caches.ScraperSetAcceptsText` | src/extract/caching/scraper_cache.py:67-78 | any page that is the UTF-8 encoding of a text is stored as that text |
| `Caches.ScraperClearExpired` | src/extract/caching/scraper_cache.py:95-118 | the count plus what remains is what there was; it raises exactly when a visited file is not UTF-8, has a bad or mistyped timestamp, or is not an object; otherwise it keeps exactly the fresh entries; no fresh entry is deleted; it keeps the others' contents and adds none |
| `Caches.ClearForgets` | src/extract/caching/scraper_cache.py:80-93 | after `clear` every URL misses |
| `Retry.Attempts` | src/extract/http.py:103-141 | from a given attempt on, the loop makes at most the remaining number of calls, sleeps between consecutive calls only, with the policy's delay for each waiting attempt, and ends on the first outcome it returns or raises, or after the last attempt with that attempt's error |
| `Retry.Fetch` | src/extract/apis/base_api_client.py:35-121 | the whole loop makes no call exactly when no attempt is allowed; it sleeps `base · 2^attempt` after every attempt but the last; a returned or raised outcome is the last call's; running out means every attempt asked to wait and the last error is the final attempt's |
| `Retry.FirstSuccessReturned` | src/extract/http.py:108-110 | when the first k attempts ask to retry and attempt k succeeds within the limit, the loop returns that response after exactly k + 1 calls |
| `Retry.StopsAt` | src/extract/http.py:108-141 | the loop stops at the first attempt that does not ask to retry, returning or raising that attempt's outcome |
| `Retry.HttpPolicyAsWritten` | src/extract/http.py:111-138 | the HTTP client's handling as written: a 404 raises, timeouts and connection errors wait with base 1, and any other HTTP error waits with base 4 exactly when its status is at most 500 |
| `Retry.HttpPolicy` | src/extract/http.py:111-138 | the corrected handling: an HTTP error waits with base 4 exactly for 429 and 5xx and raises exactly for the rest; timeouts and connection errors wait with base 1; a successful response is returned |
| `Retry.ApiPolicy` | src/extract/apis/base_api_client.py:59-103 | the API client retries 429 and 5xx with base 4, network errors with base 1, and returns exactly the responses without an error status |
| `Retry.ScraperPolicy` | src/extract/scrapers/scraper_base.py:54-81 | the scraper retries 429 and every status from 500 with base 4, network errors with base 1, and returns exactly the responses without an error status |
| `Retry.ScraperWaitIsBaseFour` | src/extract/scrapers/scraper_base.py:67-72 | the scraper's `2 ** (attempt + 2)` is base 4 times `2 ** attempt` |
| `Retry.PoliciesAgree` | src/extract/apis/base_api_client.py:59-103 | the corrected HTTP client, the API client and the scraper treat every outcome alike |
| `Retry.HttpGuardAsWritten` | src/extract/http.py:128 | as written, 403 is retried and 503 is raised, the opposite of the corrected handling |
| `Retry.HttpGuardDiffers` | src/extract/http.py:128-133 | the guard as written and the corrected one disagree exactly on the HTTP errors other than 404, 429 and 500 |
| `Retry.NotFoundFailsFast` | src/extract/http.py:121-124 | under every client's handling a 404 on the first attempt raises after one call and no sleep |
| `Retry.AlwaysTimingOut` | src/extract/http.py:86-92 | when every attempt times out, all attempts are made, the sleeps are 1, 2, 4, … seconds between them and add up to `2^(n-1) - 1`, and the last timeout is what remains |
| `Retry.DoublingTotal` | src/extract/http.py:86-92 | doubling sleeps starting at one second add up to one less than the next power of two |
| `Retry.HttpResult` | src/extract/http.py:103-141 | the HTTP client succeeds exactly when the loop returned, with that response's bytes; with no attempt allowed it raises `None`, a type error |
| `Retry.ClientResult` | src/extract/apis/base_api_client.py:105-108 | the API client and scraper succeed exactly when the loop returned, with that response; running out of attempts raises the "Failed to fetch" error naming the URL and the number of attempts |
| `Retry.ReturnedIsResponse` | src/extract/http.py:98-101 | whatever a loop returns is a response that passed `raise_for_status` |
| `Retry.NoAttempts` | src/extract/http.py:140-141 | with no attempts allowed, the HTTP client ends in `raise None` and the API client in its "Failed to fetch" error |
| `Clients.HttpGet` | src/extract/http.py:143-163 | an exception of the cache read escapes with no request and the cache unchanged; a fresh cache hit is returned with no request; otherwise the result is the retry loop's, and with caching on a successful fetch is stored under the cache key while a failed one stores nothing; with caching off the cache is untouched |
| `Clients.HttpGetTwice` | src/extract/http.py:143-163 | a second identical request within the time to live is served from the cache with the same bytes and no network call |
| `Clients.GetData` | src/extract/apis/base_api_client.py:140-169 | a cache error propagates without a request; a cache hit is returned with no request; a fetched result is the parsed body of the response the retry loop returned, and with a cache it must be an object with `data` to be stored |
| `Clients.GetDataTwiceAsWritten` | src/extract/caching/cache_interface.py:31 | with the API cache's time to live left at `None`, asking again for data just fetched and stored raises instead of hitting |
| `Clients.GetDataTwice` | src/extract/apis/base_api_client.py:152-167 | with a default time to live, asking again within it costs no request and yields the stored data with its status code |
| `Clients.GetDataRejectsLists` | src/extract/caching/api_cache.py:66 | a JSON list fetched on a miss cannot be stored in the API cache, so `get_data` fails |
| `Clients.GetPage` | src/extract/scrapers/scraper_base.py:85-113 | an exception of the cache read escapes with no request; a non-empty cached page is returned as a 200 response with no request; otherwise the response is the one the retry loop returned, and with a cache it must be valid UTF-8 to be stored |
| `Clients.GetPageTwice` | src/extract/scrapers/scraper_base.py:85-113 | fetching a non-empty page again within the time to live serves the same bytes from the cache with no request |
| `Clients.EmptyPageRefetched` | src/extract/scrapers/scraper_base.py:94 | an empty cached page counts as a miss, so the page is fetched again |
| `Tables.ProjectBack` | src/extract/csv_storage.py:105-106 | aligning a row to columns that include its own loses nothing: aligned back to its own columns it is the row again, and every added column holds null |
| `CsvStore.Codes` | src/extract/csv_storage.py:50-52 | every county code an index holds is padded to at least three characters |
| `CsvStore.LoadIndex` | src/extract/csv_storage.py:33-57 | a missing file, an unreadable one or one without a `county_fips` column indexes nothing; otherwise the index is the set of the file's padded county codes |
| `CsvStore.HasCounty` | src/extract/csv_storage.py:21-31 | a file's index is loaded at most once and then reused, and the answer is whether the padded code is in it |
| `CsvStore.HasCountyPads` | src/extract/csv_storage.py:25 | codes that pad to the same three characters get the same answer |
| `CsvStore.HasCountyPadExample` | src/extract/csv_storage.py:25 | "1", "01" and "001" are all found when "001" is indexed |
| `CsvStore.UpdateIndex` | src/extract/csv_storage.py:59-72 | only the one file's entry changes: it gains the padded code when added and loses it otherwise, starting from the loaded index when none was cached |
| `CsvStore.Keep` | src/extract/csv_storage.py:95-106 | the surviving old rows are no more than there were, none carries the upserted county, each is padded and has exactly the incoming frame's columns |
| `CsvStore.KeepKeeps` | src/extract/csv_storage.py:100 | every old row of another county survives the upsert |
| `CsvStore.UpsertCsv` | src/extract/csv_storage.py:74-111 | the upsert fails exactly when the file exists but cannot be read or has no `county_fips` column; on success only this file changes, it has the incoming columns, ends with the incoming rows, no earlier row is of this county, a new file holds just the incoming rows, and a given index records the county |
| `CsvStore.UpsertKeepsIndexExact` | src/extract/csv_storage.py:59-111 | when the index was accurate before the upsert, it is exactly the file's county codes after |
| `CsvStore.UpsertShape` | src/extract/csv_storage.py:95-107 | the file after the upsert is the other counties' old rows, cut to the incoming columns, followed by the incoming rows |
| `CsvStore.UpsertIdempotent` | src/extract/csv_storage.py:74-107 | upserting the same county's rows twice gives the same directory as once |
| `CsvStore.UpsertFixed` | src/extract/csv_storage.py:95-107 | a file already made of other counties' rows followed by these rows is left unchanged by upserting them |
| `CsvStore.WebUpsert` | src/extract/web_scraper.py:31-49 | the older upsert fails in the same cases; on success only this file changes, and its columns are the old ones followed by any new incoming ones |
| `CsvStore.WebUpsertEndsWithRows` | src/extract/web_scraper.py:47-49 | after a successful web upsert the file ends with the incoming rows, each cut down to the file's columns |
| `CsvStore.UpsertsAgree` | src/extract/web_scraper.py:31-49 | when the file's columns are the incoming ones, the older upsert and the index-aware one produce the same file and fail together |
| `CsvStore.NewCodes` | src/extract/csv_storage.py:50-52 | rows that are all of one county index exactly that county |
| `Scraping.FormatLog` | src/extract/logging_utils.py:7-22 | the formatted line ends with the message, preceded by one space after the metadata |
| `Scraping.ParseLog` | src/extract/logging_utils.py:21-22 | reading a log line back finds exactly three bracketed fields |
| `Scraping.ParseLogInverse` | src/extract/logging_utils.py:21-22 | a line that reads back is its fields in brackets, a space and the message |
| `Scraping.LogRoundTrip` | src/extract/logging_utils.py:7-22 | the year, state and padded county written into a line, and the message after them, are read back unchanged whatever the message holds |
| `Scraping.FormatLogPads` | src/extract/logging_utils.py:20 | a county code and its three-digit padding give the same line |
| `Scraping.ParsedTagged` | src/extract/wage_scraper.py:60-97 | every row parsed from a county page carries that county's padded code |
| `Scraping.ResultOf` | src/extract/extract_ops.py:29-50 | the result names the full code; it succeeds exactly when the data was obtained, then holding both row lists and no error, and otherwise holds the error text and no rows |
| `Scraping.GetCountyData` | src/extract/wage_scraper.py:41-58 | a county's data is obtained only when its endpoint's page is, a fetch error is passed on as is, and every row carries the padded county code |
| `Scraping.GetCountyDataPads` | src/extract/wage_scraper.py:52-53 | the state and county codes are padded before use, so padded and unpadded codes give the same data |
| `Scraping.ScrapeWithExtractor` | src/extract/extract_ops.py:29-50 | the result names `state + county`; success holds both row lists tagged with the county and no error; failure holds no rows and an error, the fetch's own when the fetch failed |
| `Scraping.ScrapeStateCounties` | src/extract/extract_ops.py:53-60 | one result per county code, in order, each the single-county scrape of that code |
| `Scraping.ScrapeWithSession` | src/extract/scraping.py:28-78 | the session scrape names `state + county`; success means its URL's page was fetched and both row lists are there, tagged with the county; any failure is reported with its text and no rows |
| `Scraping.SessionMatchesExtractor` | src/extract/scraping.py:49-55 | for two- and three-digit codes the session scraper's URL is the base joined to the extractor's endpoint, and both report the same code |
| `Scraping.FilesDiffer` | src/extract/web_scraper.py:63-65 | the wage and expense files of a year and state are different files |
| `Scraping.SkipCheck` | src/extract/web_scraper.py:67-82 | the check fails exactly when both files exist and one cannot be read, and says skip exactly when both files hold the padded county in a `county_fips` column |
| `Scraping.Store` | src/extract/web_scraper.py:91-95 | storing costs one fetch and succeeds exactly when both upserts do; on success the wage and expense files are those upserts' results; every other file is untouched |
| `Scraping.ScrapeCounty` | src/extract/web_scraper.py:52-103 | it fails only when the skip check cannot read a file; it fetches nothing exactly when the county is already in both files, and then reports success without touching anything; a success after fetching means the page was parsed; a failure carries its text; only the two files of the year and state can change |
| `Scraping.ScrapeCountyAsWritten` | src/extract/web_scraper.py:84-103 | as written, the scrape never changes a file |
| `Scraping.AsWrittenNeverStores` | src/extract/web_scraper.py:91 | as written, a county succeeds only when it was skipped, and a parsed page always fails with the missing-key error `'wages_df'` |
| `Scraping.StoredHasCounty` | src/extract/web_scraper.py:31-49 | after upserting non-empty rows of a county, the file holds that county |
| `Scraping.ScrapeTwiceSkips` | src/extract/web_scraper.py:67-95 | scraping a county again after a successful scrape with rows in both tables fetches nothing, reports success and changes nothing |
| `Scraping.ScrapeAll` | src/extract/web_scraper.py:106-138 | one result per county code, in order, each naming `state + code` |
| `Scraping.ScrapeAllAppend` | src/extract/web_scraper.py:115-118 | scraping a list of counties is scraping its first part and then, from the files that left, the rest |
| `Scraping.SuccessCount` | src/extract/web_scraper.py:125 | the successes are no more than the results |
| `Scraping.SuccessCountBounds` | src/extract/web_scraper.py:125 | every result succeeded exactly when the count is the number of results, and none exactly when it is zero |
| `Scraping.SuccessRate` | src/extract/web_scraper.py:126 | the rate lies between 0 and 1, is 1 exactly when a non-empty run had no failure, and 0 exactly when nothing succeeded, an empty run included |
| `Scraping.RatioFacts` | src/extract/web_scraper.py:126 | a count over a larger positive total lies in [0, 1], reaching 1 only at the total and 0 only at zero |
| `Staging.ColumnsShape` | src/load/bulk_ops.py:52-65 | the wage and expense column lists are the run id, the four key columns shared by both, the wage type or expense category, and the amount |
| `Staging.DefsWith` | src/load/bulk_ops.py:54-74 | the temp-table definitions name the columns of the list in the same order |
| `Staging.RowKey` | src/load/staging.py:54 | a row's conflict key has one cell per `ON CONFLICT` column, the i-th being the row's value in the i-th conflict column (null when absent) |
| `Staging.Misfit` | src/load/bulk_ops.py:54-74 | a row fits the temp table exactly when every column's value fits its declared type, and a reported column is one whose value does not fit |
| `Staging.FirstMisfit` | src/load/bulk_ops.py:44-47 | the first row that does not fit, if any, with every earlier row fitting |
| `Staging.CopyToTemp` | src/load/bulk_ops.py:14-48 | the `COPY` succeeds exactly when every row fits, copying them all; otherwise it fails on a row and column that does not fit |
| `Staging.UpdateIsIncoming` | src/load/staging.py:50-59 | on a conflict the stored row becomes the incoming one with the new load time, since the key columns agree and the run id and amount are replaced |
| `Staging.KeySet` | src/load/staging.py:54 | the set of conflict keys is exactly the keys of the incoming rows |
| `Staging.MergeConsistent` | src/load/staging.py:50-59 | inserting shaped rows keeps every stored row under its own key |
| `Staging.MergeKeys` | src/load/staging.py:50-59 | after the insert the table's keys are the old ones plus the incoming ones |
| `Staging.MergeKeepsOthers` | src/load/staging.py:50-59 | a stored row whose key is not among the incoming ones is untouched |
| `Staging.MergeStoresRow` | src/load/staging.py:50-59 | with distinct incoming keys, each incoming row ends up stored under its key with the load time |
| `Staging.MergeStores` | src/load/staging.py:50-59 | with distinct incoming keys the upsert keeps the table consistent, adds exactly the incoming keys, stores every incoming row and leaves every other row alone |
| `Staging.Batch` | src/load/staging.py:35-44 | one staged row per frame row, each shaped like the column list, with the run id set |
| `Staging.Missing` | src/load/staging.py:39 | the missing columns are exactly the listed ones the frame lacks, never the run id, which is added first |
| `Staging.BulkUpsert` | src/load/staging.py:25-106 | an empty frame loads nothing; missing columns are an error naming them; otherwise it succeeds exactly when every row fits the temp table and the keys are distinct, then reports every row, adds exactly their keys, stores each row with the load time and leaves every other row alone |
| `Staging.MergeIdempotent` | src/load/staging.py:50-59 | inserting the same rows twice at the same time gives the same table as once |
| `Staging.BulkUpsertIdempotent` | src/load/staging.py:25-63 | loading the same frame again at the same time succeeds, changes nothing, and reports the same count |
| `Staging.WageRowIsRecordRow` | src/transform/pandas_ops.py:135-171 | a validated wage record's row has the shape the loader expects |
| `Staging.ExpenseRowIsRecordRow` | src/transform/pandas_ops.py:174-212 | a validated expense record's row has the shape the loader expects |
| `Staging.RecordRowMisfit` | src/load/bulk_ops.py:56 | a validated record's row fits the temp table exactly when the county column holds at least five characters |
| `Staging.CopyAsWrittenRejectsRecords` | src/load/bulk_ops.py:56-68 | with `VARCHAR(3)` every non-empty batch of validated rows fails on the first row's five-digit `county_fips` |
| `Staging.MisfitIsFips` | src/load/bulk_ops.py:56-68 | with `VARCHAR(3)` the county column is the one a validated row overflows |
| `Staging.CopyAcceptsRecords` | src/load/bulk_ops.py:54-74 | with the corrected width a batch of validated rows with distinct keys loads |
| `Staging.ShapeReject` | src/load/staging.py:134-141 | a reject row carries the run id, the raw data serialised (the whole record when there is none), and the reason (or "Unknown") cut to its first 1000 characters |
| `Staging.LoadRejects` | src/load/staging.py:109-159 | no records load nothing; otherwise it fails exactly when the table is not whitelisted, and on success it appends one row per record to that table and reports their number |
| `Staging.RejectsStayWhitelisted` | src/load/staging.py:128-130 | a table outside the whitelist is never written |
| `RunTracker.StartRun` | src/load/run_tracker.py:13-32 | starting a run appends one row and changes none before it; its id is fresh and finds that row, which is RUNNING for the state with the start time and date and nothing else filled in |
| `RunTracker.Find` | src/load/run_tracker.py:70 | an id finds a row exactly when it is among the serial ids, and the row found has that id |
| `RunTracker.EndRun` | src/load/run_tracker.py:35-76 | ending a run keeps the table's length and ids, changes nothing for an unknown id, and sets the end time, status, counters and error of exactly the row with that id |
| `RunTracker.LatestIndexSpec` | src/load/run_tracker.py:79-96 | there is no latest row exactly when no row matches the filter; otherwise the row picked matches and no matching row started later |
| `RunTracker.GetLatestRun` | src/load/run_tracker.py:79-96 | the latest run is absent exactly when none matches the state filter (an empty filter matching all); otherwise it is a matching run that started no earlier than any other match |
| `RunTracker.LatestIndexAgrees` | src/load/run_tracker.py:82-93 | which row is latest depends only on the start times and states |
| `RunTracker.StartedRunIsLatest` | src/load/run_tracker.py:13-32 | a run started after every other is the latest, for its own state and unfiltered |
| `RunTracker.EndRunKeepsLatest` | src/load/run_tracker.py:35-96 | ending the latest run keeps it latest, now carrying the status and counters it was ended with |
| `Pipeline.StatusFor` | main.py:113-121 | the run status is always one of FAILED, PARTIAL or SUCCESS |
| `Pipeline.StatusCases` | main.py:113-121 | FAILED exactly when nothing was loaded, PARTIAL exactly when something was loaded and something rejected, SUCCESS exactly when something was loaded and nothing rejected |
| `Pipeline.Last3` | main.py:66 | `fips_code[-3:]` is at most three characters and is the tail of the code |
| `Pipeline.Last3OfFull` | main.py:66 | for a state code followed by a three-digit county the tail is the county code |
| `Pipeline.Repr` | main.py:77 | `str` of a string in a list is quoted with matching quotes at both ends |
| `Pipeline.ListRepr` | main.py:77 | `str(errors)` is bracketed, and is `[]` exactly for no errors |
| `Pipeline.Reject` | main.py:77 | a reject record holds exactly the raw rows and the reason |
| `Pipeline.Frame` | main.py:71-72 | the data frame of a scrape's rows is well formed with one row per scraped row, and a failed scrape gives the empty frame |
| `Pipeline.Check` | main.py:75-83 | the wide-format check reports at most two errors |
| `Pipeline.WagesOf` | main.py:86 | the corrected wage normalisation yields a well-formed table when it succeeds |
| `Pipeline.ExpensesOf` | main.py:87 | the corrected expense normalisation yields a well-formed table when it succeeds |
| `Pipeline.Transform` | main.py:85-93 | the normalisation step never skips and never rejects expenses; as written it always rejects the wages with the arity error; any reject it makes carries the scraped wage rows |
| `Pipeline.Judge` | main.py:65-97 | a county is skipped exactly when its scrape failed; an expense reject carries the expense rows and the listed errors; a wage reject carries the wage rows; as written no county's tables are ever normalised |
| `Pipeline.Record` | main.py:67-93 | each verdict counts one county and keeps the accumulated tables well formed |
| `Pipeline.Verdicts` | main.py:65-97 | one verdict per scrape result, in order, each skipping exactly a failed scrape |
| `Pipeline.Accumulate` | main.py:57-97 | the accumulated tables stay well formed and every result counts as processed |
| `Pipeline.AccumulateAccounts` | main.py:65-93 | every successful scrape leaves a table or a reject, and no more expense tables are added than wage tables |
| `Pipeline.AccumulateWithoutTables` | main.py:57-93 | when no verdict produced tables, the table accumulators are unchanged |
| `Pipeline.AccumulateNormalized` | main.py:86-87 | when every county normalised, each adds one wage and one expense table and no reject |
| `Pipeline.AsWrittenLoadsNothing` | main.py:86-87 | as written, whatever was scraped, no wage or expense table is ever accumulated |
| `Pipeline.JudgeCleanCounty` | main.py:69-87 | under the corrected calls a county is normalised exactly when its scrape succeeded, both tables pass the check and both normalisations succeed, with those tables |
| `Pipeline.JudgeExpenseFailure` | main.py:86-93 | when only the expense normalisation fails, the wage table is kept and the wage rows are rejected with that error |
| `Pipeline.AppendKeepsRows` | main.py:104 | `pd.concat` loses no row: each row of either frame, aligned back to that frame's columns, is the original row, and the columns its frame lacked hold null |
| `Pipeline.Append` | main.py:104 | concatenating two frames keeps the first's columns first, has exactly the columns of either, and holds both frames' rows, aligned, in order |
| `Pipeline.Concat` | main.py:104 | the concatenation is well formed, holds every frame's rows and has exactly the columns of any frame |
| `Pipeline.LoadKind` | main.py:103-107 | no tables load nothing; a load keeps the staging table consistent and reports no more rows than were given |
| `Pipeline.Load` | main.py:99-110 | the load keeps the database sound and the run table unchanged, and its counts are the counties processed, the rejects and at most the rows produced |
| `Pipeline.Target` | main.py:38-47 | a state code is found exactly when the database answers and the first target state has a non-empty code; otherwise `main` stops without completing |
| `Pipeline.MainAsWritten` | main.py:49 | as written, `main` leaves the database as it was |
| `Pipeline.MainAsWrittenNeverRuns` | main.py:49 | as written, no run is ever recorded and, once the state is known, `main` raises the arity error |
| `Pipeline.Ingest` | main.py:65-97 | extracting and transforming processes one county per code |
| `Pipeline.Finish` | main.py:99-130 | only the run's own row changes and gets the end time `end_run` reads, a final status and the counties processed; a completed run records the status its counts call for with no error; a failed load records FAILED and the error it raises |
| `Pipeline.Main` | main.py:32-130 | a missing database or state stops `main` with nothing changed; a failed county lookup raises with nothing changed; a completed run is the newly started one |
| `Pipeline.MainEndsItsRun` | main.py:49-130 | once the state and counties are known, `main` adds exactly one run and always ends it, with the state, the start time `start_run` read, the end time `end_run` read, a final status never RUNNING and the county count, the completed status and counts or the load's error, leaving earlier runs untouched |
| `Pipeline.CleanRunHasNoRejects` | main.py:65-93 | when every county scrapes and transforms cleanly, each contributes one wage and one expense table and nothing is rejected |
| `Pipeline.IngestAccounts` | main.py:65-93 | over a whole state every successful scrape is accounted for by a table or a reject, and expense tables never outnumber wage tables |

## Left out

- HTML parsing with BeautifulSoup. A county page arrives as its tables: the header cells of each header group, with text and colspan, and the stripped texts of each body row's cells.
- Network I/O: sessions, timeouts, headers and closing. Each attempt's outcome is a parameter, and the sleeps are recorded, not slept.
- The random politeness delays of `main.py` and `web_scraper.py`. They have no effect on the results.
- Logging, except the text `format_log_with_metadata` builds. The low-success-rate warning of `scrape_all_counties` only logs, so only the count and rate it computes are modelled.
- The file system and JSON files. A cache file is what `json.load` makes of it: bytes that are not UTF-8, text that is not JSON, a JSON value that is not an object, or an object whose timestamp and content may be missing, unparseable, not a string or offset-aware. A JSON string holding a lone surrogate cannot be represented, so the `UnicodeEncodeError` that `encode` would raise on it is not modelled. A CSV file is the table pandas reads back, or `Unreadable`.
- CsvStore.UpsertCsv, CsvStore.WebUpsert: the stored file is the table the upsert writes, and reading it back is taken as giving that table. pandas' `read_csv` reads only `county_fips` as text. Other columns are inferred again: an empty string reads back as NaN, and digit text such as "007" reads back as the integer 7, which the next upsert writes as "7". So the promise that other counties' rows are kept describes the rows as written, not their cell types after a read. The county index reads `county_fips` as text and is exact.
- Scraping.ErrorText: a CSV file that pandas cannot read fails with the fixed text "could not read the CSV file". The source stores `str(e)` of whichever pandas or decoding exception `read_csv` raised, and the file's bytes are not modelled.
- JSON serialisation and `str` of reject values. Both are function parameters.
- MD5 in `_hash_key` and `_compute_cache_key`, and the `.json` path of `_resolve_cache_path`. The cache key itself stands for its file, so the same key always reaching the same file holds by construction.
- The settings fallbacks: the default cache directory and the configured time-to-live defaults are parameters.
- `datetime.now()`. Timestamps are integer microseconds. A timestamp that `fromisoformat` cannot parse is `BadStamp`. `Pipeline.Main` takes each clock reading of a run as its own parameter: the start, the wage and the expense load transactions, and the end. The date is separate too.
- PostgreSQL. The staging tables are maps from the natural key to the stored row and its load time, and the run table is a sequence with serial ids.
- The SQL text, `get_connection` and `get_cursor` of `src/load/db.py`, `get_staging_counts`, `truncate_staging` and `test_connection`. Whether the database answers is a boolean.
- Column types in `COPY`. Only the declared `VARCHAR` lengths are checked. The numeric columns accept any value.
- Staging.BulkUpsert: two rows of one batch with the same natural key make PostgreSQL refuse the `ON CONFLICT DO UPDATE` statement. The model reports this as an error, not as a precondition, so the success case states distinct keys.
- RunTracker.LatestIndexSpec: PostgreSQL gives no order among runs with equal start times. Among those the model picks the earliest inserted, and the contract speaks only of start times.
- Floating point. `pd.to_numeric` is modelled on a decimal grammar: an optional sign, digits, and an optional fraction after `.`, read as exact rationals. Exponents, `inf` and `nan` are not part of it. The null-ratio test compares integers, and the percentage text of its message is omitted.
- Text. Only ASCII is lower-cased, and only ASCII counts as `\w` and whitespace. Python's `repr` of strings is modelled for quotes and backslashes, not for non-printable characters.
- Frames.LowerSpecialColumns: a table with both `Category` and `category` columns is reported as a failure. pandas would instead keep two columns of the same name.
- Pipeline.Transform: the corrected calls are stated in one direction only. A wage reject carries the scraped wage rows, but the model does not show that the two normalisers' error texts differ.
- `main.py` has no source for the `page_updated_at` date that the corrected normaliser call needs, so `Pipeline.Main` takes it as the parameter `day`.
- `main.py` also wraps the table building and the checks in its `try`. The model assumes only the two normaliser calls raise there, because `table_to_dataframe` and `validate_wide_format_input` return without raising on every table the model builds.
- `Pipeline.Main` receives the county lookup and page fetch as parameters (`countyCodes`, `fetch`). Census.CountyCodes and Scraping.ScrapeWithExtractor model what they stand for.
- The tests of functions the repository no longer has are not modelled. These include the two-argument `normalize_wages`, `fetch_with_retry` in `web_scraper.py`, `validate_wages` and ScraperCache `store`.
- Configuration, logging setup, `csv_utils.py`, the `__init__.py` re-exports and `scripts/test_rejects.py`.
- Pipeline.MainAsWritten: the model takes `main.py`'s imports as resolved. As shipped, `src/extract/__init__.py` does not export `get_county_codes` or `scrape_state_counties` (main.py:13). `src/transform/__init__.py` does not export the `normalize_*` functions or `validate_wide_format_input` (main.py:15-20). So importing `main.py` raises `ImportError` before `main()` runs. The model describes `main` as it would run with those names exported.
- Records.ValidateBase, Records.ValidateWage, Records.ValidateExpense: an unusable input gets its field type's plain pydantic message, e.g. "Input should be a valid integer". Pydantic distinguishes cases the model does not: "Field required" for an absent key, "Input should be a finite number" for NaN in an integer field, and parse-specific suffixes such as ", unable to parse string as an integer". One `Null` cell stands for both `None` and NaN.
- Tables.CellStr: `str` of a float or a date is not modelled and prints as the empty string. Only text, `None` and integers print as Python prints them. A null cell prints "None" even where pandas holds NaN and prints "nan": a row dict without `county_fips` pads to "None" rather than "nan", and an integer column with a gap, which pandas turns into floats printing "1.0", still prints its integers. The pipeline's own row dicts always carry `county_fips`.
- Codecs.Base64Decode: `base64.b64decode` without `validate=True` discards characters outside the alphabet before decoding. The model rejects them instead. Python also stops reading at a completed padded group, so "AA==AAAA" decodes to one byte, where the model gives `None`. The cache only decodes what its own encoder wrote, and `Codecs.Base64RoundTrip` covers that.

## Findings

| source | as written | input that shows it | evidently intended | confidence | as-written member | corrected member |
|---|---|---|---|---|---|---|
| src/transform/normalizers.py:46-47 | the lower-cased normal form is looked up in `FAMILY_CONFIG_MAP`, whose keys are title case | any header, e.g. "2 Adults 1 Child": its normal form "2 adults 1 child" is not a key, so the result is `None` | look up the lower-case form of the table, as the tests expect | not executed | `Normalizers.FamilyConfigAsWrittenMisses` | `Normalizers.FamilyConfigOfKey` |
| src/transform/constants.py:27-36 | whitespace is not collapsed again after "(Both Working)" is removed | every header "a (Both Working) - b" normalises to "a", two spaces, "b" and misses the table; "2 Adults (Both Working) - 1 Child" gives "2 Adults  1 Child" | a final collapse, giving "a b", so "2 Adults 1 Child" finds two working adults with one child | not executed | `Legacy.AsWrittenMissesBothWorking` | `Legacy.FixedFindsBothWorking` |
| src/extract/http.py:128 | the server-error guard is `code <= 500 and code <= 599`, which means `code <= 500` | a 503 is raised at once while a 403 is retried | `500 <= code <= 599`, as in base_api_client.py:88 | not executed | `Retry.HttpGuardAsWritten` | `Retry.PoliciesAgree` |
| src/extract/caching/cache_interface.py:31 | `ApiCache()` keeps a time to live of `None`, and `_is_expired` then builds `timedelta(days=None)` | reading back any stored entry raises `TypeError`, so `get_data` fails on its second call | fall back to a configured default, as `ScraperCache` does | not executed | `Caches.ApiNoTtlRaises` | `Caches.ApiDefaultTtlHits` |
| src/extract/api_extractor.py:85 | `fips_map.get(state_fips)` looks a state code up in a map keyed by abbreviation | state "34" with "NJ" mapped to "34" gets no abbreviation | search for the abbreviation whose code is the state's code, as census_api.py:86-91 does | not executed | `Census.ExtractorAbbrAlwaysMissing` | `Census.AbbrForInvertsLookup` |
| src/extract/web_scraper.py:91 | the result of `parse` is read at `'wages_df'`, but `parse` returns `'wages_data'` and `'expenses_data'` | any county not yet in both files: the `KeyError` makes it fail and nothing is written | upsert the frames of `'wages_data'` and `'expenses_data'` | not executed | `Scraping.AsWrittenNeverStores` | `Scraping.ScrapeTwiceSkips` |
| src/load/bulk_ops.py:56 | both temp tables declare `county_fips VARCHAR(3)` (also line 68) | a validated record with county "01001" does not fit, so every non-empty load fails | `VARCHAR(5)`, the width the record validator enforces | not executed | `Staging.CopyAsWrittenRejectsRecords` | `Staging.CopyAcceptsRecords` |
| main.py:49 | `get_county_codes()` is called without its `state_fips` argument | with `main.py`'s imports taken as resolved, any run whose target state is known raises `TypeError` before a run is started | `get_county_codes(state_fips)` | not executed | `Pipeline.MainAsWrittenNeverRuns` | `Pipeline.MainEndsItsRun` |
| main.py:86-87 | `normalize_wages(wages_df, county_fips)` passes two of the four arguments, and `normalize_expenses` likewise | a county whose tables pass the checks becomes a wage reject, so nothing is ever loaded | pass the state code, the county code and the page date | not executed | `Pipeline.AsWrittenLoadsNothing` | `Pipeline.CleanRunHasNoRejects` |

=== FILE: caches.dfy ===
/**
  The file caches: `ResponseCache` of src/extract/cache.py and the
  `CacheInterface`, `ApiCache` and `ScraperCache` classes of
  src/extract/caching/. A cache directory is a map from the cache key to
  what its JSON file holds, the MD5 file name being taken as the key
  itself; the clock is a parameter, in microseconds.
 */
module Caches {
  import opened Wrappers
  import opened Codecs

  /** Microseconds in a day: `timedelta(days=1)`. */
  const Day: int := 86_400_000_000

  /** The `timestamp` field, as `datetime.fromisoformat` and the expiry
      test see it. */
  datatype Stamp =
    | At(t: int)   // a time without a UTC offset
    | BadStamp     // a string fromisoformat rejects: ValueError
    | NotText      // not a string: fromisoformat raises TypeError
    | Aware        // a time with a UTC offset: subtracting it from the
                   // naive datetime.now() raises TypeError

  /** A cache file as `json.load` reads it: bytes that are not UTF-8, text
      that is not JSON, a JSON value that is not an object (indexing it
      raises TypeError), or an object whose `timestamp` and payload fields
      may each be missing. */
  datatype File<P> = Undecodable | NotJson | NotObject | Json(stamp: Option<Stamp>, payload: Option<P>)

  type Dir<P> = map<string, File<P>>

  /** The exceptions the caches let escape. */
  datatype Failure =
    | InvalidTimestamp   // ValueError from fromisoformat
    | TtlIsNone          // TypeError from timedelta(days=None)
    | NotUtf8            // UnicodeDecodeError from reading a file or bytes.decode
    | NotAnObject        // TypeError from indexing a JSON value that is not an object
    | NoData             // KeyError from content['data']
    | StampNotText       // TypeError from fromisoformat on a non-string
    | AwareStamp         // TypeError from subtracting an offset-aware time
    | NotBase64Input     // TypeError from b64decode on a non-string content
    | NoEncode           // AttributeError from .encode on a non-string content

  /** `datetime.now() - timestamp > timedelta(days=ttl)`: strictly older
      than the time to live. */
  predicate Expired(now: int, t: int, ttlDays: int) {
    now - t > ttlDays * Day
  }

  /** An object whose timestamp is a time without offset: the only file
      whose age can be compared. */
  predicate Dated<P>(f: File<P>) {
    f.Json? && f.stamp.Some? && f.stamp.value.At?
  }

  predicate Fresh<P>(f: File<P>, now: int, ttlDays: int) {
    Dated(f) && !Expired(now, f.stamp.value.t, ttlDays)
  }

  /** A file whose reading raises `TypeError`, which no handler of the
      caches catches: a JSON value that is not an object, or a timestamp
      that is not a string or carries an offset. */
  predicate Mistyped<P>(f: File<P>) {
    f.NotObject? || (f.Json? && f.stamp.Some? && (f.stamp.value.NotText? || f.stamp.value.Aware?))
  }

  /** A file whose reading raises past a handler of only `JSONDecodeError`
      and `KeyError`: a mistyped one, bytes that are not UTF-8, or a
      timestamp `fromisoformat` rejects. */
  predicate Raising<P>(f: File<P>) {
    Mistyped(f) || f.Undecodable? || (f.Json? && f.stamp == Some(BadStamp))
  }

  /** A JSON value: the API cache's payload, and the `content` field of
      the other two caches. */
  datatype Json =
    | JNull | JBool(b: bool) | JInt(i: int) | JStr(s: string)
    | JList(items: seq<Json>) | JObj(fields: map<string, Json>)

  // ---------------------------------------------------------------------
  // Sweeping a directory

  /** What one pass of a clearing loop does with a file. */
  datatype Verdict = Keep | Delete | Raise(error: Failure)

  datatype Swept<P> = Swept(dir: Dir<P>, count: nat, error: Option<Failure>)

  predicate Distinct(files: seq<string>) {
    forall i, j :: 0 <= i < j < |files| ==> files[i] != files[j]
  }

  /** Where the loop stops: the first file whose verdict raises, or the
      end of the list. */
  function FirstRaise<P>(d: Dir<P>, files: seq<string>, verdict: File<P> -> Verdict): (n: nat)
    requires forall i :: 0 <= i < |files| ==> files[i] in d
    ensures n <= |files|
    ensures forall j :: 0 <= j < n ==> !verdict(d[files[j]]).Raise?
    ensures n < |files| ==> verdict(d[files[n]]).Raise?
  {
    if |files| == 0 || verdict(d[files[0]]).Raise? then 0
    else
      var n := FirstRaise(d, files[1..], verdict);
      assert forall j :: 1 <= j <= n ==> files[j] == files[1..][j - 1];
      1 + n
  }

  /** The loop `for cache_file in cache_dir.glob('*.json')`, in the order
      the glob yields the files: each file is kept or deleted (and
      counted) by its verdict, and the first exception ends the loop with
      the deletions made so far. */
  function Sweep<P>(d: Dir<P>, files: seq<string>, verdict: File<P> -> Verdict): (r: Swept<P>)
    requires Distinct(files) && forall i :: 0 <= i < |files| ==> files[i] in d
    ensures r.dir.Keys <= d.Keys && forall k :: k in r.dir ==> r.dir[k] == d[k]
    ensures r.count + |r.dir| == |d|
    ensures forall k :: k in d && k !in files ==> k in r.dir
    ensures forall i :: 0 <= i < |files| && files[i] !in r.dir ==> verdict(d[files[i]]) == Delete
    ensures forall i :: 0 <= i < |files| && verdict(d[files[i]]) == Keep ==> files[i] in r.dir
    ensures r.error.None? ==> forall i :: 0 <= i < |files| ==> !verdict(d[files[i]]).Raise?
    ensures r.error.None? ==> forall i :: 0 <= i < |files| && verdict(d[files[i]]) == Delete ==> files[i] !in r.dir
    ensures r.error.Some? ==> exists i :: 0 <= i < |files| && verdict(d[files[i]]) == Raise(r.error.value)
  {
    var n := FirstRaise(d, files, verdict);
    var gone := set i | 0 <= i < n && verdict(d[files[i]]) == Delete :: files[i];
    var dir := map k | k in d && k !in gone :: d[k];
    assert forall i :: 0 <= i < n && verdict(d[files[i]]) == Keep ==> files[i] !in gone;
    RemoveCard(d, gone);
    Swept(dir, |gone|, if n < |files| then Some(verdict(d[files[n]]).error) else None)
  }

  lemma RemoveCard<P>(d: Dir<P>, gone: set<string>)
    requires gone <= d.Keys
    ensures |map k | k in d && k !in gone :: d[k]| + |gone| == |d|
  {
    var dir := map k | k in d && k !in gone :: d[k];
    assert dir.Keys == d.Keys - gone;
    assert d.Keys * gone == gone;
  }

  /** The files a loop without exception keeps. */
  function Kept<P>(d: Dir<P>, verdict: File<P> -> Verdict): (r: Dir<P>)
    ensures forall k :: k in r <==> k in d && verdict(d[k]) == Keep
  {
    map k | k in d && verdict(d[k]) == Keep :: d[k]
  }

  /** When every file is visited and none raises, the result does not
      depend on the order of the glob. */
  lemma SweepIsKept<P>(d: Dir<P>, files: seq<string>, verdict: File<P> -> Verdict)
    requires Distinct(files) && forall i :: 0 <= i < |files| ==> files[i] in d
    requires forall k :: k in d ==> k in files
    requires Sweep(d, files, verdict).error.None?
    ensures Sweep(d, files, verdict).dir == Kept(d, verdict)
  {
    var r := Sweep(d, files, verdict);
    forall k | k in d ensures k in r.dir <==> k in Kept(d, verdict) {
      var i :| 0 <= i < |files| && files[i] == k;
    }
  }

  /** `clear` of `CacheInterface` and `ScraperCache`: every file goes, and
      the count is their number. */
  function Clear<P>(d: Dir<P>): (r: (Dir<P>, nat))
    ensures |r.0| == 0 && r.1 == |d|
  {
    (map[], |d|)
  }

  // ---------------------------------------------------------------------
  // ResponseCache (src/extract/cache.py): base64 text payloads

  type Responses = Dir<Json>

  /** `ResponseCache.get`, which catches `JSONDecodeError`, `KeyError` and
      `ValueError`: a missing file gives nothing; a mistyped file raises;
      an expired entry gives nothing and stays, whatever its content; a
      file that cannot be read (not UTF-8, not JSON, no timestamp, a bad
      timestamp, no content or content that is not base64) is deleted; a
      content that is not a string raises; a fresh entry gives its decoded
      bytes. */
  function ResponseGet(d: Responses, key: string, now: int, ttlDays: int): (r: (Result<Option<Bytes>, Failure>, Responses))
    ensures key !in d ==> r == (Success(None), d)
    ensures r.0.Failure? <==>
      key in d && (Mistyped(d[key]) || (Fresh(d[key], now, ttlDays) && d[key].payload.Some? && !d[key].payload.value.JStr?))
    ensures r.0.Failure? ==> r.1 == d
    ensures r.0.Success? && r.0.value.Some? ==>
      r.1 == d && key in d && Fresh(d[key], now, ttlDays)
      && d[key].payload.Some? && d[key].payload.value.JStr?
      && Base64Decode(d[key].payload.value.s) == r.0.value
    ensures r.1 != d ==> key in d && r.1 == d - {key} && r.0 == Success(None)
    ensures r.1 != d <==>
      key in d && (d[key].Undecodable? || d[key].NotJson?
                   || (d[key].Json? && (d[key].stamp.None? || d[key].stamp == Some(BadStamp)))
                   || (Fresh(d[key], now, ttlDays)
                       && (d[key].payload.None?
                           || (d[key].payload.value.JStr? && Base64Decode(d[key].payload.value.s).None?))))
    ensures key in d && Dated(d[key]) && Expired(now, d[key].stamp.value.t, ttlDays) ==> r == (Success(None), d)
  {
    if key !in d then (Success(None), d)
    else match d[key]
      case Undecodable => (Success(None), d - {key})
      case NotJson => (Success(None), d - {key})
      case NotObject => (Failure(NotAnObject), d)
      case Json(None, _) => (Success(None), d - {key})
      case Json(Some(BadStamp), _) => (Success(None), d - {key})
      case Json(Some(NotText), _) => (Failure(StampNotText), d)
      case Json(Some(Aware), _) => (Failure(AwareStamp), d)
      case Json(Some(At(t)), payload) =>
        if Expired(now, t, ttlDays) then (Success(None), d)
        else match payload
          case None => (Success(None), d - {key})
          case Some(JStr(text)) =>
            (match Base64Decode(text)
             case None => (Success(None), d - {key})
             case Some(b) => (Success(Some(b)), d))
          case Some(_) => (Failure(NotBase64Input), d)
  }

  /** `ResponseCache.store`: the key's file now holds the time and the
      base64 text of the content; no other file changes. */
  function ResponseStore(d: Responses, key: string, content: Bytes, now: int): (r: Responses)
    ensures r.Keys == d.Keys + {key}
    ensures forall k :: k in d && k != key ==> r[k] == d[k]
  {
    d[key := Json(Some(At(now)), Some(JStr(Base64Encode(content))))]
  }

  /** A stored response comes back unchanged while it is fresh, and the
      reading deletes nothing. */
  lemma ResponseRoundTrip(d: Responses, key: string, content: Bytes, stored: int, now: int, ttlDays: int)
    requires now - stored <= ttlDays * Day
    ensures var d' := ResponseStore(d, key, content, stored);
      ResponseGet(d', key, now, ttlDays) == (Success(Some(content)), d')
  {
    Base64RoundTrip(content);
  }

  /** Storing under one key leaves what every other key reads. */
  lemma ResponseStoreOthers(d: Responses, key: string, other: string, content: Bytes, stored: int, now: int, ttlDays: int)
    requires other != key
    ensures ResponseGet(ResponseStore(d, key, content, stored), other, now, ttlDays).0
         == ResponseGet(d, other, now, ttlDays).0
  {
  }

  /** Once expired, a response is never read again, however often it is
      asked for: the entry stays and keeps giving nothing. */
  lemma ResponseExpiredStays(d: Responses, key: string, content: Bytes, stored: int, now: int, ttlDays: int)
    requires now - stored > ttlDays * Day
    ensures var d' := ResponseStore(d, key, content, stored);
      ResponseGet(d', key, now, ttlDays) == (Success(None), d')
  {
  }

  /** What `ResponseCache.clear_expired` does with a file: it catches
      `ValueError`, which covers undecodable bytes, JSON errors and a bad
      timestamp, and `KeyError`, so anything that fails to load that way
      or is expired goes; a `TypeError` escapes. */
  function ExpiryVerdict<P>(f: File<P>, now: int, ttlDays: int): Verdict {
    match f
    case NotObject => Raise(NotAnObject)
    case Json(Some(NotText), _) => Raise(StampNotText)
    case Json(Some(Aware), _) => Raise(AwareStamp)
    case Json(Some(At(t)), _) => if Expired(now, t, ttlDays) then Delete else Keep
    case _ => Delete
  }

  /** The response cache's `clear_expired` keeps exactly the fresh files
      and raises exactly on the mistyped ones. */
  lemma ExpiryVerdicts<P>(now: int, ttlDays: int)
    ensures forall f: File<P> :: ExpiryVerdict(f, now, ttlDays) == Keep <==> Fresh(f, now, ttlDays)
    ensures forall f: File<P> :: ExpiryVerdict(f, now, ttlDays).Raise? <==> Mistyped(f)
    ensures forall f: File<P> :: ExpiryVerdict(f, now, ttlDays).Raise? ==>
      ExpiryVerdict(f, now, ttlDays).error in {NotAnObject, StampNotText, AwareStamp}
  {
  }

  /** `ResponseCache.clear_expired`: deletes the expired and unreadable
      files and counts them; a mistyped file stops it. */
  function ResponseClearExpired(d: Responses, files: seq<string>, now: int, ttlDays: int): (r: Swept<Json>)
    requires Distinct(files) && forall i :: 0 <= i < |files| ==> files[i] in d
    ensures r.error.Some? <==> exists i :: 0 <= i < |files| && Mistyped(d[files[i]])
    ensures r.error.Some? ==> r.error.value in {NotAnObject, StampNotText, AwareStamp}
    ensures r.error.None? ==> forall i :: 0 <= i < |files| ==> (files[i] in r.dir <==> Fresh(d[files[i]], now, ttlDays))
    ensures forall i :: 0 <= i < |files| && Fresh(d[files[i]], now, ttlDays) ==> files[i] in r.dir
    ensures forall i :: 0 <= i < |files| && files[i] !in r.dir ==> !Fresh(d[files[i]], now, ttlDays) && !Mistyped(d[files[i]])
    ensures r.count + |r.dir| == |d|
    ensures r.dir.Keys <= d.Keys && forall k :: k in r.dir ==> r.dir[k] == d[k]
    ensures forall k :: k in d && k !in files ==> k in r.dir
  {
    ExpiryVerdicts<Json>(now, ttlDays);
    Sweep(d, files, f => ExpiryVerdict(f, now, ttlDays))
  }

  /** Clearing expired responses changes no answer a reader gets at the
      same moment, even when a mistyped file stops it partway. */
  lemma ClearExpiredInvisible(d: Responses, files: seq<string>, key: string, now: int, ttlDays: int)
    requires Distinct(files) && forall i :: 0 <= i < |files| ==> files[i] in d
    ensures ResponseGet(ResponseClearExpired(d, files, now, ttlDays).dir, key, now, ttlDays).0
         == ResponseGet(d, key, now, ttlDays).0
  {
    var r := ResponseClearExpired(d, files, now, ttlDays);
    if key in d && key !in r.dir {
      var i :| 0 <= i < |files| && files[i] == key;
      StaleReadsNothing(d, key, now, ttlDays);
    } else if key in d {
      SameFileSameRead(d, r.dir, key, now, ttlDays);
    }
  }

  /** A file that is neither fresh nor mistyped reads as a miss. */
  lemma StaleReadsNothing(d: Responses, key: string, now: int, ttlDays: int)
    requires key in d && !Fresh(d[key], now, ttlDays) && !Mistyped(d[key])
    ensures ResponseGet(d, key, now, ttlDays).0 == Success(None)
  {
  }

  /** What a read answers depends only on the key's file. */
  lemma SameFileSameRead(d: Responses, e: Responses, key: string, now: int, ttlDays: int)
    requires key in d && key in e && d[key] == e[key]
    ensures ResponseGet(d, key, now, ttlDays).0 == ResponseGet(e, key, now, ttlDays).0
  {
  }

  /** `ResponseCache.clear_all`: despite its name, a fresh entry survives
      it. It catches only `JSONDecodeError` and `KeyError`, so bytes that
      are not UTF-8, a bad timestamp and a mistyped file stop it. */
  function ResponseClearAll(d: Responses, files: seq<string>, now: int, ttlDays: int): (r: Swept<Json>)
    requires Distinct(files) && forall i :: 0 <= i < |files| ==> files[i] in d
    ensures forall i :: 0 <= i < |files| && Fresh(d[files[i]], now, ttlDays) ==> files[i] in r.dir
    ensures r.error.Some? <==> exists i :: 0 <= i < |files| && Raising(d[files[i]])
    ensures r.error.Some? ==> r.error.value in {NotUtf8, NotAnObject, InvalidTimestamp, StampNotText, AwareStamp}
    ensures r.error.None? ==> forall i :: 0 <= i < |files| ==> (files[i] in r.dir <==> Fresh(d[files[i]], now, ttlDays))
    ensures forall i :: 0 <= i < |files| && files[i] !in r.dir ==> !Fresh(d[files[i]], now, ttlDays)
    ensures r.count + |r.dir| == |d|
    ensures r.dir.Keys <= d.Keys && forall k :: k in r.dir ==> r.dir[k] == d[k]
    ensures forall k :: k in d && k !in files ==> k in r.dir
  {
    StrictVerdicts<Json>(now, Some(ttlDays));
    Sweep(d, files, f => StrictVerdict(f, now, Some(ttlDays)))
  }

  // ---------------------------------------------------------------------
  // CacheInterface and ApiCache (src/extract/caching/): JSON payloads

  /** The `response_data` and `status_code` fields of an API cache file. */
  datatype ApiBody = ApiBody(data: Json, status: Option<Json>)

  type Apis = Dir<ApiBody>

  /** `CacheInterface._is_expired`; a time to live of `None` makes
      `timedelta` raise. */
  function ExpiredOrNone(now: int, t: int, ttlDays: Option<int>): (r: Result<bool, Failure>)
    ensures ttlDays.None? <==> r == Failure(TtlIsNone)
    ensures ttlDays.Some? ==> r == Success(Expired(now, t, ttlDays.value))
  {
    if ttlDays.None? then Failure(TtlIsNone) else Success(Expired(now, t, ttlDays.value))
  }

  /** `ApiCache.get`, which catches only `JSONDecodeError` and
      `KeyError`: text that is not JSON, a missing timestamp or a missing
      `response_data` deletes the file; undecodable bytes, a bad or
      mistyped timestamp and a missing time to live raise; a hit is the
      object `{"data": …, "status_code": …}` with the status defaulting to
      200. */
  function ApiGet(d: Apis, key: string, now: int, ttlDays: Option<int>): (r: (Result<Option<Json>, Failure>, Apis))
    ensures key !in d ==> r == (Success(None), d)
    ensures r.0.Failure? <==> key in d && (Raising(d[key]) || (Dated(d[key]) && ttlDays.None?))
    ensures r.0.Failure? ==> r.1 == d
    ensures r.1 != d ==> key in d && r.1 == d - {key} && r.0 == Success(None)
    ensures r.1 != d <==>
      key in d && (d[key].NotJson? || (d[key].Json? && d[key].stamp.None?)
                   || (ttlDays.Some? && Fresh(d[key], now, ttlDays.value) && d[key].payload.None?))
    ensures r.0.Success? && r.0.value.Some? ==>
      r.1 == d && key in d && d[key].payload.Some? && ttlDays.Some? && Fresh(d[key], now, ttlDays.value)
      && r.0.value.value == JObj(map["data" := d[key].payload.value.data,
                                     "status_code" := d[key].payload.value.status.GetOr(JInt(200))])
  {
    if key !in d then (Success(None), d)
    else match d[key]
      case Undecodable => (Failure(NotUtf8), d)
      case NotJson => (Success(None), d - {key})
      case NotObject => (Failure(NotAnObject), d)
      case Json(None, _) => (Success(None), d - {key})
      case Json(Some(BadStamp), _) => (Failure(InvalidTimestamp), d)
      case Json(Some(NotText), _) => (Failure(StampNotText), d)
      case Json(Some(Aware), _) => (Failure(AwareStamp), d)
      case Json(Some(At(t)), payload) =>
        match ExpiredOrNone(now, t, ttlDays)
        case Failure(e) => (Failure(e), d)
        case Success(expired) =>
          if expired then (Success(None), d)
          else if payload.None? then (Success(None), d - {key})
          else
            var body := payload.value;
            (Success(Some(JObj(map["data" := body.data, "status_code" := body.status.GetOr(JInt(200))]))), d)
  }

  /** `ApiCache.store`: the content must be an object with a `data`
      member; the file keeps it and `status_code`, 200 when absent. */
  function ApiStore(d: Apis, key: string, content: Json, now: int): (r: Result<Apis, Failure>)
    ensures !content.JObj? ==> r == Failure(NotAnObject)
    ensures content.JObj? && "data" !in content.fields ==> r == Failure(NoData)
    ensures r.Success? ==> (r.value.Keys == d.Keys + {key}
                            && forall k :: k in d && k != key ==> r.value[k] == d[k])
  {
    if !content.JObj? then Failure(NotAnObject)
    else if "data" !in content.fields then Failure(NoData)
    else
      var status := if "status_code" in content.fields then content.fields["status_code"] else JInt(200);
      Success(d[key := Json(Some(At(now)), Some(ApiBody(content.fields["data"], Some(status))))])
  }

  /** The time to live an `ApiCache` works with: the one given, else the
      configured default, as `ScraperCache` does. */
  function ApiCacheTtl(ttlDays: Option<int>, default: int): (r: Option<int>)
    ensures r.Some?
    ensures ttlDays.Some? ==> r == ttlDays
  {
    Some(ttlDays.GetOr(default))
  }

  /** A stored API response reads back, within its time to live, as its
      `data` with its status (200 when it had none). */
  lemma ApiRoundTrip(d: Apis, key: string, content: Json, stored: int, now: int, ttlDays: int)
    requires ApiStore(d, key, content, stored).Success?
    requires now - stored <= ttlDays * Day
    ensures var d' := ApiStore(d, key, content, stored).value;
      ApiGet(d', key, now, Some(ttlDays)) == (Success(Some(JObj(map[
        "data" := content.fields["data"],
        "status_code" := if "status_code" in content.fields then content.fields["status_code"] else JInt(200)]))), d')
  {
  }

  /** As written, `ApiCache()` has no time to live: reading back anything
      it stored raises, however fresh. */
  lemma ApiNoTtlRaises(d: Apis, key: string, content: Json, stored: int, now: int)
    requires ApiStore(d, key, content, stored).Success?
    ensures ApiGet(ApiStore(d, key, content, stored).value, key, now, None).0 == Failure(TtlIsNone)
  {
  }

  /** With the corrected time to live the same read is a hit. */
  lemma ApiDefaultTtlHits(d: Apis, key: string, content: Json, stored: int, now: int, default: int)
    requires ApiStore(d, key, content, stored).Success?
    requires now - stored <= default * Day
    ensures ApiGet(ApiStore(d, key, content, stored).value, key, now, ApiCacheTtl(None, default)).0.Success?
    ensures ApiGet(ApiStore(d, key, content, stored).value, key, now, ApiCacheTtl(None, default)).0.value.Some?
  {
    ApiRoundTrip(d, key, content, stored, now, default);
  }

  /** What a loop catching only `JSONDecodeError` and `KeyError` does
      with a file: `clear_all` of `ResponseCache` and `clear_expired` of
      `ApiCache` and `ScraperCache`. The age is compared before the time
      to live is turned into a `timedelta`, so an offset-aware timestamp
      raises first. */
  function StrictVerdict<P>(f: File<P>, now: int, ttlDays: Option<int>): Verdict {
    match f
    case Undecodable => Raise(NotUtf8)
    case NotObject => Raise(NotAnObject)
    case Json(Some(BadStamp), _) => Raise(InvalidTimestamp)
    case Json(Some(NotText), _) => Raise(StampNotText)
    case Json(Some(Aware), _) => Raise(AwareStamp)
    case Json(Some(At(t)), _) =>
      (match ExpiredOrNone(now, t, ttlDays)
       case Failure(e) => Raise(e)
       case Success(expired) => if expired then Delete else Keep)
    case _ => Delete
  }

  /** The strict loops raise on exactly the files that escape their
      handler, and on every dated file when the time to live is missing;
      they keep exactly the fresh files. */
  lemma StrictVerdicts<P>(now: int, ttlDays: Option<int>)
    ensures forall f: File<P> :: StrictVerdict(f, now, ttlDays).Raise? <==> Raising(f) || (Dated(f) && ttlDays.None?)
    ensures forall f: File<P> :: StrictVerdict(f, now, ttlDays).Raise? ==>
      StrictVerdict(f, now, ttlDays).error in {NotUtf8, NotAnObject, InvalidTimestamp, StampNotText, AwareStamp, TtlIsNone}
    ensures forall f: File<P> :: StrictVerdict(f, now, ttlDays) == Keep <==> ttlDays.Some? && Fresh(f, now, ttlDays.value)
    ensures ttlDays.Some? ==> forall f: File<P> :: StrictVerdict(f, now, ttlDays) != Raise(TtlIsNone)
  {
  }

  /** `ApiCache.clear_expired`: deletes expired files and those that are
      not JSON or lack a timestamp, and counts them; a file that escapes
      the handler, or any dated file without a time to live, stops it. */
  function ApiClearExpired(d: Apis, files: seq<string>, now: int, ttlDays: Option<int>): (r: Swept<ApiBody>)
    requires Distinct(files) && forall i :: 0 <= i < |files| ==> files[i] in d
    ensures r.count + |r.dir| == |d|
    ensures r.error.Some? <==> exists i :: 0 <= i < |files| && (Raising(d[files[i]]) || (Dated(d[files[i]]) && ttlDays.None?))
    ensures r.error.Some? ==> r.error.value in {NotUtf8, NotAnObject, InvalidTimestamp, StampNotText, AwareStamp, TtlIsNone}
    ensures r.error.None? ==> forall i :: 0 <= i < |files| ==>
      (files[i] in r.dir <==> ttlDays.Some? && Fresh(d[files[i]], now, ttlDays.value))
    ensures forall i :: 0 <= i < |files| && files[i] !in r.dir ==>
      !(ttlDays.Some? && Fresh(d[files[i]], now, ttlDays.value))
    ensures r.dir.Keys <= d.Keys && forall k :: k in r.dir ==> r.dir[k] == d[k]
    ensures forall k :: k in d && k !in files ==> k in r.dir
  {
    StrictVerdicts<ApiBody>(now, ttlDays);
    Sweep(d, files, f => StrictVerdict(f, now, ttlDays))
  }

  // ---------------------------------------------------------------------
  // ScraperCache (src/extract/caching/scraper_cache.py): text payloads

  /** `ttl_days or settings...cache_ttl_days`: none and zero both fall back
      to the default. */
  function ScraperTtl(ttlDays: Option<int>, default: int): (r: int)
    ensures ttlDays == None || ttlDays == Some(0) ==> r == default
    ensures ttlDays.Some? && ttlDays.value != 0 ==> r == ttlDays.value
  {
    if ttlDays.None? || ttlDays.value == 0 then default else ttlDays.value
  }

  type Pages = Dir<Json>

  /** `ScraperCache.get`, which catches only `JSONDecodeError` and
      `KeyError`: as the API cache, with a time to live always present,
      and a hit's text encoded back to UTF-8 bytes; a content that is not
      a string has no `encode` and raises. */
  function ScraperGet(d: Pages, url: string, now: int, ttlDays: int): (r: (Result<Option<Bytes>, Failure>, Pages))
    ensures url !in d ==> r == (Success(None), d)
    ensures r.0.Failure? <==>
      url in d && (Raising(d[url]) || (Fresh(d[url], now, ttlDays) && d[url].payload.Some? && !d[url].payload.value.JStr?))
    ensures r.0.Failure? ==> r.1 == d
    ensures r.1 != d ==> url in d && r.1 == d - {url} && r.0 == Success(None)
    ensures r.1 != d <==>
      url in d && (d[url].NotJson? || (d[url].Json? && d[url].stamp.None?)
                   || (Fresh(d[url], now, ttlDays) && d[url].payload.None?))
    ensures r.0.Success? && r.0.value.Some? ==>
      r.1 == d && url in d && Fresh(d[url], now, ttlDays)
      && d[url].payload.Some? && d[url].payload.value.JStr?
      && r.0.value.value == Utf8Encode(d[url].payload.value.s)
  {
    if url !in d then (Success(None), d)
    else match d[url]
      case Undecodable => (Failure(NotUtf8), d)
      case NotJson => (Success(None), d - {url})
      case NotObject => (Failure(NotAnObject), d)
      case Json(None, _) => (Success(None), d - {url})
      case Json(Some(BadStamp), _) => (Failure(InvalidTimestamp), d)
      case Json(Some(NotText), _) => (Failure(StampNotText), d)
      case Json(Some(Aware), _) => (Failure(AwareStamp), d)
      case Json(Some(At(t)), payload) =>
        if Expired(now, t, ttlDays) then (Success(None), d)
        else match payload
          case None => (Success(None), d - {url})
          case Some(JStr(text)) => (Success(Some(Utf8Encode(text))), d)
          case Some(_) => (Failure(NoEncode), d)
  }

  /** `ScraperCache.set`: the content is stored as text, so bytes that are
      not UTF-8 raise and leave the directory as it was. */
  function ScraperSet(d: Pages, url: string, content: Bytes, now: int): (r: Result<Pages, Failure>)
    ensures r.Failure? <==> Utf8Decode(content).None?
    ensures r.Failure? ==> r.error == NotUtf8
    ensures r.Success? ==> (r.value.Keys == d.Keys + {url}
                            && forall k :: k in d && k != url ==> r.value[k] == d[k])
  {
    match Utf8Decode(content)
    case None => Failure(NotUtf8)
    case Some(text) => Success(d[url := Json(Some(At(now)), Some(JStr(text)))])
  }

  /** Whatever `set` accepts, `get` gives back byte for byte while it is
      fresh. */
  lemma ScraperRoundTrip(d: Pages, url: string, content: Bytes, stored: int, now: int, ttlDays: int)
    requires ScraperSet(d, url, content, stored).Success?
    requires now - stored <= ttlDays * Day
    ensures var d' := ScraperSet(d, url, content, stored).value;
      ScraperGet(d', url, now, ttlDays) == (Success(Some(content)), d')
  {
    Utf8Canonical(content);
  }

  /** `set` accepts exactly the UTF-8 encodings of text. */
  lemma ScraperSetAcceptsText(d: Pages, url: string, text: string, stored: int)
    ensures ScraperSet(d, url, Utf8Encode(text), stored) == Success(d[url := Json(Some(At(stored)), Some(JStr(text)))])
  {
    Utf8RoundTrip(text);
  }

  /** `ScraperCache.clear_expired`: as the API cache's, with a time to
      live always present. */
  function ScraperClearExpired(d: Pages, files: seq<string>, now: int, ttlDays: int): (r: Swept<Json>)
    requires Distinct(files) && forall i :: 0 <= i < |files| ==> files[i] in d
    ensures r.count + |r.dir| == |d|
    ensures r.error.Some? <==> exists i :: 0 <= i < |files| && Raising(d[files[i]])
    ensures r.error.Some? ==> r.error.value in {NotUtf8, NotAnObject, InvalidTimestamp, StampNotText, AwareStamp}
    ensures r.error.None? ==> forall i :: 0 <= i < |files| ==> (files[i] in r.dir <==> Fresh(d[files[i]], now, ttlDays))
    ensures forall i :: 0 <= i < |files| && files[i] !in r.dir ==> !Fresh(d[files[i]], now, ttlDays)
    ensures r.dir.Keys <= d.Keys && forall k :: k in r.dir ==> r.dir[k] == d[k]
    ensures forall k :: k in d && k !in files ==> k in r.dir
  {
    StrictVerdicts<Json>(now, Some(ttlDays));
    Sweep(d, files, f => StrictVerdict(f, now, Some(ttlDays)))
  }

  /** After `clear` nothing is cached. */
  lemma ClearForgets(d: Pages, url: string, now: int, ttlDays: int)
    ensures ScraperGet(Clear(d).0, url, now, ttlDays) == (Success(None), Clear(d).0)
  {
  }
}

=== FILE: census.dfy ===
/**
  The Census Bureau extractors: src/extract/census_api.py
  (`CensusExtractor`) and the older functions of
  src/extract/api_extractor.py. The API answers with a JSON array of
  arrays of strings whose first row is a header; state codes are two
  digits (FIPS PUB 5-2) and county codes three (FIPS PUB 6-4).
 */
module Census {
  import opened Wrappers
  import opened Text
  import opened Urls
  import Records
  import opened Currency

  type Row = seq<string>
  type Table = seq<Row>

  datatype County = County(countyName: string, stateFips: string, countyFips: string, fullFips: string)
  datatype State = State(stateName: string, stateFips: string, stateAbbr: Option<string>)

  /** The `IndexError` of `row[k]` on the data row at `index`. */
  datatype ParseError = ShortRow(index: nat)

  // ---------------------------------------------------------------------
  // Rows

  /** The first data row, at or after `i`, with fewer than `width` cells;
      `|data|` when there is none. */
  function FirstShort(data: Table, width: nat, i: nat): (k: nat)
    requires i <= |data|
    ensures i <= k <= |data|
    ensures forall j :: i <= j < k ==> |data[j]| >= width
    ensures k < |data| ==> |data[k]| < width
    decreases |data| - i
  {
    if i == |data| then i
    else if |data[i]| < width then i
    else FirstShort(data, width, i + 1)
  }

  /** One county row. `state` is the code the caller passes in place of
      the row's own state column (api_extractor's `get_counties`). */
  function CountyOf(row: Row, state: Option<string>): (c: County)
    requires |row| >= 3
    ensures ',' !in c.countyName
    ensures |c.countyName| > 0 ==> !IsSpace(c.countyName[0]) && !IsSpace(c.countyName[|c.countyName| - 1])
    ensures c.stateFips == ZFill(state.GetOr(row[1]), 2)
    ensures c.countyFips == ZFill(row[2], 3)
    ensures c.fullFips == c.stateFips + c.countyFips
  {
    var name := BeforeChar(row[0], ',');
    var stripped := Strip(name);
    StripCharsFrom(name);
    assert ',' !in stripped by {
      forall k | 0 <= k < |stripped| ensures stripped[k] != ',' {
        assert stripped[k] == ' ' || stripped[k] in name;
      }
    }
    var st := ZFill(state.GetOr(row[1]), 2);
    var co := ZFill(row[2], 3);
    County(stripped, st, co, st + co)
  }

  /** The county rows of a Census answer, header skipped, one county per
      row in order; a row with fewer than three cells fails the whole
      parse. With `state` None this is `_parse_counties` of census_api
      and `get_all_counties` of api_extractor. */
  function ParseCounties(data: Table, state: Option<string>): (r: Result<seq<County>, ParseError>)
    ensures r.Success? <==> forall i :: 1 <= i < |data| ==> |data[i]| >= 3
    ensures r.Failure? ==>
      1 <= r.error.index < |data| && |data[r.error.index]| < 3
      && forall j :: 1 <= j < r.error.index ==> |data[j]| >= 3
    ensures r.Success? ==> |r.value| == if |data| == 0 then 0 else |data| - 1
    ensures r.Success? ==> forall i :: 0 <= i < |r.value| ==> r.value[i] == CountyOf(data[i + 1], state)
  {
    if |data| <= 1 then Success([])
    else
      var k := FirstShort(data, 3, 1);
      if k < |data| then Failure(ShortRow(k))
      else Success(CountyRows(data, state))
  }

  /** The county of every row after the header. */
  function CountyRows(data: Table, state: Option<string>): (r: seq<County>)
    requires |data| > 0 && forall i :: 1 <= i < |data| ==> |data[i]| >= 3
    ensures |r| == |data| - 1
    ensures forall i :: 0 <= i < |r| ==> r[i] == CountyOf(data[i + 1], state)
  {
    seq(|data| - 1, i requires 0 <= i < |data| - 1 => CountyOf(data[i + 1], state))
  }

  /** api_extractor's `get_counties` trusts its argument for the state
      code; when the answer only holds that state's counties it agrees
      with parsing the rows' own state column. */
  lemma ExtractorCountiesAgree(data: Table, stateFips: string)
    requires forall i :: 1 <= i < |data| && |data[i]| >= 3 ==> ZFill(data[i][1], 2) == ZFill(stateFips, 2)
    ensures ParseCounties(data, Some(stateFips)) == ParseCounties(data, None)
  {
    var a := ParseCounties(data, Some(stateFips));
    var b := ParseCounties(data, None);
    if a.Success? {
      assert |a.value| == |b.value|;
      forall i | 0 <= i < |a.value| ensures a.value[i] == b.value[i] {
        assert |data[i + 1]| >= 3;
      }
      assert a.value == b.value;
    }
  }

  /** `get_county_codes`: the county column of the parsed counties, in
      order, each padded to three characters. */
  function CountyCodes(data: Table, state: Option<string>): (r: Result<seq<string>, ParseError>)
    ensures r.Success? <==> ParseCounties(data, state).Success?
    ensures r.Failure? ==> r.error == ParseCounties(data, state).error
    ensures r.Success? ==>
      |r.value| == |ParseCounties(data, state).value|
      && forall i :: 0 <= i < |r.value| ==> r.value[i] == ZFill(data[i + 1][2], 3)
  {
    match ParseCounties(data, state)
    case Failure(e) => Failure(e)
    case Success(cs) => Success(seq(|cs|, i requires 0 <= i < |cs| => cs[i].countyFips))
  }

  /** Well-formed codes (at most two and three digits) give a five-digit
      county code worth `1000 * state + county`, which the record
      validator accepts unchanged. */
  lemma FullFipsIsFiveDigits(row: Row)
    requires |row| >= 3
    requires IsDigits(row[1]) && |row[1]| <= 2
    requires IsDigits(row[2]) && |row[2]| <= 3
    ensures var c := CountyOf(row, None);
      IsDigits(c.fullFips) && |c.fullFips| == 5
      && DigitsValue(c.fullFips) == 1000 * DigitsValue(row[1]) + DigitsValue(row[2])
      && Records.ValidateCountyFips(c.fullFips) == Success(c.fullFips)
  {
    var c := CountyOf(row, None);
    ZFillDigits(row[1], 2);
    ZFillDigits(row[2], 3);
    DigitsValueAppend(c.stateFips, c.countyFips);
    assert |c.countyFips| == 3;
    assert Pow10(|c.countyFips|) == 1000;
    assert DigitsValue(c.fullFips) == DigitsValue(c.stateFips) * 1000 + DigitsValue(c.countyFips);
    assert ZFill(c.fullFips, 5) == c.fullFips;
  }

  /** A name is cut at its first comma and stripped, and the codes are
      padded. */
  lemma CountyRowExample(cell: string, code: string, name: string)
    requires cell == "A County, B" && code == "1" && name == "A County"
    ensures var c := CountyOf([cell, code, code], None);
      c.countyName == name && c.stateFips == "01" && c.countyFips == "001"
  {
    CutAtComma(cell, name);
    StripIdentity(name);
    PadOne(code);
  }

  lemma CutAtComma(cell: string, name: string)
    requires cell == "A County, B" && name == "A County"
    ensures BeforeChar(cell, ',') == name
  {
    assert cell[8] == ',';
    assert forall k :: 0 <= k < 8 ==> cell[k] != ',';
    assert BeforeChar(cell, ',') == cell[..8];
  }

  lemma PadOne(code: string)
    requires code == "1"
    ensures ZFill(code, 2) == "01" && ZFill(code, 3) == "001"
  {
    assert Zeros(1) == "0" && Zeros(2) == "00";
  }

  // ---------------------------------------------------------------------
  // States

  /** One data row as a state, its abbreviation not yet known. */
  function StateOf(row: Row): State
    requires |row| >= 2
  {
    State(row[0], ZFill(row[1], 2), None)
  }

  /** `_parse_states`: one state per data row, in order, with its code
      padded to two characters; a row with fewer than two cells fails. */
  function ParseStates(data: Table): (r: Result<seq<State>, ParseError>)
    ensures r.Success? <==> forall i :: 1 <= i < |data| ==> |data[i]| >= 2
    ensures r.Failure? ==>
      1 <= r.error.index < |data| && |data[r.error.index]| < 2
      && forall j :: 1 <= j < r.error.index ==> |data[j]| >= 2
    ensures r.Success? ==> |r.value| == if |data| == 0 then 0 else |data| - 1
    ensures r.Success? ==> forall i :: 0 <= i < |r.value| ==>
      r.value[i].stateName == data[i + 1][0] && r.value[i].stateFips == ZFill(data[i + 1][1], 2)
      && r.value[i].stateAbbr.None?
  {
    if |data| <= 1 then Success([])
    else
      var k := FirstShort(data, 2, 1);
      if k < |data| then Failure(ShortRow(k))
      else Success(seq(|data| - 1, i requires 0 <= i < |data| - 1 => StateOf(data[i + 1])))
  }

  /** The configured state map, abbreviation to code, in its order. */
  type FipsMap = seq<(string, string)>

  /** `fips_map.get(key)`. */
  function Lookup(m: FipsMap, key: string): (r: Option<string>)
    ensures r.None? <==> forall i :: 0 <= i < |m| ==> m[i].0 != key
    ensures r.Some? ==> exists i :: 0 <= i < |m| && m[i] == (key, r.value)
  {
    if |m| == 0 then None
    else if m[0].0 == key then Some(m[0].1)
    else
      var r := Lookup(m[1..], key);
      if r.Some? then
        var i :| 0 <= i < |m[1..]| && m[1..][i] == (key, r.value);
        assert m[i + 1] == (key, r.value);
        r
      else r
  }

  /** The abbreviation census_api's `get_states` attaches to a code: the
      first one the map sends to it, if any. */
  function AbbrFor(m: FipsMap, fips: string): (r: Option<string>)
    ensures r.None? <==> forall i :: 0 <= i < |m| ==> m[i].1 != fips
    ensures r.Some? ==> exists i :: 0 <= i < |m| && m[i] == (r.value, fips)
                                   && forall j :: 0 <= j < i ==> m[j].1 != fips
  {
    if |m| == 0 then None
    else if m[0].1 == fips then Some(m[0].0)
    else
      var r := AbbrFor(m[1..], fips);
      if r.Some? then
        var i :| 0 <= i < |m[1..]| && m[1..][i] == (r.value, fips)
                 && forall j :: 0 <= j < i ==> m[1..][j].1 != fips;
        assert m[i + 1] == (r.value, fips);
        assert forall j :: 1 <= j <= i ==> m[j].1 != fips by {
          forall j | 1 <= j <= i ensures m[j].1 != fips {
            assert m[j] == m[1..][j - 1];
          }
        }
        r
      else r
  }

  predicate DistinctCodes(m: FipsMap) {
    forall i, j :: 0 <= i < j < |m| ==> m[i].1 != m[j].1
  }

  /** The reverse lookup undoes the forward one (main.py's
      `fips_map.get(state)`), and when no two states share a code it
      undoes it exactly. */
  lemma AbbrForInvertsLookup(m: FipsMap, abbr: string, fips: string)
    requires DistinctKeys(m)
    ensures AbbrFor(m, fips) == Some(abbr) ==> Lookup(m, abbr) == Some(fips)
    ensures DistinctCodes(m) && Lookup(m, abbr) == Some(fips) ==> AbbrFor(m, fips) == Some(abbr)
  {
    if AbbrFor(m, fips) == Some(abbr) {
      var i :| 0 <= i < |m| && m[i] == (abbr, fips);
      LookupAt(m, i);
    }
    if DistinctCodes(m) && Lookup(m, abbr) == Some(fips) {
      var i :| 0 <= i < |m| && m[i] == (abbr, fips);
      var a := AbbrFor(m, fips).value;
      var j :| 0 <= j < |m| && m[j] == (a, fips);
      assert i == j;
    }
  }

  lemma LookupAt(m: FipsMap, i: nat)
    requires DistinctKeys(m) && i < |m|
    ensures Lookup(m, m[i].0) == Some(m[i].1)
  {
    var r := Lookup(m, m[i].0);
    var j :| 0 <= j < |m| && m[j] == (m[i].0, r.value);
    assert i == j;
  }

  /** census_api's `get_states`: the parsed states with their
      abbreviations attached. */
  function GetStates(data: Table, m: FipsMap): (r: Result<seq<State>, ParseError>)
    ensures r.Success? <==> ParseStates(data).Success?
    ensures r.Failure? ==> r.error == ParseStates(data).error
    ensures r.Success? ==> |r.value| == |ParseStates(data).value|
    ensures r.Success? ==> forall i :: 0 <= i < |r.value| ==>
      r.value[i].stateName == data[i + 1][0] && r.value[i].stateFips == ZFill(data[i + 1][1], 2)
      && r.value[i].stateAbbr == AbbrFor(m, r.value[i].stateFips)
  {
    match ParseStates(data)
    case Failure(e) => Failure(e)
    case Success(ss) =>
      Success(seq(|ss|, i requires 0 <= i < |ss| => ss[i].(stateAbbr := AbbrFor(m, ss[i].stateFips))))
  }

  /** api_extractor's `get_states` as written: it looks the state's code
      up among the abbreviations. Whatever it finds is the value of an
      entry keyed by the code itself, and with abbreviations that start
      with a capital letter a digit code finds nothing. */
  function ExtractorAbbrAsWritten(m: FipsMap, fips: string): (r: Option<string>)
    ensures r.Some? ==> exists i :: 0 <= i < |m| && m[i] == (fips, r.value)
    ensures IsDigits(fips) && (forall i :: 0 <= i < |m| ==> |m[i].0| > 0 && IsUpper(m[i].0[0])) ==> r.None?
  {
    DigitsAreNoAbbr(m, fips);
    Lookup(m, fips)
  }

  /** A digit string is not a key that starts with a capital letter. */
  lemma DigitsAreNoAbbr(m: FipsMap, fips: string)
    ensures IsDigits(fips) && (forall i :: 0 <= i < |m| ==> |m[i].0| > 0 && IsUpper(m[i].0[0])) ==>
      forall i :: 0 <= i < |m| ==> m[i].0 != fips
  {
    if IsDigits(fips) && (forall i :: 0 <= i < |m| ==> |m[i].0| > 0 && IsUpper(m[i].0[0])) {
      forall i | 0 <= i < |m| ensures m[i].0 != fips {
        assert !IsDigit(m[i].0[0]);
      }
    }
  }

  /** No abbreviation is a digit string, so the code is never found. */
  lemma ExtractorAbbrAlwaysMissing(m: FipsMap, fips: string)
    requires IsDigits(fips)
    requires forall i :: 0 <= i < |m| ==> |m[i].0| > 0 && IsUpper(m[i].0[0])
    ensures ExtractorAbbrAsWritten(m, fips).None?
    ensures Lookup(m, "NJ") == Some("34") ==> AbbrFor(m, "34") != ExtractorAbbrAsWritten(m, "34")
  {
    if Lookup(m, "NJ") == Some("34") {
      forall i | 0 <= i < |m| ensures m[i].0 != "34" {
        assert !IsDigit(m[i].0[0]);
      }
      var i :| 0 <= i < |m| && m[i] == ("NJ", "34");
    }
  }

  // ---------------------------------------------------------------------
  // Requests

  function CountyParams(stateFips: string): (ps: Params)
    ensures DistinctKeys(ps)
  {
    [("get", "NAME"), ("for", "county:*"), ("in", "state:" + stateFips)]
  }

  function StateParams(): (ps: Params)
    ensures DistinctKeys(ps)
  {
    [("get", "NAME"), ("for", "state:*")]
  }

  /** `get_counties(state)`'s parameters sort as `for`, `get`, `in`, so
      its cache key (endpoint "") ends with the state. */
  lemma CountyKeyShape(stateFips: string)
    ensures SortParams(CountyParams(stateFips)) == [("for", "county:*"), ("get", "NAME"), ("in", "state:" + stateFips)]
  {
    var ps := CountyParams(stateFips);
    var sorted: Params := [("for", "county:*"), ("get", "NAME"), ("in", "state:" + stateFips)];
    CountyOrder(sorted, stateFips);
    assert multiset(sorted) == multiset(ps) by {
      assert ps == [ps[0]] + [ps[1]] + [ps[2]];
      assert sorted == [ps[1]] + [ps[0]] + [ps[2]];
    }
    SortedUnique(SortParams(ps), sorted);
  }

  lemma CountyOrder(sorted: Params, stateFips: string)
    requires sorted == [("for", "county:*"), ("get", "NAME"), ("in", "state:" + stateFips)]
    ensures Sorted(sorted)
  {
    assert StrLess("for", "get") && StrLess("get", "in") && StrLess("for", "in");
  }

  /** Three parameters encoded with the same first two pairs and the
      same last key differ in the last value only. */
  lemma EncodeLastValue(p: Params, q: Params)
    requires |p| == 3 && |q| == 3
    requires p[0] == q[0] && p[1] == q[1] && p[2].0 == q[2].0
    requires UrlEncode(p) == UrlEncode(q)
    ensures p[2].1 == q[2].1
  {
    assert p[1..][1..] == [p[2]] && q[1..][1..] == [q[2]];
    var tp, tq := UrlEncode(p[1..]), UrlEncode(q[1..]);
    CancelLeft(QuotePlus(p[0].0) + "=" + QuotePlus(p[0].1) + "&", tp, tq);
    CancelLeft(QuotePlus(p[1].0) + "=" + QuotePlus(p[1].1) + "&", UrlEncode([p[2]]), UrlEncode([q[2]]));
    CancelLeft(QuotePlus(p[2].0) + "=", QuotePlus(p[2].1), QuotePlus(q[2].1));
    QuotePlusInjective(p[2].1, q[2].1);
  }

  lemma CancelLeft<T>(x: seq<T>, y: seq<T>, z: seq<T>)
    requires x + y == x + z
    ensures y == z
  {
    assert y == (x + y)[|x|..];
    assert z == (x + z)[|x|..];
  }

  /** Different states are cached under different keys. */
  lemma CountyKeysDiffer(a: string, b: string)
    requires a != b
    ensures CacheKey("", CountyParams(a)) != CacheKey("", CountyParams(b))
  {
    CountyKeyShape(a);
    CountyKeyShape(b);
    var p: Params := [("for", "county:*"), ("get", "NAME"), ("in", "state:" + a)];
    var q: Params := [("for", "county:*"), ("get", "NAME"), ("in", "state:" + b)];
    assert ("state:" + a)[6..] == a && ("state:" + b)[6..] == b;
    var ka, kb := CacheKey("", CountyParams(a)), CacheKey("", CountyParams(b));
    assert ka == "" + "?" + UrlEncode(p) && kb == "" + "?" + UrlEncode(q);
    if ka == kb {
      assert UrlEncode(p) == ka[1..] == kb[1..] == UrlEncode(q);
      EncodeLastValue(p, q);
    }
  }

  // ---------------------------------------------------------------------
  // api_extractor's URLs

  function CountyApiUrl(base: string, stateFips: string): (url: string)
    ensures StartsWith(url, base)
    ensures |url| >= |stateFips| && url[|url| - |stateFips|..] == stateFips
  {
    base + "?get=NAME&for=county:*&in=state:" + stateFips
  }

  function StateApiUrl(base: string): (url: string)
    ensures StartsWith(url, base)
  {
    base + "?get=NAME&for=state:*"
  }

  function AllCountiesApiUrl(base: string): (url: string)
    ensures url == CountyApiUrl(base, "*")
  {
    base + "?get=NAME&for=county:*&in=state:*"
  }

  /** The county URL names its state: different states, different URLs;
      and it never coincides with the state-list URL. */
  lemma CountyApiUrlInjective(base: string, a: string, b: string)
    ensures CountyApiUrl(base, a) == CountyApiUrl(base, b) ==> a == b
    ensures CountyApiUrl(base, a) != StateApiUrl(base)
  {
    var p := base + "?get=NAME&for=county:*&in=state:";
    if CountyApiUrl(base, a) == CountyApiUrl(base, b) {
      assert a == CountyApiUrl(base, a)[|p|..];
      assert b == CountyApiUrl(base, b)[|p|..];
    }
    var s := StateApiUrl(base);
    var c := CountyApiUrl(base, a);
    assert c[|base| + 14] == 'c' && (|s| <= |base| + 14 || s[|base| + 14] == 's');
  }
}

=== FILE: clients.dfy ===
/**
  Cache-or-fetch: `HttpClient.get` (src/extract/http.py),
  `BaseApiClient.get_data` (src/extract/apis/base_api_client.py) and
  `BaseScraper.get_page` (src/extract/scrapers/scraper_base.py). `now` is
  the clock when the cache is read, `storedAt` when it is written, and
  `net` what the network answers for the request's URL, attempt by
  attempt.
 */
module Clients {
  import opened Wrappers
  import opened Codecs
  import opened Urls
  import opened Caches
  import opened Retry

  // ---------------------------------------------------------------------
  // HttpClient.get

  datatype ClientError =
    | Net(error: Error)        // from the retry loop
    | CacheError(failure: Failure)
    | InvalidJson              // the ValueError of _validate_response

  /** The retry loop's result as a client's. */
  function NetResult(res: Result<Bytes, Error>): (r: Result<Bytes, ClientError>) {
    match res
    case Success(b) => Success(b)
    case Failure(e) => Failure(Net(e))
  }

  datatype HttpReply = HttpReply(result: Result<Bytes, ClientError>, dir: Option<Responses>, calls: nat, sleeps: seq<nat>)

  /** `HttpClient.get(endpoint, params, use_cache)` with a `ResponseCache`
      (`dir`, `ttlDays`) or none. An exception of the cache read escapes
      before any request; a hit costs no request; a miss runs the retry
      loop and stores what it returns under the cache key;
      `use_cache=False` leaves the cache alone. */
  function HttpGet(endpoint: string, params: Params, useCache: bool, cache: Option<Responses>, ttlDays: int,
                   now: int, storedAt: int, net: nat -> Outcome, maxRetries: int): (r: HttpReply)
    requires DistinctKeys(params)
    ensures cache.None? <==> r.dir.None?
    ensures var key := CacheKey(endpoint, params);
      if useCache && cache.Some? && ResponseGet(cache.value, key, now, ttlDays).0.Failure? then
        r == HttpReply(Failure(CacheError(ResponseGet(cache.value, key, now, ttlDays).0.error)), cache, 0, [])
      else if useCache && cache.Some? && ResponseGet(cache.value, key, now, ttlDays).0.value.Some? then
        r == HttpReply(Success(ResponseGet(cache.value, key, now, ttlDays).0.value.value), Some(ResponseGet(cache.value, key, now, ttlDays).1), 0, [])
      else
        var run := Fetch(net, HttpPolicy, maxRetries);
        (r.result.Success? <==> HttpResult(run).Success?)
        && (r.result.Success? ==> r.result.value == HttpResult(run).value)
        && (r.result.Failure? ==> r.result.error == Net(HttpResult(run).error))
        && r.calls == run.calls && r.sleeps == run.sleeps
        && (useCache && cache.Some? && r.result.Success? ==>
              r.dir == Some(ResponseStore(ResponseGet(cache.value, key, now, ttlDays).1, key, r.result.value, storedAt)))
        && (useCache && cache.Some? && r.result.Failure? ==> r.dir == Some(ResponseGet(cache.value, key, now, ttlDays).1))
        && (!useCache ==> r.dir == cache)
  {
    var key := CacheKey(endpoint, params);
    var caching := useCache && cache.Some?;
    var (hit, d1) := if caching then ResponseGet(cache.value, key, now, ttlDays) else (Success(None), map[]);
    if hit.Failure? then HttpReply(Failure(CacheError(hit.error)), cache, 0, [])
    else if hit.value.Some? then HttpReply(Success(hit.value.value), Some(d1), 0, [])
    else
      var run := Fetch(net, HttpPolicy, maxRetries);
      var res := NetResult(HttpResult(run));
      var dir := if !caching then cache else if res.Success? then Some(ResponseStore(d1, key, res.value, storedAt)) else Some(d1);
      HttpReply(res, dir, run.calls, run.sleeps)
  }

  /** Asking again within the time to live for what a fetch just brought
      in gives the same bytes without a request. */
  lemma HttpGetTwice(endpoint: string, params: Params, cache: Responses, ttlDays: int,
                     now: int, storedAt: int, later: int, net: nat -> Outcome, again: nat -> Outcome, maxRetries: int)
    requires DistinctKeys(params)
    requires HttpGet(endpoint, params, true, Some(cache), ttlDays, now, storedAt, net, maxRetries).result.Success?
    requires HttpGet(endpoint, params, true, Some(cache), ttlDays, now, storedAt, net, maxRetries).calls > 0
    requires later - storedAt <= ttlDays * Day
    ensures var first := HttpGet(endpoint, params, true, Some(cache), ttlDays, now, storedAt, net, maxRetries);
      var second := HttpGet(endpoint, params, true, first.dir, ttlDays, later, later, again, maxRetries);
      second.result == first.result && second.calls == 0 && second.dir == first.dir
  {
    var key := CacheKey(endpoint, params);
    var first := HttpGet(endpoint, params, true, Some(cache), ttlDays, now, storedAt, net, maxRetries);
    var d1 := ResponseGet(cache, key, now, ttlDays).1;
    ResponseRoundTrip(d1, key, first.result.value, storedAt, later, ttlDays);
  }

  // ---------------------------------------------------------------------
  // BaseApiClient.get_data and BaseScraper.get_page

  datatype ApiReply = ApiReply(result: Result<Json, ClientError>, dir: Option<Apis>, calls: nat, sleeps: seq<nat>)

  /** `BaseApiClient.get_data(url, params)` with an `ApiCache` (`dir`,
      `ttlDays`) or none; `parse` is `response.json()`. A hit returns the
      cache's `{"data", "status_code"}` object without a request; a miss
      fetches, parses and stores the parsed response, which the cache only
      accepts when it is an object with a `data` member. */
  function GetData(url: string, params: Params, cache: Option<Apis>, ttlDays: Option<int>,
                   now: int, storedAt: int, net: nat -> Outcome, maxRetries: int,
                   parse: Bytes -> Option<Json>): (r: ApiReply)
    requires DistinctKeys(params)
    ensures cache.None? <==> r.dir.None?
    ensures cache.Some? && ApiGet(cache.value, ApiKey(url, params), now, ttlDays).0.Failure? ==>
      r == ApiReply(Failure(CacheError(ApiGet(cache.value, ApiKey(url, params), now, ttlDays).0.error)), cache, 0, [])
    ensures cache.Some? && ApiGet(cache.value, ApiKey(url, params), now, ttlDays).0 .Success?
            && ApiGet(cache.value, ApiKey(url, params), now, ttlDays).0.value.Some? ==>
      r.result == Success(ApiGet(cache.value, ApiKey(url, params), now, ttlDays).0.value.value) && r.calls == 0
    ensures r.calls > 0 ==> r.calls == Fetch(net, ApiPolicy, maxRetries).calls
                            && r.sleeps == Fetch(net, ApiPolicy, maxRetries).sleeps
    ensures r.result.Success? && r.calls > 0 ==>
      Fetch(net, ApiPolicy, maxRetries).stop.Returned? &&
      var o := Fetch(net, ApiPolicy, maxRetries).stop.response;
      o.Response? && parse(o.content) == Some(r.result.value)
      && (cache.Some? ==> r.result.value.JObj? && "data" in r.result.value.fields)
  {
    var key := ApiKey(url, params);
    var got := if cache.Some? then ApiGet(cache.value, key, now, ttlDays) else (Success(None), map[]);
    if got.0.Failure? then ApiReply(Failure(CacheError(got.0.error)), cache, 0, [])
    else if got.0.value.Some? then ApiReply(Success(got.0.value.value), Some(got.1), 0, [])
    else
      var d1 := if cache.Some? then Some(got.1) else None;
      var run := Fetch(net, ApiPolicy, maxRetries);
      match ClientResult(run, url, maxRetries)
      case Failure(e) => ApiReply(Failure(Net(e)), d1, run.calls, run.sleeps)
      case Success(o) =>
        match (if o.Response? then parse(o.content) else None)
        case None => ApiReply(Failure(InvalidJson), d1, run.calls, run.sleeps)
        case Some(j) =>
          if d1.None? then ApiReply(Success(j), None, run.calls, run.sleeps)
          else match ApiStore(d1.value, key, j, storedAt)
            case Failure(e) => ApiReply(Failure(CacheError(e)), d1, run.calls, run.sleeps)
            case Success(d2) => ApiReply(Success(j), Some(d2), run.calls, run.sleeps)
  }

  /** As written, the client's cache has no time to live: the second call
      for the same request raises where it should hit. */
  lemma GetDataTwiceAsWritten(url: string, params: Params, cache: Apis, now: int, storedAt: int, later: int,
                              net: nat -> Outcome, again: nat -> Outcome, maxRetries: int, parse: Bytes -> Option<Json>)
    requires DistinctKeys(params)
    requires GetData(url, params, Some(cache), None, now, storedAt, net, maxRetries, parse).result.Success?
    requires GetData(url, params, Some(cache), None, now, storedAt, net, maxRetries, parse).calls > 0
    ensures var first := GetData(url, params, Some(cache), None, now, storedAt, net, maxRetries, parse);
      GetData(url, params, first.dir, None, later, later, again, maxRetries, parse).result == Failure(CacheError(TtlIsNone))
  {
    var key := ApiKey(url, params);
    var first := GetData(url, params, Some(cache), None, now, storedAt, net, maxRetries, parse);
    var d1 := ApiGet(cache, key, now, None).1;
    assert first.dir == Some(ApiStore(d1, key, first.result.value, storedAt).value);
    ApiNoTtlRaises(d1, key, first.result.value, storedAt, later);
  }

  /** With the configured time to live, the second call within it is a hit
      without a request, and what it returns is the cache's wrapper
      around the first answer's `data`. */
  lemma GetDataTwice(url: string, params: Params, cache: Apis, default: int, now: int, storedAt: int, later: int,
                     net: nat -> Outcome, again: nat -> Outcome, maxRetries: int, parse: Bytes -> Option<Json>)
    requires DistinctKeys(params)
    requires later - storedAt <= default * Day
    requires GetData(url, params, Some(cache), ApiCacheTtl(None, default), now, storedAt, net, maxRetries, parse).result.Success?
    requires GetData(url, params, Some(cache), ApiCacheTtl(None, default), now, storedAt, net, maxRetries, parse).calls > 0
    ensures var first := GetData(url, params, Some(cache), ApiCacheTtl(None, default), now, storedAt, net, maxRetries, parse);
      var second := GetData(url, params, first.dir, ApiCacheTtl(None, default), later, later, again, maxRetries, parse);
      var j := first.result.value;
      second.calls == 0
      && second.result == Success(JObj(map["data" := j.fields["data"],
           "status_code" := if "status_code" in j.fields then j.fields["status_code"] else JInt(200)]))
  {
    var key := ApiKey(url, params);
    var ttl := ApiCacheTtl(None, default);
    var first := GetData(url, params, Some(cache), ttl, now, storedAt, net, maxRetries, parse);
    var d1 := ApiGet(cache, key, now, ttl).1;
    assert first.dir == Some(ApiStore(d1, key, first.result.value, storedAt).value);
    ApiRoundTrip(d1, key, first.result.value, storedAt, later, default);
  }

  /** A response that is not an object with `data` (a Census table is a
      list) cannot be cached: with a cache, fetching it fails. */
  lemma GetDataRejectsLists(url: string, params: Params, cache: Apis, ttlDays: Option<int>, now: int, storedAt: int,
                            net: nat -> Outcome, maxRetries: int, parse: Bytes -> Option<Json>)
    requires DistinctKeys(params)
    requires ApiGet(cache, ApiKey(url, params), now, ttlDays).0 == Success(None)
    requires Fetch(net, ApiPolicy, maxRetries).stop.Returned?
    requires var o := Fetch(net, ApiPolicy, maxRetries).stop.response;
      o.Response? && parse(o.content).Some? && parse(o.content).value.JList?
    ensures GetData(url, params, Some(cache), ttlDays, now, storedAt, net, maxRetries, parse).result
         == Failure(CacheError(NotAnObject))
  {
  }

  datatype PageReply = PageReply(result: Result<(int, Bytes), ClientError>, dir: Option<Pages>, calls: nat, sleeps: seq<nat>)

  /** `BaseScraper.get_page(url)` with a `ScraperCache` or none: a
      non-empty cached page comes back as a status-200 response without a
      request; otherwise the page is fetched and its text cached, so a
      page that is not UTF-8 makes the call fail after the fetch. */
  function GetPage(url: string, cache: Option<Pages>, ttlDays: int, now: int, storedAt: int,
                   net: nat -> Outcome, maxRetries: int): (r: PageReply)
    ensures cache.None? <==> r.dir.None?
    ensures cache.Some? && ScraperGet(cache.value, url, now, ttlDays).0.Failure? ==>
      r.result == Failure(CacheError(ScraperGet(cache.value, url, now, ttlDays).0.error)) && r.calls == 0
    ensures cache.Some? && ScraperGet(cache.value, url, now, ttlDays).0.Success?
            && ScraperGet(cache.value, url, now, ttlDays).0.value.Some?
            && |ScraperGet(cache.value, url, now, ttlDays).0.value.value| > 0 ==>
      r.result == Success((200, ScraperGet(cache.value, url, now, ttlDays).0.value.value)) && r.calls == 0
    ensures r.calls > 0 ==> r.calls == Fetch(net, ScraperPolicy, maxRetries).calls
                            && r.sleeps == Fetch(net, ScraperPolicy, maxRetries).sleeps
    ensures r.result.Success? && r.calls > 0 ==>
      Fetch(net, ScraperPolicy, maxRetries).stop == Returned(Response(r.result.value.0, r.result.value.1))
      && (cache.Some? ==> Utf8Decode(r.result.value.1).Some?)
  {
    var got := if cache.Some? then ScraperGet(cache.value, url, now, ttlDays) else (Success(None), map[]);
    if got.0.Failure? then PageReply(Failure(CacheError(got.0.error)), cache, 0, [])
    else if got.0.value.Some? && |got.0.value.value| > 0 then PageReply(Success((200, got.0.value.value)), Some(got.1), 0, [])
    else
      var d1 := if cache.Some? then Some(got.1) else None;
      var run := Fetch(net, ScraperPolicy, maxRetries);
      match ClientResult(run, url, maxRetries)
      case Failure(e) => PageReply(Failure(Net(e)), d1, run.calls, run.sleeps)
      case Success(o) =>
        if !o.Response? then PageReply(Failure(Net(Http(o))), d1, run.calls, run.sleeps)
        else if d1.None? then PageReply(Success((o.status, o.content)), None, run.calls, run.sleeps)
        else match ScraperSet(d1.value, url, o.content, storedAt)
          case Failure(e) => PageReply(Failure(CacheError(e)), d1, run.calls, run.sleeps)
          case Success(d2) => PageReply(Success((o.status, o.content)), Some(d2), run.calls, run.sleeps)
  }

  /** A fetched, non-empty page is served from the cache on the next call
      within the time to live, as a 200 response with the same bytes. */
  lemma GetPageTwice(url: string, cache: Pages, ttlDays: int, now: int, storedAt: int, later: int,
                     net: nat -> Outcome, again: nat -> Outcome, maxRetries: int)
    requires GetPage(url, Some(cache), ttlDays, now, storedAt, net, maxRetries).result.Success?
    requires GetPage(url, Some(cache), ttlDays, now, storedAt, net, maxRetries).calls > 0
    requires |GetPage(url, Some(cache), ttlDays, now, storedAt, net, maxRetries).result.value.1| > 0
    requires later - storedAt <= ttlDays * Day
    ensures var first := GetPage(url, Some(cache), ttlDays, now, storedAt, net, maxRetries);
      var second := GetPage(url, first.dir, ttlDays, later, later, again, maxRetries);
      second.calls == 0 && second.result == Success((200, first.result.value.1))
  {
    var first := GetPage(url, Some(cache), ttlDays, now, storedAt, net, maxRetries);
    var d1 := ScraperGet(cache, url, now, ttlDays).1;
    var content := first.result.value.1;
    assert first.dir == Some(ScraperSet(d1, url, content, storedAt).value);
    ScraperRoundTrip(d1, url, content, storedAt, later, ttlDays);
  }

  /** An empty page in the cache does not count as a hit: it is fetched
      again. */
  lemma EmptyPageRefetched(url: string, cache: Pages, ttlDays: int, now: int, storedAt: int,
                           net: nat -> Outcome, maxRetries: int)
    requires ScraperGet(cache, url, now, ttlDays).0 == Success(Some([]))
    requires maxRetries > 0
    ensures GetPage(url, Some(cache), ttlDays, now, storedAt, net, maxRetries).calls > 0
  {
  }
}

=== FILE: codecs.dfy ===
/**
  Byte codecs the caches and URLs rely on: UTF-8 (`str.encode()` /
  `bytes.decode('utf-8')`) and Base64 with the standard alphabet and `=`
  padding of section 4 of RFC 4648 (`base64.b64encode` / `b64decode`).
 */
module Codecs {
  import opened Wrappers

  type byte = x: int | 0 <= x < 256

  type Bytes = seq<byte>

  // ---------------------------------------------------------------------
  // UTF-8

  predicate IsCont(b: byte) { 0x80 <= b < 0xC0 }

  /** The encoding of one code point: one to four bytes. */
  function EncodeChar(c: char): (r: Bytes)
    ensures 1 <= |r| <= 4
  {
    var n := c as int;
    if n < 0x80 then [n]
    else if n < 0x800 then [0xC0 + n / 64, 0x80 + n % 64]
    else if n < 0x1_0000 then [0xE0 + n / 64 / 64, 0x80 + n / 64 % 64, 0x80 + n % 64]
    else [0xF0 + n / 64 / 64 / 64, 0x80 + n / 64 / 64 % 64, 0x80 + n / 64 % 64, 0x80 + n % 64]
  }

  /** `s.encode('utf-8')`. */
  function Utf8Encode(s: string): (r: Bytes)
    ensures |s| <= |r| <= 4 * |s|
  {
    if |s| == 0 then [] else EncodeChar(s[0]) + Utf8Encode(s[1..])
  }

  /** A code point of the scalar range, as a char. */
  predicate IsScalar(n: int) {
    0 <= n < 0xD800 || 0xE000 <= n < 0x11_0000
  }

  /** The first character of `b` and its length in bytes, if `b` starts
      with a well-formed sequence: no overlong forms, no surrogates, nothing
      above U+10FFFF. */
  function DecodeChar(b: Bytes): (r: Option<(char, nat)>)
    ensures r.Some? ==> 1 <= r.value.1 <= |b| && r.value.1 <= 4
  {
    if |b| == 0 then None
    else if b[0] < 0x80 then Some((b[0] as char, 1))
    else if 0xC2 <= b[0] < 0xE0 then
      if |b| >= 2 && IsCont(b[1]) then
        Some((((b[0] as int - 0xC0) * 64 + (b[1] as int - 0x80)) as char, 2))
      else None
    else if 0xE0 <= b[0] < 0xF0 then
      if |b| >= 3 && IsCont(b[1]) && IsCont(b[2]) then
        var n := ((b[0] as int - 0xE0) * 64 + (b[1] as int - 0x80)) * 64 + (b[2] as int - 0x80);
        if 0x800 <= n && IsScalar(n) then Some((n as char, 3)) else None
      else None
    else if 0xF0 <= b[0] < 0xF5 then
      if |b| >= 4 && IsCont(b[1]) && IsCont(b[2]) && IsCont(b[3]) then
        var n := (((b[0] as int - 0xF0) * 64 + (b[1] as int - 0x80)) * 64 + (b[2] as int - 0x80)) * 64 + (b[3] as int - 0x80);
        if 0x1_0000 <= n < 0x11_0000 then Some((n as char, 4)) else None
      else None
    else None
  }

  /** `b.decode('utf-8')`: `None` where Python raises `UnicodeDecodeError`. */
  function Utf8Decode(b: Bytes): Option<string>
    decreases |b|
  {
    if |b| == 0 then Some("")
    else match DecodeChar(b)
      case None => None
      case Some((c, k)) =>
        match Utf8Decode(b[k..])
        case None => None
        case Some(rest) => Some([c] + rest)
  }

  /** Division by 64 undoes `q * 64 + r`. */
  lemma Div64(x: int, q: int, r: int)
    requires 0 <= r < 64 && x == q * 64 + r
    ensures x / 64 == q && x % 64 == r
  {
  }

  /** Decoding the encoding of a character gives it back, whatever
      follows. */
  lemma DecodeEncodeChar(c: char, rest: Bytes)
    ensures DecodeChar(EncodeChar(c) + rest) == Some((c, |EncodeChar(c)|))
  {
    var n := c as int;
    var b := EncodeChar(c) + rest;
    var q1, q2, q3 := n / 64, n / 64 / 64, n / 64 / 64 / 64;
    assert n == q1 * 64 + n % 64;
    assert q1 == q2 * 64 + q1 % 64;
    assert q2 == q3 * 64 + q2 % 64;
    if n < 0x80 {
    } else if n < 0x800 {
      assert b[0] as int - 0xC0 == q1 && b[1] as int - 0x80 == n % 64;
    } else if n < 0x1_0000 {
      assert b[0] as int - 0xE0 == q2 && b[1] as int - 0x80 == q1 % 64 && b[2] as int - 0x80 == n % 64;
    } else {
      assert b[0] as int - 0xF0 == q3 && b[1] as int - 0x80 == q2 % 64;
      assert b[2] as int - 0x80 == q1 % 64 && b[3] as int - 0x80 == n % 64;
    }
  }

  /** Every string survives encoding and decoding. */
  lemma {:induction false} Utf8RoundTrip(s: string)
    ensures Utf8Decode(Utf8Encode(s)) == Some(s)
  {
    if |s| > 0 {
      var e := EncodeChar(s[0]);
      var rest := Utf8Encode(s[1..]);
      DecodeEncodeChar(s[0], rest);
      assert (e + rest)[|e|..] == rest;
      Utf8RoundTrip(s[1..]);
      assert [s[0]] + s[1..] == s;
    }
  }

  /** A decoded character re-encodes to the bytes it came from. */
  lemma EncodeDecodeChar(b: Bytes)
    requires DecodeChar(b).Some?
    ensures EncodeChar(DecodeChar(b).value.0) == b[..DecodeChar(b).value.1]
  {
    var (c, k) := DecodeChar(b).value;
    var n := c as int;
    if b[0] < 0x80 {
    } else if 0xC2 <= b[0] < 0xE0 {
      var x0, x1 := b[0] as int - 0xC0, b[1] as int - 0x80;
      Div64(n, x0, x1);
    } else if 0xE0 <= b[0] < 0xF0 {
      var x0, x1, x2 := b[0] as int - 0xE0, b[1] as int - 0x80, b[2] as int - 0x80;
      Div64(n, x0 * 64 + x1, x2);
      Div64(x0 * 64 + x1, x0, x1);
    } else {
      var x0, x1, x2, x3 := b[0] as int - 0xF0, b[1] as int - 0x80, b[2] as int - 0x80, b[3] as int - 0x80;
      Div64(n, (x0 * 64 + x1) * 64 + x2, x3);
      Div64((x0 * 64 + x1) * 64 + x2, x0 * 64 + x1, x2);
      Div64(x0 * 64 + x1, x0, x1);
    }
  }

  /** Bytes that decode are exactly the encoding of what they decode to. */
  lemma {:induction false} Utf8Canonical(b: Bytes)
    requires Utf8Decode(b).Some?
    ensures Utf8Encode(Utf8Decode(b).value) == b
    decreases |b|
  {
    if |b| > 0 {
      var k := Utf8DecodeSplit(b);
      Utf8Canonical(b[k..]);
      Glue(b, k, Utf8Encode(Utf8Decode(b).value), Utf8Encode(Utf8Decode(b[k..]).value));
    }
  }

  lemma Glue(b: Bytes, k: nat, x: Bytes, y: Bytes)
    requires k <= |b| && x == b[..k] + y && y == b[k..]
    ensures x == b
  {
    assert b == b[..k] + b[k..];
  }

  /** Re-encoding what the bytes decode to gives back the first
      character's bytes, then the re-encoding of what the rest decodes to. */
  lemma Utf8DecodeSplit(b: Bytes) returns (k: nat)
    requires |b| > 0 && Utf8Decode(b).Some?
    ensures 1 <= k <= |b| && Utf8Decode(b[k..]).Some?
    ensures Utf8Encode(Utf8Decode(b).value) == b[..k] + Utf8Encode(Utf8Decode(b[k..]).value)
  {
    var c: char;
    c, k := DecodeChar(b).value.0, DecodeChar(b).value.1;
    Utf8DecodeStep(b);
    EncodeDecodeChar(b);
    Utf8EncodeCons(c, Utf8Decode(b[k..]).value);
  }

  /** Decoding takes the first character, then decodes the rest. */
  lemma Utf8DecodeStep(b: Bytes)
    requires |b| > 0 && Utf8Decode(b).Some?
    ensures DecodeChar(b).Some?
    ensures var k := DecodeChar(b).value.1;
      Utf8Decode(b[k..]).Some? && Utf8Decode(b).value == [DecodeChar(b).value.0] + Utf8Decode(b[k..]).value
  {
  }

  lemma Utf8EncodeCons(c: char, s: string)
    ensures Utf8Encode([c] + s) == EncodeChar(c) + Utf8Encode(s)
  {
    assert ([c] + s)[1..] == s;
  }

  // ---------------------------------------------------------------------
  // Base64

  /** The character of a sextet, from the alphabet
      `A`-`Z`, `a`-`z`, `0`-`9`, `+`, `/`. */
  function Sym(v: int): (c: char)
    requires 0 <= v < 64
  {
    if v < 26 then ('A' as int + v) as char
    else if v < 52 then ('a' as int + v - 26) as char
    else if v < 62 then ('0' as int + v - 52) as char
    else if v == 62 then '+'
    else '/'
  }

  /** The sextet of a character, if it is in the alphabet. */
  function Val(c: char): (r: Option<int>)
    ensures r.Some? ==> 0 <= r.value < 64
    ensures c == '=' ==> r.None?
  {
    if 'A' <= c <= 'Z' then Some(c as int - 'A' as int)
    else if 'a' <= c <= 'z' then Some(c as int - 'a' as int + 26)
    else if '0' <= c <= '9' then Some(c as int - '0' as int + 52)
    else if c == '+' then Some(62)
    else if c == '/' then Some(63)
    else None
  }

  /** A character of the alphabet is the symbol of its sextet. */
  lemma SymVal(c: char)
    requires Val(c).Some?
    ensures Sym(Val(c).value) == c
  {
  }

  /** Every sextet has its own character. */
  lemma ValSym(v: int)
    requires 0 <= v < 64
    ensures Val(Sym(v)) == Some(v)
  {
  }

  /** Up to three bytes (`k` of them) as four characters, `=` standing for
      missing ones. */
  function EncodeGroup(b0: byte, b1: byte, b2: byte, k: nat): (r: string)
    requires 1 <= k <= 3
    ensures |r| == 4
  {
    var s0, s1 := b0 / 4, (b0 % 4) * 16 + b1 / 16;
    var s2, s3 := (b1 % 16) * 4 + b2 / 64, b2 % 64;
    [Sym(s0), Sym(if k == 1 then (b0 % 4) * 16 else s1)]
    + (if k == 1 then ['='] else [Sym(if k == 2 then (b1 % 16) * 4 else s2)])
    + (if k < 3 then ['='] else [Sym(s3)])
  }

  /** `base64.b64encode(b).decode()`. */
  function Base64Encode(b: Bytes): (r: string)
    ensures |r| % 4 == 0
    ensures |b| > 0 ==> |r| > 0
  {
    if |b| == 0 then ""
    else if |b| == 1 then EncodeGroup(b[0], 0, 0, 1)
    else if |b| == 2 then EncodeGroup(b[0], b[1], 0, 2)
    else EncodeGroup(b[0], b[1], b[2], 3) + Base64Encode(b[3..])
  }

  /** Four characters as the bytes they stand for; bits past the last
      byte of a padded group are ignored, as Python ignores them. */
  function DecodeGroup(g: string, last: bool): (r: Option<Bytes>)
    requires |g| == 4
    ensures r.Some? ==> 1 <= |r.value| <= 3
  {
    var v0, v1 := Val(g[0]), Val(g[1]);
    if v0.None? || v1.None? then None
    else
      var x0 := v0.value * 4 + v1.value / 16;
      if last && g[2] == '=' && g[3] == '=' then Some([x0])
      else
        var v2 := Val(g[2]);
        if v2.None? then None
        else
          var x1 := (v1.value % 16) * 16 + v2.value / 4;
          if last && g[3] == '=' then Some([x0, x1])
          else
            var v3 := Val(g[3]);
            if v3.None? then None
            else Some([x0, x1, (v2.value % 4) * 64 + v3.value])
  }

  /** `base64.b64decode(s)`: `None` where Python raises `binascii.Error`,
      and for characters outside the alphabet. */
  function Base64Decode(s: string): Option<Bytes>
    decreases |s|
  {
    if |s| == 0 then Some([])
    else if |s| % 4 != 0 then None
    else
      match DecodeGroup(s[..4], |s| == 4)
      case None => None
      case Some(g) =>
        if |s| > 4 && |g| < 3 then None
        else
          match Base64Decode(s[4..])
          case None => None
          case Some(rest) => Some(g + rest)
  }

  lemma DecodeEncodeGroup(b0: byte, b1: byte, b2: byte, k: nat, last: bool)
    requires 1 <= k <= 3 && (k < 3 ==> last)
    ensures DecodeGroup(EncodeGroup(b0, b1, b2, k), last)
      == Some(if k == 1 then [b0] else if k == 2 then [b0, b1] else [b0, b1, b2])
  {
    if k == 1 {
      DecodeEncodeOne(b0);
    } else if k == 2 {
      DecodeEncodeTwo(b0, b1);
    } else {
      DecodeEncodeThree(b0, b1, b2, last);
    }
  }

  lemma DecodeEncodeOne(b0: byte)
    ensures DecodeGroup(EncodeGroup(b0, 0, 0, 1), true) == Some([b0])
  {
    var g := EncodeGroup(b0, 0, 0, 1);
    ValSym(b0 / 4);
    ValSym((b0 % 4) * 16);
    assert g[2] == '=' && g[3] == '=';
    JoinFirst(b0, 0);
  }

  lemma DecodeEncodeTwo(b0: byte, b1: byte)
    ensures DecodeGroup(EncodeGroup(b0, b1, 0, 2), true) == Some([b0, b1])
  {
    var g := EncodeGroup(b0, b1, 0, 2);
    ValSym(b0 / 4);
    ValSym((b0 % 4) * 16 + b1 / 16);
    ValSym((b1 % 16) * 4);
    assert g[2] != '=' && g[3] == '=';
    JoinFirst(b0, b1);
    JoinSecond(b0, b1, 0);
  }

  lemma DecodeEncodeThree(b0: byte, b1: byte, b2: byte, last: bool)
    ensures DecodeGroup(EncodeGroup(b0, b1, b2, 3), last) == Some([b0, b1, b2])
  {
    var g := EncodeGroup(b0, b1, b2, 3);
    ValSym(b0 / 4);
    ValSym((b0 % 4) * 16 + b1 / 16);
    ValSym((b1 % 16) * 4 + b2 / 64);
    ValSym(b2 % 64);
    assert g[2] != '=' && g[3] != '=';
    JoinFirst(b0, b1);
    JoinSecond(b0, b1, b2);
    JoinThird(b1, b2);
  }

  /** The first byte from the first two sextets. */
  lemma JoinFirst(b0: byte, b1: byte)
    ensures (b0 / 4) * 4 + ((b0 % 4) * 16 + b1 / 16) / 16 == b0
  {
    Div16((b0 % 4) * 16 + b1 / 16, b0 % 4, b1 / 16);
  }

  /** The second byte from the second and third sextets. */
  lemma JoinSecond(b0: byte, b1: byte, b2: byte)
    ensures (((b0 % 4) * 16 + b1 / 16) % 16) * 16 + ((b1 % 16) * 4 + b2 / 64) / 4 == b1
  {
    Div16((b0 % 4) * 16 + b1 / 16, b0 % 4, b1 / 16);
    Div4((b1 % 16) * 4 + b2 / 64, b1 % 16, b2 / 64);
  }

  /** The third byte from the third and fourth sextets. */
  lemma JoinThird(b1: byte, b2: byte)
    ensures (((b1 % 16) * 4 + b2 / 64) % 4) * 64 + b2 % 64 == b2
  {
    Div4((b1 % 16) * 4 + b2 / 64, b1 % 16, b2 / 64);
  }

  lemma Div16(x: int, q: int, r: int)
    requires 0 <= r < 16 && x == q * 16 + r
    ensures x / 16 == q && x % 16 == r
  {
  }

  lemma Div4(x: int, q: int, r: int)
    requires 0 <= r < 4 && x == q * 4 + r
    ensures x / 4 == q && x % 4 == r
  {
  }

  /** Decoding a group followed by more groups. */
  lemma DecodeCons(g: string, rest: string, x: Bytes, y: Bytes)
    requires |g| == 4 && |rest| % 4 == 0
    requires DecodeGroup(g, |rest| == 0) == Some(x) && (|rest| > 0 ==> |x| == 3)
    requires Base64Decode(rest) == Some(y)
    ensures Base64Decode(g + rest) == Some(x + y)
  {
    SplitGroup(g, rest);
  }

  lemma SplitGroup(g: string, rest: string)
    requires |g| == 4 && |rest| % 4 == 0
    ensures |g + rest| % 4 == 0 && |g + rest| != 0 && (|g + rest| == 4 <==> |rest| == 0)
    ensures (g + rest)[..4] == g && (g + rest)[4..] == rest
  {
  }

  /** One or two bytes make one padded group. */
  lemma Base64RoundTripShort(b: Bytes)
    requires 1 <= |b| <= 2
    ensures Base64Decode(Base64Encode(b)) == Some(b)
  {
    var k := |b|;
    var b1: byte := if k == 2 then b[1] else 0;
    var g := EncodeGroup(b[0], b1, 0, k);
    ShortEncode(b);
    DecodeEncodeGroup(b[0], b1, 0, k, true);
    LastGroup(g, b);
  }

  lemma ShortEncode(b: Bytes)
    requires 1 <= |b| <= 2
    ensures Base64Encode(b) == EncodeGroup(b[0], if |b| == 2 then b[1] else 0, 0, |b|)
    ensures b == if |b| == 1 then [b[0]] else [b[0], b[1]]
  {
  }

  /** A last group decodes alone to what it stands for. */
  lemma LastGroup(g: string, x: Bytes)
    requires |g| == 4 && DecodeGroup(g, true) == Some(x)
    ensures Base64Decode(g) == Some(x)
  {
    assert Base64Decode("") == Some([]);
    DecodeCons(g, "", x, []);
    assert g + "" == g && x + [] == x;
  }

  /** A full group in front of groups that decode. */
  lemma DecodeFullGroup(b0: byte, b1: byte, b2: byte, rest: string, y: Bytes)
    requires |rest| % 4 == 0 && Base64Decode(rest) == Some(y)
    ensures Base64Decode(EncodeGroup(b0, b1, b2, 3) + rest) == Some([b0, b1, b2] + y)
  {
    DecodeEncodeGroup(b0, b1, b2, 3, |rest| == 0);
    DecodeCons(EncodeGroup(b0, b1, b2, 3), rest, [b0, b1, b2], y);
  }

  /** Every byte string survives encoding and decoding. */
  lemma {:induction false} Base64RoundTrip(b: Bytes)
    ensures Base64Decode(Base64Encode(b)) == Some(b)
  {
    if 1 <= |b| <= 2 {
      Base64RoundTripShort(b);
    } else if |b| >= 3 {
      Base64RoundTrip(b[3..]);
      DecodeFullGroup(b[0], b[1], b[2], Base64Encode(b[3..]), b[3..]);
      assert b == [b[0], b[1], b[2]] + b[3..];
    }
  }
}

=== FILE: csvstore.dfy ===
/**
  The raw CSV files of the scraper and their county index:
  src/extract/csv_storage.py (`CSVIndexCache`, `upsert_to_csv`) and the
  older `upsert_to_csv` of src/extract/web_scraper.py. A file is what
  pandas reads back, with `county_fips` read as text; the directory is a
  map from path to file.
 */
module CsvStore {
  import opened Wrappers
  import opened Text
  import opened Tables

  datatype CsvFile = Unreadable | Csv(table: Table)

  type Files = map<string, CsvFile>

  /** `CSVIndexCache._indices`: path to the padded county codes it holds. */
  type Index = map<string, set<string>>

  datatype CsvError =
    | ReadFailed          // read_csv raised
    | MissingColumn       // the KeyError of df_master['county_fips']

  const FipsColumn: string := "county_fips"

  // ---------------------------------------------------------------------
  // County codes of rows

  /** `.str.zfill(3)` on one cell: text is padded, a missing value stays. */
  function PadCell(c: Cell): Cell {
    if c.Str? then Str(ZFill(c.s, 3)) else c
  }

  function FipsCell(row: Row): Cell {
    if FipsColumn in row then row[FipsColumn] else Null
  }

  function PadRow(row: Row): Row {
    if FipsColumn in row then row[FipsColumn := PadCell(row[FipsColumn])] else row
  }

  /** The padded code of a row, if its county cell holds text. */
  function CodeOf(row: Row): set<string> {
    if FipsCell(row).Str? then {ZFill(FipsCell(row).s, 3)} else {}
  }

  /** The padded codes of some rows: what `_load_index` collects. */
  function Codes(rows: seq<Row>): (s: set<string>)
    ensures forall c :: c in s ==> |c| >= 3
  {
    if |rows| == 0 then {} else CodeOf(rows[0]) + Codes(rows[1..])
  }

  lemma {:induction false} CodesAppend(a: seq<Row>, b: seq<Row>)
    ensures Codes(a + b) == Codes(a) + Codes(b)
    decreases |a|
  {
    if |a| == 0 {
      assert a + b == b;
    } else {
      assert (a + b)[1..] == a[1..] + b;
      CodesAppend(a[1..], b);
    }
  }

  /** Padding to three is idempotent. */
  lemma PadTwice(s: string)
    ensures ZFill(ZFill(s, 3), 3) == ZFill(s, 3)
  {
  }

  // ---------------------------------------------------------------------
  // CSVIndexCache

  /** `_load_index`: the padded codes of an existing, readable file with a
      county column; the empty set otherwise. */
  function LoadIndex(files: Files, f: string): (s: set<string>)
    ensures s != {} ==> f in files && files[f].Csv? && FipsColumn in files[f].table.columns
    ensures f in files && files[f].Csv? && FipsColumn in files[f].table.columns ==> s == Codes(files[f].table.rows)
  {
    if f in files && files[f].Csv? && FipsColumn in files[f].table.columns then Codes(files[f].table.rows) else {}
  }

  /** `has_county`: the query is padded to three and looked up in the
      file's index, which is loaded on first use and then kept. */
  function HasCounty(files: Files, idx: Index, f: string, county: string): (r: (bool, Index))
    ensures f in idx ==> r.1 == idx
    ensures f !in idx ==> r.1 == idx[f := LoadIndex(files, f)]
    ensures r.0 <==> ZFill(county, 3) in r.1[f]
  {
    var loaded := if f in idx then idx else idx[f := LoadIndex(files, f)];
    (ZFill(county, 3) in loaded[f], loaded)
  }

  /** "1", "01" and "001" are the same county to the index. */
  lemma HasCountyPads(files: Files, idx: Index, f: string, a: string, b: string)
    requires ZFill(a, 3) == ZFill(b, 3)
    ensures HasCounty(files, idx, f, a) == HasCounty(files, idx, f, b)
  {
  }

  lemma HasCountyPadExample(files: Files, idx: Index, f: string, a: string, b: string, c: string)
    requires a == "1" && b == "01" && c == "001"
    requires f in idx && c in idx[f]
    ensures HasCounty(files, idx, f, a).0 && HasCounty(files, idx, f, b).0 && HasCounty(files, idx, f, c).0
  {
    assert Zeros(2) == "00" && Zeros(1) == "0";
    assert ZFill(a, 3) == c && ZFill(b, 3) == c;
  }

  /** `update_index`: load the file's index if needed, then add or
      discard the padded code; other files' entries are untouched. */
  function UpdateIndex(files: Files, idx: Index, f: string, county: string, added: bool): (r: Index)
    ensures r.Keys == idx.Keys + {f}
    ensures forall g :: g in idx && g != f ==> r[g] == idx[g]
    ensures var base := if f in idx then idx[f] else LoadIndex(files, f);
      r[f] == if added then base + {ZFill(county, 3)} else base - {ZFill(county, 3)}
  {
    var base := if f in idx then idx[f] else LoadIndex(files, f);
    idx[f := if added then base + {ZFill(county, 3)} else base - {ZFill(county, 3)}]
  }

  // ---------------------------------------------------------------------
  // Upserts

  /** The prior rows that survive an upsert for `code`: every row whose
      padded county differs, in order, with its county padded and cut to
      `cols`. */
  function Keep(rows: seq<Row>, code: string, cols: seq<string>): (r: seq<Row>)
    ensures |r| <= |rows|
    ensures FipsColumn in cols ==> forall i :: 0 <= i < |r| ==> FipsCell(r[i]) != Str(code)
    ensures forall i :: 0 <= i < |r| ==> r[i].Keys == set c | c in cols
    ensures forall i :: 0 <= i < |r| ==> PadRow(r[i]) == r[i] && Project(r[i], cols) == r[i]
    decreases |rows|
  {
    if |rows| == 0 then []
    else
      var rest := Keep(rows[1..], code, cols);
      if PadCell(FipsCell(rows[0])) == Str(code) then rest
      else
        ProjectPadded(rows[0], cols);
        [Project(PadRow(rows[0]), cols)] + rest
  }

  /** A padded, projected row stays put under both operations. */
  lemma ProjectPadded(row: Row, cols: seq<string>)
    ensures var p := Project(PadRow(row), cols);
      PadRow(p) == p && Project(p, cols) == p
  {
    var p := Project(PadRow(row), cols);
    if FipsColumn in p && FipsColumn in row {
      PadCellTwice(row[FipsColumn]);
    }
    ProjectSelf(p, cols);
  }

  lemma PadCellTwice(c: Cell)
    ensures PadCell(PadCell(c)) == PadCell(c)
  {
    if c.Str? {
      PadTwice(c.s);
    }
  }

  lemma ProjectSelf(row: Row, cols: seq<string>)
    requires row.Keys == set c | c in cols
    ensures Project(row, cols) == row
  {
  }

  /** A row of another county survives, padded and cut to `cols`. */
  lemma {:induction false} KeepKeeps(rows: seq<Row>, code: string, cols: seq<string>, j: nat)
    requires j < |rows| && PadCell(FipsCell(rows[j])) != Str(code)
    ensures Project(PadRow(rows[j]), cols) in Keep(rows, code, cols)
    decreases |rows|
  {
    if j > 0 {
      assert rows[1..][j - 1] == rows[j];
      KeepKeeps(rows[1..], code, cols, j - 1);
    }
  }

  /** Kept rows carry exactly the prior codes but `code`. */
  lemma {:induction false} KeepCodes(rows: seq<Row>, code: string, cols: seq<string>)
    requires FipsColumn in cols && |code| >= 3
    ensures Codes(Keep(rows, code, cols)) == Codes(rows) - {code}
    decreases |rows|
  {
    if |rows| > 0 {
      KeepCodes(rows[1..], code, cols);
      var row := rows[0];
      var rest := Keep(rows[1..], code, cols);
      if PadCell(FipsCell(row)) != Str(code) {
        var p := Project(PadRow(row), cols);
        assert FipsCell(p) == PadCell(FipsCell(row));
        if FipsCell(row).Str? {
          PadTwice(FipsCell(row).s);
        }
        assert CodeOf(p) == CodeOf(row);
        assert code !in CodeOf(row);
        assert ([p] + rest)[1..] == rest;
      } else {
        assert CodeOf(row) == {code};
      }
    }
  }

  /** `upsert_to_csv` of csv_storage: the file's rows for the county are
      replaced by the new table's rows, the other rows kept in order
      before them, the columns are the new table's, and the index (when
      given) records the county. */
  function UpsertCsv(files: Files, df: Table, f: string, county: string, idx: Option<Index>)
    : (r: Result<(Files, Option<Index>), CsvError>)
    requires WellFormed(df)
    ensures r.Success? <==> f !in files || (files[f].Csv? && FipsColumn in files[f].table.columns)
    ensures f in files && files[f].Unreadable? ==> r == Failure(ReadFailed)
    ensures r.Success? ==>
      var (out, idx') := r.value;
      var code := ZFill(county, 3);
      out.Keys == files.Keys + {f}
      && (forall g :: g in files && g != f ==> out[g] == files[g])
      && out[f].Csv? && out[f].table.columns == df.columns
      && |df.rows| <= |out[f].table.rows|
      && out[f].table.rows[|out[f].table.rows| - |df.rows|..] == df.rows
      && (FipsColumn in df.columns ==>
            forall i :: 0 <= i < |out[f].table.rows| - |df.rows| ==> FipsCell(out[f].table.rows[i]) != Str(code))
      && (f !in files ==> out[f].table.rows == df.rows)
      && (idx.Some? <==> idx'.Some?)
      && (idx.Some? ==> f in idx'.value && code in idx'.value[f]
                        && forall g :: g in idx.value && g != f ==> g in idx'.value && idx'.value[g] == idx.value[g])
  {
    var code := ZFill(county, 3);
    if f in files && files[f].Unreadable? then Failure(ReadFailed)
    else if f in files && FipsColumn !in files[f].table.columns then Failure(MissingColumn)
    else
      var prior := if f in files then files[f].table.rows else [];
      var rows := Keep(prior, code, df.columns) + df.rows;
      assert rows[|rows| - |df.rows|..] == df.rows;
      var out := files[f := Csv(Table(df.columns, rows))];
      var idx' := if idx.Some? then Some(UpdateIndex(out, idx.value, f, code, true)) else None;
      PadTwice(county);
      Success((out, idx'))
  }

  /** The index keeps agreeing with the files: if it was right about the
      file before, it is right after an upsert of rows all for the county. */
  lemma UpsertKeepsIndexExact(files: Files, df: Table, f: string, county: string, idx: Index)
    requires WellFormed(df) && FipsColumn in df.columns && |df.rows| > 0
    requires forall i :: 0 <= i < |df.rows| ==> FipsCell(df.rows[i]) == Str(ZFill(county, 3))
    requires f in idx ==> idx[f] == LoadIndex(files, f)
    requires UpsertCsv(files, df, f, county, Some(idx)).Success?
    ensures var (out, idx') := UpsertCsv(files, df, f, county, Some(idx)).value;
      idx'.value[f] == LoadIndex(out, f)
  {
    var code := ZFill(county, 3);
    var (out, idx') := UpsertCsv(files, df, f, county, Some(idx)).value;
    var prior := if f in files then files[f].table.rows else [];
    var kept := Keep(prior, code, df.columns);
    assert out[f].table.rows == kept + df.rows;
    CodesAppend(kept, df.rows);
    KeepCodes(prior, code, df.columns);
    NewCodes(df.rows, code);
    assert LoadIndex(out, f) == (Codes(prior) - {code}) + {code};
    assert LoadIndex(files, f) == Codes(prior);
  }

  lemma {:induction false} NewCodes(rows: seq<Row>, code: string)
    requires |rows| > 0 && |code| >= 3
    requires forall i :: 0 <= i < |rows| ==> FipsCell(rows[i]) == Str(code)
    ensures Codes(rows) == {code}
    decreases |rows|
  {
    if |rows| > 1 {
      NewCodes(rows[1..], code);
    } else {
      assert rows[1..] == [];
    }
  }

  /** Upserting the same rows twice leaves the file as one upsert does. */
  lemma UpsertIdempotent(files: Files, df: Table, f: string, county: string)
    requires WellFormed(df) && FipsColumn in df.columns
    requires forall i :: 0 <= i < |df.rows| ==> FipsCell(df.rows[i]) == Str(ZFill(county, 3))
    requires UpsertCsv(files, df, f, county, None).Success?
    ensures var once := UpsertCsv(files, df, f, county, None).value.0;
      UpsertCsv(once, df, f, county, None).Success?
      && UpsertCsv(once, df, f, county, None).value.0 == once
  {
    var code := ZFill(county, 3);
    PadTwice(county);
    var prior := if f in files then files[f].table.rows else [];
    var kept := Keep(prior, code, df.columns);
    UpsertShape(files, df, f, county);
    var once := UpsertCsv(files, df, f, county, None).value.0;
    UpsertFixed(once, df, f, county, kept);
  }

  lemma UpsertShape(files: Files, df: Table, f: string, county: string)
    requires WellFormed(df)
    requires UpsertCsv(files, df, f, county, None).Success?
    ensures var prior := if f in files then files[f].table.rows else [];
      UpsertCsv(files, df, f, county, None).value.0
      == files[f := Csv(Table(df.columns, Keep(prior, ZFill(county, 3), df.columns) + df.rows))]
  {
  }

  /** A file that already holds kept rows plus the county's rows is left
      as it is by the same upsert. */
  lemma UpsertFixed(once: Files, df: Table, f: string, county: string, kept: seq<Row>)
    requires WellFormed(df) && FipsColumn in df.columns
    requires forall i :: 0 <= i < |df.rows| ==> FipsCell(df.rows[i]) == Str(ZFill(county, 3))
    requires f in once && once[f] == Csv(Table(df.columns, kept + df.rows))
    requires forall i :: 0 <= i < |kept| ==> FipsCell(kept[i]) != Str(ZFill(county, 3))
    requires forall i :: 0 <= i < |kept| ==> PadRow(kept[i]) == kept[i] && Project(kept[i], df.columns) == kept[i]
    ensures UpsertCsv(once, df, f, county, None).Success?
      && UpsertCsv(once, df, f, county, None).value.0 == once
  {
    var code := ZFill(county, 3);
    PadTwice(county);
    KeepAgain(kept, df.rows, code, df.columns);
    UpsertShape(once, df, f, county);
    assert once[f := once[f]] == once;
  }

  /** Upserting into rows already kept for `code` plus rows of `code`
      gives the kept rows back. */
  lemma {:induction false} KeepAgain(kept: seq<Row>, incoming: seq<Row>, code: string, cols: seq<string>)
    requires FipsColumn in cols && |code| >= 3
    requires forall i :: 0 <= i < |kept| ==> FipsCell(kept[i]) != Str(code)
    requires forall i :: 0 <= i < |kept| ==> PadRow(kept[i]) == kept[i] && Project(kept[i], cols) == kept[i]
    requires forall i :: 0 <= i < |incoming| ==> FipsCell(incoming[i]) == Str(code)
    ensures Keep(kept + incoming, code, cols) == kept
    decreases |kept| + |incoming|
  {
    if |kept| > 0 {
      var row := kept[0];
      assert (kept + incoming)[1..] == kept[1..] + incoming;
      KeepAgain(kept[1..], incoming, code, cols);
      assert PadCell(FipsCell(row)) == FipsCell(row) by {
        if FipsColumn in row {
          assert PadRow(row)[FipsColumn] == row[FipsColumn];
        }
      }
      assert kept == [row] + kept[1..];
    } else if |incoming| > 0 {
      assert kept + incoming == incoming;
      assert incoming[1..] == kept + incoming[1..];
      KeepAgain(kept, incoming[1..], code, cols);
      PadTwice(code);
    }
  }

  /** `upsert_to_csv` of web_scraper: the same replacement, but the
      result keeps every column of the prior file too, the new table's
      extra columns after them. */
  function WebUpsert(files: Files, df: Table, f: string, county: string): (r: Result<Files, CsvError>)
    requires WellFormed(df)
    ensures r.Success? <==> f !in files || (files[f].Csv? && FipsColumn in files[f].table.columns)
    ensures r.Success? ==>
      var cols := if f in files then AddNew(files[f].table.columns, df.columns) else df.columns;
      r.value.Keys == files.Keys + {f}
      && (forall g :: g in files && g != f ==> r.value[g] == files[g])
      && r.value[f].Csv? && r.value[f].table.columns == cols
  {
    var code := ZFill(county, 3);
    if f in files && files[f].Unreadable? then Failure(ReadFailed)
    else if f in files && FipsColumn !in files[f].table.columns then Failure(MissingColumn)
    else
      var cols := if f in files then AddNew(files[f].table.columns, df.columns) else df.columns;
      var prior := if f in files then files[f].table.rows else [];
      Success(files[f := Csv(Table(cols, Replaced(prior, code, cols, df.rows)))])
  }

  /** After a successful web upsert the file ends with the new rows, each
      cut down to the file's columns. */
  lemma WebUpsertEndsWithRows(files: Files, df: Table, f: string, county: string)
    requires WellFormed(df) && WebUpsert(files, df, f, county).Success?
    ensures var t := WebUpsert(files, df, f, county).value[f].table;
      |df.rows| <= |t.rows| && t.rows[|t.rows| - |df.rows|..] == ProjectAll(df.rows, t.columns)
  {
  }

  /** The prior rows of other counties, then the new rows cut down to the
      file's columns. */
  function Replaced(prior: seq<Row>, code: string, cols: seq<string>, rows: seq<Row>): (r: seq<Row>)
    ensures |rows| <= |r| && r[|r| - |rows|..] == ProjectAll(rows, cols)
  {
    var kept := Keep(prior, code, cols);
    var incoming := ProjectAll(rows, cols);
    assert (kept + incoming)[|kept|..] == incoming;
    kept + incoming
  }

  /** When the file's columns are the new table's, the two upserts write
      the same file. */
  lemma UpsertsAgree(files: Files, df: Table, f: string, county: string)
    requires WellFormed(df)
    requires f in files && files[f].Csv? ==> files[f].table.columns == df.columns
    ensures WebUpsert(files, df, f, county).Success? <==> UpsertCsv(files, df, f, county, None).Success?
    ensures WebUpsert(files, df, f, county).Success? ==>
      WebUpsert(files, df, f, county).value == UpsertCsv(files, df, f, county, None).value.0
  {
    if WebUpsert(files, df, f, county).Success? {
      var code := ZFill(county, 3);
      var cols := if f in files then AddNew(files[f].table.columns, df.columns) else df.columns;
      AddNewSame(df.columns);
      assert cols == df.columns;
      var prior := if f in files then files[f].table.rows else [];
      var incoming := ProjectAll(df.rows, cols);
      assert incoming == df.rows by {
        forall i | 0 <= i < |df.rows| ensures incoming[i] == df.rows[i] {
          ProjectSelf(df.rows[i], df.columns);
        }
      }
      assert WebUpsert(files, df, f, county).value == files[f := Csv(Table(cols, Keep(prior, code, cols) + incoming))];
      assert UpsertCsv(files, df, f, county, None).value.0 == files[f := Csv(Table(df.columns, Keep(prior, code, df.columns) + df.rows))];
    }
  }

  lemma {:induction false} AddNewSame(cols: seq<string>)
    ensures AddNew(cols, cols) == cols
  {
    AddNewPresent(cols, cols);
  }

  lemma {:induction false} AddNewPresent(cols: seq<string>, ks: seq<string>)
    requires forall k :: k in ks ==> k in cols
    ensures AddNew(cols, ks) == cols
    decreases |ks|
  {
    if |ks| > 0 {
      AddNewPresent(cols, ks[1..]);
    }
  }
}

=== FILE: currency.dfy ===
/**
  Currency cells as `clean_currency_columns` in src/transform/pandas_ops.py
  reads them: every '$' and ',' removed, surrounding whitespace stripped,
  the rest parsed as a number, and anything that does not parse read as 0.

  Numbers are decimals with an optional sign, an integer part and an
  optional fraction after '.', at least one digit in all; they parse to an
  exact rational. Exponents, "inf" and "nan" spellings, which the number
  parser would also accept, are not part of this grammar.
 */
module Currency {
  import opened Wrappers
  import opened Text

  /** Every character of `s` is a digit (the empty string included). */
  predicate AllDigits(s: string) {
    forall i :: 0 <= i < |s| ==> IsDigit(s[i])
  }

  function Pow10(n: nat): (p: nat)
    ensures p >= 1
  {
    if n == 0 then 1 else 10 * Pow10(n - 1)
  }

  /** `str.replace(r"[\$,]", "")`: every '$' and ',' dropped, every other
      character kept in order. */
  function DropMoneyChars(s: string): (r: string)
    ensures |r| <= |s|
    ensures forall i :: 0 <= i < |r| ==> r[i] != '$' && r[i] != ','
    decreases |s|
  {
    if |s| == 0 then ""
    else if s[0] == '$' || s[0] == ',' then DropMoneyChars(s[1..])
    else [s[0]] + DropMoneyChars(s[1..])
  }

  lemma {:induction false} DropMoneyCharsAppend(a: string, b: string)
    ensures DropMoneyChars(a + b) == DropMoneyChars(a) + DropMoneyChars(b)
    decreases |a|
  {
    if |a| > 0 {
      var ab := a + b;
      assert ab[0] == a[0];
      assert ab[1..] == a[1..] + b;
      DropMoneyCharsAppend(a[1..], b);
      if a[0] == '$' || a[0] == ',' {
        assert DropMoneyChars(ab) == DropMoneyChars(ab[1..]);
      } else {
        assert DropMoneyChars(ab) == [a[0]] + DropMoneyChars(ab[1..]);
        assert DropMoneyChars(a) == [a[0]] + DropMoneyChars(a[1..]);
      }
    } else {
      assert a + b == b;
    }
  }

  /** Text without '$' or ',' is left alone. */
  lemma {:induction false} DropMoneyCharsIdentity(s: string)
    requires forall i :: 0 <= i < |s| ==> s[i] != '$' && s[i] != ','
    ensures DropMoneyChars(s) == s
    decreases |s|
  {
    if |s| > 0 {
      DropMoneyCharsIdentity(s[1..]);
    }
  }

  /** The number a decimal literal denotes, or `None` when the text is not
      one. */
  function ParseDecimal(s: string): (r: Option<real>)
    ensures |s| == 0 ==> r.None?
  {
    var body := if |s| > 0 && (s[0] == '-' || s[0] == '+') then s[1..] else s;
    var ip := BeforeChar(body, '.');
    var fp := if |ip| < |body| then body[|ip| + 1..] else "";
    if (|ip| == 0 && |fp| == 0) || !AllDigits(ip) || !AllDigits(fp) then None
    else
      var v := DecimalValue(ip, fp);
      Some(if |s| > 0 && s[0] == '-' then -v else v)
  }

  /** The value of an integer part and a fraction part. */
  function DecimalValue(ip: string, fp: string): real
    requires AllDigits(ip) && AllDigits(fp)
  {
    DigitsValue(ip) as real + DigitsValue(fp) as real / Pow10(|fp|) as real
  }

  /** The cleaned value of a cell's text: the parsed number, or 0 when the
      cleaned text does not parse. */
  function CurrencyValue(s: string): (v: real)
    ensures ParseDecimal(Strip(DropMoneyChars(s))).None? ==> v == 0.0
    ensures ParseDecimal(Strip(DropMoneyChars(s))).Some? ==> v == ParseDecimal(Strip(DropMoneyChars(s))).value
  {
    ParseDecimal(Strip(DropMoneyChars(s))).GetOr(0.0)
  }

  // ---------------------------------------------------------------------
  // Formatted amounts parse back to their value

  /** An amount in whole units with ',' between groups of three digits. */
  function Grouped(n: nat): (s: string)
    ensures |s| > 0 && IsDigit(s[0]) && IsDigit(s[|s| - 1])
    ensures forall i :: 0 <= i < |s| ==> IsDigit(s[i]) || s[i] == ','
    decreases n
  {
    if n < 1000 then NatToString(n)
    else
      var low := ZFill(NatToString(n % 1000), 3);
      var s := Grouped(n / 1000) + "," + low;
      assert forall i :: 0 <= i < |low| ==> s[|s| - |low| + i] == low[i];
      s
  }

  /** A dollar amount in cents as a page shows it: "$1,234.05". */
  function Money(cents: nat): (s: string)
    ensures |s| > 0 && s[0] == '$'
  {
    "$" + Grouped(cents / 100) + "." + ZFill(NatToString(cents % 100), 2)
  }

  lemma {:induction false} DigitsValueAppend(a: string, b: string)
    requires AllDigits(a) && AllDigits(b)
    ensures AllDigits(a + b)
    ensures DigitsValue(a + b) == DigitsValue(a) * Pow10(|b|) + DigitsValue(b)
    decreases |b|
  {
    if |b| > 0 {
      var b' := b[..|b| - 1];
      var ab := a + b;
      assert ab[..|ab| - 1] == a + b';
      assert ab[|ab| - 1] == b[|b| - 1];
      DigitsValueAppend(a, b');
      ShiftDigit(DigitsValue(a), Pow10(|b'|), DigitsValue(b'), DigitVal(b[|b| - 1]));
    } else {
      assert a + b == a;
    }
  }

  lemma ShiftDigit(va: nat, p: nat, vb: nat, last: nat)
    ensures 10 * (va * p + vb) + last == va * (10 * p) + (10 * vb + last)
  {
  }

  /** Dropping the separators of a grouped amount leaves its digits. */
  lemma {:induction false} GroupedDigits(n: nat)
    ensures AllDigits(DropMoneyChars(Grouped(n)))
    ensures |DropMoneyChars(Grouped(n))| > 0
    ensures DigitsValue(DropMoneyChars(Grouped(n))) == n
    decreases n
  {
    if n < 1000 {
      DropMoneyCharsIdentity(NatToString(n));
    } else {
      var low := LowGroup(n % 1000);
      GroupedDigits(n / 1000);
      var high := DropMoneyChars(Grouped(n / 1000));
      GroupedStep(n, high, low);
      DigitsValueAppend(high, low);
      assert DigitsValue(high + low) == (n / 1000) * 1000 + n % 1000;
    }
  }

  /** The three-digit group below the first separator. */
  lemma LowGroup(m: nat) returns (low: string)
    requires m < 1000
    ensures low == ZFill(NatToString(m), 3)
    ensures |low| == 3 && AllDigits(low) && DigitsValue(low) == m
    ensures DropMoneyChars(low) == low
  {
    low := ZFill(NatToString(m), 3);
    ZFillDigits(NatToString(m), 3);
    NatToStringLength(m);
    DropMoneyCharsIdentity(low);
  }

  lemma GroupedStep(n: nat, high: string, low: string)
    requires n >= 1000
    requires high == DropMoneyChars(Grouped(n / 1000))
    requires low == ZFill(NatToString(n % 1000), 3) && DropMoneyChars(low) == low
    ensures DropMoneyChars(Grouped(n)) == high + low
  {
    var g := Grouped(n / 1000);
    assert Grouped(n) == g + "," + low;
    DropMoneyCharsAppend(g + ",", low);
    DropMoneyCharsAppend(g, ",");
    var comma := ",";
    assert DropMoneyChars(comma) == DropMoneyChars(comma[1..]);
    assert comma[1..] == "";
    assert DropMoneyChars(g + ",") == high;
  }

  lemma {:induction false} NatToStringLength(n: nat)
    ensures n < 1000 ==> |NatToString(n)| <= 3
    ensures n < 100 ==> |NatToString(n)| <= 2
    decreases n
  {
    if n >= 10 {
      NatToStringLength(n / 10);
    }
  }

  /** `BeforeChar` stops at the first separator. */
  lemma {:induction false} BeforeCharAt(a: string, c: char, b: string)
    requires c !in a
    ensures BeforeChar(a + [c] + b, c) == a
    decreases |a|
  {
    var s := a + [c] + b;
    if |a| > 0 {
      assert s[0] == a[0];
      assert s[1..] == a[1..] + [c] + b;
      BeforeCharAt(a[1..], c, b);
    }
  }

  lemma {:induction false} BeforeCharNone(s: string, c: char)
    requires c !in s
    ensures BeforeChar(s, c) == s
    decreases |s|
  {
    if |s| > 0 {
      BeforeCharNone(s[1..], c);
    }
  }

  /** A decimal with a fraction parses to its integer part plus its scaled
      fraction. */
  lemma ParseFraction(d: string, t: string)
    requires |d| > 0 && AllDigits(d) && AllDigits(t)
    ensures ParseDecimal(d + "." + t) == Some(DecimalValue(d, t))
  {
    var s := d + "." + t;
    assert '.' !in d by {
      assert forall i :: 0 <= i < |d| ==> d[i] != '.';
    }
    assert s == d + ['.'] + t;
    BeforeCharAt(d, '.', t);
    assert s[0] == d[0];
    assert s[|d| + 1..] == t;
  }

  /** A plain digit string parses to its value. */
  lemma ParseDigits(d: string)
    requires |d| > 0 && AllDigits(d)
    ensures ParseDecimal(d) == Some(DigitsValue(d) as real)
  {
    PlainDigits(d);
    BeforeCharNone(d, '.');
    NoFraction(d);
  }

  lemma PlainDigits(d: string)
    requires |d| > 0 && AllDigits(d)
    ensures d[0] != '-' && d[0] != '+' && '.' !in d
  {
    assert forall i :: 0 <= i < |d| ==> d[i] != '.';
  }

  lemma NoFraction(d: string)
    requires AllDigits(d)
    ensures AllDigits("") && DecimalValue(d, "") == DigitsValue(d) as real
  {
    assert Pow10(0) == 1;
  }

  /** The cleaned text of a formatted amount: the digits, '.', the cents. */
  lemma MoneyCleaned(cents: nat) returns (d: string, t: string)
    ensures |d| > 0 && AllDigits(d) && DigitsValue(d) == cents / 100
    ensures |t| == 2 && AllDigits(t) && DigitsValue(t) == cents % 100
    ensures Strip(DropMoneyChars(Money(cents))) == d + "." + t
  {
    var g := Grouped(cents / 100);
    t := LowCents(cents % 100);
    d := DropMoneyChars(g);
    GroupedDigits(cents / 100);
    DropMoneyCharsAppend("$" + g + ".", t);
    DropMoneyCharsAppend("$" + g, ".");
    DropMoneyCharsAppend("$", g);
    assert DropMoneyChars("$") == "" && DropMoneyChars(".") == ".";
    var cleaned := d + "." + t;
    assert DropMoneyChars(Money(cents)) == cleaned;
    assert !IsSpace(cleaned[0]) && !IsSpace(cleaned[|cleaned| - 1]);
    StripIdentity(cleaned);
  }

  lemma LowCents(m: nat) returns (t: string)
    requires m < 100
    ensures t == ZFill(NatToString(m), 2)
    ensures |t| == 2 && AllDigits(t) && DigitsValue(t) == m
    ensures DropMoneyChars(t) == t
  {
    t := ZFill(NatToString(m), 2);
    ZFillDigits(NatToString(m), 2);
    NatToStringLength(m);
    DropMoneyCharsIdentity(t);
  }

  /** A formatted amount cleans back to exactly its value. */
  lemma MoneyRoundTrip(cents: nat)
    ensures CurrencyValue(Money(cents)) == cents as real / 100.0
  {
    var d, t := MoneyCleaned(cents);
    ParseFraction(d, t);
    assert Pow10(|t|) == 100;
    CentsSplit(cents);
  }

  lemma CentsSplit(cents: nat)
    ensures (cents / 100) as real + (cents % 100) as real / 100 as real == cents as real / 100.0
  {
    var q := cents / 100;
    var m := cents % 100;
    assert cents == q * 100 + m;
    assert cents as real == q as real * 100.0 + m as real;
  }

  /** "$1,234.56" cleans to 1234.56. */
  lemma MoneyExample(c: nat, a: string)
    requires c == 123456 && a == Money(c)
    ensures CurrencyValue(a) == 1234.56
  {
    MoneyRoundTrip(c);
  }

  /** Text that is no number cleans to 0. */
  lemma NotANumberExample(b: string)
    requires b == "N/A"
    ensures CurrencyValue(b) == 0.0
  {
    DropMoneyCharsIdentity(b);
    StripIdentity(b);
    assert '.' !in b;
    BeforeCharNone(b, '.');
    assert !IsDigit(b[0]);
  }
}

=== FILE: families.dfy ===
/**
  The family-configuration table (`FAMILY_CONFIG_MAP`): which household a
  wage or expense column describes. Twelve headers map to an
  (adults, working adults, children) triple.

  The table in src/transform/constants.py is keyed by title-case headers;
  the lookup in src/transform/normalizers.py lowercases before it looks,
  so the model also carries the lowercase form of the same table.
 */
module Families {
  import opened Wrappers
  import opened Text

  datatype Family = Family(adults: int, workingAdults: int, children: int)

  /** The households the record validators accept: one or two adults, at
      least one and at most all of them working, zero to three children. */
  predicate ValidFamily(f: Family) {
    (f.adults == 1 || f.adults == 2)
    && 1 <= f.workingAdults <= f.adults
    && 0 <= f.children <= 3
  }

  /** `FAMILY_CONFIG_MAP` exactly as written, with title-case keys. */
  const ConfigMap: map<string, Family> := map[
    "1 Adult" := Family(1, 1, 0),
    "1 Adult 1 Child" := Family(1, 1, 1),
    "1 Adult 2 Children" := Family(1, 1, 2),
    "1 Adult 3 Children" := Family(1, 1, 3),
    "2 Adults (1 Working)" := Family(2, 1, 0),
    "2 Adults (1 Working) 1 Child" := Family(2, 1, 1),
    "2 Adults (1 Working) 2 Children" := Family(2, 1, 2),
    "2 Adults (1 Working) 3 Children" := Family(2, 1, 3),
    "2 Adults" := Family(2, 2, 0),
    "2 Adults 1 Child" := Family(2, 2, 1),
    "2 Adults 2 Children" := Family(2, 2, 2),
    "2 Adults 3 Children" := Family(2, 2, 3)
  ]

  /** The same table with every key lowercased: the keys a lowercased,
      normalised header can hit. */
  const LookupMap: map<string, Family> := map[
    "1 adult" := Family(1, 1, 0),
    "1 adult 1 child" := Family(1, 1, 1),
    "1 adult 2 children" := Family(1, 1, 2),
    "1 adult 3 children" := Family(1, 1, 3),
    "2 adults (1 working)" := Family(2, 1, 0),
    "2 adults (1 working) 1 child" := Family(2, 1, 1),
    "2 adults (1 working) 2 children" := Family(2, 1, 2),
    "2 adults (1 working) 3 children" := Family(2, 1, 3),
    "2 adults" := Family(2, 2, 0),
    "2 adults 1 child" := Family(2, 2, 1),
    "2 adults 2 children" := Family(2, 2, 2),
    "2 adults 3 children" := Family(2, 2, 3)
  ]

  /** The lowercase header naming a valid household: the independent
      description of the table's keys. */
  function KeyOf(f: Family): (k: string)
    requires ValidFamily(f)
  {
    match (f.adults, f.workingAdults, f.children)
    case (1, _, 0) => "1 adult"
    case (1, _, 1) => "1 adult 1 child"
    case (1, _, 2) => "1 adult 2 children"
    case (1, _, _) => "1 adult 3 children"
    case (_, 1, 0) => "2 adults (1 working)"
    case (_, 1, 1) => "2 adults (1 working) 1 child"
    case (_, 1, 2) => "2 adults (1 working) 2 children"
    case (_, 1, _) => "2 adults (1 working) 3 children"
    case (_, _, 0) => "2 adults"
    case (_, _, 1) => "2 adults 1 child"
    case (_, _, 2) => "2 adults 2 children"
    case (_, _, _) => "2 adults 3 children"
  }

  /** The title-case header naming a valid household. */
  function TitleKeyOf(f: Family): (k: string)
    requires ValidFamily(f)
  {
    match (f.adults, f.workingAdults, f.children)
    case (1, _, 0) => "1 Adult"
    case (1, _, 1) => "1 Adult 1 Child"
    case (1, _, 2) => "1 Adult 2 Children"
    case (1, _, _) => "1 Adult 3 Children"
    case (_, 1, 0) => "2 Adults (1 Working)"
    case (_, 1, 1) => "2 Adults (1 Working) 1 Child"
    case (_, 1, 2) => "2 Adults (1 Working) 2 Children"
    case (_, 1, _) => "2 Adults (1 Working) 3 Children"
    case (_, _, 0) => "2 Adults"
    case (_, _, 1) => "2 Adults 1 Child"
    case (_, _, 2) => "2 Adults 2 Children"
    case (_, _, _) => "2 Adults 3 Children"
  }

  /** The table maps each of its keys to a valid household, and that
      household's header is the key itself. */
  lemma LookupMapKeys()
    ensures forall k :: k in LookupMap ==> ValidFamily(LookupMap[k]) && KeyOf(LookupMap[k]) == k
  {
  }

  /** Every valid household has exactly one entry: the table is a bijection
      between its keys and the valid triples. */
  lemma LookupMapCovers(f: Family)
    requires ValidFamily(f)
    ensures KeyOf(f) in LookupMap && LookupMap[KeyOf(f)] == f
  {
  }

  lemma LookupMapValues()
    ensures forall f :: f in LookupMap.Values <==> ValidFamily(f)
  {
    LookupMapKeys();
    forall f | ValidFamily(f) ensures f in LookupMap.Values {
      LookupMapCovers(f);
    }
  }

  /** No two keys share a household. */
  lemma LookupMapInjective()
    ensures forall k1, k2 :: k1 in LookupMap && k2 in LookupMap && LookupMap[k1] == LookupMap[k2] ==> k1 == k2
  {
    LookupMapKeys();
  }

  /** Exactly twelve entries: one per valid household. */
  lemma LookupMapSize()
    ensures |LookupMap| == 12
  {
  }

  lemma ConfigMapKeys()
    ensures forall k :: k in ConfigMap ==> ValidFamily(ConfigMap[k]) && TitleKeyOf(ConfigMap[k]) == k
  {
  }

  lemma ConfigMapCovers(f: Family)
    requires ValidFamily(f)
    ensures TitleKeyOf(f) in ConfigMap && ConfigMap[TitleKeyOf(f)] == f
  {
  }

  lemma ConfigMapSize()
    ensures |ConfigMap| == 12
  {
  }

  // ---------------------------------------------------------------------
  // Headers as "adults part" followed by "children part"

  function AdultsPart(f: Family): string {
    if f.adults == 1 then "1 adult"
    else if f.workingAdults == 1 then "2 adults (1 working)"
    else "2 adults"
  }

  function ChildrenWord(f: Family): string {
    if f.children == 1 then "1 child"
    else if f.children == 2 then "2 children"
    else "3 children"
  }

  function ChildrenPart(f: Family): string {
    if f.children == 0 then "" else " " + ChildrenWord(f)
  }

  function TitleAdultsPart(f: Family): string {
    if f.adults == 1 then "1 Adult"
    else if f.workingAdults == 1 then "2 Adults (1 Working)"
    else "2 Adults"
  }

  function TitleChildrenWord(f: Family): string {
    if f.children == 1 then "1 Child"
    else if f.children == 2 then "2 Children"
    else "3 Children"
  }

  function TitleChildrenPart(f: Family): string {
    if f.children == 0 then "" else " " + TitleChildrenWord(f)
  }

  /** Every header names the adults first and then, unless there are none,
      the children. */
  lemma KeyOfParts(f: Family)
    requires ValidFamily(f)
    ensures KeyOf(f) == AdultsPart(f) + ChildrenPart(f)
    ensures TitleKeyOf(f) == TitleAdultsPart(f) + TitleChildrenPart(f)
  {
    if f.adults == 1 {
      OneAdultParts(f);
      OneAdultTitleParts(f);
    } else if f.workingAdults == 1 {
      OneWorkingParts(f);
      OneWorkingTitleParts(f);
    } else {
      BothWorkingParts(f);
      BothWorkingTitleParts(f);
    }
  }

  lemma OneAdultParts(f: Family)
    requires ValidFamily(f) && f.adults == 1
    ensures KeyOf(f) == AdultsPart(f) + ChildrenPart(f)
  {
  }

  lemma OneAdultTitleParts(f: Family)
    requires ValidFamily(f) && f.adults == 1
    ensures TitleKeyOf(f) == TitleAdultsPart(f) + TitleChildrenPart(f)
  {
  }

  lemma OneWorkingParts(f: Family)
    requires ValidFamily(f) && f.adults == 2 && f.workingAdults == 1
    ensures KeyOf(f) == AdultsPart(f) + ChildrenPart(f)
  {
  }

  lemma OneWorkingTitleParts(f: Family)
    requires ValidFamily(f) && f.adults == 2 && f.workingAdults == 1
    ensures TitleKeyOf(f) == TitleAdultsPart(f) + TitleChildrenPart(f)
  {
  }

  lemma BothWorkingParts(f: Family)
    requires ValidFamily(f) && f.adults == 2 && f.workingAdults == 2
    ensures KeyOf(f) == AdultsPart(f) + ChildrenPart(f)
  {
  }

  lemma BothWorkingTitleParts(f: Family)
    requires ValidFamily(f) && f.adults == 2 && f.workingAdults == 2
    ensures TitleKeyOf(f) == TitleAdultsPart(f) + TitleChildrenPart(f)
  {
  }

  /** The lowercase table is the title-case table with lowercased keys:
      lowercasing a title-case header gives the lookup header of the same
      household. */
  lemma LookupMapIsLowered(f: Family)
    requires ValidFamily(f)
    ensures Lower(TitleKeyOf(f)) == KeyOf(f)
    ensures Lower(TitleKeyOf(f)) in LookupMap && LookupMap[Lower(TitleKeyOf(f))] == ConfigMap[TitleKeyOf(f)]
  {
    KeyOfParts(f);
    LowerAdultsPart(f);
    LowerChildrenPart(f);
    LowerAppend(TitleAdultsPart(f), TitleChildrenPart(f));
    LookupMapCovers(f);
    ConfigMapCovers(f);
  }

  lemma LowerAdultsPart(f: Family)
    ensures Lower(TitleAdultsPart(f)) == AdultsPart(f)
  {
  }

  lemma LowerChildrenPart(f: Family)
    ensures Lower(TitleChildrenPart(f)) == ChildrenPart(f)
  {
  }
}

=== FILE: frames.dfy ===
/**
  The table operations of src/transform/pandas_ops.py: building a table
  from scraped row dicts, the wide-to-long melt, the family and category
  columns, currency cleaning, the row-to-record partition, and the two
  normalisers that chain them for wage and expense tables.
 */
module Frames {
  import opened Wrappers
  import opened Text
  import opened Families
  import opened Normalizers
  import opened Records
  import opened Currency
  import opened Tables

  // ---------------------------------------------------------------------
  // table_to_dataframe

  /** `table_to_dataframe`: the dicts as a table, with a present
      `county_fips` column zero-padded to width 3. */
  function TableToDataframe(data: seq<Dict>): (t: Table)
    ensures |data| == 0 ==> t == Table([], [])
    ensures WellFormed(t) && |t.rows| == |data| && t.columns == ColumnsOf(data)
    ensures "county_fips" in t.columns <==> HasKey(data, "county_fips")
    ensures forall i :: 0 <= i < |data| && "county_fips" in t.columns ==>
      t.rows[i]["county_fips"] == Str(ZFill(CellStr(Get(data[i], "county_fips")), 3))
    ensures forall i, c :: 0 <= i < |data| && c in t.columns && c != "county_fips" ==>
      t.rows[i][c] == Get(data[i], c)
  {
    var df := FromDicts(data);
    if |data| == 0 then Table([], [])
    else if "county_fips" in df.columns then PadColumn(df, "county_fips", 3)
    else df
  }

  /** `df[c].astype(str).str.zfill(w)`. */
  function PadColumn(t: Table, c: string, w: nat): (r: Table)
    requires WellFormed(t) && c in t.columns
    ensures WellFormed(r) && r.columns == t.columns && |r.rows| == |t.rows|
    ensures forall i :: 0 <= i < |t.rows| ==> r.rows[i][c] == Str(ZFill(CellStr(t.rows[i][c]), w))
    ensures forall i, d :: 0 <= i < |t.rows| && d in t.columns && d != c ==> r.rows[i][d] == t.rows[i][d]
  {
    var rows := seq(|t.rows|, i requires 0 <= i < |t.rows| => t.rows[i][c := Str(ZFill(CellStr(t.rows[i][c]), w))]);
    assert forall i :: 0 <= i < |t.rows| ==> rows[i] == t.rows[i][c := Str(ZFill(CellStr(t.rows[i][c]), w))];
    Table(t.columns, rows)
  }

  /** A county code of at most three digits comes out as exactly three
      digits with the same value: "1" becomes "001". An integer cell is
      printed first. */
  lemma TableToDataframePadsFips(data: seq<Dict>, i: nat)
    requires i < |data| && HasKey(data, "county_fips")
    requires Get(data[i], "county_fips").Str? || Get(data[i], "county_fips").Int?
    requires var s := CellStr(Get(data[i], "county_fips")); IsDigits(s) && |s| <= 3
    ensures var t := TableToDataframe(data);
      t.rows[i]["county_fips"].Str?
      && var z := t.rows[i]["county_fips"].s;
      var s := CellStr(Get(data[i], "county_fips"));
      |z| == 3 && IsDigits(z) && DigitsValue(z) == DigitsValue(s)
  {
    ZFillDigits(CellStr(Get(data[i], "county_fips")), 3);
  }

  // ---------------------------------------------------------------------
  // _melt_family_configs

  /** A melted column: its lowercase name is neither "category" nor
      "county_fips". */
  predicate IsValueVar(c: string) {
    Lower(c) != "category" && Lower(c) != "county_fips"
  }

  function ValueVars(cols: seq<string>): (vs: seq<string>)
    ensures forall c :: c in vs <==> c in cols && IsValueVar(c)
    ensures Distinct(cols) ==> Distinct(vs)
    ensures |vs| <= |cols|
  {
    if |cols| == 0 then []
    else
      var rest := ValueVars(cols[1..]);
      assert forall c :: c in cols <==> c == cols[0] || c in cols[1..];
      assert Distinct(cols) ==> Distinct(cols[1..]) && cols[0] !in cols[1..];
      if IsValueVar(cols[0]) then [cols[0]] + rest else rest
  }

  /** One long row: the category, the melted column's name and its cell. */
  function MeltRow(row: Row, v: string): (r: Row)
    requires "category" in row && v in row
    ensures r.Keys == {"category", "family", "value"}
  {
    map["category" := row["category"], "family" := Str(v), "value" := row[v]]
  }

  /** Every row has "category" and every column to melt. */
  predicate MeltReady(rows: seq<Row>, vars: seq<string>) {
    forall i :: 0 <= i < |rows| ==> "category" in rows[i] && forall v :: v in vars ==> v in rows[i]
  }

  /** All rows for the first melted column, then all for the next, and so
      on (`DataFrame.melt` order). */
  function MeltRows(rows: seq<Row>, vars: seq<string>): (r: seq<Row>)
    requires MeltReady(rows, vars)
    ensures |r| == |vars| * |rows|
    decreases |vars|
  {
    if |vars| == 0 then []
    else
      var first := seq(|rows|, i requires 0 <= i < |rows| => MeltRow(rows[i], vars[0]));
      first + MeltRows(rows, vars[1..])
  }

  /** Position of input row `i` under the `j`-th melted column, `n`
      input rows. */
  function Flat(j: nat, i: nat, n: nat): nat {
    j * n + i
  }

  lemma {:induction false} MeltRowsAt(rows: seq<Row>, vars: seq<string>, j: nat, i: nat)
    requires MeltReady(rows, vars)
    requires j < |vars| && i < |rows|
    ensures Flat(j, i, |rows|) < |MeltRows(rows, vars)|
    ensures MeltRows(rows, vars)[Flat(j, i, |rows|)] == MeltRow(rows[i], vars[j])
    decreases j
  {
    var n := |rows|;
    assert Flat(j, i, n) == j * n + i;
    var rest := MeltRows(rows, vars[1..]);
    assert MeltRows(rows, vars)[n..] == rest;
    if j > 0 {
      MeltRowsAt(rows, vars[1..], j - 1, i);
      assert j * n + i == n + ((j - 1) * n + i);
    }
  }

  /** `str` of pandas' `KeyError` for the missing id column: the repr of
      its message, which holds single quotes and so is wrapped in double
      quotes. */
  const MissingCategory := "\"The following id_vars or value_vars are not present in the DataFrame: ['category']\""

  /** `_melt_family_configs`: wide to long on "category". */
  function Melt(t: Table): (r: Result<Table, string>)
    requires WellFormed(t)
    ensures r.Success? <==> "category" in t.columns
    ensures r.Failure? ==> r.error == MissingCategory
    ensures r.Success? ==>
      WellFormed(r.value)
      && r.value.columns == ["category", "family", "value"]
      && r.value.rows == MeltRows(t.rows, ValueVars(t.columns))
      && |r.value.rows| == |ValueVars(t.columns)| * |t.rows|
  {
    if "category" !in t.columns then Failure(MissingCategory)
    else
      var vars := ValueVars(t.columns);
      var rows := MeltRows(t.rows, vars);
      assert forall k :: 0 <= k < |rows| ==> rows[k].Keys == {"category", "family", "value"} by {
        MeltRowsKeys(t.rows, vars);
      }
      var r := Table(["category", "family", "value"], rows);
      assert (set c | c in r.columns) == {"category", "family", "value"};
      Success(r)
  }

  lemma {:induction false} MeltRowsKeys(rows: seq<Row>, vars: seq<string>)
    requires MeltReady(rows, vars)
    ensures forall k :: 0 <= k < |MeltRows(rows, vars)| ==> MeltRows(rows, vars)[k].Keys == {"category", "family", "value"}
    decreases |vars|
  {
    if |vars| > 0 {
      MeltRowsKeys(rows, vars[1..]);
    }
  }

  // ---------------------------------------------------------------------
  // add_family_config_columns

  /** `fillna("").astype(str)` of a header cell. */
  function HeaderText(c: Cell): string {
    if c.Null? then "" else CellStr(c)
  }

  /** The household a family cell names, after normalising it and letting
      the lookup normalise it again. */
  function FamilyOf(c: Cell): (m: Option<Family>)
    ensures m.Some? ==> ValidFamily(m.value)
  {
    FamilyConfig(NormalizeHeader(HeaderText(c)))
  }

  const FamilyColumns: seq<string> := ["adults", "working_adults", "children"]

  function WithFamily(row: Row, m: Option<Family>): (r: Row)
    ensures r.Keys == row.Keys + {"adults", "working_adults", "children"}
    ensures m.Some? ==> r["adults"] == Int(m.value.adults) && r["working_adults"] == Int(m.value.workingAdults) && r["children"] == Int(m.value.children)
    ensures m.None? ==> r["adults"] == Null && r["working_adults"] == Null && r["children"] == Null
    ensures forall c :: c in row && c !in FamilyColumns ==> r[c] == row[c]
  {
    match m
    case Some(f) => row["adults" := Int(f.adults)]["working_adults" := Int(f.workingAdults)]["children" := Int(f.children)]
    case None => row["adults" := Null]["working_adults" := Null]["children" := Null]
  }

  /** `add_family_config_columns`: the adults, working-adults and children
      of the household each row's `src` cell names, all `Null` when it
      names none. */
  function AddFamilyConfigColumns(t: Table, src: string): (r: Table)
    requires WellFormed(t) && src in t.columns
    ensures WellFormed(r) && |r.rows| == |t.rows|
    ensures r.columns == AddNew(t.columns, FamilyColumns)
    ensures forall i :: 0 <= i < |t.rows| ==> r.rows[i] == WithFamily(t.rows[i], FamilyOf(t.rows[i][src]))
  {
    AddFamilies(t, src, FamilyOf)
  }

  /** The family columns derived from `src` by any lookup `fam`. */
  function AddFamilies(t: Table, src: string, fam: Cell -> Option<Family>): (r: Table)
    requires WellFormed(t) && src in t.columns
    ensures WellFormed(r) && |r.rows| == |t.rows|
    ensures r.columns == AddNew(t.columns, FamilyColumns)
    ensures forall i :: 0 <= i < |t.rows| ==> r.rows[i] == WithFamily(t.rows[i], fam(t.rows[i][src]))
  {
    var rows := seq(|t.rows|, i requires 0 <= i < |t.rows| => WithFamily(t.rows[i], fam(t.rows[i][src])));
    assert forall i :: 0 <= i < |rows| ==> rows[i] == WithFamily(t.rows[i], fam(t.rows[i][src]));
    FamilyColumnsSet();
    Widen(t, FamilyColumns, rows)
  }

  /** `t` with its rows replaced by `rows`, each of which gained exactly
      the `added` columns: the added names are appended to the columns. */
  function Widen(t: Table, added: seq<string>, rows: seq<Row>): (r: Table)
    requires WellFormed(t) && |rows| == |t.rows|
    requires forall i :: 0 <= i < |rows| ==> rows[i].Keys == t.rows[i].Keys + set c | c in added
    ensures WellFormed(r) && r.columns == AddNew(t.columns, added) && r.rows == rows
  {
    var cols := AddNew(t.columns, added);
    assert (set c | c in cols) == (set c | c in t.columns) + (set c | c in added);
    Table(cols, rows)
  }

  lemma FamilyColumnsSet()
    ensures (set c | c in FamilyColumns) == {"adults", "working_adults", "children"}
  {
  }

  /** A header naming a household in any case or spacing the normaliser
      undoes finds it again after the second normalisation: the family
      columns are exactly the table entry. */
  lemma FamilyOfHeader(h: string)
    requires FamilyConfig(h).Some?
    ensures FamilyOf(Str(h)) == FamilyConfig(h)
  {
    var f := FamilyConfig(h).value;
    FamilyConfigOfKey(f);
  }

  // ---------------------------------------------------------------------
  // normalize_category_column

  /** The category value of a cell: the key's lookup, or the key itself
      when the lookup is empty. */
  function CategoryCell(c: Cell): Cell {
    var key := NormalizeCategoryKey(CellStr(c));
    var v := LookupCategoryValue(key);
    Str(if v == "" then key else v)
  }

  /** Normalising the key first and falling back to it change nothing: the
      column holds the lookup of the cell's text. */
  lemma CategoryCellIsLookup(c: Cell)
    ensures CategoryCell(c) == Str(LookupCategoryValue(CellStr(c)))
  {
    var x := CellStr(c);
    var key := NormalizeCategoryKey(x);
    NormalizeCategoryKeyIdempotent(x);
    LookupCategoryValueCases(key);
    LookupCategoryValueCases(x);
    if key in CategoryMap {
      CategoryMapValues();
      CategoryValuesNonEmpty();
    }
  }

  lemma CategoryValuesNonEmpty()
    ensures "" !in CategoryValues
  {
  }

  /** `normalize_category_column`: `target` holds each row's category
      value. */
  function NormalizeCategoryColumn(t: Table, src: string, target: string): (r: Table)
    requires WellFormed(t) && src in t.columns
    ensures WellFormed(r) && |r.rows| == |t.rows|
    ensures r.columns == AddNew(t.columns, [target])
    ensures forall i :: 0 <= i < |t.rows| ==> r.rows[i] == t.rows[i][target := CategoryCell(t.rows[i][src])]
  {
    Derive(t, src, target, CategoryCell)
  }

  /** Column `target` computed by `f` from column `src`. */
  function Derive(t: Table, src: string, target: string, f: Cell -> Cell): (r: Table)
    requires WellFormed(t) && src in t.columns
    ensures WellFormed(r) && |r.rows| == |t.rows|
    ensures r.columns == AddNew(t.columns, [target])
    ensures forall i :: 0 <= i < |t.rows| ==> r.rows[i] == t.rows[i][target := f(t.rows[i][src])]
  {
    var rows := seq(|t.rows|, i requires 0 <= i < |t.rows| => t.rows[i][target := f(t.rows[i][src])]);
    assert forall i :: 0 <= i < |rows| ==> rows[i] == t.rows[i][target := f(t.rows[i][src])];
    assert (set c | c in [target]) == {target};
    Widen(t, [target], rows)
  }

  // ---------------------------------------------------------------------
  // clean_currency_columns

  /** `pd.to_numeric(clean(str(x)), errors="coerce").fillna(0)` of one
      cell. A float cell keeps its value. */
  function CellAmount(c: Cell): real {
    match c
    case Num(x) => x
    case _ => CurrencyValue(CellStr(c))
  }

  /** `clean_currency_columns`: the listed columns hold numbers, everything
      else is as it was. */
  function CleanCurrencyColumns(t: Table, cols: seq<string>): (r: Table)
    requires WellFormed(t) && forall c :: c in cols ==> c in t.columns
    ensures WellFormed(r) && r.columns == t.columns && |r.rows| == |t.rows|
    ensures forall i, c :: 0 <= i < |t.rows| && c in cols ==> r.rows[i][c] == Num(CellAmount(t.rows[i][c]))
    ensures forall i, c :: 0 <= i < |t.rows| && c in t.columns && c !in cols ==> r.rows[i][c] == t.rows[i][c]
  {
    ToNumbers(t, cols, CellAmount)
  }

  /** The listed columns converted cell by cell by `amount`. */
  function ToNumbers(t: Table, cols: seq<string>, amount: Cell -> real): (r: Table)
    requires WellFormed(t)
    ensures WellFormed(r) && r.columns == t.columns && |r.rows| == |t.rows|
    ensures forall i, c :: 0 <= i < |t.rows| && c in cols && c in t.columns ==> r.rows[i][c] == Num(amount(t.rows[i][c]))
    ensures forall i, c :: 0 <= i < |t.rows| && c in t.columns && c !in cols ==> r.rows[i][c] == t.rows[i][c]
  {
    var rows := seq(|t.rows|, i requires 0 <= i < |t.rows| => CleanRow(t.rows[i], cols, amount));
    Table(t.columns, rows)
  }

  function CleanRow(row: Row, cols: seq<string>, amount: Cell -> real): (r: Row)
    ensures r.Keys == row.Keys
    ensures forall c :: c in row ==> r[c] == if c in cols then Num(amount(row[c])) else row[c]
  {
    map c | c in row :: if c in cols then Num(amount(row[c])) else row[c]
  }

  /** A whole-number cell keeps its value. */
  lemma IntAmount(n: nat)
    ensures CellAmount(Int(n)) == n as real
  {
    var s := NatToString(n);
    DropMoneyCharsIdentity(s);
    StripIdentity(s);
    ParseDigits(s);
  }

  /** A formatted dollar amount becomes its value. */
  lemma MoneyAmount(cents: nat)
    ensures CellAmount(Str(Money(cents))) == cents as real / 100.0
  {
    MoneyRoundTrip(cents);
  }

  /** A missing cell becomes 0. */
  lemma NullAmount()
    ensures CellAmount(Null) == 0.0
  {
    NoneAmount("None");
  }

  lemma NoneAmount(s: string)
    requires s == "None"
    ensures CurrencyValue(s) == 0.0
  {
    DropMoneyCharsIdentity(s);
    StripIdentity(s);
    assert '.' !in s;
    BeforeCharNone(s, '.');
    assert !IsDigit(s[0]);
  }

  // ---------------------------------------------------------------------
  // The column names `normalize_wages` and `normalize_expenses` lower

  const DuplicateCategory := "columns 'Category' and 'category' both present"

  /** `df.columns = [c.lower() if c in ['Category', 'county_fips'] ...]`:
      "Category" becomes "category" ("county_fips" is already lower case).
      A table holding both spellings would get two "category" columns,
      which the model reports as a failure. */
  function LowerSpecialColumns(t: Table): (r: Result<Table, string>)
    requires WellFormed(t)
    ensures r.Failure? <==> "Category" in t.columns && "category" in t.columns
    ensures r.Failure? ==> r.error == DuplicateCategory
    ensures r.Success? ==> WellFormed(r.value) && |r.value.rows| == |t.rows| && |r.value.columns| == |t.columns|
    ensures r.Success? ==> "Category" !in r.value.columns
    ensures r.Success? ==> ("category" in r.value.columns <==> "Category" in t.columns || "category" in t.columns)
    ensures r.Success? ==> forall c :: c in t.columns && c != "Category" ==> c in r.value.columns
    ensures r.Success? ==> forall i, c :: 0 <= i < |t.rows| && c in t.columns && c != "Category" ==>
      r.value.rows[i][c] == t.rows[i][c]
    ensures r.Success? && "Category" in t.columns ==> forall i :: 0 <= i < |t.rows| ==>
      r.value.rows[i]["category"] == t.rows[i]["Category"]
  {
    if "Category" in t.columns && "category" in t.columns then Failure(DuplicateCategory)
    else
      var u := Rename(t, "Category", "category");
      assert forall c :: c in u.columns <==> (c in t.columns && c != "Category") || (c == "category" && "Category" in t.columns) by {
        forall c ensures c in u.columns <==> (c in t.columns && c != "Category") || (c == "category" && "Category" in t.columns) {
          if c in u.columns {
            var k :| 0 <= k < |u.columns| && u.columns[k] == c;
          }
          if c in t.columns {
            var k :| 0 <= k < |t.columns| && t.columns[k] == c;
            assert u.columns[k] == if c == "Category" then "category" else c;
          }
        }
      }
      Success(u)
  }

  // ---------------------------------------------------------------------
  // The full county code

  /** `str(state_fips).zfill(2) + str(county_fips).zfill(3)`. */
  function FullFips(state: string, county: string): string {
    ZFill(state, 2) + ZFill(county, 3)
  }

  /** A state code of at most two digits and a county code of at most
      three make a code the record validator accepts unchanged, whose
      value is the state's times 1000 plus the county's. */
  lemma FullFipsValid(state: string, county: string)
    requires IsDigits(state) && |state| <= 2
    requires IsDigits(county) && |county| <= 3
    ensures var f := FullFips(state, county);
      |f| == 5 && IsDigits(f) && ValidateCountyFips(f) == Success(f)
      && DigitsValue(f) == 1000 * DigitsValue(state) + DigitsValue(county)
  {
    var a := ZFill(state, 2);
    var b := ZFill(county, 3);
    ZFillDigits(state, 2);
    ZFillDigits(county, 3);
    DigitsValueAppend(a, b);
    var f := a + b;
    assert ZFill(f, 5) == f;
  }

  // ---------------------------------------------------------------------
  // dataframe_to_models

  /** Which of the two normalisers: the category and amount columns differ. */
  datatype Kind = Wages | Expenses

  function KindColumn(k: Kind): string {
    match k
    case Wages => "wage_type"
    case Expenses => "expense_category"
  }

  function AmountColumn(k: Kind): string {
    match k
    case Wages => "hourly_wage"
    case Expenses => "annual_amount"
  }

  /** A text field: a text cell, else absent. */
  function TextField(row: Row, key: string): Option<string> {
    if key in row && row[key].Str? then Some(row[key].s) else None
  }

  /** An `int` field: an integer cell or a whole float; anything else,
      `None` and NaN included, does not validate. */
  function IntField(row: Row, key: string): Option<int> {
    if key !in row then None
    else match row[key]
      case Int(i) => Some(i)
      case Num(x) => if x == x.Floor as real then Some(x.Floor) else None
      case _ => None
  }

  function DateField(row: Row, key: string): Option<int> {
    if key in row && row[key].Date? then Some(row[key].day) else None
  }

  /** A `float` field: a float or an integer cell. */
  function RealField(row: Row, key: string): Option<real> {
    if key !in row then None
    else match row[key]
      case Num(x) => Some(x)
      case Int(i) => Some(i as real)
      case _ => None
  }

  /** `row.to_dict()` as keyword arguments: the fields the record reads;
      other keys are ignored. */
  function RowToRaw(row: Row, k: Kind): RawRecord {
    RawRecord(
      TextField(row, "county_fips"), DateField(row, "page_updated_at"),
      IntField(row, "adults"), IntField(row, "working_adults"), IntField(row, "children"),
      TextField(row, KindColumn(k)), RealField(row, AmountColumn(k)))
  }

  /** `{"row_index": index, "errors": e.errors()}`. */
  datatype RowError = RowError(rowIndex: nat, errors: seq<FieldError>)

  /** What validating each row gives. */
  function Outcomes<M>(rows: seq<Row>, k: Kind, build: RawRecord -> Result<M, seq<FieldError>>): (os: seq<Result<M, seq<FieldError>>>)
    ensures |os| == |rows|
    ensures forall i :: 0 <= i < |rows| ==> os[i] == build(RowToRaw(rows[i], k))
  {
    seq(|rows|, i requires 0 <= i < |rows| => build(RowToRaw(rows[i], k)))
  }

  /** The records of the rows that validated, in row order. */
  function Accepted<M, E>(os: seq<Result<M, E>>): seq<M>
    decreases |os|
  {
    if |os| == 0 then []
    else
      var last := os[|os| - 1];
      Accepted(os[..|os| - 1]) + if last.Success? then [last.value] else []
  }

  /** The rows that did not validate, with their position and errors. */
  function Rejected<M>(os: seq<Result<M, seq<FieldError>>>): seq<RowError>
    decreases |os|
  {
    if |os| == 0 then []
    else
      var last := os[|os| - 1];
      Rejected(os[..|os| - 1]) + if last.Failure? then [RowError(|os| - 1, last.error)] else []
  }

  /** `dataframe_to_models`: one record per row that validates, one error
      entry per row that does not. */
  method DataframeToModels<M>(rows: seq<Row>, k: Kind, build: RawRecord -> Result<M, seq<FieldError>>)
    returns (models: seq<M>, errors: seq<RowError>)
    ensures models == Accepted(Outcomes(rows, k, build))
    ensures errors == Rejected(Outcomes(rows, k, build))
  {
    ghost var os := Outcomes(rows, k, build);
    models, errors := [], [];
    var i := 0;
    while i < |rows|
      invariant 0 <= i <= |rows|
      invariant models == Accepted(os[..i])
      invariant errors == Rejected(os[..i])
    {
      var o := build(RowToRaw(rows[i], k));
      OutcomeStep(os, i);
      match o {
        case Success(m) => models := models + [m];
        case Failure(e) => errors := errors + [RowError(i, e)];
      }
      i := i + 1;
    }
    assert os[..|rows|] == os;
  }

  /** One more outcome adds its record or its error entry at the end. */
  lemma OutcomeStep<M>(os: seq<Result<M, seq<FieldError>>>, i: nat)
    requires i < |os|
    ensures Accepted(os[..i + 1]) == Accepted(os[..i]) + if os[i].Success? then [os[i].value] else []
    ensures Rejected(os[..i + 1]) == Rejected(os[..i]) + if os[i].Failure? then [RowError(i, os[i].error)] else []
  {
    assert os[..i + 1][..i] == os[..i];
  }

  /** Every row lands on exactly one side. */
  lemma {:induction false} PartitionCount<M>(os: seq<Result<M, seq<FieldError>>>)
    ensures |Accepted(os)| + |Rejected(os)| == |os|
    decreases |os|
  {
    if |os| > 0 {
      PartitionCount(os[..|os| - 1]);
    }
  }

  /** An error entry names a row that failed, with that row's errors, and
      the entries are in increasing row order. */
  lemma {:induction false} RejectedSound<M>(os: seq<Result<M, seq<FieldError>>>)
    ensures forall e :: 0 <= e < |Rejected(os)| ==>
      Rejected(os)[e].rowIndex < |os| && os[Rejected(os)[e].rowIndex] == Failure(Rejected(os)[e].errors)
    ensures forall a, b :: 0 <= a < b < |Rejected(os)| ==> Rejected(os)[a].rowIndex < Rejected(os)[b].rowIndex
    decreases |os|
  {
    if |os| > 0 {
      var front := os[..|os| - 1];
      RejectedSound(front);
      assert forall j :: 0 <= j < |front| ==> front[j] == os[j];
    }
  }

  /** Every failing row has an error entry. */
  lemma {:induction false} RejectedComplete<M>(os: seq<Result<M, seq<FieldError>>>, i: nat)
    requires i < |os| && os[i].Failure?
    ensures exists e :: 0 <= e < |Rejected(os)| && Rejected(os)[e] == RowError(i, os[i].error)
    decreases |os|
  {
    var front := os[..|os| - 1];
    if i < |os| - 1 {
      RejectedComplete(front, i);
      var e :| 0 <= e < |Rejected(front)| && Rejected(front)[e] == RowError(i, front[i].error);
      assert Rejected(os)[e] == Rejected(front)[e];
    } else {
      assert Rejected(os)[|Rejected(os)| - 1] == RowError(i, os[i].error);
    }
  }

  /** No error entries means every row validated, and then the records are
      the rows' records in order. */
  lemma {:induction false} NoneRejected<M>(os: seq<Result<M, seq<FieldError>>>)
    ensures |Rejected(os)| == 0 <==> forall i :: 0 <= i < |os| ==> os[i].Success?
    ensures |Rejected(os)| == 0 ==> |Accepted(os)| == |os| && forall i :: 0 <= i < |os| ==> Accepted(os)[i] == os[i].value
    decreases |os|
  {
    if |os| > 0 {
      var front := os[..|os| - 1];
      NoneRejected(front);
      assert forall j :: 0 <= j < |front| ==> front[j] == os[j];
      PartitionCount(front);
    }
  }

  // ---------------------------------------------------------------------
  // normalize_wages / normalize_expenses

  const MeltColumns: seq<string> := ["category", "family", "value"]

  /** The columns after the family and category columns are added. */
  function WideColumns(k: Kind): seq<string> {
    MeltColumns + FamilyColumns + [KindColumn(k)]
  }

  lemma WideColumnsAdded(m: seq<string>, k: Kind)
    requires m == MeltColumns
    ensures AddNew(AddNew(m, FamilyColumns), [KindColumn(k)]) == WideColumns(k)
  {
    FamilyColumnsFresh(m);
    AddNewFresh(m, FamilyColumns);
    KindColumnFresh(m + FamilyColumns, k);
    AddNewFresh(m + FamilyColumns, [KindColumn(k)]);
  }

  lemma FamilyColumnsFresh(m: seq<string>)
    requires m == MeltColumns
    ensures Distinct(FamilyColumns) && forall c :: c in FamilyColumns ==> c !in m
  {
  }

  lemma KindColumnFresh(m: seq<string>, k: Kind)
    requires m == MeltColumns + FamilyColumns
    ensures Distinct([KindColumn(k)]) && forall c :: c in [KindColumn(k)] ==> c !in m
  {
    assert forall c :: c in [KindColumn(k)] ==> c == KindColumn(k);
  }

  /** Names none of which is present, and distinct, are appended as they
      are. */
  lemma {:induction false} AddNewFresh(cols: seq<string>, ks: seq<string>)
    requires Distinct(ks) && forall c :: c in ks ==> c !in cols
    ensures AddNew(cols, ks) == cols + ks
    decreases |ks|
  {
    if |ks| == 0 {
      assert cols + ks == cols;
    } else {
      FreshTail(cols, ks);
      AddNewStep(cols, ks);
      AddNewFresh(cols + [ks[0]], ks[1..]);
      ConsSplit(cols, ks);
    }
  }

  lemma AddNewStep(cols: seq<string>, ks: seq<string>)
    requires |ks| > 0 && ks[0] !in cols
    ensures AddNew(cols, ks) == AddNew(cols + [ks[0]], ks[1..])
  {
  }

  lemma ConsSplit(cols: seq<string>, ks: seq<string>)
    requires |ks| > 0
    ensures cols + [ks[0]] + ks[1..] == cols + ks
  {
    assert ks == [ks[0]] + ks[1..];
  }

  lemma FreshTail(cols: seq<string>, ks: seq<string>)
    requires |ks| > 0 && Distinct(ks) && forall c :: c in ks ==> c !in cols
    ensures ks[0] !in cols && Distinct(ks[1..]) && forall c :: c in ks[1..] ==> c !in cols + [ks[0]]
  {
    assert ks[0] !in ks[1..];
  }

  /** How one cell is read: the household a family header names, the
      category value of a category cell, the amount of a value cell. The
      stages below are stated for any such rules; the pipeline uses
      `Pandas`. */
  datatype CellRules = CellRules(family: Cell -> Option<Family>, category: Cell -> Cell, amount: Cell -> real)

  const Pandas := CellRules(FamilyOf, CategoryCell, CellAmount)

  /** The melted table with its family and category columns. */
  function Classified(melted: Table, k: Kind, rules: CellRules): (r: Table)
    requires WellFormed(melted) && melted.columns == MeltColumns
    ensures WellFormed(r) && r.columns == WideColumns(k) && |r.rows| == |melted.rows|
  {
    var withFamily := AddFamilies(melted, "family", rules.family);
    WideColumnsAdded(melted.columns, k);
    Derive(withFamily, "category", KindColumn(k), rules.category)
  }

  function PricedColumns(k: Kind): seq<string> {
    ["category", "family", AmountColumn(k)] + FamilyColumns + [KindColumn(k)]
  }

  /** The columns of the long table, before validation. */
  function LongColumns(k: Kind): seq<string> {
    PricedColumns(k) + ["county_fips", "page_updated_at"]
  }

  /** The classified table with its amount cleaned and renamed. */
  function Priced(wide: Table, k: Kind, rules: CellRules): (r: Table)
    requires WellFormed(wide) && wide.columns == WideColumns(k)
    ensures WellFormed(r) && r.columns == PricedColumns(k) && |r.rows| == |wide.rows|
  {
    var clean := ToNumbers(wide, ["value"], rules.amount);
    MeltColumnsApart(k);
    Rename(clean, "value", AmountColumn(k))
  }

  /** The county code and page date set on every row. */
  function Stamped(named: Table, fips: string, day: int, k: Kind): (r: Table)
    requires WellFormed(named) && named.columns == PricedColumns(k)
    ensures WellFormed(r) && r.columns == LongColumns(k) && |r.rows| == |named.rows|
  {
    var withFips := SetColumn(named, "county_fips", Str(fips));
    SetColumn(withFips, "page_updated_at", Date(day))
  }

  /** The long table of a table whose column names are already lowered. */
  function LongOf(lowered: Table, fips: string, day: int, k: Kind, rules: CellRules): (r: Result<Table, string>)
    requires WellFormed(lowered)
    ensures r.Success? <==> "category" in lowered.columns
    ensures r.Failure? ==> r.error == MissingCategory
    ensures r.Success? ==> WellFormed(r.value) && r.value.columns == LongColumns(k)
    ensures r.Success? ==> |r.value.rows| == |ValueVars(lowered.columns)| * |lowered.rows|
  {
    var melted :- Melt(lowered);
    var wide := Classified(melted, k, rules);
    Success(Stamped(Priced(wide, k, rules), fips, day, k))
  }

  /** The unvalidated long table under any cell rules. */
  function LongTableWith(t: Table, fips: string, day: int, k: Kind, rules: CellRules): (r: Result<Table, string>)
    requires WellFormed(t)
    ensures r.Success? <==> LowerSpecialColumns(t).Success? && "category" in LowerSpecialColumns(t).value.columns
    ensures r.Success? ==> WellFormed(r.value) && r.value.columns == LongColumns(k)
    ensures r.Success? ==> |r.value.rows| == |ValueVars(LowerSpecialColumns(t).value.columns)| * |t.rows|
  {
    var lowered :- LowerSpecialColumns(t);
    LongOf(lowered, fips, day, k, rules)
  }

  /** The unvalidated long table: melt, family columns, category column,
      cleaned amount under its own name, the full county code and the page
      date on every row. */
  function LongTable(t: Table, fips: string, day: int, k: Kind): (r: Result<Table, string>)
    requires WellFormed(t)
    ensures r.Success? <==> LowerSpecialColumns(t).Success? && "category" in LowerSpecialColumns(t).value.columns
    ensures r.Success? ==> WellFormed(r.value) && r.value.columns == LongColumns(k)
    ensures r.Success? ==> |r.value.rows| == |ValueVars(LowerSpecialColumns(t).value.columns)| * |t.rows|
  {
    LongTableWith(t, fips, day, k, Pandas)
  }

  /** The adults, working-adults and children cells of a household, all
      `Null` for none. */
  predicate FamilyCells(r: Row, m: Option<Family>) {
    "adults" in r && "working_adults" in r && "children" in r
    && match m
       case Some(f) => r["adults"] == Int(f.adults) && r["working_adults"] == Int(f.workingAdults) && r["children"] == Int(f.children)
       case None => r["adults"] == Null && r["working_adults"] == Null && r["children"] == Null
  }

  lemma InRow(t: Table, x: nat, c: string)
    requires WellFormed(t) && x < |t.rows| && c in t.columns
    ensures c in t.rows[x]
  {
  }

  /** The melted columns are neither family columns nor the category
      column, and the amount column is none of the classified ones. */
  lemma MeltColumnsApart(k: Kind)
    ensures forall c :: c in MeltColumns ==> c !in FamilyColumns && c != KindColumn(k)
    ensures KindColumn(k) !in FamilyColumns
    ensures AmountColumn(k) !in WideColumns(k)
  {
  }

  lemma WithFamilyCells(row: Row, m: Option<Family>)
    ensures FamilyCells(WithFamily(row, m), m)
  {
  }

  lemma FamilyCellsKept(r: Row, m: Option<Family>, key: string, v: Cell)
    requires FamilyCells(r, m) && key !in FamilyColumns
    ensures FamilyCells(r[key := v], m)
  {
  }

  lemma ClassifiedRow(melted: Table, k: Kind, rules: CellRules, x: nat)
    requires WellFormed(melted) && melted.columns == MeltColumns && x < |melted.rows|
    ensures var a := melted.rows[x]; var c := Classified(melted, k, rules).rows[x];
      "category" in a && "family" in a && "value" in a
      && "category" in c && "family" in c && "value" in c && KindColumn(k) in c
      && c["category"] == a["category"] && c["family"] == a["family"] && c["value"] == a["value"]
      && FamilyCells(c, rules.family(a["family"])) && c[KindColumn(k)] == rules.category(a["category"])
  {
    var a := melted.rows[x];
    InRow(melted, x, "category");
    InRow(melted, x, "family");
    InRow(melted, x, "value");
    var withFamily := AddFamilies(melted, "family", rules.family);
    var c := Classified(melted, k, rules);
    assert "category" in WideColumns(k) && "family" in WideColumns(k) && "value" in WideColumns(k) && KindColumn(k) in WideColumns(k);
    InRow(c, x, "category");
    InRow(c, x, "family");
    InRow(c, x, "value");
    InRow(c, x, KindColumn(k));
    var m := rules.family(a["family"]);
    assert withFamily.rows[x] == WithFamily(a, m);
    MeltColumnsApart(k);
    var w := withFamily.rows[x];
    assert w["category"] == a["category"] && w["family"] == a["family"] && w["value"] == a["value"];
    WithFamilyCells(a, m);
    assert c.rows[x] == w[KindColumn(k) := rules.category(w["category"])];
    FamilyCellsKept(w, m, KindColumn(k), rules.category(w["category"]));
  }

  lemma PricedRow(wide: Table, k: Kind, rules: CellRules, x: nat)
    requires WellFormed(wide) && wide.columns == WideColumns(k) && x < |wide.rows|
    ensures var c := wide.rows[x]; var p := Priced(wide, k, rules).rows[x];
      "value" in c && AmountColumn(k) in p && p[AmountColumn(k)] == Num(rules.amount(c["value"]))
    ensures var c := wide.rows[x]; var p := Priced(wide, k, rules).rows[x];
      forall n :: n in WideColumns(k) && n != "value" ==> n in c && n in p && p[n] == c[n]
  {
    var c := wide.rows[x];
    PricedKeys(wide, k, rules, x);
    assert "value" in WideColumns(k) && AmountColumn(k) in PricedColumns(k);
    var clean := ToNumbers(wide, ["value"], rules.amount);
    MeltColumnsApart(k);
    assert clean.rows[x]["value"] == Num(rules.amount(c["value"]));
    forall n | n in WideColumns(k) && n != "value" ensures n in PricedColumns(k) {
    }
  }

  lemma PricedKeys(wide: Table, k: Kind, rules: CellRules, x: nat)
    requires WellFormed(wide) && wide.columns == WideColumns(k) && x < |wide.rows|
    ensures forall n :: n in WideColumns(k) ==> n in wide.rows[x]
    ensures forall n :: n in PricedColumns(k) ==> n in Priced(wide, k, rules).rows[x]
  {
    var p := Priced(wide, k, rules);
    forall n | n in WideColumns(k) ensures n in wide.rows[x] {
      InRow(wide, x, n);
    }
    forall n | n in PricedColumns(k) ensures n in p.rows[x] {
      InRow(p, x, n);
    }
  }

  lemma StampedRow(named: Table, fips: string, day: int, k: Kind, x: nat)
    requires WellFormed(named) && named.columns == PricedColumns(k) && x < |named.rows|
    ensures var p := named.rows[x]; var s := Stamped(named, fips, day, k).rows[x];
      "county_fips" in s && "page_updated_at" in s
      && s["county_fips"] == Str(fips) && s["page_updated_at"] == Date(day)
      && forall c :: c in PricedColumns(k) ==> c in p && c in s && s[c] == p[c]
  {
    var s := Stamped(named, fips, day, k);
    assert "county_fips" in LongColumns(k) && "page_updated_at" in LongColumns(k);
    InRow(s, x, "county_fips");
    InRow(s, x, "page_updated_at");
    forall c | c in PricedColumns(k) ensures c in named.rows[x] && c in s.rows[x] {
      InRow(named, x, c);
      InRow(s, x, c);
    }
  }

  lemma IndexBound(j: nat, i: nat, m: nat, n: nat)
    requires j < m && i < n
    ensures j * n + i < m * n
  {
    assert (j + 1) * n <= m * n;
  }

  /** `r` is the long row built from wide row `row` and its melted
      column `v`. */
  predicate LongRowOf(r: Row, row: Row, v: string, fips: string, day: int, k: Kind, rules: CellRules) {
    "category" in row && v in row
    && "category" in r && "family" in r && KindColumn(k) in r && AmountColumn(k) in r
    && "county_fips" in r && "page_updated_at" in r
    && r["category"] == row["category"] && r["family"] == Str(v)
    && FamilyCells(r, rules.family(Str(v)))
    && r[KindColumn(k)] == rules.category(row["category"])
    && r[AmountColumn(k)] == Num(rules.amount(row[v]))
    && r["county_fips"] == Str(fips) && r["page_updated_at"] == Date(day)
  }

  /** Row `x` after the stages that follow the melt, from melted row `x`. */
  lemma FinishedRow(melted: Table, fips: string, day: int, k: Kind, rules: CellRules, x: nat)
    requires WellFormed(melted) && melted.columns == MeltColumns && x < |melted.rows|
    ensures var a := melted.rows[x];
      var r := Stamped(Priced(Classified(melted, k, rules), k, rules), fips, day, k).rows[x];
      "category" in a && "family" in a && "value" in a
      && "category" in r && "family" in r && KindColumn(k) in r && AmountColumn(k) in r
      && "county_fips" in r && "page_updated_at" in r
      && r["category"] == a["category"] && r["family"] == a["family"]
      && FamilyCells(r, rules.family(a["family"]))
      && r[KindColumn(k)] == rules.category(a["category"])
      && r[AmountColumn(k)] == Num(rules.amount(a["value"]))
      && r["county_fips"] == Str(fips) && r["page_updated_at"] == Date(day)
  {
    var wide := Classified(melted, k, rules);
    ClassifiedRow(melted, k, rules, x);
    var named := Priced(wide, k, rules);
    PricedRow(wide, k, rules, x);
    StampedRow(named, fips, day, k, x);
    assert "category" in WideColumns(k) && "family" in WideColumns(k) && KindColumn(k) in WideColumns(k);
    assert forall n :: n in FamilyColumns ==> n in WideColumns(k);
  }

  /** Row `j * n + i` of the long table (`n` rows in the input) comes from
      input row `i` and the `j`-th melted column. */
  lemma LongTableWithRow(t: Table, fips: string, day: int, k: Kind, rules: CellRules, j: nat, i: nat)
    requires WellFormed(t) && LongTableWith(t, fips, day, k, rules).Success?
    requires j < |ValueVars(LowerSpecialColumns(t).value.columns)| && i < |t.rows|
    ensures Flat(j, i, |t.rows|) < |LongTableWith(t, fips, day, k, rules).value.rows|
      && LongRowOf(LongTableWith(t, fips, day, k, rules).value.rows[Flat(j, i, |t.rows|)],
      LowerSpecialColumns(t).value.rows[i], ValueVars(LowerSpecialColumns(t).value.columns)[j], fips, day, k, rules)
  {
    LongOfRow(LowerSpecialColumns(t).value, fips, day, k, rules, j, i);
  }

  lemma LongOfRow(lowered: Table, fips: string, day: int, k: Kind, rules: CellRules, j: nat, i: nat)
    requires WellFormed(lowered) && LongOf(lowered, fips, day, k, rules).Success?
    requires j < |ValueVars(lowered.columns)| && i < |lowered.rows|
    ensures Flat(j, i, |lowered.rows|) < |LongOf(lowered, fips, day, k, rules).value.rows|
      && LongRowOf(LongOf(lowered, fips, day, k, rules).value.rows[Flat(j, i, |lowered.rows|)],
      lowered.rows[i], ValueVars(lowered.columns)[j], fips, day, k, rules)
  {
    var vars := ValueVars(lowered.columns);
    var melted := Melt(lowered).value;
    var x := Flat(j, i, |lowered.rows|);
    assert x < |melted.rows| && melted.rows[x] == MeltRow(lowered.rows[i], vars[j]) by {
      MeltRowsAt(lowered.rows, vars, j, i);
    }
    var long := Stamped(Priced(Classified(melted, k, rules), k, rules), fips, day, k);
    assert LongRowOf(long.rows[x], lowered.rows[i], vars[j], fips, day, k, rules) by {
      MeltedRow(melted, lowered.rows[i], vars[j], fips, day, k, rules, x);
    }
    assert LongOf(lowered, fips, day, k, rules).value == long;
  }

  lemma MeltedRow(melted: Table, row: Row, v: string, fips: string, day: int, k: Kind, rules: CellRules, x: nat)
    requires WellFormed(melted) && melted.columns == MeltColumns && x < |melted.rows|
    requires "category" in row && v in row && melted.rows[x] == MeltRow(row, v)
    ensures LongRowOf(Stamped(Priced(Classified(melted, k, rules), k, rules), fips, day, k).rows[x], row, v, fips, day, k, rules)
  {
    MeltRowCells(row, v);
    FinishedRow(melted, fips, day, k, rules, x);
  }

  lemma MeltRowCells(row: Row, v: string)
    requires "category" in row && v in row
    ensures var a := MeltRow(row, v);
      a["category"] == row["category"] && a["family"] == Str(v) && a["value"] == row[v]
  {
  }

  /** The long table the pipeline builds, row by row: its category, the
      melted column's name as the family with the household that name
      reads as, the category value, the cleaned amount, the county code
      and the page date. */
  lemma LongTableRow(t: Table, fips: string, day: int, k: Kind, j: nat, i: nat)
    requires WellFormed(t) && LongTable(t, fips, day, k).Success?
    requires j < |ValueVars(LowerSpecialColumns(t).value.columns)| && i < |t.rows|
    ensures Flat(j, i, |t.rows|) < |LongTable(t, fips, day, k).value.rows|
      && LongRowOf(LongTable(t, fips, day, k).value.rows[Flat(j, i, |t.rows|)],
      LowerSpecialColumns(t).value.rows[i], ValueVars(LowerSpecialColumns(t).value.columns)[j], fips, day, k, Pandas)
  {
    LongTableWithRow(t, fips, day, k, Pandas, j, i);
  }
}

=== FILE: legacy.dfy ===
/**
  The older, case-sensitive header normaliser and lookup kept in
  src/transform/constants.py, which looks headers up in the title-case
  table directly.

  As written it never collapses whitespace after removing
  "(Both Working)", so a header with both that marker and a " - "
  separator keeps a doubled space and misses the table. `NormalizeFixed`
  adds the final collapse that the newer normaliser in normalizers.py
  performs; the corrected lookup finds every household.
 */
module Legacy {
  import opened Wrappers
  import opened Text
  import opened Families
  import opened Normalizers

  /** `normalize_header_for_lookup` of constants.py as written: drop " - ",
      collapse whitespace, drop "(Both Working)", strip, drop the
      zero-child suffixes, strip. */
  function NormalizeAsWritten(h: string): (r: string)
    ensures |r| > 0 ==> !IsSpace(r[0]) && !IsSpace(r[|r| - 1])
  {
    var a := Collapse(Replace(h, " - ", " "));
    var b := Strip(Replace(a, "(Both Working)", ""));
    Strip(Replace(Replace(b, " 0 Children", ""), " 0 Child", ""))
  }

  /** `get_family_config_metadata` of constants.py as written. */
  function LookupAsWritten(h: string): (r: Option<Family>)
    ensures r.Some? <==> NormalizeAsWritten(h) in ConfigMap
    ensures r.Some? ==> ValidFamily(r.value) && TitleKeyOf(r.value) == NormalizeAsWritten(h)
  {
    ConfigMapKeys();
    var n := NormalizeAsWritten(h);
    if n in ConfigMap then Some(ConfigMap[n]) else None
  }

  /** The same normaliser with a final whitespace collapse. */
  function NormalizeFixed(h: string): (r: string)
    ensures SingleSpaced(r)
  {
    Collapse(NormalizeAsWritten(h))
  }

  function LookupFixed(h: string): (r: Option<Family>)
    ensures r.Some? <==> NormalizeFixed(h) in ConfigMap
    ensures r.Some? ==> ValidFamily(r.value) && TitleKeyOf(r.value) == NormalizeFixed(h)
  {
    ConfigMapKeys();
    var n := NormalizeFixed(h);
    if n in ConfigMap then Some(ConfigMap[n]) else None
  }

  // ---------------------------------------------------------------------
  // Fixed points

  /** Text the normaliser leaves alone: single-spaced and free of every
      pattern it removes. */
  predicate Untouched(s: string) {
    |s| > 0 && SingleSpaced(s)
    && NoPair(s, ' ', '-') && NoPair(s, '(', 'B') && NoPair(s, ' ', '0')
  }

  lemma UntouchedFixed(s: string)
    requires Untouched(s)
    ensures NormalizeAsWritten(s) == s && NormalizeFixed(s) == s
  {
    var p1, p2, p3, p4 := " - ", "(Both Working)", " 0 Children", " 0 Child";
    assert p1[0] == ' ' && p1[1] == '-' && p2[0] == '(' && p2[1] == 'B';
    assert p3[0] == ' ' && p3[1] == '0' && p4[0] == ' ' && p4[1] == '0';
    ReplaceAbsent(s, p1, " ");
    CollapseIdentity(s);
    ReplaceAbsent(s, p2, "");
    StripIdentity(s);
    ReplaceAbsent(s, p3, "");
    ReplaceAbsent(s, p4, "");
  }

  lemma UntouchedGlue(a: string, b: string)
    requires Untouched(a) && Untouched(b) && b[0] != '-' && b[0] != '0'
    ensures Untouched(a + " " + b)
  {
    SingleSpacedGlue(a, b);
    NoPairAppend(a, " ", ' ', '-');
    NoPairAppend(a + " ", b, ' ', '-');
    NoPairAppend(a, " ", '(', 'B');
    NoPairAppend(a + " ", b, '(', 'B');
    NoPairAppend(a, " ", ' ', '0');
    NoPairAppend(a + " ", b, ' ', '0');
  }

  /** Lowercasing keeps spaces, '-', '(' and digits where they are, so
      text whose lowercase form is a key of the newer table is untouched. */
  lemma UntouchedFromLower(s: string)
    requires Canonical(Lower(s))
    ensures Untouched(s)
  {
    var l := Lower(s);
    CanonicalFacts(l);
    forall i | 0 <= i < |s| ensures IsSpace(l[i]) == IsSpace(s[i]) && (l[i] == ' ' <==> s[i] == ' ') {
      LowerCharWord(s[i]);
    }
    assert NoPair(s, '(', 'B') by {
      forall i | 0 <= i < |s| - 1 ensures !(s[i] == '(' && s[i + 1] == 'B') {
        assert !(l[i] == '(' && l[i + 1] == 'b');
      }
    }
    assert NoPair(s, ' ', '-') by {
      forall i | 0 <= i < |s| - 1 ensures !(s[i] == ' ' && s[i + 1] == '-') {
        assert !(l[i] == ' ' && l[i + 1] == '-');
      }
    }
    assert NoPair(s, ' ', '0') by {
      forall i | 0 <= i < |s| - 1 ensures !(s[i] == ' ' && s[i + 1] == '0') {
        assert !(l[i] == ' ' && l[i + 1] == '0');
      }
    }
  }

  /** Every title-case key is left alone by both normalisers. */
  lemma TitleKeyUntouched(f: Family)
    requires ValidFamily(f)
    ensures Untouched(TitleKeyOf(f))
  {
    LookupMapIsLowered(f);
    KeyOfCanonical(f);
    UntouchedFromLower(TitleKeyOf(f));
  }

  /** The title-case keys find their household through either lookup. */
  lemma LookupTitleKey(f: Family)
    requires ValidFamily(f)
    ensures LookupAsWritten(TitleKeyOf(f)) == Some(f)
    ensures LookupFixed(TitleKeyOf(f)) == Some(f)
  {
    TitleKeyUntouched(f);
    UntouchedFixed(TitleKeyOf(f));
    ConfigMapCovers(f);
  }

  /** The lookup is case-sensitive: the lowercase headers the newer lookup
      accepts find nothing here. */
  lemma LookupLowercaseMisses(f: Family)
    requires ValidFamily(f)
    ensures LookupAsWritten(KeyOf(f)) == None
    ensures LookupFixed(KeyOf(f)) == None
  {
    var k := KeyOf(f);
    KeyOfCanonical(f);
    CanonicalFacts(k);
    NoUpperNoPair(k, '(', 'B');
    UntouchedFixed(k);
    ConfigMapKeysUpper();
  }

  lemma NoUpperNoPair(s: string, x: char, y: char)
    requires NoUpper(s) && IsUpper(y)
    ensures NoPair(s, x, y)
  {
  }

  // ---------------------------------------------------------------------
  // The missing final collapse

  /** The header the wage table builds for a household with both adults
      working: the adult label with the marker, " - ", the child label. */
  function BothWorkingHeader(a: string, b: string): string {
    a + " " + "(Both Working)" + " - " + b
  }

  /** As written, every such header normalises to its two labels joined by
      a doubled space, which is never a key, so the lookup misses. */
  lemma AsWrittenMissesBothWorking(a: string, b: string)
    requires Untouched(a) && Untouched(b) && b[0] != '-' && b[0] != '0'
    ensures NormalizeAsWritten(BothWorkingHeader(a, b)) == a + "  " + b
    ensures LookupAsWritten(BothWorkingHeader(a, b)) == None
  {
    BothWorkingSteps(a, b);
    DoubledMisses(a, b);
  }

  /** With the final collapse the same header normalises to the labels
      joined by one space, and finds whatever household that key names. */
  lemma FixedFindsBothWorking(a: string, b: string)
    requires Untouched(a) && Untouched(b) && b[0] != '-' && b[0] != '0'
    ensures NormalizeFixed(BothWorkingHeader(a, b)) == a + " " + b
    ensures LookupFixed(BothWorkingHeader(a, b))
         == if a + " " + b in ConfigMap then Some(ConfigMap[a + " " + b]) else None
  {
    BothWorkingSteps(a, b);
    CollapseDoubleSpace(a, b);
    UntouchedGlue(a, b);
    CollapseIdentity(a + " " + b);
  }

  /** "2 Adults (Both Working) - 1 Child" misses as written and finds two
      working adults with one child once corrected. */
  lemma BothWorkingExample()
    ensures LookupAsWritten(BothWorkingHeader("2 Adults", "1 Child")) == None
    ensures LookupFixed(BothWorkingHeader("2 Adults", "1 Child")) == Some(Family(2, 2, 1))
  {
    TitlePiecesUntouched();
    AsWrittenMissesBothWorking("2 Adults", "1 Child");
    FixedFindsBothWorking("2 Adults", "1 Child");
    OneChildTitleKey();
  }

  lemma OneChildTitleKey()
    ensures "2 Adults" + " " + "1 Child" == "2 Adults 1 Child"
    ensures "2 Adults 1 Child" in ConfigMap && ConfigMap["2 Adults 1 Child"] == Family(2, 2, 1)
  {
  }

  /** Every title-case key is single-spaced. */
  lemma ConfigKeysSingleSpaced()
    ensures forall k :: k in ConfigMap ==> SingleSpaced(k)
  {
    ConfigMapKeys();
    forall k | k in ConfigMap ensures SingleSpaced(k) {
      TitleKeyUntouched(ConfigMap[k]);
    }
  }

  /** Two labels joined by a doubled space are not a key. */
  lemma DoubledMisses(a: string, b: string)
    requires |a| > 0 && |b| > 0
    ensures a + "  " + b !in ConfigMap
  {
    var u := a + "  " + b;
    assert u[|a|] == ' ' && u[|a| + 1] == ' ';
    assert !SingleSpaced(u);
    ConfigKeysSingleSpaced();
  }

  lemma TitlePiecesUntouched()
    ensures Untouched("2 Adults") && Untouched("1 Child")
    ensures "1 Child"[0] != '-' && "1 Child"[0] != '0'
  {
    TwoAdultsTitleUntouched();
    OneChildTitleUntouched();
  }

  lemma TwoAdultsTitleUntouched() ensures Untouched("2 Adults") {
    TwoAdultsSpaced();
    TwoAdultsNoPairs();
  }

  lemma TwoAdultsSpaced() ensures SingleSpaced("2 Adults") {}
  lemma TwoAdultsNoPairs() ensures NoPair("2 Adults", ' ', '-') && NoPair("2 Adults", '(', 'B') && NoPair("2 Adults", ' ', '0') {}
  lemma OneChildTitleUntouched() ensures Untouched("1 Child") {
    OneChildSpaced();
    OneChildNoPairs();
  }

  lemma OneChildSpaced() ensures SingleSpaced("1 Child") {}
  lemma OneChildNoPairs() ensures NoPair("1 Child", ' ', '-') && NoPair("1 Child", '(', 'B') && NoPair("1 Child", ' ', '0') {}

  /** The marker itself is single-spaced and holds no " -". */
  lemma MarkerFacts()
    ensures SingleSpaced("(Both" + " " + "Working)") && NoPair("(Both Working)", ' ', '-')
    ensures |"(Both Working)"| >= 2 && "(Both Working)"[0] == '(' && "(Both Working)"[1] == 'B'
  {
  }

  lemma BothWorkingSteps(a: string, b: string)
    requires Untouched(a) && Untouched(b) && b[0] != '-' && b[0] != '0'
    ensures NormalizeAsWritten(BothWorkingHeader(a, b)) == a + "  " + b
  {
    var m := "(Both Working)";
    MarkerFacts();
    var am := a + " " + m;
    SingleSpacedGlue(a, m);
    SingleSpacedGlue(am, b);
    NoPairAppend(a, " ", ' ', '-');
    NoPairAppend(a + " ", m, ' ', '-');
    var p1 := " - ";
    assert p1[0] == ' ' && p1[1] == '-';
    ReplaceMiddle(am, p1, b, " ");
    CollapseIdentity(am + " " + b);
    MarkerRemoved(a, m, b);
    DoubledUntouched(a, b);
  }

  /** Removing the marker from "a (Both Working) b" leaves two spaces. */
  lemma MarkerRemoved(a: string, m: string, b: string)
    requires Untouched(a) && Untouched(b) && |m| >= 2 && m[0] == '(' && m[1] == 'B'
    ensures Replace(a + " " + m + " " + b, m, "") == a + "  " + b
  {
    NoPairAppend(a, " ", '(', 'B');
    NoPairAppend(" ", b, '(', 'B');
    ReplaceMiddle(a + " ", m, " " + b, "");
    assert (a + " ") + m + (" " + b) == a + " " + m + " " + b;
    assert (a + " ") + "" + (" " + b) == a + "  " + b;
  }

  /** The doubled-space text passes the remaining steps unchanged. */
  lemma DoubledUntouched(a: string, b: string)
    requires Untouched(a) && Untouched(b) && b[0] != '0'
    ensures var u := a + "  " + b;
      Strip(Replace(Replace(Strip(u), " 0 Children", ""), " 0 Child", "")) == u
  {
    var u := a + "  " + b;
    var p3, p4 := " 0 Children", " 0 Child";
    assert p3[0] == ' ' && p3[1] == '0' && p4[0] == ' ' && p4[1] == '0';
    NoPairAppend(a, "  ", ' ', '0');
    NoPairAppend(a + "  ", b, ' ', '0');
    assert u == a + "  " + b;
    StripIdentity(u);
    ReplaceAbsent(u, p3, "");
    ReplaceAbsent(u, p4, "");
  }
}

=== FILE: normalize.dfy ===
/**
  `normalize_wages` and `normalize_expenses` of src/transform/pandas_ops.py:
  the long table, optionally replaced by the validated records when every
  row validates.
 */
module Normalize {
  import opened Wrappers
  import opened Text
  import opened Families
  import opened Records
  import opened Tables
  import opened Frames

  /** The columns of `model_dump()`, in field order. */
  function RecordColumns(k: Kind): seq<string> {
    ["county_fips", "page_updated_at", "adults", "working_adults", "children", KindColumn(k), AmountColumn(k)]
  }

  /** One record as `model_dump()` gives it. */
  function DumpRow(b: BaseRecord, k: Kind, kind: string, amount: real): (r: Row)
    ensures r.Keys == set c | c in RecordColumns(k)
  {
    map["county_fips" := Str(b.countyFips), "page_updated_at" := Date(b.pageUpdatedAt),
        "adults" := Int(b.family.adults), "working_adults" := Int(b.family.workingAdults),
        "children" := Int(b.family.children), KindColumn(k) := Str(kind), AmountColumn(k) := Num(amount)]
  }

  function WageRow(w: WageRecord): Row {
    DumpRow(w.base, Wages, w.wageType, w.hourlyWage)
  }

  function ExpenseRow(e: ExpenseRecord): Row {
    DumpRow(e.base, Expenses, e.expenseCategory, e.annualAmount)
  }

  /** `pd.DataFrame([m.model_dump() for m in models])`: no records give a
      table without columns. */
  function DumpTable(k: Kind, rows: seq<Row>): (r: Table)
    requires forall i :: 0 <= i < |rows| ==> rows[i].Keys == set c | c in RecordColumns(k)
    ensures WellFormed(r) && r.rows == rows
    ensures |rows| == 0 ==> r.columns == []
    ensures |rows| > 0 ==> r.columns == RecordColumns(k)
  {
    if |rows| == 0 then Table([], []) else Table(RecordColumns(k), rows)
  }

  // ---------------------------------------------------------------------
  // The two normalisers

  /** What validating a long table gives: the table itself when not asked
      to validate or when some row fails, else one dumped record per row. */
  function Validated<M(!new)>(long: Table, k: Kind, validate: bool,
                        build: RawRecord -> Result<M, seq<FieldError>>, dump: M -> Row): (r: Table)
    requires forall m :: dump(m).Keys == set c | c in RecordColumns(k)
    ensures WellFormed(long) ==> WellFormed(r)
    ensures var os := Outcomes(long.rows, k, build);
      if validate && |Rejected(os)| == 0 then
        |r.rows| == |long.rows|
        && forall x :: 0 <= x < |long.rows| ==>
          build(RowToRaw(long.rows[x], k)).Success?
          && r.rows[x] == dump(build(RowToRaw(long.rows[x], k)).value)
      else r == long
  {
    var os := Outcomes(long.rows, k, build);
    if !validate || |Rejected(os)| > 0 then long
    else
      NoneRejected(os);
      var records := Accepted(os);
      DumpTable(k, seq(|records|, i requires 0 <= i < |records| => dump(records[i])))
  }

  /** `normalize_wages(df, state_fips, county_fips, page_updated_at,
      validate)`. An empty table comes back as it is. Otherwise the long
      table; with `validate`, it is replaced by the dumped records exactly
      when every row validates. */
  function NormalizeWages(t: Table, state: string, county: string, day: int, validate: bool): (r: Result<Table, string>)
    requires WellFormed(t)
    ensures IsEmpty(t) ==> r == Success(t)
    ensures !IsEmpty(t) ==> (r.Success? <==> LongTable(t, FullFips(state, county), day, Wages).Success?)
    ensures !IsEmpty(t) && r.Success? ==>
      WellFormed(r.value)
      && r.value == Validated(LongTable(t, FullFips(state, county), day, Wages).value, Wages, validate, ValidateWage, WageRow)
  {
    if IsEmpty(t) then Success(t)
    else
      var long :- LongTable(t, FullFips(state, county), day, Wages);
      Success(Validated(long, Wages, validate, ValidateWage, WageRow))
  }

  /** `normalize_expenses`, the same pipeline for expense tables. */
  function NormalizeExpenses(t: Table, state: string, county: string, day: int, validate: bool): (r: Result<Table, string>)
    requires WellFormed(t)
    ensures IsEmpty(t) ==> r == Success(t)
    ensures !IsEmpty(t) ==> (r.Success? <==> LongTable(t, FullFips(state, county), day, Expenses).Success?)
    ensures !IsEmpty(t) && r.Success? ==>
      WellFormed(r.value)
      && r.value == Validated(LongTable(t, FullFips(state, county), day, Expenses).value, Expenses, validate, ValidateExpense, ExpenseRow)
  {
    if IsEmpty(t) then Success(t)
    else
      var long :- LongTable(t, FullFips(state, county), day, Expenses);
      Success(Validated(long, Expenses, validate, ValidateExpense, ExpenseRow))
  }

  // ---------------------------------------------------------------------
  // Normalising is idempotent on records

  /** What a validated wage record satisfies. */
  predicate ValidBase(b: BaseRecord) {
    |b.countyFips| == 5 && IsDigits(b.countyFips) && ValidFamily(b.family)
  }

  lemma ValidatedBase(raw: RawRecord)
    requires ValidateBase(raw).Success?
    ensures ValidBase(ValidateBase(raw).value)
  {
    var v := raw.countyFips.value;
    ZFillDigitsOrEmpty(v);
  }

  lemma ZFillDigitsOrEmpty(v: string)
    requires FipsAcceptable(v)
    ensures IsDigits(ZFill(v, 5))
  {
    FipsPadding(v);
  }

  /** A dumped wage row validates back to the record it came from. */
  lemma WageRowRevalidates(w: WageRecord)
    requires ValidBase(w.base) && w.wageType in WageTypes && w.hourlyWage >= 0.0
    ensures ValidateWage(RowToRaw(WageRow(w), Wages)) == Success(w)
  {
    var raw := RowToRaw(WageRow(w), Wages);
    DumpRawFields(w.base, Wages, w.wageType, w.hourlyWage);
    BaseRevalidates(w.base, raw);
  }

  /** A dumped expense row validates back to the record it came from. */
  lemma ExpenseRowRevalidates(e: ExpenseRecord)
    requires ValidBase(e.base) && e.expenseCategory in ExpenseCategories && e.annualAmount >= 0.0
    ensures ValidateExpense(RowToRaw(ExpenseRow(e), Expenses)) == Success(e)
  {
    var raw := RowToRaw(ExpenseRow(e), Expenses);
    DumpRawFields(e.base, Expenses, e.expenseCategory, e.annualAmount);
    BaseRevalidates(e.base, raw);
  }

  /** Reading a dumped row gives back every field. */
  lemma DumpRawFields(b: BaseRecord, k: Kind, kind: string, amount: real)
    ensures var raw := RowToRaw(DumpRow(b, k, kind, amount), k);
      raw.countyFips == Some(b.countyFips) && raw.pageUpdatedAt == Some(b.pageUpdatedAt)
      && raw.adults == Some(b.family.adults) && raw.workingAdults == Some(b.family.workingAdults)
      && raw.children == Some(b.family.children)
      && raw.kind == Some(kind) && raw.amount == Some(amount)
  {
    var row := DumpRow(b, k, kind, amount);
    assert row["county_fips"] == Str(b.countyFips);
    assert row["page_updated_at"] == Date(b.pageUpdatedAt);
    assert row["adults"] == Int(b.family.adults);
    assert row["working_adults"] == Int(b.family.workingAdults);
    assert row["children"] == Int(b.family.children);
    assert row[KindColumn(k)] == Str(kind);
    assert row[AmountColumn(k)] == Num(amount);
  }

  lemma BaseRevalidates(b: BaseRecord, raw: RawRecord)
    requires ValidBase(b)
    requires raw.countyFips == Some(b.countyFips) && raw.pageUpdatedAt == Some(b.pageUpdatedAt)
    requires raw.adults == Some(b.family.adults) && raw.workingAdults == Some(b.family.workingAdults)
    requires raw.children == Some(b.family.children)
    ensures ValidateBase(raw) == Success(b)
  {
    assert FipsAcceptable(b.countyFips);
    assert ZFill(b.countyFips, 5) == b.countyFips;
  }

  /** Every record of a validated wage table validates again to itself:
      normalising the output of the normaliser changes nothing. */
  lemma ValidatedWageIsStable(raw: RawRecord)
    requires ValidateWage(raw).Success?
    ensures var w := ValidateWage(raw).value;
      ValidateWage(RowToRaw(WageRow(w), Wages)) == Success(w)
  {
    ValidatedBase(raw);
    WageRowRevalidates(ValidateWage(raw).value);
  }

  lemma ValidatedExpenseIsStable(raw: RawRecord)
    requires ValidateExpense(raw).Success?
    ensures var e := ValidateExpense(raw).value;
      ValidateExpense(RowToRaw(ExpenseRow(e), Expenses)) == Success(e)
  {
    ValidatedBase(raw);
    ExpenseRowRevalidates(ValidateExpense(raw).value);
  }
}

=== FILE: normalizers.dfy ===
/**
  Header and category normalisation (src/transform/normalizers.py).

  A scraped column header such as "2 ADULTS (BOTH WORKING) - 2 CHILDREN"
  is brought to the lowercase key form of the family table; a category
  cell such as "Internet & Mobile" is brought to a lowercase key and then
  to its canonical value.
 */
module Normalizers {
  import opened Wrappers
  import opened Text
  import opened Families

  // ---------------------------------------------------------------------
  // re.sub(r"(\w)\(", r"\1 (", s)

  /** No word character is directly followed by "(". */
  predicate NoWordParen(s: string) {
    forall i, j :: 0 <= i && j == i + 1 < |s| ==> !(IsWordChar(s[i]) && s[j] == '(')
  }

  /** Inserts a space between a word character and a directly following
      "(", scanning left to right over non-overlapping matches. */
  function SpaceBeforeParen(s: string): (r: string)
    ensures |s| > 0 ==> |r| > 0 && r[0] == s[0]
    ensures NoWordParen(r)
    decreases |s|
  {
    if |s| < 2 then s
    else if IsWordChar(s[0]) && s[1] == '(' then [s[0], ' ', '('] + SpaceBeforeParen(s[2..])
    else [s[0]] + SpaceBeforeParen(s[1..])
  }

  /** The substitution brings in no character but the space. */
  lemma {:induction false} SpaceBeforeParenCharsFrom(s: string)
    ensures CharsFrom(SpaceBeforeParen(s), s)
    decreases |s|
  {
    if |s| >= 2 {
      var n := if IsWordChar(s[0]) && s[1] == '(' then 2 else 1;
      var t := SpaceBeforeParen(s[n..]);
      SpaceBeforeParenCharsFrom(s[n..]);
      CharsFromSlice(s, n, |s|);
      CharsFromTrans(t, s[n..], s);
      var r := SpaceBeforeParen(s);
      assert r == (if n == 2 then [s[0], ' ', '('] else [s[0]]) + t;
      forall i | 0 <= i < |r| ensures r[i] == ' ' || r[i] in s {
        if i >= |r| - |t| {
          assert r[i] == t[i - (|r| - |t|)];
        } else if n == 2 && i == 2 {
          assert s[1] == '(';
        } else {
          assert i == 0 || r[i] == ' ';
        }
      }
    }
  }

  /** `s` with every space removed. */
  function Unspaced(s: string): string {
    if |s| == 0 then "" else (if s[0] == ' ' then "" else [s[0]]) + Unspaced(s[1..])
  }

  /** The substitution only inserts spaces: with spaces removed, input and
      output are the same text. */
  lemma {:induction false} SpaceBeforeParenOnlyInserts(s: string)
    ensures Unspaced(SpaceBeforeParen(s)) == Unspaced(s)
    decreases |s|
  {
    if |s| >= 2 {
      if IsWordChar(s[0]) && s[1] == '(' {
        var t := SpaceBeforeParen(s[2..]);
        assert s[1..] == ['('] + s[2..];
        calc {
          Unspaced(SpaceBeforeParen(s));
          { assert SpaceBeforeParen(s) == [s[0]] + ([' '] + (['('] + t)); }
          Unspaced([s[0]] + ([' '] + (['('] + t)));
          { UnspacedCons(s[0], [' '] + (['('] + t)); UnspacedCons(' ', ['('] + t); }
          [s[0]] + Unspaced(['('] + t);
          { UnspacedCons('(', t); SpaceBeforeParenOnlyInserts(s[2..]); UnspacedCons('(', s[2..]); }
          [s[0]] + Unspaced(s[1..]);
          { UnspacedCons(s[0], s[1..]); assert s == [s[0]] + s[1..]; }
          Unspaced(s);
        }
      } else {
        var t := SpaceBeforeParen(s[1..]);
        calc {
          Unspaced(SpaceBeforeParen(s));
          { assert SpaceBeforeParen(s) == [s[0]] + t; }
          Unspaced([s[0]] + t);
          { UnspacedCons(s[0], t); SpaceBeforeParenOnlyInserts(s[1..]); UnspacedCons(s[0], s[1..]); }
          Unspaced([s[0]] + s[1..]);
          { assert s == [s[0]] + s[1..]; }
          Unspaced(s);
        }
      }
    }
  }

  lemma UnspacedCons(c: char, t: string)
    ensures Unspaced([c] + t) == (if c == ' ' then "" else [c]) + Unspaced(t)
  {
    assert ([c] + t)[1..] == t;
  }

  /** Text with no word character before "(" is left unchanged. */
  lemma {:induction false} SpaceBeforeParenIdentity(s: string)
    requires NoWordParen(s)
    ensures SpaceBeforeParen(s) == s
    decreases |s|
  {
    if |s| >= 2 {
      assert !(IsWordChar(s[0]) && s[1] == '(');
      SpaceBeforeParenIdentity(s[1..]);
    }
  }

  lemma NoWordParenAppend(a: string, b: string)
    requires NoWordParen(a) && NoWordParen(b)
    requires |a| > 0 && |b| > 0 ==> !(IsWordChar(a[|a| - 1]) && b[0] == '(')
    ensures NoWordParen(a + b)
  {
    var s := a + b;
    forall i | 0 <= i < |s| - 1 ensures !(IsWordChar(s[i]) && s[i + 1] == '(') {
      if i + 1 < |a| {
        assert s[i] == a[i] && s[i + 1] == a[i + 1];
      } else if i + 1 == |a| {
        assert s[i] == a[i] && s[i + 1] == b[0];
      } else {
        assert s[i] == b[i - |a|] && s[i + 1] == b[i + 1 - |a|];
      }
    }
  }

  lemma {:induction false} SpaceBeforeParenAppend(a: string, b: string)
    requires NoWordParen(a)
    requires |a| > 0 && |b| > 0 ==> !(IsWordChar(a[|a| - 1]) && b[0] == '(')
    ensures SpaceBeforeParen(a + b) == a + SpaceBeforeParen(b)
    decreases |a|
  {
    if |a| == 0 {
      assert a + b == b;
    } else if |a + b| == 1 {
      assert a + b == a && b == [];
    } else {
      AppendFront(a, b);
      NoWordParenSuffix(a);
      calc {
        SpaceBeforeParen(a + b);
        [a[0]] + SpaceBeforeParen(a[1..] + b);
        { SpaceBeforeParenAppend(a[1..], b); }
        [a[0]] + (a[1..] + SpaceBeforeParen(b));
        { ConsBack(a, SpaceBeforeParen(b)); }
        a + SpaceBeforeParen(b);
      }
    }
  }

  lemma ConsBack(a: string, x: string)
    requires |a| > 0
    ensures [a[0]] + (a[1..] + x) == a + x
  {
    assert a == [a[0]] + a[1..];
  }

  /** With no word character of `a` before a parenthesis, the first
      character of `a + b` is copied as it is. */
  lemma AppendFront(a: string, b: string)
    requires NoWordParen(a) && |a| > 0 && |a + b| >= 2
    requires |b| > 0 ==> !(IsWordChar(a[|a| - 1]) && b[0] == '(')
    ensures SpaceBeforeParen(a + b) == [a[0]] + SpaceBeforeParen(a[1..] + b)
  {
    FrontNotParen(a, b);
    CopyFront(a + b);
  }

  /** A first character not a word character before a parenthesis is
      copied as it is. */
  lemma CopyFront(s: string)
    requires |s| >= 2 && !(IsWordChar(s[0]) && s[1] == '(')
    ensures SpaceBeforeParen(s) == [s[0]] + SpaceBeforeParen(s[1..])
  {
  }

  lemma FrontNotParen(a: string, b: string)
    requires NoWordParen(a) && |a| > 0 && |a + b| >= 2
    requires |b| > 0 ==> !(IsWordChar(a[|a| - 1]) && b[0] == '(')
    ensures (a + b)[0] == a[0] && !(IsWordChar((a + b)[0]) && (a + b)[1] == '(')
    ensures (a + b)[1..] == a[1..] + b
  {
    if |a| >= 2 {
      assert (a + b)[1] == a[1];
    } else {
      assert (a + b)[1] == b[0];
    }
  }

  lemma NoWordParenSuffix(a: string)
    requires |a| > 0 && NoWordParen(a)
    ensures NoWordParen(a[1..])
  {
    forall i | 0 <= i < |a| - 2 ensures !(IsWordChar(a[1..][i]) && a[1..][i + 1] == '(') {
      assert a[1..][i] == a[i + 1] && a[1..][i + 1] == a[i + 2];
    }
  }

  lemma SpaceBeforeParenHere(c: char, b: string)
    requires IsWordChar(c)
    ensures SpaceBeforeParen([c, '('] + b) == [c, ' ', '('] + SpaceBeforeParen(b)
  {
    assert ([c, '('] + b)[2..] == b;
  }

  // ---------------------------------------------------------------------
  // normalize_header_for_lookup

  /** Lowercase, drop the " - " separator, space out "(", collapse
      whitespace (normalizers.py lines 12-21). */
  function HeaderStage1(h: string): (r: string)
    ensures NoUpper(r) && SingleSpaced(r)
  {
    var a := Replace(Lower(h), " - ", " ");
    ReplaceNoUpper(Lower(h), " - ", " ");
    var b := SpaceBeforeParen(a);
    SpaceBeforeParenCharsFrom(a);
    CharsFromNoUpper(b, a);
    var c := Collapse(b);
    CharsFromNoUpper(c, b);
    c
  }

  /** Remove "(both working)" and the zero-child suffixes, strip and
      collapse again (normalizers.py lines 24-31). */
  function HeaderStage2(s: string): (r: string)
    ensures NoUpper(s) ==> NoUpper(r)
    ensures SingleSpaced(r)
  {
    var a := Strip(Replace(s, "(both working)", ""));
    var b := Strip(Replace(Replace(a, " 0 children", ""), " 0 child", ""));
    var r := Collapse(b);
    if NoUpper(s) then
      ReplaceNoUpper(s, "(both working)", "");
      StripCharsFrom(Replace(s, "(both working)", ""));
      CharsFromNoUpper(a, Replace(s, "(both working)", ""));
      ReplaceNoUpper(a, " 0 children", "");
      ReplaceNoUpper(Replace(a, " 0 children", ""), " 0 child", "");
      StripCharsFrom(Replace(Replace(a, " 0 children", ""), " 0 child", ""));
      CharsFromNoUpper(b, Replace(Replace(a, " 0 children", ""), " 0 child", ""));
      CharsFromNoUpper(r, b);
      r
    else
      r
  }

  /** `normalize_header_for_lookup`: the result is lowercase, has no
      leading or trailing whitespace and no doubled spaces. */
  function NormalizeHeader(h: string): (r: string)
    ensures NoUpper(r) && SingleSpaced(r)
  {
    HeaderStage2(HeaderStage1(h))
  }

  /** Case never matters: a header and its lowercase form normalise alike. */
  lemma NormalizeHeaderIgnoresCase(h: string)
    ensures NormalizeHeader(h) == NormalizeHeader(Lower(h))
  {
    LowerIdentity(Lower(h));
  }

  /** Headers already in key form: lowercase, single-spaced, and containing
      none of the patterns the normaliser rewrites. */
  predicate HeaderPair(c: char, d: char) {
    !IsUpper(c)
    && (IsSpace(c) ==> c == ' ' && !IsSpace(d) && d != '0' && d != '-')
    && !(IsWordChar(c) && d == '(')
    && !(c == '(' && d == 'b')
  }

  predicate Canonical(s: string) {
    |s| > 0 && !IsSpace(s[0]) && !IsSpace(s[|s| - 1]) && !IsUpper(s[|s| - 1])
    && forall i :: 0 <= i < |s| - 1 ==> HeaderPair(s[i], s[i + 1])
  }

  lemma CanonicalFacts(s: string)
    requires Canonical(s)
    ensures NoUpper(s) && SingleSpaced(s) && NoWordParen(s)
    ensures NoPair(s, ' ', '-') && NoPair(s, ' ', '0') && NoPair(s, '(', 'b')
  {
    forall i | 0 <= i < |s| ensures !IsUpper(s[i]) {
      if i < |s| - 1 {
        assert HeaderPair(s[i], s[i + 1]);
      }
    }
    forall i | 0 <= i < |s| && IsSpace(s[i])
      ensures s[i] == ' ' && 0 < i < |s| - 1 && !IsSpace(s[i + 1])
    {
      assert HeaderPair(s[i], s[i + 1]);
    }
  }

  /** Two key-form pieces joined by one space are in key form, unless the
      second would start a " 0" or " -" pattern. */
  lemma CanonicalGlue(a: string, b: string)
    requires Canonical(a) && Canonical(b) && b[0] != '0' && b[0] != '-'
    ensures Canonical(a + " " + b)
  {
    var s := a + " " + b;
    CanonicalFacts(a);
    forall i | 0 <= i < |s| - 1 ensures HeaderPair(s[i], s[i + 1]) {
      if i + 1 < |a| {
        assert s[i] == a[i] && s[i + 1] == a[i + 1];
      } else if i + 1 == |a| {
        assert s[i] == a[i] && s[i + 1] == ' ';
      } else if i == |a| {
        assert s[i + 1] == b[0];
      } else {
        assert s[i] == b[i - |a| - 1] && s[i + 1] == b[i - |a|];
      }
    }
  }

  /** Every header already in key form is a fixed point of the normaliser. */
  lemma NormalizeCanonical(s: string)
    requires Canonical(s)
    ensures NormalizeHeader(s) == s
  {
    Stage1Canonical(s);
    Stage2Canonical(s);
  }

  lemma Stage1Canonical(s: string)
    requires Canonical(s)
    ensures HeaderStage1(s) == s
  {
    CanonicalFacts(s);
    LowerIdentity(s);
    ReplaceAbsent(s, " - ", " ");
    SpaceBeforeParenIdentity(s);
    CollapseIdentity(s);
  }

  lemma Stage2Canonical(s: string)
    requires Canonical(s)
    ensures HeaderStage2(s) == s
  {
    CanonicalFacts(s);
    ReplaceAbsent(s, "(both working)", "");
    StripIdentity(s);
    ReplaceAbsent(s, " 0 children", "");
    ReplaceAbsent(s, " 0 child", "");
    CollapseIdentity(s);
  }

  lemma OneAdultCanonical() ensures Canonical("1 adult") {}
  lemma TwoAdultsCanonical() ensures Canonical("2 adults") {}
  lemma OneWorkingCanonical() ensures Canonical("(1 working)") {}
  lemma OneChildCanonical() ensures Canonical("1 child") {}
  lemma TwoChildrenCanonical() ensures Canonical("2 children") {}
  lemma ThreeChildrenCanonical() ensures Canonical("3 children") {}

  lemma AdultsPartCanonical(f: Family)
    requires ValidFamily(f)
    ensures Canonical(AdultsPart(f))
  {
    if f.adults == 1 {
      OneAdultCanonical();
    } else if f.workingAdults == 1 {
      TwoAdultsCanonical();
      OneWorkingCanonical();
      CanonicalGlue("2 adults", "(1 working)");
      assert "2 adults" + " " + "(1 working)" == "2 adults (1 working)";
    } else {
      TwoAdultsCanonical();
    }
  }

  lemma ChildrenWordCanonical(f: Family)
    requires ValidFamily(f)
    ensures Canonical(ChildrenWord(f))
  {
    if f.children == 1 {
      OneChildCanonical();
    } else if f.children == 2 {
      TwoChildrenCanonical();
    } else {
      ThreeChildrenCanonical();
    }
  }

  lemma PartsCanonical(f: Family)
    requires ValidFamily(f)
    ensures Canonical(AdultsPart(f) + ChildrenPart(f))
  {
    AdultsPartCanonical(f);
    if f.children != 0 {
      ChildrenWordCanonical(f);
      CanonicalGlue(AdultsPart(f), ChildrenWord(f));
      assert AdultsPart(f) + ChildrenPart(f) == AdultsPart(f) + " " + ChildrenWord(f);
    } else {
      assert AdultsPart(f) + ChildrenPart(f) == AdultsPart(f);
    }
  }

  /** Each of the twelve table keys is in key form. */
  lemma KeyOfCanonical(f: Family)
    requires ValidFamily(f)
    ensures Canonical(KeyOf(f))
  {
    KeyOfParts(f);
    PartsCanonical(f);
  }

  // ---------------------------------------------------------------------
  // get_family_config_metadata

  /** `get_family_config_metadata`: the table entry for the normalised
      header, if there is one. */
  function FamilyConfig(h: string): (r: Option<Family>)
    ensures r.Some? <==> NormalizeHeader(h) in LookupMap
    ensures r.Some? ==> ValidFamily(r.value) && KeyOf(r.value) == NormalizeHeader(h)
  {
    LookupMapKeys();
    var n := NormalizeHeader(h);
    if n in LookupMap then Some(LookupMap[n]) else None
  }

  /** Each lowercase key is its own normal form and finds its household. */
  lemma FamilyConfigOfKey(f: Family)
    requires ValidFamily(f)
    ensures NormalizeHeader(KeyOf(f)) == KeyOf(f)
    ensures FamilyConfig(KeyOf(f)) == Some(f)
  {
    KeyOfCanonical(f);
    NormalizeCanonical(KeyOf(f));
    LookupMapCovers(f);
  }

  /** The title-case headers of the table as written find their household
      too, so the two tables agree through the normaliser. */
  lemma FamilyConfigOfTitle(f: Family)
    requires ValidFamily(f)
    ensures FamilyConfig(TitleKeyOf(f)) == Some(f)
  {
    LookupMapIsLowered(f);
    NormalizeHeaderIgnoresCase(TitleKeyOf(f));
    FamilyConfigOfKey(f);
  }

  /** `get_family_config_metadata` of normalizers.py as written: the
      lowercased normal form is looked up in the title-case table. */
  function FamilyConfigAsWritten(h: string): (r: Option<Family>)
    ensures r.Some? <==> NormalizeHeader(h) in ConfigMap
    ensures r.Some? ==> ValidFamily(r.value)
  {
    ConfigMapKeys();
    var n := NormalizeHeader(h);
    if n in ConfigMap then Some(ConfigMap[n]) else None
  }

  /** Every title-case key has an upper-case letter in third place. */
  lemma ConfigMapKeysUpper()
    ensures forall k :: k in ConfigMap ==> |k| > 2 && IsUpper(k[2])
  {
  }

  /** As written, the lookup never succeeds: a normal form has no
      upper-case letter and every key has one. */
  lemma FamilyConfigAsWrittenMisses(h: string)
    ensures FamilyConfigAsWritten(h) == None
  {
    var n := NormalizeHeader(h);
    ConfigMapKeysUpper();
  }

  // ---------------------------------------------------------------------
  // normalize_category_key and lookup_category_value

  /** A category key: lowercase word characters in words separated by single
      spaces, with no space at either end. */
  predicate CategoryKeyForm(s: string) {
    NoUpper(s)
    && (forall i :: 0 <= i < |s| ==> IsWordChar(s[i]) || s[i] == ' ')
    && NoPair(s, ' ', ' ')
    && (|s| > 0 ==> s[0] != ' ' && s[|s| - 1] != ' ')
  }

  /** `str(x)` of a table cell: the text itself, "None" for a missing one. */
  function CellText(x: Option<string>): string {
    match x
    case Some(s) => s
    case None => "None"
  }

  /** `normalize_category_key`: strip, lowercase, turn each run of non-word
      characters into one space, strip again. */
  function NormalizeCategoryKey(x: string): (r: string)
    ensures CategoryKeyForm(r)
  {
    var raw := Lower(Strip(x));
    var cleaned := SubNonWord(raw);
    var r := Strip(cleaned);
    CategoryKeyStrip(cleaned);
    r
  }

  lemma CategoryKeyStrip(c: string)
    requires NoUpper(c) && NoPair(c, ' ', ' ')
    requires forall i :: 0 <= i < |c| ==> IsWordChar(c[i]) || c[i] == ' '
    ensures CategoryKeyForm(Strip(c))
  {
    StripNoPair(c, ' ', ' ');
    StripCharsFrom(c);
    CharsFromNoUpper(Strip(c), c);
    CharsFromKeyChars(Strip(c), c);
  }

  lemma CharsFromKeyChars(r: string, c: string)
    requires CharsFrom(r, c)
    requires forall i :: 0 <= i < |c| ==> IsWordChar(c[i]) || c[i] == ' '
    ensures forall i :: 0 <= i < |r| ==> IsWordChar(r[i]) || r[i] == ' '
  {
    forall i | 0 <= i < |r|
      ensures IsWordChar(r[i]) || r[i] == ' '
    {
      if r[i] != ' ' {
        var j :| 0 <= j < |c| && c[j] == r[i];
      }
    }
  }

  /** Normalising a key changes nothing, so normalising twice is
      normalising once. */
  lemma NormalizeCategoryKeyIdentity(s: string)
    requires CategoryKeyForm(s)
    ensures NormalizeCategoryKey(s) == s
  {
    StripIdentity(s);
    LowerIdentity(s);
    SubNonWordIdentity(s);
  }

  lemma NormalizeCategoryKeyIdempotent(x: string)
    ensures NormalizeCategoryKey(NormalizeCategoryKey(x)) == NormalizeCategoryKey(x)
  {
    NormalizeCategoryKeyIdentity(NormalizeCategoryKey(x));
  }

  /** The key keeps exactly the word characters of the input, lowercased,
      in order: only case, whitespace and punctuation are lost. */
  lemma NormalizeCategoryKeyWords(x: string)
    ensures WordChars(NormalizeCategoryKey(x)) == Lower(WordChars(x))
  {
    var raw := Lower(Strip(x));
    StripWordChars(x);
    WordCharsLower(Strip(x));
    SubNonWordKeepsWords(raw);
    StripWordChars(SubNonWord(raw));
  }

  /** Case and punctuation do not matter to the key. */
  lemma NormalizeCategoryKeyIgnoresCase(x: string)
    ensures NormalizeCategoryKey(Lower(x)) == NormalizeCategoryKey(x)
  {
    LowerStrip(x);
    LowerIdentity(Lower(Strip(x)));
  }

  lemma LowerStrip(x: string)
    ensures Strip(Lower(x)) == Lower(Strip(x))
  {
    LowerTrimStart(x);
    LowerTrimEnd(TrimStart(x));
  }

  lemma {:induction false} LowerTrimStart(x: string)
    ensures TrimStart(Lower(x)) == Lower(TrimStart(x))
    decreases |x|
  {
    if |x| > 0 {
      LowerCharWord(x[0]);
      assert IsSpace(LowerChar(x[0])) == IsSpace(x[0]);
      assert Lower(x)[1..] == Lower(x[1..]);
      LowerTrimStart(x[1..]);
    }
  }

  lemma {:induction false} LowerTrimEnd(x: string)
    ensures TrimEnd(Lower(x)) == Lower(TrimEnd(x))
    decreases |x|
  {
    if |x| > 0 {
      assert IsSpace(LowerChar(x[|x| - 1])) == IsSpace(x[|x| - 1]);
      assert Lower(x)[..|x| - 1] == Lower(x[..|x| - 1]);
      LowerTrimEnd(x[..|x| - 1]);
    }
  }

  /** The category table: the canonical value of each known key. */
  const CategoryMap: map<string, string> := map[
    "living wage" := "living",
    "poverty wage" := "poverty",
    "minimum wage" := "minimum",
    "food" := "food",
    "child care" := "childcare",
    "childcare" := "childcare",
    "housing" := "housing",
    "medical" := "healthcare",
    "medical care" := "healthcare",
    "health care" := "healthcare",
    "required annual income after taxes" := "required_after_tax",
    "annual taxes" := "annual_taxes",
    "required annual income before taxes" := "required_before_tax"
  ]

  /** The fallback: every space becomes "_". */
  function Slug(n: string): (r: string)
    ensures |r| == |n|
    ensures forall i :: 0 <= i < |n| ==> r[i] == if n[i] == ' ' then '_' else n[i]
  {
    ReplaceCharPointwise(n, ' ', '_');
    Replace(n, " ", "_")
  }

  /** `lookup_category_value`: the canonical value of a known key, the slug
      of the key otherwise. The result is always one word. */
  function LookupCategoryValue(key: string): (r: string)
    ensures LowerWord(r)
  {
    var n := NormalizeCategoryKey(key);
    if n in CategoryMap then
      CategoryValueIsWord(n);
      CategoryMap[n]
    else
      Slug(n)
  }

  /** A known key yields its table value; any other key yields its slug,
      which has "_" exactly where the key has a space. */
  lemma LookupCategoryValueCases(key: string)
    ensures var n := NormalizeCategoryKey(key);
      n in CategoryMap ==> LookupCategoryValue(key) == CategoryMap[n]
    ensures var n := NormalizeCategoryKey(key); var r := LookupCategoryValue(key);
      n !in CategoryMap ==>
        |r| == |n| && forall i :: 0 <= i < |n| ==> r[i] == if n[i] == ' ' then '_' else n[i]
  {
  }

  /** A lowercase word: word characters only, none upper-case. */
  predicate LowerWord(s: string) {
    forall i :: 0 <= i < |s| ==> IsWordChar(s[i]) && !IsUpper(s[i])
  }

  /** The canonical values: the wage types, the expense categories and the
      derived income lines. */
  const CategoryValues: set<string> := {
    "living", "poverty", "minimum", "food", "childcare", "housing", "healthcare",
    "required_after_tax", "annual_taxes", "required_before_tax"
  }

  lemma CategoryMapValues()
    ensures forall k :: k in CategoryMap ==> CategoryMap[k] in CategoryValues
  {
  }

  lemma CategoryValuesWords()
    ensures forall v :: v in CategoryValues ==> LowerWord(v)
  {
  }

  /** Every canonical value is one lowercase word. */
  lemma CategoryValuesAreWords()
    ensures forall k :: k in CategoryMap ==> LowerWord(CategoryMap[k])
  {
    CategoryMapValues();
    CategoryValuesWords();
  }

  /** A canonical value that is itself a key maps to itself. */
  lemma CategoryValuesFixed()
    ensures forall v :: v in CategoryValues && v in CategoryMap ==> CategoryMap[v] == v
  {
  }

  /** No key contains "_". */
  lemma CategoryKeysNoUnderscore()
    ensures forall k :: k in CategoryMap ==> '_' !in k
  {
  }

  /** A lowercase word is already a key and is its own slug. */
  lemma LowerWordKey(w: string)
    requires LowerWord(w)
    ensures NormalizeCategoryKey(w) == w && Slug(w) == w
  {
    NormalizeCategoryKeyIdentity(w);
  }

  /** Looking up a canonical value gives it back: the result of a lookup is
      a fixed point of the lookup. */
  lemma LookupCategoryValueIdempotent(key: string)
    ensures LookupCategoryValue(LookupCategoryValue(key)) == LookupCategoryValue(key)
  {
    var n := NormalizeCategoryKey(key);
    if n in CategoryMap {
      CategoryMapValues();
      LookupCanonicalValue(CategoryMap[n]);
    } else {
      LookupSlugFixed(n);
    }
  }

  lemma LookupCanonicalValue(v: string)
    requires v in CategoryValues
    ensures LookupCategoryValue(v) == v
  {
    CategoryValuesWords();
    LowerWordKey(v);
    CategoryValuesFixed();
  }

  lemma LookupSlugFixed(n: string)
    requires CategoryKeyForm(n) && n !in CategoryMap
    ensures LookupCategoryValue(Slug(n)) == Slug(n)
  {
    var r := Slug(n);
    LowerWordKey(r);
    SlugMisses(n);
  }

  /** The slug of an unknown key is not a key either: keys hold no "_", so
      a slug that is a key equals the key it came from. */
  lemma SlugMisses(n: string)
    requires n !in CategoryMap
    ensures Slug(n) !in CategoryMap
  {
    CategoryKeysNoUnderscore();
    SlugWithoutUnderscore(n);
  }

  /** A slug without "_" is the unchanged key. */
  lemma SlugWithoutUnderscore(n: string)
    ensures '_' !in Slug(n) ==> Slug(n) == n
  {
    var r := Slug(n);
    if '_' !in r {
      assert forall i :: 0 <= i < |n| ==> n[i] == r[i];
    }
  }

  lemma CategoryValueIsWord(n: string)
    requires n in CategoryMap
    ensures LowerWord(CategoryMap[n])
  {
    CategoryValuesAreWords();
  }

  /** Text with no outer whitespace whose lowercase form is already a key
      normalises to that lowercase form. */
  lemma NormalizeCategoryKeyPlain(x: string)
    requires |x| > 0 ==> !IsSpace(x[0]) && !IsSpace(x[|x| - 1])
    requires CategoryKeyForm(Lower(x))
    ensures NormalizeCategoryKey(x) == Lower(x)
  {
    StripIdentity(x);
    var l := Lower(x);
    assert |l| > 0 ==> !IsSpace(l[0]) && !IsSpace(l[|l| - 1]);
    StripIdentity(l);
    SubNonWordIdentity(l);
  }

  /** A known key looked up through text that normalises to it. */
  lemma LookupThrough(x: string, n: string)
    requires NormalizeCategoryKey(x) == n && n in CategoryMap
    ensures LookupCategoryValue(x) == CategoryMap[n]
  {
  }

  /** "FOOD" finds "food" and "Living Wage" finds "living": the lookup
      ignores case. */
  lemma CategoryCaseExamples(x: string, y: string)
    requires x == "FOOD" && y == "Living" + " " + "Wage"
    ensures LookupCategoryValue(x) == "food"
    ensures LookupCategoryValue(y) == "living"
  {
    FoodFacts(x);
    NormalizeCategoryKeyPlain(x);
    LookupThrough(x, "food");
    LivingWageFacts(y);
    NormalizeCategoryKeyPlain(y);
    LookupThrough(y, "living wage");
  }

  lemma FoodFacts(x: string)
    requires x == "FOOD"
    ensures !IsSpace(x[0]) && !IsSpace(x[|x| - 1]) && Lower(x) == "food"
    ensures CategoryKeyForm("food") && "food" in CategoryMap && CategoryMap["food"] == "food"
  {
  }

  lemma LivingWageFacts(y: string)
    requires y == "Living" + " " + "Wage"
    ensures !IsSpace(y[0]) && !IsSpace(y[|y| - 1]) && Lower(y) == "living wage"
    ensures CategoryKeyForm("living wage") && "living wage" in CategoryMap
    ensures CategoryMap["living wage"] == "living"
  {
    assert Lower(y) == "living" + " " + "wage";
  }

  /** "internet & mobile" is not a key: punctuation collapses into the
      separating space and the slug joins the words with "_". */
  lemma CategoryPunctuationExample(x: string)
    requires x == "internet" + " & " + "mobile"
    ensures NormalizeCategoryKey(x) == "internet" + " " + "mobile"
    ensures LookupCategoryValue(x) == "internet" + "_" + "mobile"
  {
    InternetMobileFacts();
    InternetMobileUnknown();
    InternetMobileKey(x);
    SlugOfTwoWords("internet", "mobile");
  }

  lemma InternetMobileKey(x: string)
    requires x == "internet" + " & " + "mobile"
    ensures NormalizeCategoryKey(x) == "internet" + " " + "mobile"
  {
    InternetMobileFacts();
    StripIdentity(x);
    LowerIdentity(x);
    InternetMobileSub(x);
    StripIdentity("internet" + " " + "mobile");
  }

  lemma InternetMobileSub(x: string)
    requires x == "internet" + " & " + "mobile"
    ensures SubNonWord(x) == "internet" + " " + "mobile"
  {
    InternetMobileFacts();
    SubNonWordTwoWords("internet", " & ", "mobile");
  }

  /** Two words around a run of punctuation become two words around one
      space. */
  lemma SubNonWordTwoWords(a: string, m: string, b: string)
    requires LowerWord(a) && LowerWord(b) && |b| > 0
    requires |m| > 0 && forall i :: 0 <= i < |m| ==> !IsWordChar(m[i])
    ensures SubNonWord(a + m + b) == a + " " + b
  {
    SubNonWordWordPrefix(a, m + b);
    SubNonWordRun(m, b);
    SubNonWordIdentity(b);
    assert a + m + b == a + (m + b);
  }

  lemma InternetMobileFacts()
    ensures var x := "internet" + " & " + "mobile";
      !IsSpace(x[0]) && !IsSpace(x[|x| - 1]) && NoUpper(x)
    ensures LowerWord("internet") && LowerWord("mobile") && ' ' !in "internet" && ' ' !in "mobile"
    ensures forall i :: 0 <= i < 3 ==> !IsWordChar(" & "[i])
    ensures var s := "internet" + " " + "mobile"; !IsSpace(s[0]) && !IsSpace(s[|s| - 1])
  {
  }

  lemma InternetMobileUnknown()
    ensures "internet" + " " + "mobile" !in CategoryMap
  {
  }

  lemma SlugOfTwoWords(a: string, b: string)
    requires ' ' !in a && ' ' !in b
    ensures Slug(a + " " + b) == a + "_" + b
  {
    var s := a + " " + b;
    var r := Slug(s);
    assert forall i :: 0 <= i < |a| ==> s[i] == a[i] && r[i] == a[i];
    assert forall i :: 0 <= i < |b| ==> s[|a| + 1 + i] == b[i] && r[|a| + 1 + i] == b[i];
    assert r[|a|] == '_';
    assert r == a + "_" + b;
  }

  /** A missing cell reads "None" and becomes the key "none". */
  lemma CategoryNoneExample()
    ensures NormalizeCategoryKey(CellText(None)) == "none"
  {
    NoneFacts("None");
    NormalizeCategoryKeyPlain("None");
  }

  lemma NoneFacts(x: string)
    requires x == "None"
    ensures !IsSpace(x[0]) && !IsSpace(x[|x| - 1]) && Lower(x) == "none" && CategoryKeyForm("none")
  {
  }

  // ---------------------------------------------------------------------
  // Worked examples. Long literals are written as concatenations of short
  // ones, and each fact about a literal piece is its own small lemma.

  /** "2 ADULTS (BOTH WORKING) - 2 CHILDREN" becomes "2 adults 2 children":
      the separator, the "(both working)" marker and the case all go. */
  lemma NormalizeBothWorkingExample()
    ensures NormalizeHeader("2 ADULTS" + " (BOTH WORKING)" + " - 2 CHILDREN") == "2 adults" + " " + "2 children"
  {
    var t := "2 adults" + " " + "(both working)" + " " + "2 children";
    BothWorkingLower();
    BothWorkingReplace();
    BothWorkingParen();
    BothWorkingCollapse();
    assert HeaderStage1("2 ADULTS" + " (BOTH WORKING)" + " - 2 CHILDREN") == t;
    BothWorkingStage2();
  }

  lemma LowerTwoAdultsUpper() ensures Lower("2 ADULTS") == "2 adults" {}
  lemma LowerBothWorkingUpper() ensures Lower(" (BOTH WORKING)") == " (both working)" {}
  lemma LowerTwoChildrenUpper() ensures Lower(" - 2 CHILDREN") == " - 2 children" {}

  /** The "(both working)" marker is single-spaced and contains none of the
      other patterns. */
  lemma BothWorkingMarker()
    ensures SingleSpaced("(both working)") && NoWordParen("(both working)")
    ensures NoPair("(both working)", ' ', '-') && NoPair("(both working)", ' ', '0')
  {
    BothWorkingSpaced();
    assert "(both" + " " + "working)" == "(both working)";
    BothWorkingNoParen();
    BothWorkingNoPairs();
  }

  lemma BothWorkingSpaced() ensures SingleSpaced("(both" + " " + "working)") {}
  lemma BothWorkingNoParen() ensures NoWordParen("(both working)") {}
  lemma BothWorkingNoPairs()
    ensures NoPair("(both working)", ' ', '-') && NoPair("(both working)", ' ', '0')
  {
  }

  lemma BothWorkingLower()
    ensures Lower("2 ADULTS" + " (BOTH WORKING)" + " - 2 CHILDREN")
         == "2 adults" + " " + "(both working)" + " - " + "2 children"
  {
    LowerTwoAdultsUpper();
    LowerBothWorkingUpper();
    LowerTwoChildrenUpper();
    LowerAppend("2 ADULTS", " (BOTH WORKING)");
    LowerAppend("2 ADULTS" + " (BOTH WORKING)", " - 2 CHILDREN");
  }

  lemma BothWorkingReplace()
    ensures Replace("2 adults" + " " + "(both working)" + " - " + "2 children", " - ", " ")
         == "2 adults" + " " + "(both working)" + " " + "2 children"
  {
    var a := "2 adults" + " " + "(both working)";
    var b := "2 children";
    BothWorkingNoDash();
    ReplaceAppend(a, " - " + b, " - ", " ");
    DashChildrenReplace();
    assert a + " - " + b == a + (" - " + b);
  }

  lemma BothWorkingNoDash()
    ensures NoPair("2 adults" + " " + "(both working)", ' ', '-')
  {
    TwoAdultsCanonical();
    CanonicalFacts("2 adults");
    BothWorkingMarker();
    NoPairAppend("2 adults", " ", ' ', '-');
    NoPairAppend("2 adults" + " ", "(both working)", ' ', '-');
  }

  lemma DashChildrenReplace()
    ensures Replace(" - " + "2 children", " - ", " ") == " " + "2 children"
  {
    var b := "2 children";
    TwoChildrenCanonical();
    CanonicalFacts(b);
    ReplaceHere(" - " + b, " - ", " ");
    assert (" - " + b)[3..] == b;
    ReplaceAbsent(b, " - ", " ");
  }

  lemma BothWorkingParen()
    ensures SpaceBeforeParen("2 adults" + " " + "(both working)" + " " + "2 children")
         == "2 adults" + " " + "(both working)" + " " + "2 children"
  {
    TwoAdultsCanonical();
    CanonicalFacts("2 adults");
    TwoChildrenCanonical();
    CanonicalFacts("2 children");
    BothWorkingMarker();
    NoWordParenAppend("2 adults", " ");
    NoWordParenAppend("2 adults" + " ", "(both working)");
    NoWordParenAppend(" ", "2 children");
    NoWordParenAppend("2 adults" + " " + "(both working)", " " + "2 children");
    SpaceBeforeParenIdentity("2 adults" + " " + "(both working)" + " " + "2 children");
  }

  lemma BothWorkingCollapse()
    ensures Collapse("2 adults" + " " + "(both working)" + " " + "2 children")
         == "2 adults" + " " + "(both working)" + " " + "2 children"
  {
    TwoAdultsCanonical();
    CanonicalFacts("2 adults");
    TwoChildrenCanonical();
    CanonicalFacts("2 children");
    BothWorkingMarker();
    SingleSpacedGlue("2 adults", "(both working)");
    SingleSpacedGlue("2 adults" + " " + "(both working)", "2 children");
    CollapseIdentity("2 adults" + " " + "(both working)" + " " + "2 children");
  }

  lemma BothWorkingStage2()
    ensures HeaderStage2("2 adults" + " " + "(both working)" + " " + "2 children") == "2 adults" + " " + "2 children"
  {
    var u := "2 adults" + "  " + "2 children";
    BothWorkingRemoved();
    DoubleSpacedKept();
    DoubleSpacedCollapse();
  }

  lemma DoubleSpacedKept()
    ensures var u := "2 adults" + "  " + "2 children";
      Strip(Replace(Replace(Strip(u), " 0 children", ""), " 0 child", "")) == u
  {
    DoubleSpacedFacts();
    Stage2Keeps("2 adults" + "  " + "2 children");
  }

  lemma DoubleSpacedFacts()
    ensures var u := "2 adults" + "  " + "2 children";
      !IsSpace(u[0]) && !IsSpace(u[|u| - 1]) && NoPair(u, ' ', '0')
  {
  }

  /** Text without a zero-child suffix and without outer whitespace passes
      the removal steps of the second stage untouched. */
  lemma Stage2Keeps(u: string)
    requires |u| > 0 ==> !IsSpace(u[0]) && !IsSpace(u[|u| - 1])
    requires NoPair(u, ' ', '0')
    ensures Strip(Replace(Replace(Strip(u), " 0 children", ""), " 0 child", "")) == u
  {
    var p1, p2 := " 0 children", " 0 child";
    assert p1[0] == ' ' && p1[1] == '0' && p2[0] == ' ' && p2[1] == '0';
    StripIdentity(u);
    ReplaceAbsent(u, p1, "");
    ReplaceAbsent(u, p2, "");
  }

  lemma DoubleSpacedCollapse()
    ensures Collapse("2 adults" + "  " + "2 children") == "2 adults" + " " + "2 children"
  {
    TwoAdultsCanonical();
    CanonicalFacts("2 adults");
    TwoChildrenCanonical();
    CanonicalFacts("2 children");
    CollapseDoubleSpace("2 adults", "2 children");
    SingleSpacedGlue("2 adults", "2 children");
    CollapseIdentity("2 adults" + " " + "2 children");
  }

  lemma BothWorkingRemoved()
    ensures Replace("2 adults" + " " + "(both working)" + " " + "2 children", "(both working)", "")
         == "2 adults" + "  " + "2 children"
  {
    BothWorkingAround();
    ReplaceMiddle("2 adults" + " ", "(both working)", " " + "2 children", "");
    assert ("2 adults" + " ") + "(both working)" + (" " + "2 children")
        == "2 adults" + " " + "(both working)" + " " + "2 children";
    assert ("2 adults" + " ") + "" + (" " + "2 children") == "2 adults" + "  " + "2 children";
  }

  lemma BothWorkingAround()
    ensures NoPair("2 adults" + " ", '(', 'b') && NoPair(" " + "2 children", '(', 'b')
  {
  }

  /** "2 adults(1 working)" gains the space before "(" and then finds the
      one-earner household. */
  lemma NormalizeParenExample()
    ensures NormalizeHeader("2 adults" + "(" + "1 working)") == "2 adults" + " (" + "1 working)"
    ensures FamilyConfig("2 adults" + "(" + "1 working)") == Some(Family(2, 1, 0))
  {
    ParenStage1();
    OneWorkingKey();
    FamilyConfigOfKey(Family(2, 1, 0));
    Stage2Canonical("2 adults" + " (" + "1 working)");
    FamilyConfigAt("2 adults" + "(" + "1 working)", "2 adults" + " (" + "1 working)");
  }

  lemma OneWorkingKey()
    ensures "2 adults" + " (" + "1 working)" == KeyOf(Family(2, 1, 0))
    ensures Canonical("2 adults" + " (" + "1 working)")
  {
    TwoAdultsCanonical();
    OneWorkingCanonical();
    CanonicalGlue("2 adults", "(1 working)");
    assert "2 adults" + " " + "(1 working)" == "2 adults" + " (" + "1 working)";
  }

  /** A header's lookup is the lookup of its normal form. */
  lemma FamilyConfigAt(h: string, n: string)
    requires NormalizeHeader(h) == n
    ensures FamilyConfig(h) == FamilyConfig(n) <== NormalizeHeader(n) == n
    ensures n !in LookupMap ==> FamilyConfig(h) == None
    ensures n in LookupMap ==> FamilyConfig(h) == Some(LookupMap[n])
  {
  }

  lemma ParenStage1()
    ensures HeaderStage1("2 adults" + "(" + "1 working)") == "2 adults" + " (" + "1 working)"
  {
    ParenLowerReplace();
    ParenSpaced();
    OneWorkingKey();
    CanonicalFacts("2 adults" + " (" + "1 working)");
    CollapseIdentity("2 adults" + " (" + "1 working)");
  }

  lemma ParenLowerReplace()
    ensures Replace(Lower("2 adults" + "(" + "1 working)"), " - ", " ") == "2 adults" + "(" + "1 working)"
  {
    var s := "2 adults" + "(" + "1 working)";
    ParenInputFacts(s);
    LowerIdentity(s);
    ReplaceAbsent(s, " - ", " ");
  }

  lemma ParenInputFacts(s: string)
    requires s == "2 adults" + "(" + "1 working)"
    ensures NoUpper(s) && NoPair(s, ' ', '-') && " - "[0] == ' ' && " - "[1] == '-'
  {
  }

  lemma ParenSpaced()
    ensures SpaceBeforeParen("2 adults" + "(" + "1 working)") == "2 adults" + " (" + "1 working)"
  {
    ParenPiecesPlain();
    SpaceBeforeParenOnce("2 adults", "1 working)");
  }

  lemma ParenPiecesPlain()
    ensures NoWordParen("2 adults") && IsWordChar("2 adults"[7]) && NoWordParen("1 working)")
  {
  }

  /** One word character glued to "(" inside otherwise clean text gains
      exactly one space. */
  lemma SpaceBeforeParenOnce(a: string, b: string)
    requires |a| > 0 && IsWordChar(a[|a| - 1])
    requires NoWordParen(a) && NoWordParen(b)
    ensures SpaceBeforeParen(a + "(" + b) == a + " (" + b
  {
    var k := |a| - 1;
    NoWordParenPrefix(a);
    SplitLastChar(a, b);
    SpaceBeforeParenAppend(a[..k], [a[k], '('] + b);
    SpaceBeforeParenHere(a[k], b);
    SpaceBeforeParenIdentity(b);
  }

  lemma NoWordParenPrefix(a: string)
    requires |a| > 0 && NoWordParen(a)
    ensures NoWordParen(a[..|a| - 1])
  {
    var a0 := a[..|a| - 1];
    forall i | 0 <= i < |a0| - 1 ensures !(IsWordChar(a0[i]) && a0[i + 1] == '(') {
      assert a0[i] == a[i] && a0[i + 1] == a[i + 1];
    }
  }

  lemma SplitLastChar(a: string, b: string)
    requires |a| > 0
    ensures a + "(" + b == a[..|a| - 1] + ([a[|a| - 1], '('] + b)
    ensures a + " (" + b == a[..|a| - 1] + ([a[|a| - 1], ' ', '('] + b)
  {
    assert a == a[..|a| - 1] + [a[|a| - 1]];
  }

  /** Headers outside the table find nothing. */
  lemma FamilyConfigUnknownExamples()
    ensures FamilyConfig("3 adults") == None
    ensures FamilyConfig("invalid config") == None
  {
    ThreeAdultsMiss("3 adults");
    InvalidConfigMiss("invalid config");
  }

  /** A header already in normal form finds exactly its own table entry. */
  lemma CanonicalMiss(s: string)
    requires Canonical(s)
    ensures s !in LookupMap ==> FamilyConfig(s) == None
    ensures s in LookupMap ==> FamilyConfig(s) == Some(LookupMap[s])
  {
    NormalizeCanonical(s);
  }

  lemma ThreeAdultsMiss(h: string)
    requires h == "3 adults"
    ensures FamilyConfig(h) == None
  {
    ThreeAdultsCanonical();
    CanonicalMiss(h);
  }

  lemma ThreeAdultsCanonical() ensures Canonical("3 adults") && "3 adults" !in LookupMap {}

  lemma InvalidConfigMiss(h: string)
    requires h == "invalid config"
    ensures FamilyConfig(h) == None
  {
    InvalidConfigCanonical();
    CanonicalMiss(h);
  }

  lemma InvalidConfigCanonical()
    ensures Canonical("invalid" + " " + "config") && "invalid config" !in LookupMap
  {
  }
}

=== FILE: pipeline.dfy ===
/**
  The pipeline entry point: main.py. Extract (the county scrape of
  Scraping), transform (Frames, Validation, Normalize), load (Staging)
  and run tracking (RunTracker), in the order and with the error
  handling of `main`.

  The database is the value `World`; each `get_cursor` block commits or
  rolls back on its own (src/load/db.py), so a failing load leaves the
  tables it touched as they were and earlier loads in place.
 */
module Pipeline {
  import opened Wrappers
  import opened Text
  import opened Tables
  import Frames
  import Validation
  import Normalize
  import Scraping
  import Staging
  import RunTracker

  // ---------------------------------------------------------------------
  // Run status

  /** The status rule: nothing loaded is a failure, anything rejected
      makes a success partial. */
  function StatusFor(loaded: nat, rejected: nat): (s: string)
    ensures s in {RunTracker.Failed, RunTracker.Partial, RunTracker.Succeeded}
  {
    if loaded == 0 then RunTracker.Failed
    else if rejected > 0 then RunTracker.Partial
    else RunTracker.Succeeded
  }

  /** Each status names exactly one case of the counts. */
  lemma StatusCases(loaded: nat, rejected: nat)
    ensures StatusFor(loaded, rejected) == RunTracker.Failed <==> loaded == 0
    ensures StatusFor(loaded, rejected) == RunTracker.Partial <==> loaded > 0 && rejected > 0
    ensures StatusFor(loaded, rejected) == RunTracker.Succeeded <==> loaded > 0 && rejected == 0
  {
    assert RunTracker.Failed != RunTracker.Partial;
    assert RunTracker.Failed[0] != RunTracker.Succeeded[0];
    assert RunTracker.Partial[0] != RunTracker.Succeeded[0];
  }

  // ---------------------------------------------------------------------
  // Per-county routing

  /** `fips_code[-3:]`: the last three characters, or all of a shorter code. */
  function Last3(fips: string): (r: string)
    ensures |r| == if |fips| < 3 then |fips| else 3
    ensures fips == fips[..|fips| - |r|] + r
  {
    if |fips| <= 3 then fips else fips[|fips| - 3..]
  }

  /** The extractor's codes are the state's code followed by the county's,
      so a three-digit county code comes back out. */
  lemma Last3OfFull(state: string, county: string)
    requires |county| == 3
    ensures Last3(state + county) == county
  {
    assert (state + county)[|state + county| - 3..] == county;
  }

  /** Python's `repr` of a string: single quotes unless the text holds a
      single quote and no double quote. */
  function Repr(s: string): (r: string)
    ensures |r| >= 2 && (r[0] == '\'' || r[0] == '"') && r[|r| - 1] == r[0]
  {
    if '\'' in s && '"' !in s then "\"" + Escape(s, '"') + "\""
    else "'" + Escape(s, '\'') + "'"
  }

  /** Backslashes and the enclosing quote, escaped. */
  function Escape(s: string, quote: char): (r: string)
    ensures |r| >= |s|
    ensures '\\' !in s && quote !in s ==> r == s
  {
    if |s| == 0 then ""
    else (if s[0] == '\\' || s[0] == quote then ['\\', s[0]] else [s[0]]) + Escape(s[1..], quote)
  }

  function JoinReprs(xs: seq<string>): string {
    if |xs| == 0 then ""
    else if |xs| == 1 then Repr(xs[0])
    else Repr(xs[0]) + ", " + JoinReprs(xs[1..])
  }

  /** `str(errors)` for a list of strings. */
  function ListRepr(xs: seq<string>): (r: string)
    ensures |r| >= 2 && r[0] == '[' && r[|r| - 1] == ']'
    ensures |xs| == 0 <==> r == "[]"
  {
    var inner := JoinReprs(xs);
    assert |xs| > 0 ==> |inner| >= 2 by {
      if |xs| > 0 {
        assert |Repr(xs[0])| >= 2;
      }
    }
    "[" + inner + "]"
  }

  /** The values of a reject record: the scraped rows or a reason. */
  datatype RejectValue = RawRows(rows: Option<seq<Dict>>) | Reason(text: string)

  type RejectRecord = map<string, RejectValue>

  function Reject(raw: Option<seq<Dict>>, reason: string): (r: RejectRecord)
    ensures r.Keys == {"raw_data", "rejection_reason"}
    ensures r["raw_data"] == RawRows(raw) && r["rejection_reason"] == Reason(reason)
  {
    map["raw_data" := RawRows(raw), "rejection_reason" := Reason(reason)]
  }

  /** How the loop calls `normalize_wages` / `normalize_expenses`: as
      written, with the county code alone; or with the state code, the
      county code and the page date. */
  datatype Calls = AsWritten | Corrected

  /** The TypeError the two-argument call raises: the county code binds to
      `state_fips`, leaving two parameters unfilled. */
  const NormalizeArityError :=
    "normalize_wages() missing 2 required positional arguments: 'county_fips' and 'page_updated_at'"

  /** A failed scrape's data is `None`, which `table_to_dataframe` reads as
      no rows. */
  function DataOf(d: Option<seq<Dict>>): seq<Dict> {
    if d.Some? then d.value else []
  }

  /** `table_to_dataframe(data)`. */
  function Frame(d: Option<seq<Dict>>): (t: Table)
    ensures WellFormed(t) && |t.rows| == |DataOf(d)|
    ensures d.None? ==> t == Table([], [])
  {
    Frames.TableToDataframe(DataOf(d))
  }

  /** `validate_wide_format_input(df)`: no errors, or the list of them. */
  function Check(t: Table): (errors: seq<string>)
    ensures |errors| <= 2
  {
    var (_, errors) := Validation.ValidateWideFormat(t);
    errors
  }

  /** The corrected `normalize_wages(df, state_fips, county_fips, page_updated_at)`. */
  function WagesOf(t: Table, state: string, county: string, day: int): (r: Result<Table, string>)
    requires WellFormed(t)
    ensures r.Success? ==> WellFormed(r.value)
  {
    Normalize.NormalizeWages(t, state, county, day, true)
  }

  /** The corrected `normalize_expenses(df, state_fips, county_fips, page_updated_at)`. */
  function ExpensesOf(t: Table, state: string, county: string, day: int): (r: Result<Table, string>)
    requires WellFormed(t)
    ensures r.Success? ==> WellFormed(r.value)
  {
    Normalize.NormalizeExpenses(t, state, county, day, true)
  }

  /** What one scrape result turns into. */
  datatype Verdict =
    | Skipped                                          // the scrape failed
    | WageRejected(record: RejectRecord)               // check or normalisation failed
    | ExpenseRejected(record: RejectRecord)            // the expense table failed its check
    | Normalized(wages: Table, expenses: Table)        // both tables normalised
    | WagesOnly(wages: Table, record: RejectRecord)    // the expense normalisation failed

  predicate Sane(v: Verdict) {
    (v.Normalized? ==> WellFormed(v.wages) && WellFormed(v.expenses))
    && (v.WagesOnly? ==> WellFormed(v.wages))
  }

  /** The two normalisation calls for a county whose tables passed the
      checks. The first failure is a wage reject, whichever call raised
      it; the wage table is kept when only the expense call fails. */
  function Transform(r: Scraping.ScrapeResult, wagesDf: Table, expensesDf: Table,
                     state: string, county: string, day: int, calls: Calls): (v: Verdict)
    requires WellFormed(wagesDf) && WellFormed(expensesDf)
    ensures Sane(v) && !v.Skipped? && !v.ExpenseRejected?
    ensures calls == AsWritten ==> v == WageRejected(Reject(r.wagesData, NormalizeArityError))
    ensures v.WageRejected? || v.WagesOnly? ==> "raw_data" in v.record && v.record["raw_data"] == RawRows(r.wagesData)
  {
    match calls
    case AsWritten => WageRejected(Reject(r.wagesData, NormalizeArityError))
    case Corrected =>
      match WagesOf(wagesDf, state, county, day)
      case Failure(e) => WageRejected(Reject(r.wagesData, e))
      case Success(w) =>
        match ExpensesOf(expensesDf, state, county, day)
        case Failure(e) => WagesOnly(w, Reject(r.wagesData, e))
        case Success(x) => Normalized(w, x)
  }

  /** The transform step of `main` for one scrape result: a failed scrape
      only counts; a table that fails its check is rejected with the list
      of errors as the reason, wages checked first; otherwise the
      normalisation calls. */
  function Judge(r: Scraping.ScrapeResult, state: string, day: int, calls: Calls): (v: Verdict)
    ensures Sane(v)
    ensures v.Skipped? <==> !r.success
    ensures v.ExpenseRejected? ==> v.record == Reject(r.expensesData, ListRepr(Check(Frame(r.expensesData))))
    ensures v.WageRejected? ==> "raw_data" in v.record && v.record["raw_data"] == RawRows(r.wagesData)
    ensures calls == AsWritten ==> !v.Normalized? && !v.WagesOnly?
  {
    if !r.success then Skipped
    else
      var wagesDf := Frame(r.wagesData);
      var expensesDf := Frame(r.expensesData);
      var wageErrors := Check(wagesDf);
      if |wageErrors| > 0 then WageRejected(Reject(r.wagesData, ListRepr(wageErrors)))
      else
        var expenseErrors := Check(expensesDf);
        if |expenseErrors| > 0 then ExpenseRejected(Reject(r.expensesData, ListRepr(expenseErrors)))
        else Transform(r, wagesDf, expensesDf, state, Last3(r.fipsCode), day, calls)
  }

  /** The loop's accumulators. */
  datatype Accum = Accum(
    wages: seq<Table>,
    expenses: seq<Table>,
    wageRejects: seq<RejectRecord>,
    expenseRejects: seq<RejectRecord>,
    processed: nat)

  const Start := Accum([], [], [], [], 0)

  /** Every accumulated table is well formed. */
  predicate Tidy(acc: Accum) {
    (forall i :: 0 <= i < |acc.wages| ==> WellFormed(acc.wages[i]))
    && forall i :: 0 <= i < |acc.expenses| ==> WellFormed(acc.expenses[i])
  }

  /** Appending a verdict to the accumulators, counting the county. */
  function Record(acc: Accum, v: Verdict): (out: Accum)
    requires Tidy(acc) && Sane(v)
    ensures Tidy(out) && out.processed == acc.processed + 1
  {
    var acc := acc.(processed := acc.processed + 1);
    match v
    case Skipped => acc
    case WageRejected(rec) => acc.(wageRejects := acc.wageRejects + [rec])
    case ExpenseRejected(rec) => acc.(expenseRejects := acc.expenseRejects + [rec])
    case Normalized(w, x) => acc.(wages := acc.wages + [w], expenses := acc.expenses + [x])
    case WagesOnly(w, rec) => acc.(wages := acc.wages + [w], wageRejects := acc.wageRejects + [rec])
  }

  /** The verdicts of the loop, one per scrape result. */
  function Verdicts(rs: seq<Scraping.ScrapeResult>, state: string, day: int, calls: Calls): (vs: seq<Verdict>)
    ensures |vs| == |rs|
    ensures forall i :: 0 <= i < |rs| ==> vs[i] == Judge(rs[i], state, day, calls)
    ensures forall i :: 0 <= i < |rs| ==> Sane(vs[i]) && (vs[i].Skipped? <==> !rs[i].success)
    ensures calls == AsWritten ==> forall i :: 0 <= i < |rs| ==> !vs[i].Normalized? && !vs[i].WagesOnly?
  {
    seq(|rs|, i requires 0 <= i < |rs| => Judge(rs[i], state, day, calls))
  }

  /** The loop's accumulation of the verdicts, in order. */
  function Accumulate(acc: Accum, vs: seq<Verdict>): (out: Accum)
    requires Tidy(acc) && forall i :: 0 <= i < |vs| ==> Sane(vs[i])
    ensures Tidy(out) && out.processed == acc.processed + |vs|
    decreases |vs|
  {
    if |vs| == 0 then acc
    else
      assert forall i :: 1 <= i < |vs| ==> vs[1..][i - 1] == vs[i];
      Accumulate(Record(acc, vs[0]), vs[1..])
  }

  /** The number of scrape results that were not skipped. */
  function Taken(vs: seq<Verdict>): nat {
    if |vs| == 0 then 0 else (if vs[0].Skipped? then 0 else 1) + Taken(vs[1..])
  }

  /** Every verdict but a skip ends up loaded or rejected: the tables and
      rejects accumulated number at least the results taken, and an
      expense table never comes without its wage table. */
  lemma {:induction false} AccumulateAccounts(acc: Accum, vs: seq<Verdict>)
    requires Tidy(acc) && forall i :: 0 <= i < |vs| ==> Sane(vs[i])
    ensures var out := Accumulate(acc, vs);
      |out.wages| + |out.wageRejects| + |out.expenseRejects|
      >= |acc.wages| + |acc.wageRejects| + |acc.expenseRejects| + Taken(vs)
      && |out.expenses| - |acc.expenses| <= |out.wages| - |acc.wages|
    decreases |vs|
  {
    if |vs| > 0 {
      assert forall i :: 1 <= i < |vs| ==> vs[1..][i - 1] == vs[i];
      AccumulateAccounts(Record(acc, vs[0]), vs[1..]);
    }
  }

  /** Verdicts with no table leave the table lists as they were. */
  lemma {:induction false} AccumulateWithoutTables(acc: Accum, vs: seq<Verdict>)
    requires Tidy(acc) && forall i :: 0 <= i < |vs| ==> Sane(vs[i]) && !vs[i].Normalized? && !vs[i].WagesOnly?
    ensures var out := Accumulate(acc, vs);
      out.wages == acc.wages && out.expenses == acc.expenses
    decreases |vs|
  {
    if |vs| > 0 {
      assert forall i :: 1 <= i < |vs| ==> vs[1..][i - 1] == vs[i];
      AccumulateWithoutTables(Record(acc, vs[0]), vs[1..]);
    }
  }

  /** Verdicts that all carry both tables add one table of each kind per
      verdict and no reject. */
  lemma {:induction false} AccumulateNormalized(acc: Accum, vs: seq<Verdict>)
    requires Tidy(acc) && forall i :: 0 <= i < |vs| ==> Sane(vs[i]) && vs[i].Normalized?
    ensures var out := Accumulate(acc, vs);
      |out.wages| == |acc.wages| + |vs| && |out.expenses| == |acc.expenses| + |vs|
      && out.wageRejects == acc.wageRejects && out.expenseRejects == acc.expenseRejects
    decreases |vs|
  {
    if |vs| > 0 {
      assert forall i :: 1 <= i < |vs| ==> vs[1..][i - 1] == vs[i];
      AccumulateNormalized(Record(acc, vs[0]), vs[1..]);
    }
  }

  /** As written, no county ever reaches the load: every result that
      passes its checks becomes a wage reject. */
  lemma AsWrittenLoadsNothing(rs: seq<Scraping.ScrapeResult>, state: string, day: int)
    ensures var out := Accumulate(Start, Verdicts(rs, state, day, AsWritten));
      out.wages == [] && out.expenses == []
  {
    AccumulateWithoutTables(Start, Verdicts(rs, state, day, AsWritten));
  }

  /** A scrape that succeeds and whose tables pass every check and
      normalise under the corrected calls. */
  predicate CleanCounty(r: Scraping.ScrapeResult, state: string, day: int) {
    r.success && |Check(Frame(r.wagesData))| == 0 && |Check(Frame(r.expensesData))| == 0
    && WagesOf(Frame(r.wagesData), state, Last3(r.fipsCode), day).Success?
    && ExpensesOf(Frame(r.expensesData), state, Last3(r.fipsCode), day).Success?
  }

  /** Exactly such a county yields both normalised tables. */
  lemma JudgeCleanCounty(r: Scraping.ScrapeResult, state: string, day: int)
    ensures Judge(r, state, day, Corrected).Normalized? <==> CleanCounty(r, state, day)
    ensures CleanCounty(r, state, day) ==>
      var county := Last3(r.fipsCode);
      Judge(r, state, day, Corrected)
        == Normalized(WagesOf(Frame(r.wagesData), state, county, day).value,
                      ExpensesOf(Frame(r.expensesData), state, county, day).value)
  {
  }

  /** A county whose expense table fails to normalise keeps its wage
      table and records the error among the wage rejects, with the wage
      rows as its raw data. */
  lemma JudgeExpenseFailure(r: Scraping.ScrapeResult, state: string, day: int)
    requires r.success && |Check(Frame(r.wagesData))| == 0 && |Check(Frame(r.expensesData))| == 0
    requires WagesOf(Frame(r.wagesData), state, Last3(r.fipsCode), day).Success?
    requires ExpensesOf(Frame(r.expensesData), state, Last3(r.fipsCode), day).Failure?
    ensures Judge(r, state, day, Corrected)
      == WagesOnly(WagesOf(Frame(r.wagesData), state, Last3(r.fipsCode), day).value,
                   Reject(r.wagesData, ExpensesOf(Frame(r.expensesData), state, Last3(r.fipsCode), day).error))
  {
  }

  // ---------------------------------------------------------------------
  // pd.concat

  /** `pd.concat([a, b], ignore_index=True)`: the columns of `a`, then the
      new ones of `b`; the rows of `a`, then those of `b`. */
  function Append(a: Table, b: Table): (t: Table)
    requires WellFormed(a)
    ensures WellFormed(t)
    ensures |a.columns| <= |t.columns| && t.columns[..|a.columns|] == a.columns
    ensures forall c :: c in t.columns <==> c in a.columns || c in b.columns
    ensures t.rows == ProjectAll(a.rows, t.columns) + ProjectAll(b.rows, t.columns)
  {
    var cols := AddNew(a.columns, b.columns);
    var rows := ProjectAll(a.rows, cols) + ProjectAll(b.rows, cols);
    assert forall i :: 0 <= i < |rows| ==> rows[i].Keys == set c | c in cols by {
      forall i | 0 <= i < |rows| ensures rows[i].Keys == set c | c in cols {
        if i < |a.rows| {
          assert rows[i] == Project(a.rows[i], cols);
        } else {
          assert rows[i] == Project(b.rows[i - |a.rows|], cols);
        }
      }
    }
    Table(cols, rows)
  }

  /** `pd.concat` loses nothing: each row of either frame, aligned back
      to its own frame's columns, is the row it was, and the columns its
      frame lacked hold null. */
  lemma AppendKeepsRows(a: Table, b: Table)
    requires WellFormed(a) && WellFormed(b)
    ensures var t := Append(a, b);
      |t.rows| == |a.rows| + |b.rows|
      && (forall i :: 0 <= i < |a.rows| ==> Project(t.rows[i], a.columns) == a.rows[i])
      && (forall i :: |a.rows| <= i < |t.rows| ==> Project(t.rows[i], b.columns) == b.rows[i - |a.rows|])
      && (forall i, c :: 0 <= i < |a.rows| && c in t.columns && c !in a.columns ==> t.rows[i][c] == Null)
      && (forall i, c :: |a.rows| <= i < |t.rows| && c in t.columns && c !in b.columns ==> t.rows[i][c] == Null)
  {
    var t := Append(a, b);
    AlignedPair(a, b, t.columns, t.rows);
  }

  /** The rows of two frames aligned to common columns and concatenated. */
  lemma AlignedPair(a: Table, b: Table, cols: seq<string>, rows: seq<Row>)
    requires WellFormed(a) && WellFormed(b)
    requires forall c :: c in a.columns || c in b.columns ==> c in cols
    requires rows == ProjectAll(a.rows, cols) + ProjectAll(b.rows, cols)
    ensures |rows| == |a.rows| + |b.rows|
    ensures forall i :: 0 <= i < |a.rows| ==> Project(rows[i], a.columns) == a.rows[i]
    ensures forall i :: |a.rows| <= i < |rows| ==> Project(rows[i], b.columns) == b.rows[i - |a.rows|]
    ensures forall i, c :: 0 <= i < |a.rows| && c in cols && c !in a.columns ==> rows[i][c] == Null
    ensures forall i, c :: |a.rows| <= i < |rows| && c in cols && c !in b.columns ==> rows[i][c] == Null
  {
    AlignedKeepsRows(a.rows, a.columns, cols);
    AlignedKeepsRows(b.rows, b.columns, cols);
    var wa, wb := ProjectAll(a.rows, cols), ProjectAll(b.rows, cols);
    assert forall i :: 0 <= i < |a.rows| ==> rows[i] == wa[i];
    assert forall i :: |a.rows| <= i < |rows| ==> rows[i] == wb[i - |a.rows|];
  }

  /** Rows aligned to wider columns and back are the rows again. */
  lemma {:induction false} AlignedKeepsRows(rows: seq<Row>, own: seq<string>, cols: seq<string>)
    requires forall i :: 0 <= i < |rows| ==> rows[i].Keys == set c | c in own
    requires forall c :: c in own ==> c in cols
    ensures forall i :: 0 <= i < |rows| ==> Project(ProjectAll(rows, cols)[i], own) == rows[i]
    ensures forall i, c :: 0 <= i < |rows| && c in cols && c !in own ==> ProjectAll(rows, cols)[i][c] == Null
  {
    forall i | 0 <= i < |rows|
      ensures Project(ProjectAll(rows, cols)[i], own) == rows[i]
      ensures forall c :: c in cols && c !in own ==> ProjectAll(rows, cols)[i][c] == Null
    {
      ProjectBack(rows[i], cols, own);
    }
  }

  function TotalRows(ts: seq<Table>): nat {
    if |ts| == 0 then 0 else TotalRows(ts[..|ts| - 1]) + |ts[|ts| - 1].rows|
  }

  /** `pd.concat(ts, ignore_index=True)`. */
  function Concat(ts: seq<Table>): (t: Table)
    ensures WellFormed(t) && |t.rows| == TotalRows(ts)
    ensures forall c :: c in t.columns <==> exists i :: 0 <= i < |ts| && c in ts[i].columns
    decreases |ts|
  {
    if |ts| == 0 then Table([], [])
    else
      var n := |ts| - 1;
      var t := Append(Concat(ts[..n]), ts[n]);
      assert forall i :: 0 <= i < n ==> ts[..n][i] == ts[i];
      t
  }

  // ---------------------------------------------------------------------
  // The load and the run

  /** The database: the run table, the two staging tables and the reject
      tables. */
  datatype World = World(
    runs: seq<RunTracker.Run>,
    wages: Staging.Staged,
    expenses: Staging.Staged,
    rejects: map<string, seq<Staging.RejectRow>>)

  predicate Sound(w: World) {
    RunTracker.Serial(w.runs) && Staging.Consistent(w.wages, Frames.Wages) && Staging.Consistent(w.expenses, Frames.Expenses)
  }

  /** JSON serialisation and `str` of reject values. */
  datatype Json = Json(dumps: RejectValue -> string, dumpsRecord: RejectRecord -> string, show: RejectValue -> string)

  /** The clock readings of one run of `main`: `start_run`'s
      `datetime.now()`, the `CURRENT_TIMESTAMP` of the wage and of the
      expense transaction, and `end_run`'s `datetime.now()`. Each is read
      on its own, so they may all differ. */
  datatype Clock = Clock(started: int, wagesAt: int, expensesAt: int, ended: int)

  datatype Loaded = Loaded(world: World, stats: RunTracker.RunStats) | LoadFailed(world: World, error: Staging.LoadError)

  /** `bulk_upsert_wages` when any wage table was produced. */
  function LoadKind(db: Staging.Staged, ts: seq<Table>, runId: nat, k: Frames.Kind, at: int)
    : (r: Result<(Staging.Staged, nat), Staging.LoadError>)
    requires Staging.Consistent(db, k)
    ensures |ts| == 0 ==> r == Success((db, 0))
    ensures r.Success? ==> Staging.Consistent(r.value.0, k)
    ensures r.Success? ==> r.value.1 <= TotalRows(ts)
  {
    if |ts| == 0 then Success((db, 0))
    else Staging.BulkUpsert(db, Concat(ts), runId, k, at, Staging.Defs(k))
  }

  /** The load block of `main`: wages, expenses, then the two reject
      batches, each committed on its own. */
  function Load(world: World, acc: Accum, runId: nat, clock: Clock, json: Json): (r: Loaded)
    requires Sound(world)
    ensures Sound(r.world) && r.world.runs == world.runs
    ensures r.Loaded? ==>
      (r.stats.counties == acc.processed
       && r.stats.wagesRejected == |acc.wageRejects| && r.stats.expensesRejected == |acc.expenseRejects|
       && r.stats.wagesLoaded <= TotalRows(acc.wages) && r.stats.expensesLoaded <= TotalRows(acc.expenses))
  {
    match LoadKind(world.wages, acc.wages, runId, Frames.Wages, clock.wagesAt)
    case Failure(e) => LoadFailed(world, e)
    case Success((wages, wagesLoaded)) =>
      var world := world.(wages := wages);
      match LoadKind(world.expenses, acc.expenses, runId, Frames.Expenses, clock.expensesAt)
      case Failure(e) => LoadFailed(world, e)
      case Success((expenses, expensesLoaded)) =>
        var world := world.(expenses := expenses);
        var wr := Staging.LoadRejects(world.rejects, acc.wageRejects, runId, "stg_wages_rejects", json.dumps, json.dumpsRecord, json.show);
        var rejects := wr.value.0;
        var er := Staging.LoadRejects(rejects, acc.expenseRejects, runId, "stg_expenses_rejects", json.dumps, json.dumpsRecord, json.show);
        Loaded(world.(rejects := er.value.0),
               RunTracker.RunStats(acc.processed, wagesLoaded, wr.value.1, expensesLoaded, er.value.1))
  }

  /** The settings `main` reads. */
  datatype Settings = Settings(targetStates: seq<string>, fipsMap: map<string, string>)

  /** How `main` ends. */
  datatype Outcome =
    | NoDatabase                                   // test_connection() failed
    | UnknownState(name: string)                   // no code for the target state
    | Raised(error: string)                        // an exception escaped main
    | Completed(runId: nat, status: string, stats: RunTracker.RunStats)

  /** The TypeError of `get_county_codes()` without its state argument. */
  const CountyCodesArityError := "get_county_codes() missing 1 required positional argument: 'state_fips'"

  /** The steps of `main` before the county list: the connection, the
      first target state and its code. */
  function Target(settings: Settings, connected: bool): (r: Result<string, Outcome>)
    ensures r.Success? ==> r.value != ""
    ensures r.Success? <==>
      (connected && |settings.targetStates| > 0
       && settings.targetStates[0] in settings.fipsMap && settings.fipsMap[settings.targetStates[0]] != "")
    ensures r.Failure? ==> !r.error.Completed?
  {
    if !connected then Failure(NoDatabase)
    else if |settings.targetStates| == 0 then Failure(Raised(IndexError))
    else
      var target := settings.targetStates[0];
      var code := if target in settings.fipsMap then settings.fipsMap[target] else "";
      if code == "" then Failure(UnknownState(target)) else Success(code)
  }

  /** `main` as written, taking its imports as resolved:
      `get_county_codes()` is called without the state code, so the
      TypeError escapes before any run is started. */
  function MainAsWritten(settings: Settings, connected: bool, world: World): (r: (Outcome, World))
    ensures r.1 == world
  {
    match Target(settings, connected)
    case Failure(o) => (o, world)
    case Success(_) => (Raised(CountyCodesArityError), world)
  }

  /** As written, `main` never records a run. */
  lemma MainAsWrittenNeverRuns(settings: Settings, connected: bool, world: World)
    ensures !MainAsWritten(settings, connected, world).0.Completed?
    ensures MainAsWritten(settings, connected, world).1.runs == world.runs
    ensures Target(settings, connected).Success? ==>
      MainAsWritten(settings, connected, world).0 == Raised(CountyCodesArityError)
  {
  }

  /** Extract and transform: scrape every county of the state and route
      each result, under the corrected calls. */
  function Ingest(state: string, codes: seq<string>, fetch: Scraping.PageSource, day: int): (acc: Accum)
    ensures Tidy(acc) && acc.processed == |codes|
  {
    Accumulate(Start, Verdicts(Scraping.ScrapeStateCounties(state, codes, fetch), state, day, Corrected))
  }

  /** The load, then `end_run`: with the status the counts call for, or,
      when a load raises, FAILED with the error and the counties processed
      (the exception then escapes `main`). */
  function Finish(world: World, acc: Accum, runId: nat, clock: Clock, json: Json, describe: Staging.LoadError -> string)
    : (r: (Outcome, World))
    requires Sound(world) && 1 <= runId <= |world.runs|
    ensures Sound(r.1) && |r.1.runs| == |world.runs|
    ensures forall i :: 0 <= i < |world.runs| && i != runId - 1 ==> r.1.runs[i] == world.runs[i]
    ensures r.0.Completed? || r.0.Raised?
    ensures var run := r.1.runs[runId - 1];
      run == world.runs[runId - 1].(status := run.status, end := Some(clock.ended), stats := run.stats, error := run.error)
      && run.status in {RunTracker.Failed, RunTracker.Partial, RunTracker.Succeeded}
      && run.stats.Some? && run.stats.value.counties == acc.processed
      && (r.0.Completed? ==>
            (r.0.runId == runId && run.stats == Some(r.0.stats) && run.error.None?
             && run.status == r.0.status == StatusFor(r.0.stats.wagesLoaded + r.0.stats.expensesLoaded,
                                                      r.0.stats.wagesRejected + r.0.stats.expensesRejected)))
      && (r.0.Raised? ==> run.status == RunTracker.Failed && run.error == Some(r.0.error))
  {
    match Load(world, acc, runId, clock, json)
    case LoadFailed(w, e) =>
      var stats := RunTracker.RunStats(acc.processed, 0, 0, 0, 0);
      (Raised(describe(e)), w.(runs := RunTracker.EndRun(w.runs, runId, RunTracker.Failed, stats, Some(describe(e)), clock.ended)))
    case Loaded(w, stats) =>
      var status := StatusFor(stats.wagesLoaded + stats.expensesLoaded, stats.wagesRejected + stats.expensesRejected);
      (Completed(runId, status, stats), w.(runs := RunTracker.EndRun(w.runs, runId, status, stats, None, clock.ended)))
  }

  /** `main` with `get_county_codes(state_fips)` and the normalisers
      called with the state code, the county code and the page date. The
      county lookup, the page fetch, the clock readings, the date and the
      exception text of a failed load are parameters. */
  function Main(settings: Settings, connected: bool, world: World,
                countyCodes: string -> Result<seq<string>, string>, fetch: Scraping.PageSource,
                clock: Clock, today: int, day: int, json: Json, describe: Staging.LoadError -> string)
    : (r: (Outcome, World))
    requires Sound(world)
    ensures Sound(r.1)
    ensures Target(settings, connected).Failure? ==> r == (Target(settings, connected).error, world)
    ensures Target(settings, connected).Success? && countyCodes(Target(settings, connected).value).Failure? ==>
      r == (Raised(countyCodes(Target(settings, connected).value).error), world)
    ensures r.0.Completed? ==> r.0.runId == |world.runs| + 1
  {
    match Target(settings, connected)
    case Failure(o) => (o, world)
    case Success(state) =>
      match countyCodes(state)
      case Failure(e) => (Raised(e), world)
      case Success(codes) =>
        var (runs, runId) := RunTracker.StartRun(world.runs, state, clock.started, today);
        Finish(world.(runs := runs), Ingest(state, codes, fetch, day), runId, clock, json, describe)
  }

  /** Once the state and its counties are known, `main` adds exactly one
      run and always ends it: its row records the state, the start, a
      final status (never RUNNING) and the number of counties; a
      completed run's row holds the status its counts call for, a failed
      load's the error. Nothing earlier in the table changes. */
  lemma MainEndsItsRun(settings: Settings, connected: bool, world: World,
                       countyCodes: string -> Result<seq<string>, string>, fetch: Scraping.PageSource,
                       clock: Clock, today: int, day: int, json: Json, describe: Staging.LoadError -> string)
    requires Sound(world)
    requires Target(settings, connected).Success? && countyCodes(Target(settings, connected).value).Success?
    ensures var (o, w) := Main(settings, connected, world, countyCodes, fetch, clock, today, day, json, describe);
      var state := Target(settings, connected).value;
      var run := w.runs[|world.runs|];
      |w.runs| == |world.runs| + 1 && w.runs[..|world.runs|] == world.runs
      && run.runId == |world.runs| + 1 && run.stateFips == state && run.start == clock.started && run.scrapeDate == today
      && run.end == Some(clock.ended) && run.status != RunTracker.Running
      && run.stats.Some? && run.stats.value.counties == |countyCodes(state).value|
      && (o.Completed? ==> run.status == o.status && run.stats == Some(o.stats))
      && (o.Raised? ==> run.status == RunTracker.Failed && run.error == Some(o.error))
  {
    var state := Target(settings, connected).value;
    var codes := countyCodes(state).value;
    StartedRunEnds(world, state, Ingest(state, codes, fetch, day), clock, today, json, describe);
  }

  /** A run started and then finished: one more row, ended, with a final
      status and the outcome's counts or error. */
  lemma StartedRunEnds(world: World, state: string, acc: Accum, clock: Clock, today: int,
                       json: Json, describe: Staging.LoadError -> string)
    requires Sound(world)
    ensures var (runs, runId) := RunTracker.StartRun(world.runs, state, clock.started, today);
      var (o, w) := Finish(world.(runs := runs), acc, runId, clock, json, describe);
      var run := w.runs[|world.runs|];
      |w.runs| == |world.runs| + 1 && w.runs[..|world.runs|] == world.runs
      && run.runId == |world.runs| + 1 && run.stateFips == state && run.start == clock.started && run.scrapeDate == today
      && run.end == Some(clock.ended) && run.status != RunTracker.Running
      && run.stats.Some? && run.stats.value.counties == acc.processed
      && (o.Completed? ==> run.status == o.status && run.stats == Some(o.stats))
      && (o.Raised? ==> run.status == RunTracker.Failed && run.error == Some(o.error))
  {
    var (runs, runId) := RunTracker.StartRun(world.runs, state, clock.started, today);
    var (o, w) := Finish(world.(runs := runs), acc, runId, clock, json, describe);
    assert w.runs[..|world.runs|] == world.runs by {
      assert forall i :: 0 <= i < |world.runs| ==> w.runs[i] == runs[i] == world.runs[i];
    }
    RunningNotFinal(w.runs[|world.runs|].status);
  }

  /** RUNNING is none of the final statuses. */
  lemma RunningNotFinal(status: string)
    requires status in {RunTracker.Failed, RunTracker.Partial, RunTracker.Succeeded}
    ensures status != RunTracker.Running
  {
    assert RunTracker.Running[0] != RunTracker.Failed[0] && RunTracker.Running[0] != RunTracker.Partial[0]
      && RunTracker.Running[0] != RunTracker.Succeeded[0];
  }

  /** With every county clean, the run accumulates one wage and one
      expense table per county and rejects nothing. */
  lemma CleanRunHasNoRejects(state: string, codes: seq<string>, fetch: Scraping.PageSource, day: int)
    requires forall i :: 0 <= i < |codes| ==> CleanCounty(Scraping.ScrapeWithExtractor(state, codes[i], fetch), state, day)
    ensures var acc := Ingest(state, codes, fetch, day);
      |acc.wages| == |codes| && |acc.expenses| == |codes| && acc.wageRejects == [] && acc.expenseRejects == []
  {
    var rs := Scraping.ScrapeStateCounties(state, codes, fetch);
    var vs := Verdicts(rs, state, day, Corrected);
    forall i | 0 <= i < |rs| ensures vs[i].Normalized? {
      JudgeCleanCounty(rs[i], state, day);
    }
    AccumulateNormalized(Start, vs);
  }

  /** Every successful scrape of the run is loaded or rejected. */
  lemma IngestAccounts(state: string, codes: seq<string>, fetch: Scraping.PageSource, day: int)
    ensures var acc := Ingest(state, codes, fetch, day);
      |acc.wages| + |acc.wageRejects| + |acc.expenseRejects|
      >= Taken(Verdicts(Scraping.ScrapeStateCounties(state, codes, fetch), state, day, Corrected))
      && |acc.expenses| <= |acc.wages|
  {
    AccumulateAccounts(Start, Verdicts(Scraping.ScrapeStateCounties(state, codes, fetch), state, day, Corrected));
  }
}

=== FILE: records.dfy ===
/**
  The validated records of src/transform/models.py: `BaseRecord` and its
  two subclasses `WageRecord` and `ExpenseRecord`.

  Pydantic validates the fields in declaration order, runs each field
  validator on the coerced value, and collects one error per failing field.
  A validator sees, through `info.data`, only the earlier fields that
  validated; the working-adults check uses that to compare against the
  adults count. A field that is missing or cannot be coerced to its type is
  `None` here and fails with one error of its own.
 */
module Records {
  import opened Wrappers
  import opened Text
  import opened Families

  /** One entry of a validation error: the field and its message. */
  datatype FieldError = FieldError(field: string, msg: string)

  /** The input to a model: each field as coerced, `None` when it is
      missing or not of its type. `kind` is `wage_type` or
      `expense_category`, `amount` is `hourly_wage` or `annual_amount`. */
  datatype RawRecord = RawRecord(
    countyFips: Option<string>,
    pageUpdatedAt: Option<int>,
    adults: Option<int>,
    workingAdults: Option<int>,
    children: Option<int>,
    kind: Option<string>,
    amount: Option<real>)

  /** The common fields; the date is a day number. */
  datatype BaseRecord = BaseRecord(countyFips: string, pageUpdatedAt: int, family: Family)

  datatype WageRecord = WageRecord(base: BaseRecord, wageType: string, hourlyWage: real)

  datatype ExpenseRecord = ExpenseRecord(base: BaseRecord, expenseCategory: string, annualAmount: real)

  /** Pydantic reports a `ValueError` raised by a field validator as
      "Value error, " followed by the exception's text. */
  const FipsMessage := "Value error, county_fips must be a 5-digit string (state + county FIPS)"
  const AdultsMessage := "Value error, adults must be 1 or 2"
  const WorkingLowMessage := "Value error, working_adults must be at least 1"
  const WorkingHighMessage := "Value error, working_adults cannot exceed adults"
  const ChildrenMessage := "Value error, children must be between 0 and 3"

  /** The type errors of an input that is null or not of the field's type. */
  const NotStringMessage := "Input should be a valid string"
  const NotDateMessage := "Input should be a valid date"
  const NotIntegerMessage := "Input should be a valid integer"
  const NotNumberMessage := "Input should be a valid number"

  /** The `ge=0` bound and the `Literal` mismatches, which list the values. */
  const NegativeMessage := "Input should be greater than or equal to 0"
  const WageTypeMessage := "Input should be 'living', 'poverty' or 'minimum'"
  const ExpenseCategoryMessage :=
    "Input should be 'food', 'childcare', 'housing', 'transportation', 'healthcare', 'other', "
    + "'civic', 'internet_mobile', 'required_after_tax', 'annual_taxes' or 'required_before_tax'"

  /** The `Literal` values of `WageRecord.wage_type`. */
  const WageTypes: set<string> := {"living", "poverty", "minimum"}

  /** The `Literal` values of `ExpenseRecord.expense_category`. */
  const ExpenseCategories: set<string> := {
    "food", "childcare", "housing", "transportation", "healthcare", "other",
    "civic", "internet_mobile", "required_after_tax", "annual_taxes",
    "required_before_tax"
  }

  lemma ExpenseCategoriesSize()
    ensures |ExpenseCategories| == 11
  {
  }

  // ---------------------------------------------------------------------
  // Field validators

  /** A county code the validator accepts: at most five characters, every
      one a digit. The empty string pads to "00000". */
  predicate FipsAcceptable(v: string) {
    |v| <= 5 && forall i :: 0 <= i < |v| ==> IsDigit(v[i])
  }

  /** `validate_county_fips`: pad to width 5, then demand five digits. */
  function ValidateCountyFips(v: string): (r: Result<string, string>)
    ensures r.Success? <==> FipsAcceptable(v)
    ensures r.Success? ==> IsDigits(r.value) && |r.value| == 5
    ensures r.Success? ==> r.value[5 - |v|..] == v && DigitsValue(r.value) == DigitsValue(v)
    ensures r.Failure? ==> r.error == FipsMessage
  {
    var z := ZFill(v, 5);
    FipsPadding(v);
    if |z| != 5 || !IsDigits(z) then Failure(FipsMessage) else Success(z)
  }

  lemma FipsPadding(v: string)
    ensures var z := ZFill(v, 5);
      (|z| == 5 && IsDigits(z)) <==> FipsAcceptable(v)
    ensures var z := ZFill(v, 5);
      FipsAcceptable(v) ==> z[5 - |v|..] == v && DigitsValue(z) == DigitsValue(v)
  {
    var z := ZFill(v, 5);
    if |v| < 5 && !(|v| > 0 && (v[0] == '+' || v[0] == '-')) {
      assert z == Zeros(5 - |v|) + v;
      if FipsAcceptable(v) {
        ZerosPrefixValue(5 - |v|, v);
        assert z[5 - |v|..] == v;
      } else {
        var i :| 0 <= i < |v| && !IsDigit(v[i]);
        assert z[5 - |v| + i] == v[i];
      }
    } else if |v| < 5 {
      assert !IsDigit(z[0]);
    }
  }

  /** `validate_adults`. */
  function ValidateAdults(v: int): (r: Result<int, string>)
    ensures r.Success? <==> v == 1 || v == 2
    ensures r.Success? ==> r.value == v
    ensures r.Failure? ==> r.error == AdultsMessage
  {
    if v != 1 && v != 2 then Failure(AdultsMessage) else Success(v)
  }

  /** `validate_working_adults`: `adults` is the adults value when that
      field validated, `None` otherwise. */
  function ValidateWorkingAdults(v: int, adults: Option<int>): (r: Result<int, string>)
    ensures r.Success? <==> 1 <= v && (adults.Some? ==> v <= adults.value)
    ensures r.Success? ==> r.value == v
    ensures v < 1 ==> r == Failure(WorkingLowMessage)
    ensures 1 <= v && adults.Some? && v > adults.value ==> r == Failure(WorkingHighMessage)
  {
    if v < 1 then Failure(WorkingLowMessage)
    else if adults.Some? && v > adults.value then Failure(WorkingHighMessage)
    else Success(v)
  }

  /** `validate_children`. */
  function ValidateChildren(v: int): (r: Result<int, string>)
    ensures r.Success? <==> 0 <= v <= 3
    ensures r.Success? ==> r.value == v
    ensures r.Failure? ==> r.error == ChildrenMessage
  {
    if v < 0 || v > 3 then Failure(ChildrenMessage) else Success(v)
  }

  /** `Field(ge=0)` on the amount. Pydantic checks the bound before the
      field validator runs, so a negative amount fails with the bound's
      message and the validator's own "must be non-negative" is never
      reached. */
  function ValidateAmount(v: real): (r: Result<real, string>)
    ensures r.Success? <==> v >= 0.0
    ensures r.Success? ==> r.value == v
    ensures r.Failure? ==> r.error == NegativeMessage
  {
    if v < 0.0 then Failure(NegativeMessage) else Success(v)
  }

  /** A `Literal[...]` field. */
  function ValidateLiteral(v: string, allowed: set<string>, message: string): (r: Result<string, string>)
    ensures r.Success? <==> v in allowed
    ensures r.Success? ==> r.value == v
    ensures r.Failure? ==> r.error == message
  {
    if v in allowed then Success(v) else Failure(message)
  }

  /** A field whose input is null or of the wrong type fails with its
      type's message before its validator runs. */
  function Present<T>(x: Option<T>, typeMessage: string): Result<T, string> {
    match x
    case None => Failure(typeMessage)
    case Some(v) => Success(v)
  }

  /** The error entry, if any, that one field contributes. */
  function Check<T>(field: string, r: Result<T, string>): seq<FieldError> {
    if r.Success? then [] else [FieldError(field, r.error)]
  }

  function FipsField(x: Option<string>): Result<string, string> {
    var v :- Present(x, NotStringMessage);
    ValidateCountyFips(v)
  }

  function AdultsField(x: Option<int>): Result<int, string> {
    var v :- Present(x, NotIntegerMessage);
    ValidateAdults(v)
  }

  function WorkingField(x: Option<int>, adults: Result<int, string>): Result<int, string> {
    var v :- Present(x, NotIntegerMessage);
    ValidateWorkingAdults(v, if adults.Success? then Some(adults.value) else None)
  }

  function ChildrenField(x: Option<int>): Result<int, string> {
    var v :- Present(x, NotIntegerMessage);
    ValidateChildren(v)
  }

  function AmountField(x: Option<real>): Result<real, string> {
    var v :- Present(x, NotNumberMessage);
    ValidateAmount(v)
  }

  function LabelField(x: Option<string>, allowed: set<string>, message: string): Result<string, string> {
    var v :- Present(x, NotStringMessage);
    ValidateLiteral(v, allowed, message)
  }

  // ---------------------------------------------------------------------
  // Whole records

  /** The errors of the five common fields, in declaration order. */
  function BaseErrors(raw: RawRecord): seq<FieldError> {
    var adults := AdultsField(raw.adults);
    Check("county_fips", FipsField(raw.countyFips))
    + Check("page_updated_at", Present(raw.pageUpdatedAt, NotDateMessage))
    + Check("adults", adults)
    + Check("working_adults", WorkingField(raw.workingAdults, adults))
    + Check("children", ChildrenField(raw.children))
  }

  /** What a `BaseRecord` accepts, stated without the validators: every
      field present, an acceptable county code and a valid household. */
  predicate BaseAcceptable(raw: RawRecord) {
    raw.countyFips.Some? && FipsAcceptable(raw.countyFips.value)
    && raw.pageUpdatedAt.Some?
    && raw.adults.Some? && raw.workingAdults.Some? && raw.children.Some?
    && ValidFamily(Family(raw.adults.value, raw.workingAdults.value, raw.children.value))
  }

  function ValidateBase(raw: RawRecord): (r: Result<BaseRecord, seq<FieldError>>)
    ensures r.Success? <==> BaseAcceptable(raw)
    ensures r.Success? ==> r.value.family == Family(raw.adults.value, raw.workingAdults.value, raw.children.value)
    ensures r.Success? ==> r.value.pageUpdatedAt == raw.pageUpdatedAt.value
    ensures r.Success? ==> r.value.countyFips == ZFill(raw.countyFips.value, 5) && |r.value.countyFips| == 5
    ensures r.Failure? ==> r.error == BaseErrors(raw) && |r.error| > 0
  {
    var errs := BaseErrors(raw);
    BaseErrorsMeaning(raw);
    if errs == [] then
      var adults := AdultsField(raw.adults);
      Success(BaseRecord(
        FipsField(raw.countyFips).value,
        raw.pageUpdatedAt.value,
        Family(adults.value, WorkingField(raw.workingAdults, adults).value, ChildrenField(raw.children).value)))
    else
      Failure(errs)
  }

  /** No error among the common fields is exactly an acceptable record,
      whose fields then validate to their own values. */
  lemma BaseErrorsMeaning(raw: RawRecord)
    ensures BaseErrors(raw) == [] <==> BaseAcceptable(raw)
    ensures BaseErrors(raw) == [] ==>
      var adults := AdultsField(raw.adults);
      FipsField(raw.countyFips) == Success(ZFill(raw.countyFips.value, 5)) && |ZFill(raw.countyFips.value, 5)| == 5
      && adults == Success(raw.adults.value)
      && WorkingField(raw.workingAdults, adults) == Success(raw.workingAdults.value)
      && ChildrenField(raw.children) == Success(raw.children.value)
  {
  }

  /** `WageRecord(**row)`. */
  function ValidateWage(raw: RawRecord): (r: Result<WageRecord, seq<FieldError>>)
    ensures r.Success? <==>
      BaseAcceptable(raw)
      && raw.kind.Some? && raw.kind.value in WageTypes
      && raw.amount.Some? && raw.amount.value >= 0.0
    ensures r.Success? ==>
      r.value.base == ValidateBase(raw).value
      && r.value.wageType == raw.kind.value && r.value.hourlyWage == raw.amount.value
    ensures r.Failure? ==>
      r.error == BaseErrors(raw)
        + Check("wage_type", LabelField(raw.kind, WageTypes, WageTypeMessage))
        + Check("hourly_wage", AmountField(raw.amount))
      && |r.error| > 0
  {
    var base := ValidateBase(raw);
    var kind := LabelField(raw.kind, WageTypes, WageTypeMessage);
    var amount := AmountField(raw.amount);
    var errs := BaseErrors(raw) + Check("wage_type", kind) + Check("hourly_wage", amount);
    if errs == [] then Success(WageRecord(base.value, kind.value, amount.value))
    else Failure(errs)
  }

  /** `ExpenseRecord(**row)`. */
  function ValidateExpense(raw: RawRecord): (r: Result<ExpenseRecord, seq<FieldError>>)
    ensures r.Success? <==>
      BaseAcceptable(raw)
      && raw.kind.Some? && raw.kind.value in ExpenseCategories
      && raw.amount.Some? && raw.amount.value >= 0.0
    ensures r.Success? ==>
      r.value.base == ValidateBase(raw).value
      && r.value.expenseCategory == raw.kind.value && r.value.annualAmount == raw.amount.value
    ensures r.Failure? ==>
      r.error == BaseErrors(raw)
        + Check("expense_category", LabelField(raw.kind, ExpenseCategories, ExpenseCategoryMessage))
        + Check("annual_amount", AmountField(raw.amount))
      && |r.error| > 0
  {
    var base := ValidateBase(raw);
    var kind := LabelField(raw.kind, ExpenseCategories, ExpenseCategoryMessage);
    var amount := AmountField(raw.amount);
    var errs := BaseErrors(raw) + Check("expense_category", kind) + Check("annual_amount", amount);
    if errs == [] then Success(ExpenseRecord(base.value, kind.value, amount.value))
    else Failure(errs)
  }

  // ---------------------------------------------------------------------
  // Properties

  /** The households a record accepts are exactly the values of the family
      table, and each is found under its own header. Together with
      `Families.LookupMapInjective` the table is a bijection onto them. */
  lemma AcceptedFamiliesAreTable(raw: RawRecord)
    requires raw.countyFips.Some? && FipsAcceptable(raw.countyFips.value)
    requires raw.pageUpdatedAt.Some?
    requires raw.adults.Some? && raw.workingAdults.Some? && raw.children.Some?
    ensures var f := Family(raw.adults.value, raw.workingAdults.value, raw.children.value);
      ValidateBase(raw).Success? <==> f in LookupMap.Values
    ensures ValidateBase(raw).Success? ==>
      var f := ValidateBase(raw).value.family;
      KeyOf(f) in LookupMap && LookupMap[KeyOf(f)] == f
  {
    LookupMapValues();
    if ValidateBase(raw).Success? {
      LookupMapCovers(ValidateBase(raw).value.family);
    }
  }

  /** Which common fields fail, each contributing its one entry to
      `BaseErrors`. The adults count is compared against only when adults
      itself validated, so with adults = 3 and working adults = 3 only the
      adults field is reported. */
  lemma BaseErrorFields(raw: RawRecord)
    ensures FipsField(raw.countyFips).Failure? <==>
      raw.countyFips.None? || !FipsAcceptable(raw.countyFips.value)
    ensures AdultsField(raw.adults).Failure? <==>
      raw.adults.None? || (raw.adults.value != 1 && raw.adults.value != 2)
    ensures WorkingField(raw.workingAdults, AdultsField(raw.adults)).Failure? <==>
      raw.workingAdults.None? || raw.workingAdults.value < 1
      || (raw.adults.Some? && (raw.adults.value == 1 || raw.adults.value == 2)
          && raw.workingAdults.value > raw.adults.value)
    ensures ChildrenField(raw.children).Failure? <==>
      raw.children.None? || raw.children.value < 0 || raw.children.value > 3
    ensures |BaseErrors(raw)| ==
      (if FipsField(raw.countyFips).Failure? then 1 else 0)
      + (if raw.pageUpdatedAt.None? then 1 else 0)
      + (if AdultsField(raw.adults).Failure? then 1 else 0)
      + (if WorkingField(raw.workingAdults, AdultsField(raw.adults)).Failure? then 1 else 0)
      + (if ChildrenField(raw.children).Failure? then 1 else 0)
  {
  }

  /** "101" pads to "00101"; "abc" and "123456" are rejected. */
  lemma CountyFipsExamples(a: string, b: string, c: string)
    requires a == "101" && b == "abc" && c == "123456"
    ensures ValidateCountyFips(a) == Success("00101")
    ensures ValidateCountyFips(b) == Failure(FipsMessage)
    ensures ValidateCountyFips(c) == Failure(FipsMessage)
  {
    assert !IsDigit(b[0]);
    assert Zeros(2) == "00";
    assert ZFill(a, 5) == "00" + a;
    assert "00" + a == "00101";
  }

  /** A zero wage is accepted. */
  lemma ZeroWageAccepted(raw: RawRecord)
    requires BaseAcceptable(raw)
    requires raw.kind == Some("living") && raw.amount == Some(0.0)
    ensures ValidateWage(raw).Success?
  {
  }
}

=== FILE: retry.dfy ===
/**
  The three retry loops: `_fetch_with_retry` and `_wait` of
  src/extract/http.py, `fetch_with_retry` and `_log_and_wait` of
  src/extract/apis/base_api_client.py, and `fetch_with_retry` of
  src/extract/scrapers/scraper_base.py. The network is a function from
  the attempt number to what that attempt gets back, and the sleeps are
  recorded instead of slept.
 */
module Retry {
  import opened Wrappers
  import opened Text
  import opened Codecs

  /** What one GET gives: a response with its status, or an exception of
      `requests`. */
  datatype Outcome =
    | Response(status: int, content: Bytes)
    | Timeout
    | ConnectionError
    | OtherError     // any other RequestException

  /** `raise_for_status()` raises exactly for 4xx and 5xx statuses. */
  predicate IsHttpError(o: Outcome) {
    o.Response? && 400 <= o.status < 600
  }

  /** What a policy does after one attempt: return the response, wait
      `base · 2^attempt` seconds and try again, or raise. */
  datatype Action = Return | Wait(base: nat) | Raise

  function Pow2(n: nat): (r: nat)
    ensures r >= 1
  {
    if n == 0 then 1 else 2 * Pow2(n - 1)
  }

  /** `base_delay * (2 ** attempt)` for an action that waits. */
  function Delay(a: Action, attempt: nat): nat {
    if a.Wait? then a.base * Pow2(attempt) else 0
  }

  datatype Stop =
    | Returned(response: Outcome)
    | Raised(error: Outcome)
    | Exhausted(last: Option<Outcome>)   // the loop ran out of attempts

  /** One run of a retry loop: the GETs made, the sleeps in order, and how
      it ended. */
  datatype Run = Run(calls: nat, sleeps: seq<nat>, stop: Stop)

  /** The loop from attempt `attempt` on. Every attempt but the last that
      asks to wait sleeps `base · 2^attempt`; the loop ends at the first
      attempt that returns or raises, or after `maxRetries` attempts. */
  function Attempts(net: nat -> Outcome, policy: Outcome -> Action, maxRetries: int,
                    attempt: nat, last: Option<Outcome>): (r: Run)
    ensures attempt >= maxRetries ==> r == Run(0, [], Exhausted(last))
    ensures attempt < maxRetries ==> 1 <= r.calls <= maxRetries - attempt
    ensures |r.sleeps| == if r.calls == 0 then 0 else r.calls - 1
    ensures forall n :: attempt <= n < attempt + |r.sleeps| ==>
      policy(net(n)).Wait? && r.sleeps[n - attempt] == Delay(policy(net(n)), n)
    ensures r.stop.Returned? ==>
      r.calls >= 1 && policy(net(attempt + r.calls - 1)) == Return && r.stop.response == net(attempt + r.calls - 1)
    ensures r.stop.Raised? ==>
      r.calls >= 1 && policy(net(attempt + r.calls - 1)) == Raise && r.stop.error == net(attempt + r.calls - 1)
    ensures r.stop.Exhausted? ==>
      (r.calls == 0 ==> r.stop.last == last)
      && (r.calls > 0 ==> attempt + r.calls == maxRetries && r.stop.last == Some(net(maxRetries - 1))
                          && policy(net(maxRetries - 1)).Wait?)
    decreases maxRetries - attempt
  {
    if attempt >= maxRetries then Run(0, [], Exhausted(last))
    else
      var o := net(attempt);
      match policy(o)
      case Return => Run(1, [], Returned(o))
      case Raise => Run(1, [], Raised(o))
      case Wait(base) =>
        var rest := Attempts(net, policy, maxRetries, attempt + 1, Some(o));
        var pause := if attempt < maxRetries - 1 then [Delay(policy(o), attempt)] else [];
        var r := Run(1 + rest.calls, pause + rest.sleeps, rest.stop);
        ShiftSleeps(net, policy, attempt, pause, rest.sleeps);
        r
  }

  /** The sleeps of attempt `attempt` followed by those of the attempts
      after it. */
  lemma ShiftSleeps(net: nat -> Outcome, policy: Outcome -> Action, attempt: nat, pause: seq<nat>, rest: seq<nat>)
    requires |pause| <= 1 && (|pause| == 0 ==> |rest| == 0)
    requires |pause| == 1 ==> policy(net(attempt)).Wait? && pause[0] == Delay(policy(net(attempt)), attempt)
    requires forall n :: attempt + 1 <= n < attempt + 1 + |rest| ==>
      policy(net(n)).Wait? && rest[n - (attempt + 1)] == Delay(policy(net(n)), n)
    ensures forall n :: attempt <= n < attempt + |pause + rest| ==>
      policy(net(n)).Wait? && (pause + rest)[n - attempt] == Delay(policy(net(n)), n)
  {
    forall n | attempt <= n < attempt + |pause + rest|
      ensures policy(net(n)).Wait? && (pause + rest)[n - attempt] == Delay(policy(net(n)), n)
    {
      if n > attempt {
        assert (pause + rest)[n - attempt] == rest[n - (attempt + 1)];
      }
    }
  }

  /** A whole loop, from attempt 0: at most `maxRetries` GETs; the one
      before the last sleeps `base · 2^j` after attempt j; the loop ends at
      the first response the policy returns or raises; every earlier
      attempt was one the policy retries. */
  function Fetch(net: nat -> Outcome, policy: Outcome -> Action, maxRetries: int): (r: Run)
    ensures r.calls <= if maxRetries < 0 then 0 else maxRetries
    ensures r.calls == 0 <==> maxRetries <= 0
    ensures |r.sleeps| == if r.calls == 0 then 0 else r.calls - 1
    ensures forall j :: 0 <= j < |r.sleeps| ==>
      policy(net(j)).Wait? && r.sleeps[j] == Delay(policy(net(j)), j)
    ensures r.stop.Returned? ==>
      r.calls >= 1 && policy(net(r.calls - 1)) == Return && r.stop.response == net(r.calls - 1)
    ensures r.stop.Raised? ==>
      r.calls >= 1 && policy(net(r.calls - 1)) == Raise && r.stop.error == net(r.calls - 1)
    ensures r.stop.Exhausted? ==>
      r.calls == (if maxRetries < 0 then 0 else maxRetries)
      && (maxRetries <= 0 ==> r.stop.last.None?)
      && (maxRetries > 0 ==> r.stop.last == Some(net(maxRetries - 1)))
      && forall j :: 0 <= j < r.calls ==> policy(net(j)).Wait?
  {
    Attempts(net, policy, maxRetries, 0, None)
  }

  /** The loop returns the first response its policy accepts, and only
      when every earlier attempt was retried. */
  lemma FirstSuccessReturned(net: nat -> Outcome, policy: Outcome -> Action, maxRetries: int, k: nat)
    requires k < maxRetries
    requires forall j :: 0 <= j < k ==> policy(net(j)).Wait?
    requires policy(net(k)) == Return
    ensures Fetch(net, policy, maxRetries).stop == Returned(net(k))
    ensures Fetch(net, policy, maxRetries).calls == k + 1
  {
    StopsAt(net, policy, maxRetries, 0, None, k);
  }

  lemma {:induction false} StopsAt(net: nat -> Outcome, policy: Outcome -> Action, maxRetries: int,
                                   attempt: nat, last: Option<Outcome>, k: nat)
    requires attempt <= k < maxRetries
    requires forall j :: attempt <= j < k ==> policy(net(j)).Wait?
    requires !policy(net(k)).Wait?
    ensures Attempts(net, policy, maxRetries, attempt, last).calls == k - attempt + 1
    ensures policy(net(k)) == Return ==> Attempts(net, policy, maxRetries, attempt, last).stop == Returned(net(k))
    ensures policy(net(k)) == Raise ==> Attempts(net, policy, maxRetries, attempt, last).stop == Raised(net(k))
    decreases k - attempt
  {
    if attempt < k {
      StopsAt(net, policy, maxRetries, attempt + 1, Some(net(attempt)), k);
    }
  }

  // ---------------------------------------------------------------------
  // The three policies

  /** `HttpClient._fetch_with_retry` as written: 404 raises; 429 and every
      status up to 500 wait from 4 s (the guard reads `code <= 500 and
      code <= 599`); any other error status raises; timeouts and broken
      connections wait from 1 s; other request errors raise. */
  function HttpPolicyAsWritten(o: Outcome): (a: Action)
    ensures IsHttpError(o) && o.status == 404 ==> a == Raise
    ensures IsHttpError(o) && o.status != 404 ==> (a == Wait(4) <==> o.status <= 500)
    ensures (o.Timeout? || o.ConnectionError?) <==> a == Wait(1)
    ensures o.Response? && !IsHttpError(o) <==> a == Return
  {
    match o
    case Response(code, _) =>
      if !IsHttpError(o) then Return
      else if code == 404 then Raise
      else if code == 429 then Wait(4)
      else if code <= 500 && code <= 599 then Wait(4)
      else Raise
    case Timeout => Wait(1)
    case ConnectionError => Wait(1)
    case OtherError => Raise
  }

  /** The same loop with the 5xx guard it evidently means,
      `500 <= code <= 599`. */
  function HttpPolicy(o: Outcome): (a: Action)
    ensures IsHttpError(o) ==> (a == Wait(4) <==> o.status == 429 || 500 <= o.status)
    ensures IsHttpError(o) ==> (a == Raise <==> o.status != 429 && o.status < 500)
    ensures (o.Timeout? || o.ConnectionError?) <==> a == Wait(1)
    ensures o.Response? && !IsHttpError(o) <==> a == Return
  {
    match o
    case Response(code, _) =>
      if !IsHttpError(o) then Return
      else if code == 404 then Raise
      else if code == 429 then Wait(4)
      else if 500 <= code <= 599 then Wait(4)
      else Raise
    case Timeout => Wait(1)
    case ConnectionError => Wait(1)
    case OtherError => Raise
  }

  /** `BaseApiClient.fetch_with_retry`: 404 raises, 429 and 5xx wait from
      4 s, other error statuses raise, network trouble waits from 1 s. */
  function ApiPolicy(o: Outcome): (a: Action)
    ensures IsHttpError(o) ==> (a == Wait(4) <==> o.status == 429 || 500 <= o.status)
    ensures (o.Timeout? || o.ConnectionError?) <==> a == Wait(1)
    ensures o.Response? && !IsHttpError(o) <==> a == Return
  {
    match o
    case Response(code, _) =>
      if !IsHttpError(o) then Return
      else if code == 404 then Raise
      else if code == 429 then Wait(4)
      else if 500 <= code <= 599 then Wait(4)
      else Raise
    case Timeout => Wait(1)
    case ConnectionError => Wait(1)
    case OtherError => Raise
  }

  /** `BaseScraper.fetch_with_retry`: 429 and statuses from 500 wait
      `2^(attempt+2)`, that is from 4 s; network trouble waits `2^attempt`;
      404 and any other error status raise. */
  function ScraperPolicy(o: Outcome): (a: Action)
    ensures IsHttpError(o) ==> (a == Wait(4) <==> o.status == 429 || o.status >= 500)
    ensures (o.Timeout? || o.ConnectionError?) <==> a == Wait(1)
    ensures o.Response? && !IsHttpError(o) <==> a == Return
  {
    match o
    case Response(code, _) =>
      if !IsHttpError(o) then Return
      else if code == 404 then Raise
      else if code == 429 then Wait(4)
      else if code >= 500 then Wait(4)
      else Raise
    case Timeout => Wait(1)
    case ConnectionError => Wait(1)
    case OtherError => Raise
  }

  /** The scraper's `2^(attempt+2)` is the shared rule with base 4. */
  lemma {:induction false} ScraperWaitIsBaseFour(attempt: nat)
    ensures Pow2(attempt + 2) == 4 * Pow2(attempt)
  {
    if attempt > 0 {
      ScraperWaitIsBaseFour(attempt - 1);
    }
  }

  /** With the guard corrected, the three clients retry the same
      outcomes with the same waits. */
  lemma PoliciesAgree(o: Outcome)
    ensures HttpPolicy(o) == ApiPolicy(o) == ScraperPolicy(o)
  {
  }

  /** The guard as written retries client errors such as 403 and gives up
      at once on 503, the reverse of the corrected policy. */
  lemma HttpGuardAsWritten(c: Bytes)
    ensures HttpPolicyAsWritten(Response(403, c)) == Wait(4) && HttpPolicy(Response(403, c)) == Raise
    ensures HttpPolicyAsWritten(Response(503, c)) == Raise && HttpPolicy(Response(503, c)) == Wait(4)
  {
  }

  /** The two guards differ exactly on 400–500 and 501–599 minus the
      special cases. */
  lemma HttpGuardDiffers(o: Outcome)
    ensures HttpPolicyAsWritten(o) != HttpPolicy(o) <==>
      IsHttpError(o) && o.status != 404 && o.status != 429 && o.status != 500
  {
  }

  /** A 404 at the first attempt raises after exactly one GET and no
      sleep, under every policy. */
  lemma NotFoundFailsFast(net: nat -> Outcome, policy: Outcome -> Action, maxRetries: int)
    requires maxRetries >= 1 && net(0).Response? && net(0).status == 404
    requires policy in {HttpPolicyAsWritten, HttpPolicy, ApiPolicy, ScraperPolicy}
    ensures Fetch(net, policy, maxRetries) == Run(1, [], Raised(net(0)))
  {
  }

  /** A network that always times out: every attempt is made and the
      sleeps are 1, 2, 4, …, so together one second short of
      `2^(maxRetries-1)`. */
  lemma AlwaysTimingOut(net: nat -> Outcome, maxRetries: int)
    requires maxRetries >= 1 && forall j :: net(j) == Timeout
    ensures var r := Fetch(net, HttpPolicy, maxRetries);
      r.calls == maxRetries && r.stop == Exhausted(Some(Timeout))
      && |r.sleeps| == maxRetries - 1 && (forall j :: 0 <= j < |r.sleeps| ==> r.sleeps[j] == Pow2(j))
      && Total(r.sleeps) == Pow2(maxRetries - 1) - 1
  {
    var r := Fetch(net, HttpPolicy, maxRetries);
    assert forall j :: HttpPolicy(net(j)) == Wait(1) by {
      forall j ensures HttpPolicy(net(j)) == Wait(1) {
        assert net(j) == Timeout;
      }
    }
    assert r.stop.Exhausted?;
    assert forall j :: 0 <= j < |r.sleeps| ==> r.sleeps[j] == Pow2(j);
    DoublingTotal(r.sleeps);
  }

  function Total(s: seq<nat>): nat {
    if |s| == 0 then 0 else Total(s[..|s| - 1]) + s[|s| - 1]
  }

  lemma {:induction false} DoublingTotal(s: seq<nat>)
    requires forall j :: 0 <= j < |s| ==> s[j] == Pow2(j)
    ensures Total(s) == Pow2(|s|) - 1
  {
    if |s| > 0 {
      DoublingTotal(s[..|s| - 1]);
    }
  }

  // ---------------------------------------------------------------------
  // How each client reports the end of the loop

  datatype Error =
    | Http(outcome: Outcome)     // the HTTPError or RequestException re-raised
    | GaveUp(message: string)    // the RequestException raised after the loop
    | NotAnException             // `raise None`: a TypeError

  /** `HttpClient._fetch_with_retry`: the response's bytes, the error that
      stopped the loop, or after the last attempt the last error again;
      with no attempt at all there is none to raise. */
  function HttpResult(r: Run): (res: Result<Bytes, Error>)
    ensures r.stop.Returned? <==> res.Success?
    ensures r.stop.Returned? && r.stop.response.Response? ==> res == Success(r.stop.response.content)
    ensures r.stop.Exhausted? && r.stop.last.None? <==> res == Failure(NotAnException)
  {
    match r.stop
    case Returned(o) => if o.Response? then Success(o.content) else Success([])
    case Raised(o) => Failure(Http(o))
    case Exhausted(Some(o)) => Failure(Http(o))
    case Exhausted(None) => Failure(NotAnException)
  }

  /** "Failed to fetch {url} after {n} attempts". */
  function GaveUpMessage(url: string, maxRetries: int): string {
    "Failed to fetch " + url + " after " + IntToString(maxRetries) + " attempts"
  }

  /** `fetch_with_retry` of the API client and the scraper: the response,
      the error that stopped the loop, or a new error naming the URL and
      the number of attempts. */
  function ClientResult(r: Run, url: string, maxRetries: int): (res: Result<Outcome, Error>)
    ensures r.stop.Returned? <==> res.Success?
    ensures res.Success? ==> res.value == r.stop.response
    ensures r.stop.Exhausted? <==> res == Failure(GaveUp(GaveUpMessage(url, maxRetries)))
  {
    match r.stop
    case Returned(o) => Success(o)
    case Raised(o) => Failure(Http(o))
    case Exhausted(_) => Failure(GaveUp(GaveUpMessage(url, maxRetries)))
  }

  /** A returned outcome is always a response whose status passed
      `raise_for_status`. */
  lemma ReturnedIsResponse(net: nat -> Outcome, policy: Outcome -> Action, maxRetries: int)
    requires policy in {HttpPolicyAsWritten, HttpPolicy, ApiPolicy, ScraperPolicy}
    ensures var r := Fetch(net, policy, maxRetries);
      r.stop.Returned? ==> r.stop.response.Response? && !IsHttpError(r.stop.response)
  {
  }

  /** With no attempts allowed, the HTTP client's loop ends in `raise
      None`, the others' in their "Failed to fetch" error. */
  lemma NoAttempts(net: nat -> Outcome, url: string, maxRetries: int)
    requires maxRetries <= 0
    ensures HttpResult(Fetch(net, HttpPolicy, maxRetries)) == Failure(NotAnException)
    ensures ClientResult(Fetch(net, ApiPolicy, maxRetries), url, maxRetries)
         == Failure(GaveUp(GaveUpMessage(url, maxRetries)))
  {
  }
}

=== FILE: runs.dfy ===
/**
  ETL run tracking: src/load/run_tracker.py. The `etl_runs` table is a
  sequence whose `run_id` column is a serial starting at 1; the clock is
  a parameter (`now` a timestamp, `today` a date).
 */
module RunTracker {
  import opened Wrappers

  const Running := "RUNNING"
  const Succeeded := "SUCCESS"
  const Failed := "FAILED"
  const Partial := "PARTIAL"

  /** The counters `end_run` records. */
  datatype RunStats = RunStats(
    counties: nat,
    wagesLoaded: nat,
    wagesRejected: nat,
    expensesLoaded: nat,
    expensesRejected: nat)

  /** One row of `etl_runs`; `end`, `stats` and `error` stay empty until
      the run is ended. */
  datatype Run = Run(
    runId: nat,
    start: int,
    status: string,
    stateFips: string,
    scrapeDate: int,
    end: Option<int>,
    stats: Option<RunStats>,
    error: Option<string>)

  /** Ids are the serial: the i-th row has id i + 1. */
  predicate Serial(runs: seq<Run>) {
    forall i :: 0 <= i < |runs| ==> runs[i].runId == i + 1
  }

  /** `start_run`: insert a RUNNING row and return its fresh id. */
  function StartRun(runs: seq<Run>, state: string, now: int, today: int): (r: (seq<Run>, nat))
    requires Serial(runs)
    ensures Serial(r.0) && |r.0| == |runs| + 1 && r.0[..|runs|] == runs
    ensures forall i :: 0 <= i < |runs| ==> runs[i].runId != r.1
    ensures Find(r.0, r.1) == Some(|runs|)
    ensures var run := r.0[|runs|];
      run.status == Running && run.stateFips == state && run.start == now && run.scrapeDate == today
      && run.end.None? && run.stats.None? && run.error.None?
  {
    var id := |runs| + 1;
    (runs + [Run(id, now, Running, state, today, None, None, None)], id)
  }

  /** The position of the row with id `id`. */
  function Find(runs: seq<Run>, id: nat): (r: Option<nat>)
    requires Serial(runs)
    ensures r.Some? <==> 1 <= id <= |runs|
    ensures r.Some? ==> r.value < |runs| && runs[r.value].runId == id
  {
    if 1 <= id <= |runs| then Some(id - 1) else None
  }

  /** `end_run`: `UPDATE ... WHERE run_id = id`; an unknown id updates
      nothing. */
  function EndRun(runs: seq<Run>, id: nat, status: string, stats: RunStats, error: Option<string>, now: int)
    : (r: seq<Run>)
    requires Serial(runs)
    ensures Serial(r) && |r| == |runs|
    ensures Find(runs, id).None? ==> r == runs
    ensures forall i :: 0 <= i < |runs| && runs[i].runId != id ==> r[i] == runs[i]
    ensures forall i :: 0 <= i < |runs| && runs[i].runId == id ==>
      r[i] == runs[i].(status := status, end := Some(now), stats := Some(stats), error := error)
  {
    match Find(runs, id)
    case None => runs
    case Some(i) =>
      runs[i := runs[i].(status := status, end := Some(now), stats := Some(stats), error := error)]
  }

  /** The `state_fips` filter: none when the argument is missing or empty. */
  predicate Matches(run: Run, state: Option<string>) {
    state.None? || state.value == "" || run.stateFips == state.value
  }

  /** The position `get_latest_run` picks: the matching row with the
      latest start (of equal starts, the earliest inserted). */
  function LatestIndex(runs: seq<Run>, state: Option<string>): (r: Option<nat>)
    ensures r.Some? ==> r.value < |runs|
    decreases |runs|
  {
    if |runs| == 0 then None
    else
      var n := |runs| - 1;
      var best := LatestIndex(runs[..n], state);
      if !Matches(runs[n], state) then best
      else if best.Some? && runs[best.value].start >= runs[n].start then best
      else Some(n)
  }

  /** There is no latest row exactly when no row matches; otherwise the
      row picked matches and no matching row started later. */
  lemma {:induction false} LatestIndexSpec(runs: seq<Run>, state: Option<string>)
    ensures var r := LatestIndex(runs, state);
      (r.None? <==> forall i :: 0 <= i < |runs| ==> !Matches(runs[i], state))
      && (r.Some? ==> r.value < |runs| && Matches(runs[r.value], state))
      && (r.Some? ==> forall i :: 0 <= i < |runs| && Matches(runs[i], state) ==> runs[i].start <= runs[r.value].start)
    decreases |runs|
  {
    if |runs| > 0 {
      var n := |runs| - 1;
      LatestIndexSpec(runs[..n], state);
      assert forall i :: 0 <= i < n ==> runs[i] == runs[..n][i];
    }
  }

  /** `get_latest_run`: that row, if any. */
  function GetLatestRun(runs: seq<Run>, state: Option<string>): (r: Option<Run>)
    ensures r.None? <==> forall i :: 0 <= i < |runs| ==> !Matches(runs[i], state)
    ensures r.Some? ==> r.value in runs && Matches(r.value, state)
    ensures r.Some? ==> forall i :: 0 <= i < |runs| && Matches(runs[i], state) ==> runs[i].start <= r.value.start
  {
    LatestIndexSpec(runs, state);
    match LatestIndex(runs, state)
    case None => None
    case Some(i) => Some(runs[i])
  }

  /** Which row is latest depends only on the start times and states. */
  lemma {:induction false} LatestIndexAgrees(a: seq<Run>, b: seq<Run>, state: Option<string>)
    requires |a| == |b|
    requires forall i :: 0 <= i < |a| ==> a[i].start == b[i].start && a[i].stateFips == b[i].stateFips
    ensures LatestIndex(a, state) == LatestIndex(b, state)
    decreases |a|
  {
    if |a| > 0 {
      var n := |a| - 1;
      AgreeOnPrefix(a, b, n);
      LatestIndexAgrees(a[..n], b[..n], state);
      LatestIndexStep(a, state);
      LatestIndexStep(b, state);
      PickAgrees(a, b, LatestIndex(a[..n], state), state);
    }
  }

  /** Rows agreeing on start and state agree on every prefix. */
  lemma AgreeOnPrefix(a: seq<Run>, b: seq<Run>, n: nat)
    requires |a| == |b| && n <= |a|
    requires forall i :: 0 <= i < |a| ==> a[i].start == b[i].start && a[i].stateFips == b[i].stateFips
    ensures |a[..n]| == |b[..n]|
    ensures forall i :: 0 <= i < n ==> a[..n][i].start == b[..n][i].start && a[..n][i].stateFips == b[..n][i].stateFips
  {
  }

  lemma PickAgrees(a: seq<Run>, b: seq<Run>, best: Option<nat>, state: Option<string>)
    requires |a| == |b| > 0 && (best.Some? ==> best.value < |a|)
    requires forall i :: 0 <= i < |a| ==> a[i].start == b[i].start && a[i].stateFips == b[i].stateFips
    ensures Pick(a, best, state) == Pick(b, best, state)
  {
    var n := |a| - 1;
    assert Matches(a[n], state) == Matches(b[n], state);
  }

  /** The choice `LatestIndex` makes between the best of the earlier rows
      and the last row. */
  function Pick(runs: seq<Run>, best: Option<nat>, state: Option<string>): Option<nat>
    requires |runs| > 0 && (best.Some? ==> best.value < |runs|)
  {
    var n := |runs| - 1;
    if !Matches(runs[n], state) then best
    else if best.Some? && runs[best.value].start >= runs[n].start then best
    else Some(n)
  }

  lemma LatestIndexStep(runs: seq<Run>, state: Option<string>)
    requires |runs| > 0
    ensures var best := LatestIndex(runs[..|runs| - 1], state);
      (best.Some? ==> best.value < |runs|) && LatestIndex(runs, state) == Pick(runs, best, state)
  {
    var n := |runs| - 1;
    assert forall i :: 0 <= i < n ==> runs[i] == runs[..n][i];
  }

  /** A run started after every other is the latest, for its own state
      and unfiltered. */
  lemma {:induction false} StartedRunIsLatest(runs: seq<Run>, state: string, now: int, today: int, filter: Option<string>)
    requires Serial(runs)
    requires forall i :: 0 <= i < |runs| ==> runs[i].start < now
    requires filter.None? || filter.value == "" || filter.value == state
    ensures var (out, id) := StartRun(runs, state, now, today);
      GetLatestRun(out, filter).Some? && GetLatestRun(out, filter).value.runId == id
  {
    var (out, id) := StartRun(runs, state, now, today);
    var best := GetLatestRun(runs, filter);
    assert out[..|out| - 1] == runs;
    if best.Some? {
      assert best.value.start < now;
    }
  }

  /** Ending a run changes neither which run is latest nor its id; the
      latest row then carries the end's status. */
  lemma {:induction false} EndRunKeepsLatest(runs: seq<Run>, id: nat, status: string, stats: RunStats, error: Option<string>,
                                             now: int, filter: Option<string>)
    requires Serial(runs)
    requires GetLatestRun(runs, filter).Some? && GetLatestRun(runs, filter).value.runId == id
    ensures var out := EndRun(runs, id, status, stats, error, now);
      GetLatestRun(out, filter).Some? && GetLatestRun(out, filter).value.runId == id
      && GetLatestRun(out, filter).value.status == status && GetLatestRun(out, filter).value.stats == Some(stats)
  {
    var out := EndRun(runs, id, status, stats, error, now);
    LatestIndexAgrees(runs, out, filter);
  }
}

=== FILE: scraping.dfy ===
/**
  Scraping one county page into rows: the log prefix of
  src/extract/logging_utils.py, the `ScrapeResult`s of
  src/extract/scraping.py and src/extract/extract_ops.py, and the
  CSV-writing `scrape_county` / `scrape_all_counties` of
  src/extract/web_scraper.py.

  Fetching a page and parsing its HTML into tables are one parameter, a
  `PageSource` from a URL (or endpoint) to the page's tables or to the
  text of the exception raised on the way.
 */
module Scraping {
  import opened Wrappers
  import opened Text
  import opened Tables
  import opened WageTables
  import opened CsvStore

  // ---------------------------------------------------------------------
  // format_log_with_metadata

  /** One bracketed metadata field. */
  function Field(x: string): string {
    "[" + x + "]"
  }

  predicate NoClose(s: string) {
    forall i :: 0 <= i < |s| ==> s[i] != ']'
  }

  /** Bracketed fields, one after another. */
  function Fields(xs: seq<string>): string
    decreases |xs|
  {
    if |xs| == 0 then "" else Field(xs[0]) + Fields(xs[1..])
  }

  /** The three fields of the metadata prefix. */
  function Metadata(year: int, state: string, county: string): seq<string> {
    ["year=" + IntToString(year), "state=" + state, "county=" + ZFill(county, 3)]
  }

  /** `format_log_with_metadata`: year, state and padded county in
      brackets, a space, then the message. */
  function FormatLog(message: string, year: int, state: string, county: string): (r: string)
    ensures |r| > |message| && r[|r| - |message|..] == message && r[|r| - |message| - 1] == ' '
  {
    var meta := Fields(Metadata(year, state, county));
    assert (meta + " " + message)[|meta| + 1..] == message;
    meta + " " + message
  }

  /** The index of the first ']' of `s`, if any. */
  function FirstClose(s: string): (k: Option<nat>)
    ensures k.Some? ==> k.value < |s| && s[k.value] == ']' && forall i :: 0 <= i < k.value ==> s[i] != ']'
    ensures k.None? ==> NoClose(s)
  {
    if |s| == 0 then None
    else if s[0] == ']' then Some(0)
    else
      match FirstClose(s[1..])
      case None => None
      case Some(j) => Some(j + 1)
  }

  /** Reads one bracketed field off the front of `s`: its text and the rest. */
  function ReadField(s: string): (r: Option<(string, string)>)
    ensures r.Some? ==> NoClose(r.value.0) && s == Field(r.value.0) + r.value.1
  {
    if |s| == 0 || s[0] != '[' then None
    else
      match FirstClose(s[1..])
      case None => None
      case Some(k) =>
        var x := s[1..][..k];
        var rest := s[1..][k + 1..];
        assert s == Field(x) + rest by {
          assert s == [s[0]] + s[1..];
          assert s[1..] == x + [']'] + rest;
        }
        Some((x, rest))
  }

  /** Reads `n` bracketed fields off the front of `s`. */
  function ReadFields(s: string, n: nat): (r: Option<(seq<string>, string)>)
    ensures r.Some? ==> |r.value.0| == n
    decreases n
  {
    if n == 0 then Some(([], s))
    else
      match ReadField(s)
      case None => None
      case Some((x, rest)) =>
        match ReadFields(rest, n - 1)
        case None => None
        case Some((xs, t)) => Some(([x] + xs, t))
  }

  /** A parsed log line: the metadata fields and the message. */
  datatype LogLine = LogLine(fields: seq<string>, message: string)

  /** Reads a log line back: three bracketed fields, one space, the message. */
  function ParseLog(line: string): (r: Option<LogLine>)
    ensures r.Some? ==> |r.value.fields| == 3
  {
    match ReadFields(line, 3)
    case None => None
    case Some((xs, t)) =>
      if |t| == 0 || t[0] != ' ' then None else Some(LogLine(xs, t[1..]))
  }

  lemma {:induction false} ReadFieldsInverse(s: string, n: nat)
    requires ReadFields(s, n).Some?
    ensures s == Fields(ReadFields(s, n).value.0) + ReadFields(s, n).value.1
    decreases n
  {
    if n > 0 {
      var (x, rest) := ReadField(s).value;
      ReadFieldsInverse(rest, n - 1);
      var (xs, t) := ReadFields(rest, n - 1).value;
      assert ReadFields(s, n).value == ([x] + xs, t);
      calc {
        s;
        Field(x) + rest;
        Field(x) + (Fields(xs) + t);
        { FieldsCons(x, xs, t); }
        Fields([x] + xs) + t;
      }
    }
  }

  lemma FieldsCons(x: string, xs: seq<string>, t: string)
    ensures Fields([x] + xs) + t == Field(x) + (Fields(xs) + t)
  {
    assert ([x] + xs)[1..] == xs;
  }

  /** Whatever reads back was a log line with those fields and message. */
  lemma ParseLogInverse(line: string)
    requires ParseLog(line).Some?
    ensures var l := ParseLog(line).value;
      line == Fields(l.fields) + " " + l.message
  {
    FieldsThenMessage(line, 3);
  }

  lemma FieldsThenMessage(line: string, n: nat)
    requires ReadFields(line, n).Some?
    requires var t := ReadFields(line, n).value.1; |t| > 0 && t[0] == ' '
    ensures var (xs, t) := ReadFields(line, n).value;
      line == Fields(xs) + " " + t[1..]
  {
    ReadFieldsInverse(line, n);
    var (xs, t) := ReadFields(line, n).value;
    SpaceFront(Fields(xs), t);
  }

  lemma SpaceFront(a: string, t: string)
    requires |t| > 0 && t[0] == ' '
    ensures a + t == a + " " + t[1..]
  {
    assert t == " " + t[1..];
  }

  lemma {:induction false} ReadFieldsOf(xs: seq<string>, tail: string)
    requires forall i :: 0 <= i < |xs| ==> NoClose(xs[i])
    ensures ReadFields(Fields(xs) + tail, |xs|) == Some((xs, tail))
    decreases |xs|
  {
    if |xs| > 0 {
      var s := Fields(xs) + tail;
      var rest := Fields(xs[1..]) + tail;
      assert s == Field(xs[0]) + rest;
      ReadFieldOf(xs[0], rest);
      ReadFieldsOf(xs[1..], tail);
      ReadFieldsStep(s, |xs|, xs[0], rest, xs[1..], tail);
      assert [xs[0]] + xs[1..] == xs;
    } else {
      assert Fields(xs) + tail == tail;
      assert xs == [];
    }
  }

  lemma ReadFieldsStep(s: string, n: nat, x: string, rest: string, xs: seq<string>, t: string)
    requires n > 0 && ReadField(s) == Some((x, rest)) && ReadFields(rest, n - 1) == Some((xs, t))
    ensures ReadFields(s, n) == Some(([x] + xs, t))
  {
  }

  lemma ReadFieldOf(x: string, rest: string)
    requires NoClose(x)
    ensures ReadField(Field(x) + rest) == Some((x, rest))
  {
    var s := Field(x) + rest;
    assert s[1..] == x + "]" + rest;
    assert s[1..][|x|] == ']';
    var k := FirstClose(s[1..]);
    assert k.Some?;
    assert forall i :: 0 <= i < |x| ==> s[1..][i] == x[i];
    assert k.value == |x|;
    assert s[1..][..|x|] == x;
    assert s[1..][|x| + 1..] == rest;
  }

  lemma NoCloseAppend(a: string, b: string)
    requires NoClose(a) && NoClose(b)
    ensures NoClose(a + b)
  {
    assert forall i :: 0 <= i < |a + b| ==> (a + b)[i] == if i < |a| then a[i] else b[i - |a|];
  }

  lemma NoCloseInt(year: int)
    ensures NoClose(IntToString(year))
  {
    var s := IntToString(year);
    if year < 0 {
      forall i | 0 <= i < |s| ensures s[i] != ']' {
        if i > 0 {
          assert s[i] == s[1..][i - 1];
        }
      }
    }
  }

  lemma NoCloseZFill(s: string, width: int)
    requires NoClose(s)
    ensures NoClose(ZFill(s, width))
  {
    var r := ZFill(s, width);
    if |s| < width {
      var z := Zeros(width - |s|);
      if |s| > 0 && (s[0] == '+' || s[0] == '-') {
        assert r == [s[0]] + z + s[1..];
        forall i | 0 <= i < |r| ensures r[i] != ']' {
          if i > |z| {
            assert r[i] == s[1..][i - 1 - |z|];
          }
        }
      } else {
        assert r == z + s;
        forall i | 0 <= i < |r| ensures r[i] != ']' {
          if i >= |z| {
            assert r[i] == s[i - |z|];
          }
        }
      }
    }
  }

  lemma NoClosePrefix(p: string, x: string)
    requires p == "year=" || p == "state=" || p == "county="
    requires NoClose(x)
    ensures NoClose(p + x)
  {
    assert NoClose(p);
    NoCloseAppend(p, x);
  }

  /** A log line reads back into its metadata fields and its message,
      when the codes themselves hold no ']'. */
  lemma LogRoundTrip(message: string, year: int, state: string, county: string)
    requires NoClose(state) && NoClose(county)
    ensures ParseLog(FormatLog(message, year, state, county)) == Some(LogLine(Metadata(year, state, county), message))
  {
    var m := Metadata(year, state, county);
    NoCloseInt(year);
    NoClosePrefix("year=", IntToString(year));
    NoClosePrefix("state=", state);
    NoCloseZFill(county, 3);
    NoClosePrefix("county=", ZFill(county, 3));
    var tail := " " + message;
    assert FormatLog(message, year, state, county) == Fields(m) + tail;
    ReadFieldsOf(m, tail);
    assert tail[1..] == message;
  }

  /** The county is written padded, so "7" and "007" log alike. */
  lemma FormatLogPads(message: string, year: int, state: string, county: string)
    ensures FormatLog(message, year, state, county) == FormatLog(message, year, state, ZFill(county, 3))
  {
    PadTwice(county);
  }

  // ---------------------------------------------------------------------
  // ScrapeResult of scraping.py and extract_ops.py

  datatype ScrapeResult = ScrapeResult(
    fipsCode: string,
    success: bool,
    wagesData: Option<seq<Dict>>,
    expensesData: Option<seq<Dict>>,
    error: Option<string>)

  /** Fetching and parsing a page: its tables, or the exception's text. */
  type PageSource = string -> Result<seq<HtmlTable>, string>

  /** Every row carries the county code `code`. */
  predicate Tagged(rows: seq<Dict>, code: string) {
    forall i :: 0 <= i < |rows| ==> Get(rows[i], FipsColumn) == Str(code)
  }

  /** A parsed page tags every row of both tables with the padded county. */
  lemma ParsedTagged(tables: seq<HtmlTable>, county: string, v: Variant)
    requires ParsePage(tables, county, v).Success?
    ensures var d := ParsePage(tables, county, v).value;
      Tagged(d.wagesData, ZFill(county, 3)) && Tagged(d.expensesData, ZFill(county, 3))
  {
    var d := ParsePage(tables, county, v).value;
    var w := ExtractTable(tables[0], county, v);
    var e := ExtractTable(tables[1], county, v);
    forall i | 0 <= i < |d.wagesData| ensures Get(d.wagesData[i], FipsColumn) == Str(ZFill(county, 3)) {
      assert d.wagesData[i] == RowDict(Headers(tables[0], v).value, BodyRows(tables[0], v).value[i], county);
    }
    forall i | 0 <= i < |d.expensesData| ensures Get(d.expensesData[i], FipsColumn) == Str(ZFill(county, 3)) {
      assert d.expensesData[i] == RowDict(Headers(tables[1], v).value, BodyRows(tables[1], v).value[i], county);
    }
  }

  /** The result built from a scrape's data or its exception. */
  function ResultOf(full: string, data: Result<CountyData, string>): (r: ScrapeResult)
    ensures r.fipsCode == full
    ensures r.success <==> data.Success?
    ensures r.success ==> (r.error.None? && r.wagesData == Some(data.value.wagesData)
                           && r.expensesData == Some(data.value.expensesData))
    ensures !r.success ==> r.wagesData.None? && r.expensesData.None? && r.error == Some(data.error)
  {
    match data
    case Success(d) => ScrapeResult(full, true, Some(d.wagesData), Some(d.expensesData), None)
    case Failure(e) => ScrapeResult(full, false, None, None, Some(e))
  }

  /** `WageExtractor.get_county_data`: pad the codes, fetch the county's
      endpoint, parse the first two result tables. */
  function GetCountyData(state: string, county: string, fetch: PageSource): (r: Result<CountyData, string>)
    ensures r.Success? ==> fetch(CountyEndpoint(state, county)).Success?
    ensures r.Success? ==> Tagged(r.value.wagesData, ZFill(county, 3)) && Tagged(r.value.expensesData, ZFill(county, 3))
    ensures fetch(CountyEndpoint(state, county)).Failure? ==> r == Failure(fetch(CountyEndpoint(state, county)).error)
  {
    match fetch(CountyEndpoint(state, county))
    case Failure(e) => Failure(e)
    case Success(tables) =>
      var code := ZFill(county, 3);
      PadTwice(county);
      if ParsePage(tables, code, Extractor).Success? then
        ParsedTagged(tables, code, Extractor);
        ParsePage(tables, code, Extractor)
      else ParsePage(tables, code, Extractor)
  }

  /** The extractor pads the codes first, so "1"/"1" and "01"/"001" fetch
      and parse the same page. */
  lemma GetCountyDataPads(state: string, county: string, fetch: PageSource)
    ensures GetCountyData(state, county, fetch) == GetCountyData(ZFill(state, 2), ZFill(county, 3), fetch)
  {
    PadTwice(county);
    assert ZFill(ZFill(state, 2), 2) == ZFill(state, 2);
    assert CountyEndpoint(state, county) == CountyEndpoint(ZFill(state, 2), ZFill(county, 3));
  }

  /** `scrape_county_with_extractor` (extract_ops.py): any exception
      becomes a failed result; the code reported is the unpadded join. */
  function ScrapeWithExtractor(state: string, county: string, fetch: PageSource): (r: ScrapeResult)
    ensures r.fipsCode == state + county
    ensures r.success ==> (r.error.None? && r.wagesData.Some? && r.expensesData.Some?
      && Tagged(r.wagesData.value, ZFill(county, 3)) && Tagged(r.expensesData.value, ZFill(county, 3)))
    ensures !r.success ==> r.wagesData.None? && r.expensesData.None? && r.error.Some?
    ensures fetch(CountyEndpoint(state, county)).Failure? ==>
      !r.success && r.error == Some(fetch(CountyEndpoint(state, county)).error)
  {
    ResultOf(state + county, GetCountyData(state, county, fetch))
  }

  /** `scrape_state_counties`: one result per code, in order, through one
      extractor. */
  function ScrapeStateCounties(state: string, codes: seq<string>, fetch: PageSource): (r: seq<ScrapeResult>)
    ensures |r| == |codes|
    ensures forall i :: 0 <= i < |codes| ==> r[i].fipsCode == state + codes[i]
    ensures forall i :: 0 <= i < |codes| ==> r[i] == ScrapeWithExtractor(state, codes[i], fetch)
  {
    seq(|codes|, i requires 0 <= i < |codes| => ScrapeWithExtractor(state, codes[i], fetch))
  }

  /** `scrape_county_with_session` (scraping.py): build the unpadded
      county URL, fetch, parse; either exception kind becomes a failed
      result carrying its text. */
  function ScrapeWithSession(base: string, state: string, county: string, fetch: PageSource): (r: ScrapeResult)
    ensures r.fipsCode == state + county
    ensures r.success ==> (fetch(BuildUrl(base, state, county)).Success?
      && r.wagesData.Some? && r.expensesData.Some? && r.error.None?
      && Tagged(r.wagesData.value, ZFill(county, 3)) && Tagged(r.expensesData.value, ZFill(county, 3)))
    ensures !r.success ==> r.wagesData.None? && r.expensesData.None? && r.error.Some?
    ensures fetch(BuildUrl(base, state, county)).Failure? ==>
      !r.success && r.error == Some(fetch(BuildUrl(base, state, county)).error)
  {
    ResultOf(state + county, Fetched(base, state, county, fetch))
  }

  /** The scraper's fetch and parse of one county page. */
  function Fetched(base: string, state: string, county: string, fetch: PageSource): (r: Result<CountyData, string>)
    ensures r.Success? ==> fetch(BuildUrl(base, state, county)).Success?
    ensures r.Success? ==> Tagged(r.value.wagesData, ZFill(county, 3)) && Tagged(r.value.expensesData, ZFill(county, 3))
    ensures fetch(BuildUrl(base, state, county)).Failure? ==> r == Failure(fetch(BuildUrl(base, state, county)).error)
  {
    match fetch(BuildUrl(base, state, county))
    case Failure(e) => Failure(e)
    case Success(tables) =>
      if ParsePage(tables, county, Scraper).Success? then
        ParsedTagged(tables, county, Scraper);
        ParsePage(tables, county, Scraper)
      else ParsePage(tables, county, Scraper)
  }

  /** With full-length codes the session scraper and the extractor ask
      for the same page, and both tag the rows with the same county. */
  lemma SessionMatchesExtractor(base: string, state: string, county: string, fetch: PageSource)
    requires |state| == 2 && |county| == 3
    ensures BuildUrl(base, state, county) == base + "/" + CountyEndpoint(state, county)
    ensures ScrapeWithSession(base, state, county, fetch).fipsCode
      == ScrapeWithExtractor(state, county, fetch).fipsCode
  {
    VariantsAgreeOnFullCodes(base, state, county);
  }

  // ---------------------------------------------------------------------
  // scrape_county and scrape_all_counties of web_scraper.py

  /** web_scraper's `ScrapeResult`: no data, only the outcome. */
  datatype WebResult = WebResult(fipsCode: string, success: bool, error: Option<string>)

  /** A scrape's result, the files after it, and how many pages it fetched. */
  datatype WebOutcome = WebOutcome(result: WebResult, files: Files, fetches: nat)

  /** `raw_dir / year / wage_rates_{state}.csv`, relative to `raw_dir`. */
  function WagesFile(year: int, state: string): string {
    IntToString(year) + "/wage_rates_" + state + ".csv"
  }

  /** `raw_dir / year / expense_breakdown_{state}.csv`. */
  function ExpensesFile(year: int, state: string): string {
    IntToString(year) + "/expense_breakdown_" + state + ".csv"
  }

  lemma FilesDiffer(year: int, state: string)
    ensures WagesFile(year, state) != ExpensesFile(year, state)
  {
    var y := IntToString(year);
    var w := "/wage_rates_" + state + ".csv";
    var e := "/expense_breakdown_" + state + ".csv";
    assert WagesFile(year, state)[|y| + 1] == w[1];
    assert ExpensesFile(year, state)[|y| + 1] == e[1];
  }

  /** `code in df['county_fips'].values` on a file as read back: the cells
      are compared as written, unpadded. */
  predicate RawHas(t: Table, code: string) {
    FipsColumn in t.columns && exists i :: 0 <= i < |t.rows| && FipsCell(t.rows[i]) == Str(code)
  }

  /** The skip check: both files exist and both hold the padded code.
      Reading them happens before the `try`, so an unreadable file is an
      exception that escapes `scrape_county`. */
  function SkipCheck(files: Files, wf: string, ef: string, code: string): (r: Result<bool, CsvError>)
    ensures r.Failure? <==> wf in files && ef in files && (files[wf].Unreadable? || files[ef].Unreadable?)
    ensures (r.Success? && r.value) <==> (wf in files && ef in files && files[wf].Csv? && files[ef].Csv?
      && RawHas(files[wf].table, code) && RawHas(files[ef].table, code))
  {
    if wf in files && ef in files then
      if files[wf].Unreadable? || files[ef].Unreadable? then Failure(ReadFailed)
      else Success(RawHas(files[wf].table, code) && RawHas(files[ef].table, code))
    else Success(false)
  }

  /** The text of the exception an upsert raises. */
  function ErrorText(e: CsvError): string {
    match e
    case MissingColumn => "'county_fips'"
    case ReadFailed => "could not read the CSV file"
  }

  /** Writing both tables of a scraped county, wages first. A failure of
      the second write leaves the first in place. */
  function Store(files: Files, wf: string, ef: string, full: string, county: string, d: CountyData): (r: WebOutcome)
    requires wf != ef
    ensures r.fetches == 1
    ensures r.result.fipsCode == full
    ensures r.result.success <==>
      WebUpsert(files, FromDicts(d.wagesData), wf, county).Success?
      && WebUpsert(WebUpsert(files, FromDicts(d.wagesData), wf, county).value, FromDicts(d.expensesData), ef, county).Success?
    ensures !r.result.success ==> r.result.error.Some?
    ensures r.result.success ==> (r.result.error.None?
      && wf in r.files && r.files[wf] == WebUpsert(files, FromDicts(d.wagesData), wf, county).value[wf]
      && ef in r.files && r.files[ef] == WebUpsert(files, FromDicts(d.expensesData), ef, county).value[ef])
    ensures forall g :: g in files && g != wf && g != ef ==> g in r.files && r.files[g] == files[g]
  {
    match WebUpsert(files, FromDicts(d.wagesData), wf, county)
    case Failure(e) => WebOutcome(WebResult(full, false, Some(ErrorText(e))), files, 1)
    case Success(files1) =>
      assert ef in files1 ==> files1[ef] == files[ef];
      match WebUpsert(files1, FromDicts(d.expensesData), ef, county)
      case Failure(e) => WebOutcome(WebResult(full, false, Some(ErrorText(e))), files1, 1)
      case Success(files2) =>
        UpsertDependsOnTarget(files1, files, FromDicts(d.expensesData), ef, county);
        WebOutcome(WebResult(full, true, None), files2, 1)
  }

  /** An upsert's output file depends only on the prior state of that file. */
  lemma UpsertDependsOnTarget(a: Files, b: Files, df: Table, f: string, county: string)
    requires WellFormed(df)
    requires (f in a <==> f in b) && (f in a ==> a[f] == b[f])
    ensures WebUpsert(a, df, f, county).Success? <==> WebUpsert(b, df, f, county).Success?
    ensures WebUpsert(a, df, f, county).Success? ==>
      WebUpsert(a, df, f, county).value[f] == WebUpsert(b, df, f, county).value[f]
  {
  }

  /** `scrape_county` of web_scraper with the data keys the parser returns:
      skip when both files hold the county, otherwise fetch, parse and
      upsert both tables. `Failure` is the read error that escapes the
      skip check. */
  function ScrapeCounty(files: Files, year: int, base: string, state: string, county: string, fetch: PageSource)
    : (r: Result<WebOutcome, CsvError>)
    ensures r.Failure? <==> SkipCheck(files, WagesFile(year, state), ExpensesFile(year, state), ZFill(county, 3)).Failure?
    ensures r.Success? ==> r.value.result.fipsCode == state + county
    ensures r.Success? && r.value.fetches == 0 <==>
      SkipCheck(files, WagesFile(year, state), ExpensesFile(year, state), ZFill(county, 3)) == Success(true)
    ensures r.Success? && r.value.fetches == 0 ==> r.value.result.success && r.value.files == files
    ensures r.Success? && !r.value.result.success ==> r.value.result.error.Some?
    ensures r.Success? && r.value.fetches > 0 && r.value.result.success ==>
      Fetched(base, state, county, fetch).Success?
    ensures r.Success? ==>
      forall g :: g in files && g != WagesFile(year, state) && g != ExpensesFile(year, state) ==>
        g in r.value.files && r.value.files[g] == files[g]
  {
    var full := state + county;
    var wf := WagesFile(year, state);
    var ef := ExpensesFile(year, state);
    FilesDiffer(year, state);
    var skip :- SkipCheck(files, wf, ef, ZFill(county, 3));
    if skip then Success(WebOutcome(WebResult(full, true, None), files, 0))
    else
      match Fetched(base, state, county, fetch)
      case Failure(e) => Success(WebOutcome(WebResult(full, false, Some(e)), files, 1))
      case Success(d) => Success(Store(files, wf, ef, full, county, d))
  }

  /** `scrape_county` as written: after a good parse it reads
      `data['wages_df']`, a key the parser never returns, so the KeyError
      is caught as a failure and nothing is written. */
  function ScrapeCountyAsWritten(files: Files, year: int, base: string, state: string, county: string, fetch: PageSource)
    : (r: Result<WebOutcome, CsvError>)
    ensures r.Failure? <==> SkipCheck(files, WagesFile(year, state), ExpensesFile(year, state), ZFill(county, 3)).Failure?
    ensures r.Success? ==> r.value.files == files
  {
    var full := state + county;
    var wf := WagesFile(year, state);
    var ef := ExpensesFile(year, state);
    var skip :- SkipCheck(files, wf, ef, ZFill(county, 3));
    if skip then Success(WebOutcome(WebResult(full, true, None), files, 0))
    else
      match Fetched(base, state, county, fetch)
      case Failure(e) => Success(WebOutcome(WebResult(full, false, Some(e)), files, 1))
      case Success(d) => Success(WebOutcome(WebResult(full, false, Some("'wages_df'")), files, 1))
  }

  /** As written, a county not already on disk is never stored: every
      scrape that fetches fails, even when the page parses. */
  lemma AsWrittenNeverStores(files: Files, year: int, base: string, state: string, county: string, fetch: PageSource)
    requires ScrapeCountyAsWritten(files, year, base, state, county, fetch).Success?
    ensures var o := ScrapeCountyAsWritten(files, year, base, state, county, fetch).value;
      o.result.success <==> o.fetches == 0
    ensures (Fetched(base, state, county, fetch).Success? &&
             SkipCheck(files, WagesFile(year, state), ExpensesFile(year, state), ZFill(county, 3)) == Success(false)) ==>
      ScrapeCountyAsWritten(files, year, base, state, county, fetch).value.result
        == WebResult(state + county, false, Some("'wages_df'"))
  {
  }

  /** Every row the corrected scrape appends carries the padded county in
      a county column, so the written file passes the raw skip check. */
  lemma StoredHasCounty(files: Files, f: string, county: string, data: seq<Dict>)
    requires |data| > 0 && Tagged(data, ZFill(county, 3))
    requires WebUpsert(files, FromDicts(data), f, county).Success?
    ensures var out := WebUpsert(files, FromDicts(data), f, county).value;
      f in out && out[f].Csv? && RawHas(out[f].table, ZFill(county, 3))
  {
    var df := FromDicts(data);
    var code := ZFill(county, 3);
    TaggedColumn(data, code);
    UpsertedHas(files, df, f, county, code);
  }

  /** Tagged rows give their table a county column, filled in the first row. */
  lemma TaggedColumn(data: seq<Dict>, code: string)
    requires |data| > 0 && Tagged(data, code)
    ensures FipsColumn in FromDicts(data).columns && FromDicts(data).rows[0][FipsColumn] == Str(code)
  {
    var df := FromDicts(data);
    assert Get(data[0], FipsColumn) == Str(code);
    assert exists j :: 0 <= j < |data[0]| && data[0][j].0 == FipsColumn;
    assert HasKey(data, FipsColumn);
  }

  /** A file upserted with rows whose first one carries `code` holds a
      row with that county code. */
  lemma UpsertedHas(files: Files, df: Table, f: string, county: string, code: string)
    requires WellFormed(df) && |df.rows| > 0 && FipsColumn in df.columns
    requires df.rows[0][FipsColumn] == Str(code)
    requires WebUpsert(files, df, f, county).Success?
    ensures var out := WebUpsert(files, df, f, county).value;
      f in out && out[f].Csv? && RawHas(out[f].table, code)
  {
    var t := WebUpsert(files, df, f, county).value[f].table;
    UpsertedFirst(files, df, f, county, code);
    HasAt(t, code, |t.rows| - |df.rows|);
  }

  lemma HasAt(t: Table, code: string, i: nat)
    requires FipsColumn in t.columns && i < |t.rows| && FipsCell(t.rows[i]) == Str(code)
    ensures RawHas(t, code)
  {
  }

  /** The first new row ends up where the new rows start, with its county
      code. */
  lemma UpsertedFirst(files: Files, df: Table, f: string, county: string, code: string)
    requires WellFormed(df) && |df.rows| > 0 && FipsColumn in df.columns
    requires df.rows[0][FipsColumn] == Str(code)
    requires WebUpsert(files, df, f, county).Success?
    ensures var t := WebUpsert(files, df, f, county).value[f].table;
      FipsColumn in t.columns && |df.rows| <= |t.rows| && FipsCell(t.rows[|t.rows| - |df.rows|]) == Str(code)
  {
    var t := WebUpsert(files, df, f, county).value[f].table;
    WebUpsertEndsWithRows(files, df, f, county);
    var last := |t.rows| - |df.rows|;
    assert t.rows[last] == t.rows[last..][0];
    assert FipsColumn in df.rows[0];
  }


  /** After a successful corrected scrape of a page with rows in both
      tables, scraping the same county again skips without fetching and
      leaves the files as they are. */
  lemma ScrapeTwiceSkips(files: Files, year: int, base: string, state: string, county: string, fetch: PageSource)
    requires ScrapeCounty(files, year, base, state, county, fetch).Success?
    requires ScrapeCounty(files, year, base, state, county, fetch).value.result.success
    requires Fetched(base, state, county, fetch).Success? ==>
      |Fetched(base, state, county, fetch).value.wagesData| > 0
      && |Fetched(base, state, county, fetch).value.expensesData| > 0
    ensures var once := ScrapeCounty(files, year, base, state, county, fetch).value.files;
      ScrapeCounty(once, year, base, state, county, fetch)
        == Success(WebOutcome(WebResult(state + county, true, None), once, 0))
  {
    var once := ScrapeCounty(files, year, base, state, county, fetch).value.files;
    ScrapeLeavesStored(files, year, base, state, county, fetch);
    StoredSkips(once, year, base, state, county, fetch);
  }

  /** A successful scrape leaves both files holding the county. */
  lemma ScrapeLeavesStored(files: Files, year: int, base: string, state: string, county: string, fetch: PageSource)
    requires ScrapeCounty(files, year, base, state, county, fetch).Success?
    requires ScrapeCounty(files, year, base, state, county, fetch).value.result.success
    requires Fetched(base, state, county, fetch).Success? ==>
      |Fetched(base, state, county, fetch).value.wagesData| > 0
      && |Fetched(base, state, county, fetch).value.expensesData| > 0
    ensures SkipCheck(ScrapeCounty(files, year, base, state, county, fetch).value.files,
                      WagesFile(year, state), ExpensesFile(year, state), ZFill(county, 3)) == Success(true)
  {
    var wf := WagesFile(year, state);
    var ef := ExpensesFile(year, state);
    FilesDiffer(year, state);
    var o := ScrapeCounty(files, year, base, state, county, fetch).value;
    if o.fetches > 0 {
      var d := Fetched(base, state, county, fetch).value;
      assert o == Store(files, wf, ef, state + county, county, d);
      StoreLeavesStored(files, wf, ef, state + county, county, d);
    }
  }

  lemma StoreLeavesStored(files: Files, wf: string, ef: string, full: string, county: string, d: CountyData)
    requires wf != ef && |d.wagesData| > 0 && |d.expensesData| > 0
    requires Tagged(d.wagesData, ZFill(county, 3)) && Tagged(d.expensesData, ZFill(county, 3))
    requires Store(files, wf, ef, full, county, d).result.success
    ensures SkipCheck(Store(files, wf, ef, full, county, d).files, wf, ef, ZFill(county, 3)) == Success(true)
  {
    var files1 := WebUpsert(files, FromDicts(d.wagesData), wf, county).value;
    StoredHasCounty(files, wf, county, d.wagesData);
    UpsertDependsOnTarget(files1, files, FromDicts(d.expensesData), ef, county);
    StoredHasCounty(files, ef, county, d.expensesData);
  }

  /** With both files holding the county, a scrape skips without fetching. */
  lemma StoredSkips(files: Files, year: int, base: string, state: string, county: string, fetch: PageSource)
    requires SkipCheck(files, WagesFile(year, state), ExpensesFile(year, state), ZFill(county, 3)) == Success(true)
    ensures ScrapeCounty(files, year, base, state, county, fetch)
      == Success(WebOutcome(WebResult(state + county, true, None), files, 0))
  {
  }

  /** `scrape_all_counties`: the counties in order, each seeing the files
      the previous one left. An exception escaping one county ends the run. */
  function ScrapeAll(files: Files, year: int, base: string, state: string, codes: seq<string>, fetch: PageSource)
    : (r: Result<(seq<WebResult>, Files), CsvError>)
    ensures r.Success? ==> |r.value.0| == |codes|
    ensures r.Success? ==> forall i :: 0 <= i < |codes| ==> r.value.0[i].fipsCode == state + codes[i]
    decreases |codes|
  {
    if |codes| == 0 then Success(([], files))
    else
      var first :- ScrapeCounty(files, year, base, state, codes[0], fetch);
      var rest :- ScrapeAll(first.files, year, base, state, codes[1..], fetch);
      Success(([first.result] + rest.0, rest.1))
  }

  /** Continues a run that got as far as `r` with the counties `b`. */
  function Then(r: Result<(seq<WebResult>, Files), CsvError>, year: int, base: string, state: string,
                b: seq<string>, fetch: PageSource): Result<(seq<WebResult>, Files), CsvError>
  {
    match r
    case Failure(e) => Failure(e)
    case Success((rs, fs)) => Join(rs, ScrapeAll(fs, year, base, state, b, fetch))
  }

  /** The results `rs` followed by those of a continued run. */
  function Join(rs: seq<WebResult>, r: Result<(seq<WebResult>, Files), CsvError>): Result<(seq<WebResult>, Files), CsvError> {
    match r
    case Failure(e) => Failure(e)
    case Success((rs2, fs2)) => Success((rs + rs2, fs2))
  }

  /** Scraping `a + b` is scraping `a`, then `b` on the files `a` left. */
  lemma {:induction false} ScrapeAllAppend(files: Files, year: int, base: string, state: string,
                                           a: seq<string>, b: seq<string>, fetch: PageSource)
    ensures ScrapeAll(files, year, base, state, a + b, fetch)
      == Then(ScrapeAll(files, year, base, state, a, fetch), year, base, state, b, fetch)
    decreases |a|
  {
    if |a| == 0 {
      assert a + b == b;
      assert ScrapeAll(files, year, base, state, a, fetch) == Success(([], files));
      ThenEmpty(files, year, base, state, b, fetch);
    } else {
      assert (a + b)[0] == a[0];
      assert (a + b)[1..] == a[1..] + b;
      var head := ScrapeCounty(files, year, base, state, a[0], fetch);
      ScrapeAllStep(files, year, base, state, a, fetch);
      ScrapeAllStep(files, year, base, state, a + b, fetch);
      var whole := ScrapeAll(files, year, base, state, a + b, fetch);
      var first := ScrapeAll(files, year, base, state, a, fetch);
      if head.Success? {
        var hr := head.value.result;
        var hf := head.value.files;
        var restA := ScrapeAll(hf, year, base, state, a[1..], fetch);
        ScrapeAllAppend(hf, year, base, state, a[1..], b, fetch);
        assert whole == Prepend(hr, Then(restA, year, base, state, b, fetch));
        assert first == Prepend(hr, restA);
        ConsThen(hr, restA, year, base, state, b, fetch);
      } else {
        assert whole == Failure(head.error);
        assert first == Failure(head.error);
      }
    }
  }

  function Prepend(w: WebResult, r: Result<(seq<WebResult>, Files), CsvError>): Result<(seq<WebResult>, Files), CsvError> {
    match r
    case Failure(e) => Failure(e)
    case Success((rs, fs)) => Success(([w] + rs, fs))
  }

  lemma ThenEmpty(files: Files, year: int, base: string, state: string, b: seq<string>, fetch: PageSource)
    ensures Then(Success(([], files)), year, base, state, b, fetch) == ScrapeAll(files, year, base, state, b, fetch)
  {
    var r := ScrapeAll(files, year, base, state, b, fetch);
    if r.Success? {
      assert [] + r.value.0 == r.value.0;
    }
  }

  lemma ScrapeAllStep(files: Files, year: int, base: string, state: string, codes: seq<string>, fetch: PageSource)
    requires |codes| > 0
    ensures var head := ScrapeCounty(files, year, base, state, codes[0], fetch);
      ScrapeAll(files, year, base, state, codes, fetch)
        == if head.Failure? then Failure(head.error)
           else Prepend(head.value.result, ScrapeAll(head.value.files, year, base, state, codes[1..], fetch))
  {
  }

  /** Putting one result in front commutes with continuing the run. */
  lemma ConsThen(w: WebResult, r: Result<(seq<WebResult>, Files), CsvError>, year: int, base: string, state: string,
                 b: seq<string>, fetch: PageSource)
    ensures Then(Prepend(w, r), year, base, state, b, fetch) == Prepend(w, Then(r, year, base, state, b, fetch))
  {
    if r.Success? {
      var (rs, fs) := r.value;
      JoinCons(w, rs, ScrapeAll(fs, year, base, state, b, fetch));
    }
  }

  lemma JoinCons(w: WebResult, rs: seq<WebResult>, r: Result<(seq<WebResult>, Files), CsvError>)
    ensures Join([w] + rs, r) == Prepend(w, Join(rs, r))
  {
    if r.Success? {
      var (rs2, fs2) := r.value;
      assert [w] + (rs + rs2) == ([w] + rs) + rs2;
    }
  }

  /** `sum(1 for r in results if r.success)`. */
  function SuccessCount(rs: seq<WebResult>): (n: nat)
    ensures n <= |rs|
  {
    if |rs| == 0 then 0 else (if rs[0].success then 1 else 0) + SuccessCount(rs[1..])
  }

  lemma {:induction false} SuccessCountBounds(rs: seq<WebResult>)
    ensures SuccessCount(rs) == |rs| <==> forall i :: 0 <= i < |rs| ==> rs[i].success
    ensures SuccessCount(rs) == 0 <==> forall i :: 0 <= i < |rs| ==> !rs[i].success
    decreases |rs|
  {
    if |rs| > 0 {
      SuccessCountBounds(rs[1..]);
      assert forall i :: 1 <= i < |rs| ==> rs[i] == rs[1..][i - 1];
    }
  }

  /** `successful / len(results) if results else 0`. */
  function SuccessRate(rs: seq<WebResult>): (rate: real)
    ensures 0.0 <= rate <= 1.0
    ensures |rs| > 0 ==> (rate == 1.0 <==> forall i :: 0 <= i < |rs| ==> rs[i].success)
    ensures rate == 0.0 <==> forall i :: 0 <= i < |rs| ==> !rs[i].success
  {
    SuccessCountBounds(rs);
    if |rs| == 0 then 0.0
    else
      RatioFacts(SuccessCount(rs), |rs|);
      SuccessCount(rs) as real / |rs| as real
  }

  lemma RatioFacts(c: nat, n: nat)
    requires 0 < n && c <= n
    ensures 0.0 <= c as real / n as real <= 1.0
    ensures c as real / n as real == 1.0 <==> c == n
    ensures c as real / n as real == 0.0 <==> c == 0
  {
    var x := c as real / n as real;
    assert x * n as real == c as real;
    assert x <= 1.0 by {
      if x > 1.0 {
        assert x * n as real > 1.0 * n as real;
      }
    }
  }
}

=== FILE: staging.dfy ===
/**
  Loading into the staging tables: src/load/bulk_ops.py (column lists,
  temp-table definitions, `copy_to_temp`) and src/load/staging.py
  (`bulk_upsert_wages`, `bulk_upsert_expenses`, `load_rejects`).

  A staging table is a map from the natural key (county, family triple,
  wage type or expense category) to the stored row and its load time;
  the database clock is a parameter.
 */
module Staging {
  import opened Wrappers
  import opened Text
  import opened Tables
  import opened Frames
  import Records
  import Normalize

  // ---------------------------------------------------------------------
  // Column lists and temp-table definitions (bulk_ops.py)

  /** The five columns of the `ON CONFLICT` clause. */
  function KeyColumns(k: Kind): seq<string> {
    ["county_fips", "adults", "working_adults", "children", KindColumn(k)]
  }

  /** `WAGES_COLUMNS` / `EXPENSES_COLUMNS`: the run id, the natural key
      and the amount. */
  function Columns(k: Kind): seq<string> {
    ["run_id"] + KeyColumns(k) + [AmountColumn(k)]
  }

  /** The two lists as the source spells them out, sharing their first five. */
  lemma ColumnsShape(k: Kind)
    ensures Columns(Wages) == ["run_id", "county_fips", "adults", "working_adults", "children", "wage_type", "hourly_wage"]
    ensures Columns(Expenses) == ["run_id", "county_fips", "adults", "working_adults", "children", "expense_category", "annual_amount"]
    ensures Columns(Wages)[..5] == Columns(Expenses)[..5]
  {
  }

  /** The SQL types the temp tables declare. Only the length bound of
      `VARCHAR(n)` is checked here. */
  datatype SqlType = Integer | Varchar(n: nat) | Numeric(precision: nat, scale: nat)

  type ColumnDefs = seq<(string, SqlType)>

  /** `WAGES_COLUMN_DEFS` / `EXPENSES_COLUMN_DEFS` as written:
      `county_fips VARCHAR(3)`. */
  function DefsAsWritten(k: Kind): ColumnDefs {
    DefsWith(k, 3)
  }

  /** The same definitions with room for the five-digit code the records carry. */
  function Defs(k: Kind): ColumnDefs {
    DefsWith(k, 5)
  }

  function DefsWith(k: Kind, fipsWidth: nat): (d: ColumnDefs)
    ensures |d| == |Columns(k)| && forall j :: 0 <= j < |d| ==> d[j].0 == Columns(k)[j]
  {
    [("run_id", Integer), ("county_fips", Varchar(fipsWidth)), ("adults", Integer),
     ("working_adults", Integer), ("children", Integer),
     (KindColumn(k), Varchar(if k == Wages then 20 else 50)), (AmountColumn(k), Numeric(10, 2))]
  }

  // ---------------------------------------------------------------------
  // Rows

  /** A row's value under `c`, missing as `Null`. */
  function At(row: Row, c: string): Cell {
    if c in row then row[c] else Null
  }

  /** `df[cols]` on one row. */
  function Select(row: Row, cols: seq<string>): (r: Row)
    ensures r.Keys == set c | c in cols
    ensures forall c :: c in cols ==> r[c] == At(row, c)
  {
    map c | c in cols :: At(row, c)
  }

  /** The natural key of the `ON CONFLICT` clause. */
  function RowKey(row: Row, k: Kind): (key: seq<Cell>)
    ensures |key| == |KeyColumns(k)|
    ensures forall i :: 0 <= i < |key| ==> key[i] == At(row, KeyColumns(k)[i])
  {
    seq(|KeyColumns(k)|, i requires 0 <= i < |KeyColumns(k)| => At(row, KeyColumns(k)[i]))
  }

  datatype LoadError =
    | MissingColumns(kind: Kind, missing: set<string>)   // the ValueError of the column check
    | ValueTooLong(row: nat, column: string)             // COPY into a too-narrow VARCHAR
    | DuplicateKey                                       // ON CONFLICT hits one key twice
    | InvalidRejectTable(table: string)                  // the whitelist's ValueError

  /** A value fits a declared type. */
  predicate CellFits(c: Cell, t: SqlType) {
    t.Varchar? && c.Str? ==> |c.s| <= t.n
  }

  /** The first declared column of `row` whose value does not fit. */
  function Misfit(row: Row, defs: ColumnDefs): (r: Option<string>)
    ensures r.None? <==> forall j :: 0 <= j < |defs| ==> CellFits(At(row, defs[j].0), defs[j].1)
    ensures r.Some? ==> exists j :: 0 <= j < |defs| && defs[j].0 == r.value && !CellFits(At(row, defs[j].0), defs[j].1)
    decreases |defs|
  {
    if |defs| == 0 then None
    else if !CellFits(At(row, defs[0].0), defs[0].1) then Some(defs[0].0)
    else
      var r := Misfit(row, defs[1..]);
      assert forall j :: 1 <= j < |defs| ==> defs[j] == defs[1..][j - 1];
      r
  }

  /** The first row from `i` on that does not fit, with its column. */
  function FirstMisfit(rows: seq<Row>, defs: ColumnDefs, i: nat): (r: Option<(nat, string)>)
    requires i <= |rows|
    ensures r.None? <==> forall j :: i <= j < |rows| ==> Misfit(rows[j], defs).None?
    ensures r.Some? ==> (i <= r.value.0 < |rows| && Misfit(rows[r.value.0], defs) == Some(r.value.1)
      && forall j :: i <= j < r.value.0 ==> Misfit(rows[j], defs).None?)
    decreases |rows| - i
  {
    if i == |rows| then None
    else if Misfit(rows[i], defs).Some? then Some((i, Misfit(rows[i], defs).value))
    else FirstMisfit(rows, defs, i + 1)
  }

  /** `copy_to_temp`: the rows go into the temp table when every value
      fits its declared type; the first misfit aborts the COPY. */
  function CopyToTemp(rows: seq<Row>, defs: ColumnDefs): (r: Result<seq<Row>, LoadError>)
    ensures r.Success? <==> forall j :: 0 <= j < |rows| ==> Misfit(rows[j], defs).None?
    ensures r.Success? ==> r.value == rows
    ensures r.Failure? ==> (r.error.ValueTooLong? && r.error.row < |rows|
      && Misfit(rows[r.error.row], defs) == Some(r.error.column))
  {
    if |rows| == 0 then Success([])
    else
      match FirstMisfit(rows, defs, 0)
      case None => Success(rows)
      case Some((i, c)) => Failure(ValueTooLong(i, c))
  }

  // ---------------------------------------------------------------------
  // The staging tables

  datatype Stored = Stored(row: Row, loadedAt: int)

  type Staged = map<seq<Cell>, Stored>

  /** Every stored row has the table's columns and sits under its own key. */
  predicate Consistent(db: Staged, k: Kind) {
    forall key :: key in db ==> db[key].row.Keys == (set c | c in Columns(k)) && RowKey(db[key].row, k) == key
  }

  /** A batch row: the table's columns exactly. */
  predicate Shaped(row: Row, k: Kind) {
    row.Keys == set c | c in Columns(k)
  }

  predicate DistinctKeys(rows: seq<Row>, k: Kind) {
    forall i, j :: 0 <= i < j < |rows| ==> RowKey(rows[i], k) != RowKey(rows[j], k)
  }

  /** One row of `INSERT ... ON CONFLICT (key) DO UPDATE SET run_id,
      amount, load_timestamp`. */
  function Apply(db: Staged, row: Row, k: Kind, now: int): Staged {
    var key := RowKey(row, k);
    if key in db then
      var prior := db[key].row;
      db[key := Stored(prior["run_id" := At(row, "run_id")][AmountColumn(k) := At(row, AmountColumn(k))], now)]
    else db[key := Stored(row, now)]
  }

  /** Two rows with the table's columns and the same key agree on every
      key column. */
  lemma SameKeyAgree(a: Row, b: Row, k: Kind)
    requires Shaped(a, k) && Shaped(b, k) && RowKey(a, k) == RowKey(b, k)
    ensures forall c :: c in KeyColumns(k) ==> c in a && c in b && a[c] == b[c]
  {
    forall c | c in KeyColumns(k) ensures c in a && c in b && a[c] == b[c] {
      var i :| 0 <= i < |KeyColumns(k)| && KeyColumns(k)[i] == c;
      assert RowKey(a, k)[i] == RowKey(b, k)[i];
    }
  }

  /** On a consistent table the conflict update leaves exactly the
      incoming row: the other columns are the key, which already agree. */
  lemma UpdateIsIncoming(db: Staged, row: Row, k: Kind, now: int)
    requires Consistent(db, k) && Shaped(row, k)
    ensures Apply(db, row, k, now) == db[RowKey(row, k) := Stored(row, now)]
  {
    var key := RowKey(row, k);
    if key in db {
      SameKeyAgree(db[key].row, row, k);
      UpdatedIsRow(db[key].row, row, k);
    }
  }

  /** Setting the run id and the amount of a stored row that agrees with
      the incoming row on the key columns gives the incoming row. */
  lemma UpdatedIsRow(prior: Row, row: Row, k: Kind)
    requires Shaped(prior, k) && Shaped(row, k)
    requires forall c :: c in KeyColumns(k) ==> c in prior && c in row && prior[c] == row[c]
    ensures prior["run_id" := At(row, "run_id")][AmountColumn(k) := At(row, AmountColumn(k))] == row
  {
    var updated := prior["run_id" := At(row, "run_id")][AmountColumn(k) := At(row, AmountColumn(k))];
    forall c | c in row ensures c in updated && updated[c] == row[c] {
      ColumnCases(k, c);
    }
    assert updated.Keys == row.Keys;
  }

  /** A column of the table is the run id, the amount or a key column. */
  lemma ColumnCases(k: Kind, c: string)
    requires c in Columns(k)
    ensures c == "run_id" || c == AmountColumn(k) || c in KeyColumns(k)
  {
  }

  /** The keys of a batch. */
  function KeySet(rows: seq<Row>, k: Kind): (s: set<seq<Cell>>)
    ensures forall i :: 0 <= i < |rows| ==> RowKey(rows[i], k) in s
    ensures forall key :: key in s ==> exists i :: 0 <= i < |rows| && RowKey(rows[i], k) == key
    decreases |rows|
  {
    if |rows| == 0 then {}
    else
      var s := {RowKey(rows[0], k)} + KeySet(rows[1..], k);
      assert forall i :: 1 <= i < |rows| ==> rows[i] == rows[1..][i - 1];
      s
  }

  /** The whole INSERT, row by row. */
  function Merge(db: Staged, rows: seq<Row>, k: Kind, now: int): Staged
    decreases |rows|
  {
    if |rows| == 0 then db else Merge(Apply(db, rows[0], k, now), rows[1..], k, now)
  }

  /** The INSERT keeps the table consistent. */
  lemma {:induction false} MergeConsistent(db: Staged, rows: seq<Row>, k: Kind, now: int)
    requires Consistent(db, k)
    requires forall i :: 0 <= i < |rows| ==> Shaped(rows[i], k)
    ensures Consistent(Merge(db, rows, k, now), k)
    decreases |rows|
  {
    if |rows| > 0 {
      UpdateIsIncoming(db, rows[0], k, now);
      assert forall i :: 1 <= i < |rows| ==> rows[i] == rows[1..][i - 1];
      MergeConsistent(Apply(db, rows[0], k, now), rows[1..], k, now);
    }
  }

  /** After the INSERT the table holds the old keys and the batch's. */
  lemma {:induction false} MergeKeys(db: Staged, rows: seq<Row>, k: Kind, now: int)
    ensures Merge(db, rows, k, now).Keys == db.Keys + KeySet(rows, k)
    decreases |rows|
  {
    if |rows| > 0 {
      MergeKeys(Apply(db, rows[0], k, now), rows[1..], k, now);
    }
  }

  /** Entries whose key the batch does not carry are left alone. */
  lemma {:induction false} MergeKeepsOthers(db: Staged, rows: seq<Row>, k: Kind, now: int, key: seq<Cell>)
    requires key in db && key !in KeySet(rows, k)
    ensures key in Merge(db, rows, k, now) && Merge(db, rows, k, now)[key] == db[key]
    decreases |rows|
  {
    MergeKeys(db, rows, k, now);
    if |rows| > 0 {
      MergeKeepsOthers(Apply(db, rows[0], k, now), rows[1..], k, now, key);
    }
  }

  lemma MergeStep(db: Staged, rows: seq<Row>, k: Kind, now: int)
    requires |rows| > 0
    ensures Merge(db, rows, k, now) == Merge(Apply(db, rows[0], k, now), rows[1..], k, now)
  {
  }

  /** With distinct keys, each batch row ends up stored under its key. */
  lemma {:induction false} MergeStoresRow(db: Staged, rows: seq<Row>, k: Kind, now: int, i: nat)
    requires Consistent(db, k) && DistinctKeys(rows, k) && i < |rows|
    requires forall j :: 0 <= j < |rows| ==> Shaped(rows[j], k)
    ensures RowKey(rows[i], k) in Merge(db, rows, k, now)
    ensures Merge(db, rows, k, now)[RowKey(rows[i], k)] == Stored(rows[i], now)
    decreases |rows|
  {
    if i == 0 {
      MergeStoresHead(db, rows, k, now);
    } else {
      var rest := rows[1..];
      MergeStep(db, rows, k, now);
      StepFacts(db, rows, k, now);
      assert rows[i] == rest[i - 1];
      MergeStoresRow(Apply(db, rows[0], k, now), rest, k, now, i - 1);
    }
  }

  /** The first row of a batch with distinct keys is never overwritten. */
  lemma MergeStoresHead(db: Staged, rows: seq<Row>, k: Kind, now: int)
    requires Consistent(db, k) && DistinctKeys(rows, k) && 0 < |rows|
    requires forall j :: 0 <= j < |rows| ==> Shaped(rows[j], k)
    ensures RowKey(rows[0], k) in Merge(db, rows, k, now)
    ensures Merge(db, rows, k, now)[RowKey(rows[0], k)] == Stored(rows[0], now)
  {
    MergeStep(db, rows, k, now);
    StepFacts(db, rows, k, now);
    MergeKeepsOthers(Apply(db, rows[0], k, now), rows[1..], k, now, RowKey(rows[0], k));
  }

  /** After the first row of a batch with distinct keys, the table is
      consistent and holds that row, and the rest of the batch still has
      distinct keys, none of them the first row's. */
  lemma StepFacts(db: Staged, rows: seq<Row>, k: Kind, now: int)
    requires Consistent(db, k) && DistinctKeys(rows, k) && |rows| > 0
    requires forall j :: 0 <= j < |rows| ==> Shaped(rows[j], k)
    ensures var db1 := Apply(db, rows[0], k, now);
      Consistent(db1, k) && db1 == db[RowKey(rows[0], k) := Stored(rows[0], now)]
    ensures DistinctKeys(rows[1..], k) && forall j :: 0 <= j < |rows[1..]| ==> Shaped(rows[1..][j], k)
    ensures RowKey(rows[0], k) !in KeySet(rows[1..], k)
  {
    var rest := rows[1..];
    UpdateIsIncoming(db, rows[0], k, now);
    assert forall j :: 0 <= j < |rest| ==> rest[j] == rows[j + 1];
  }

  /** With distinct keys, the INSERT stores each batch row under its key,
      keeps every other entry and keeps the table consistent. */
  lemma MergeStores(db: Staged, rows: seq<Row>, k: Kind, now: int)
    requires Consistent(db, k) && DistinctKeys(rows, k)
    requires forall i :: 0 <= i < |rows| ==> Shaped(rows[i], k)
    ensures Consistent(Merge(db, rows, k, now), k)
    ensures Merge(db, rows, k, now).Keys == db.Keys + KeySet(rows, k)
    ensures forall row :: row in rows ==> Merge(db, rows, k, now)[RowKey(row, k)] == Stored(row, now)
    ensures forall key :: key in db && key !in KeySet(rows, k) ==> Merge(db, rows, k, now)[key] == db[key]
  {
    MergeConsistent(db, rows, k, now);
    MergeKeys(db, rows, k, now);
    forall row | row in rows ensures Merge(db, rows, k, now)[RowKey(row, k)] == Stored(row, now) {
      var i :| 0 <= i < |rows| && rows[i] == row;
      MergeStoresRow(db, rows, k, now, i);
    }
    forall key | key in db && key !in KeySet(rows, k) ensures Merge(db, rows, k, now)[key] == db[key] {
      MergeKeepsOthers(db, rows, k, now, key);
    }
  }

  /** The batch that reaches the temp table: `run_id` set on every row,
      then projected onto the table's columns. */
  function Batch(t: Table, runId: int, k: Kind): (rows: seq<Row>)
    ensures |rows| == |t.rows|
    ensures forall i :: 0 <= i < |rows| ==> Shaped(rows[i], k)
    ensures forall i :: 0 <= i < |rows| ==> rows[i] == Select(t.rows[i]["run_id" := Int(runId)], Columns(k))
  {
    seq(|t.rows|, i requires 0 <= i < |t.rows| => Select(t.rows[i]["run_id" := Int(runId)], Columns(k)))
  }

  /** The required columns the table lacks once `run_id` is added. */
  function Missing(t: Table, k: Kind): (m: set<string>)
    ensures "run_id" !in m
    ensures forall c :: c in m <==> c in Columns(k) && c !in t.columns && c != "run_id"
  {
    set c | c in Columns(k) && c !in t.columns + ["run_id"]
  }

  /** `bulk_upsert_wages` / `bulk_upsert_expenses`: nothing for an empty
      table; otherwise the column check, the COPY into the temp table,
      then the upsert. The count is the rows inserted or updated. */
  function BulkUpsert(db: Staged, t: Table, runId: int, k: Kind, now: int, defs: ColumnDefs)
    : (r: Result<(Staged, nat), LoadError>)
    requires WellFormed(t) && Consistent(db, k)
    ensures IsEmpty(t) ==> r == Success((db, 0))
    ensures !IsEmpty(t) && Missing(t, k) != {} ==> r == Failure(MissingColumns(k, Missing(t, k)))
    ensures !IsEmpty(t) && Missing(t, k) == {} ==>
      (r.Success? <==> (forall i :: 0 <= i < |t.rows| ==> Misfit(Batch(t, runId, k)[i], defs).None?)
                       && DistinctKeys(Batch(t, runId, k), k))
    ensures r.Success? ==> Consistent(r.value.0, k)
    ensures r.Success? && !IsEmpty(t) ==> r.value.1 == |t.rows|
    ensures r.Success? && !IsEmpty(t) ==> r.value.0.Keys == db.Keys + KeySet(Batch(t, runId, k), k)
    ensures r.Success? && !IsEmpty(t) ==> forall row :: row in Batch(t, runId, k) ==> r.value.0[RowKey(row, k)] == Stored(row, now)
    ensures r.Success? ==> forall key :: key in db && key !in KeySet(Batch(t, runId, k), k) ==> r.value.0[key] == db[key]
  {
    if IsEmpty(t) then Success((db, 0))
    else if Missing(t, k) != {} then Failure(MissingColumns(k, Missing(t, k)))
    else
      var rows := Batch(t, runId, k);
      var temp :- CopyToTemp(rows, defs);
      if !DistinctKeys(temp, k) then Failure(DuplicateKey)
      else
        MergeStores(db, temp, k, now);
        Success((Merge(db, temp, k, now), |temp|))
  }

  /** Running the same INSERT twice leaves what running it once left. */
  lemma MergeIdempotent(db: Staged, rows: seq<Row>, k: Kind, now: int)
    requires Consistent(db, k) && DistinctKeys(rows, k)
    requires forall i :: 0 <= i < |rows| ==> Shaped(rows[i], k)
    ensures Merge(Merge(db, rows, k, now), rows, k, now) == Merge(db, rows, k, now)
  {
    var once := Merge(db, rows, k, now);
    MergeStores(db, rows, k, now);
    MergeStores(once, rows, k, now);
    var twice := Merge(once, rows, k, now);
    forall key | key in once ensures twice[key] == once[key] {
      if key in KeySet(rows, k) {
        var i :| 0 <= i < |rows| && RowKey(rows[i], k) == key;
        assert rows[i] in rows;
      }
    }
  }

  /** Loading the same batch again at the same time changes nothing and
      reports the same count. */
  lemma BulkUpsertIdempotent(db: Staged, t: Table, runId: int, k: Kind, now: int, defs: ColumnDefs)
    requires WellFormed(t) && Consistent(db, k)
    requires BulkUpsert(db, t, runId, k, now, defs).Success?
    ensures var once := BulkUpsert(db, t, runId, k, now, defs).value.0;
      BulkUpsert(once, t, runId, k, now, defs) == Success((once, BulkUpsert(db, t, runId, k, now, defs).value.1))
  {
    if !IsEmpty(t) {
      MergeIdempotent(db, Batch(t, runId, k), k, now);
    }
  }

  // ---------------------------------------------------------------------
  // The county code width

  /** A batch row made from a validated record: a five-digit county code
      and a label within its column's width. */
  predicate RecordRow(row: Row, k: Kind) {
    At(row, "county_fips").Str? && |At(row, "county_fips").s| == 5
    && (At(row, KindColumn(k)).Str? ==> |At(row, KindColumn(k)).s| <= (if k == Wages then 20 else 50))
  }

  /** The dumped row of a validated wage record is such a row. */
  lemma WageRowIsRecordRow(w: Records.WageRecord, runId: int)
    requires Normalize.ValidBase(w.base) && |w.wageType| <= 20
    ensures RecordRow(Select(Normalize.WageRow(w)["run_id" := Int(runId)], Columns(Wages)), Wages)
  {
    var row := Normalize.WageRow(w);
    assert row["county_fips"] == Str(w.base.countyFips);
    assert row["wage_type"] == Str(w.wageType);
  }

  /** The same for a validated expense record. */
  lemma ExpenseRowIsRecordRow(e: Records.ExpenseRecord, runId: int)
    requires Normalize.ValidBase(e.base) && |e.expenseCategory| <= 50
    ensures RecordRow(Select(Normalize.ExpenseRow(e)["run_id" := Int(runId)], Columns(Expenses)), Expenses)
  {
    var row := Normalize.ExpenseRow(e);
    assert row["county_fips"] == Str(e.base.countyFips);
    assert row["expense_category"] == Str(e.expenseCategory);
  }

  lemma RecordRowMisfit(row: Row, k: Kind, width: nat)
    requires RecordRow(row, k)
    ensures Misfit(row, DefsWith(k, width)).None? <==> width >= 5
  {
    var d := DefsWith(k, width);
    assert d[1] == ("county_fips", Varchar(width));
    if width < 5 {
      assert !CellFits(At(row, d[1].0), d[1].1);
    } else {
      forall j | 0 <= j < |d| ensures CellFits(At(row, d[j].0), d[j].1) {
        assert d[5] == (KindColumn(k), Varchar(if k == Wages then 20 else 50));
      }
    }
  }

  /** As written, the temp tables reject the first row of every batch of
      validated records: a five-digit code does not fit `VARCHAR(3)`. */
  lemma CopyAsWrittenRejectsRecords(db: Staged, t: Table, runId: int, k: Kind, now: int)
    requires WellFormed(t) && Consistent(db, k) && !IsEmpty(t) && Missing(t, k) == {}
    requires forall i :: 0 <= i < |t.rows| ==> RecordRow(Batch(t, runId, k)[i], k)
    ensures BulkUpsert(db, t, runId, k, now, DefsAsWritten(k)) == Failure(ValueTooLong(0, "county_fips"))
  {
    var rows := Batch(t, runId, k);
    RecordRowMisfit(rows[0], k, 3);
    MisfitIsFips(rows[0], k);
  }

  lemma MisfitIsFips(row: Row, k: Kind)
    requires RecordRow(row, k)
    ensures Misfit(row, DefsAsWritten(k)) == Some("county_fips")
  {
    var d := DefsAsWritten(k);
    assert CellFits(At(row, d[0].0), d[0].1);
    assert d[1..][0] == d[1];
  }

  /** With room for five digits, the same batches load. */
  lemma CopyAcceptsRecords(db: Staged, t: Table, runId: int, k: Kind, now: int)
    requires WellFormed(t) && Consistent(db, k) && !IsEmpty(t) && Missing(t, k) == {}
    requires DistinctKeys(Batch(t, runId, k), k)
    requires forall i :: 0 <= i < |t.rows| ==> RecordRow(Batch(t, runId, k)[i], k)
    ensures BulkUpsert(db, t, runId, k, now, Defs(k)).Success?
  {
    var rows := Batch(t, runId, k);
    forall i | 0 <= i < |t.rows| ensures Misfit(rows[i], Defs(k)).None? {
      RecordRowMisfit(rows[i], k, 5);
    }
  }

  // ---------------------------------------------------------------------
  // load_rejects

  const AllowedRejectTables: set<string> := {"stg_wages_rejects", "stg_expenses_rejects"}

  const MaxReasonLength: nat := 1000

  /** One row of a reject table. */
  datatype RejectRow = RejectRow(runId: int, rawData: string, reason: string)

  /** One reject: its `raw_data` (or the whole record when it has none)
      as JSON, and its reason as text (or "Unknown") cut to 1000
      characters. Serialising and `str` are parameters. */
  function ShapeReject<V>(record: map<string, V>, runId: int,
                          dumps: V -> string, dumpsRecord: map<string, V> -> string, show: V -> string): (r: RejectRow)
    ensures r.runId == runId
    ensures r.rawData == if "raw_data" in record then dumps(record["raw_data"]) else dumpsRecord(record)
    ensures var full := if "rejection_reason" in record then show(record["rejection_reason"]) else "Unknown";
      |r.reason| <= MaxReasonLength && |r.reason| <= |full| && r.reason == full[..|r.reason|]
      && (|full| <= MaxReasonLength ==> r.reason == full)
      && (|full| > MaxReasonLength ==> |r.reason| == MaxReasonLength)
  {
    var raw := if "raw_data" in record then dumps(record["raw_data"]) else dumpsRecord(record);
    var reason := if "rejection_reason" in record then show(record["rejection_reason"]) else "Unknown";
    RejectRow(runId, raw, Take(reason, MaxReasonLength))
  }

  /** The reject rows of a batch, one per record, in order. */
  function RejectRows<V>(records: seq<map<string, V>>, runId: int,
                         dumps: V -> string, dumpsRecord: map<string, V> -> string, show: V -> string)
    : (rows: seq<RejectRow>)
    ensures |rows| == |records|
    ensures forall i :: 0 <= i < |records| ==> rows[i] == ShapeReject(records[i], runId, dumps, dumpsRecord, show)
  {
    seq(|records|, i requires 0 <= i < |records| => ShapeReject(records[i], runId, dumps, dumpsRecord, show))
  }

  /** `load_rejects`: nothing for no records (before the table is even
      checked); a table outside the whitelist is refused; otherwise the
      batch's rows are appended to that table and to no other. */
  function LoadRejects<V>(tables: map<string, seq<RejectRow>>, records: seq<map<string, V>>, runId: int, table: string,
                          dumps: V -> string, dumpsRecord: map<string, V> -> string, show: V -> string)
    : (r: Result<(map<string, seq<RejectRow>>, nat), LoadError>)
    ensures |records| == 0 ==> r == Success((tables, 0))
    ensures |records| > 0 ==> (r.Failure? <==> table !in AllowedRejectTables)
    ensures r.Failure? ==> r.error == InvalidRejectTable(table)
    ensures r.Success? && |records| > 0 ==>
      (r.value.1 == |records|
       && r.value.0 == tables[table := (if table in tables then tables[table] else [])
                                       + RejectRows(records, runId, dumps, dumpsRecord, show)])
  {
    if |records| == 0 then Success((tables, 0))
    else if table !in AllowedRejectTables then Failure(InvalidRejectTable(table))
    else
      var prior := if table in tables then tables[table] else [];
      var rows := RejectRows(records, runId, dumps, dumpsRecord, show);
      Success((tables[table := prior + rows], |rows|))
  }

  /** Only the two reject tables can ever grow. */
  lemma RejectsStayWhitelisted<V>(tables: map<string, seq<RejectRow>>, records: seq<map<string, V>>, runId: int, table: string,
                                  dumps: V -> string, dumpsRecord: map<string, V> -> string, show: V -> string)
    requires LoadRejects(tables, records, runId, table, dumps, dumpsRecord, show).Success?
    ensures var out := LoadRejects(tables, records, runId, table, dumps, dumpsRecord, show).value.0;
      forall g :: g in out && g !in AllowedRejectTables ==> g in tables && out[g] == tables[g]
  {
  }
}

=== FILE: tables.dfy ===
/**
  Tables as the pipeline handles them: a pandas DataFrame is an ordered list
  of distinct column names and a sequence of rows, each row a map from
  every column to a cell. Row dicts (what the scrapers produce) are ordered
  lists of key/value pairs.

  One `Null` cell stands for both `None` and NaN.
 */
module Tables {
  import opened Wrappers
  import opened Text

  datatype Cell = Null | Str(s: string) | Int(i: int) | Num(x: real) | Date(day: int)

  type Row = map<string, Cell>

  datatype Table = Table(columns: seq<string>, rows: seq<Row>)

  predicate Distinct(cs: seq<string>) {
    forall i, j :: 0 <= i < j < |cs| ==> cs[i] != cs[j]
  }

  /** Every row has exactly the table's columns. */
  predicate WellFormed(t: Table) {
    Distinct(t.columns)
    && forall i :: 0 <= i < |t.rows| ==> t.rows[i].Keys == set c | c in t.columns
  }

  /** `df.empty`: no columns or no rows. */
  predicate IsEmpty(t: Table) {
    |t.columns| == 0 || |t.rows| == 0
  }

  /** `str(x)` of a cell. Text is itself, `None` prints as "None" and an
      integer in decimal. The printed forms of floats and dates are not
      modelled and read as the empty string. */
  function CellStr(c: Cell): string {
    match c
    case Null => "None"
    case Str(s) => s
    case Int(i) => IntToString(i)
    case Num(_) => ""
    case Date(_) => ""
  }

  // ---------------------------------------------------------------------
  // Column-wise edits

  /** A row aligned to `cols`, as `pd.concat` and `df[cols]` align it: the
      listed columns only, an absent one holding null. */
  function Project(row: Row, cols: seq<string>): (r: Row)
    ensures r.Keys == set c | c in cols
    ensures forall c :: c in cols && c in row ==> r[c] == row[c]
  {
    map c | c in cols :: if c in row then row[c] else Null
  }

  /** Every row aligned to `cols`. */
  function ProjectAll(rows: seq<Row>, cols: seq<string>): (r: seq<Row>)
    ensures |r| == |rows|
    ensures forall i :: 0 <= i < |rows| ==> r[i] == Project(rows[i], cols)
  {
    seq(|rows|, i requires 0 <= i < |rows| => Project(rows[i], cols))
  }

  /** Aligning loses nothing: a row aligned to columns that include its
      own, and aligned back to its own, is the row again; the added
      columns hold only nulls. */
  lemma ProjectBack(row: Row, cols: seq<string>, own: seq<string>)
    requires row.Keys == set c | c in own
    requires forall c :: c in own ==> c in cols
    ensures Project(Project(row, cols), own) == row
    ensures forall c :: c in cols && c !in own ==> Project(row, cols)[c] == Null
  {
    var wide := Project(row, cols);
    var back := Project(wide, own);
    assert back.Keys == row.Keys;
    forall c | c in row ensures back[c] == row[c] {
      assert c in own;
    }
  }

  /** `cols` followed by the names of `ks` it lacks, in order of first
      appearance. */
  function AddNew(cols: seq<string>, ks: seq<string>): (r: seq<string>)
    ensures Distinct(cols) ==> Distinct(r)
    ensures |cols| <= |r| && r[..|cols|] == cols
    ensures forall c :: c in r <==> c in cols || c in ks
    decreases |ks|
  {
    if |ks| == 0 then cols
    else if ks[0] in cols then AddNew(cols, ks[1..])
    else
      var r := AddNew(cols + [ks[0]], ks[1..]);
      assert r[..|cols|] == (cols + [ks[0]])[..|cols|];
      assert forall c :: c in ks <==> c == ks[0] || c in ks[1..];
      r
  }

  /** `df[name] = v` for one value: every row gets `v` under `name`, which
      is appended to the columns when new. */
  function SetColumn(t: Table, name: string, v: Cell): (r: Table)
    requires WellFormed(t)
    ensures WellFormed(r)
    ensures |r.rows| == |t.rows|
    ensures name in t.columns ==> r.columns == t.columns
    ensures name !in t.columns ==> r.columns == t.columns + [name]
    ensures forall i :: 0 <= i < |r.rows| ==> r.rows[i][name] == v
    ensures forall i, c :: 0 <= i < |r.rows| && c in t.columns && c != name ==> r.rows[i][c] == t.rows[i][c]
  {
    var cols := AddNew(t.columns, [name]);
    var rows := seq(|t.rows|, i requires 0 <= i < |t.rows| => t.rows[i][name := v]);
    assert forall i :: 0 <= i < |rows| ==> rows[i] == t.rows[i][name := v];
    assert name !in t.columns ==> cols == t.columns + [name] by {
      if name !in t.columns {
        assert AddNew(t.columns, [name]) == AddNew(t.columns + [name], []);
      }
    }
    Table(cols, rows)
  }

  /** `df.rename(columns={src: dst})`, with no column named `dst` already;
      a missing `src` leaves the table as it is. */
  function Rename(t: Table, src: string, dst: string): (r: Table)
    requires WellFormed(t)
    requires dst !in t.columns || src !in t.columns
    ensures WellFormed(r)
    ensures |r.rows| == |t.rows|
    ensures |r.columns| == |t.columns|
    ensures forall k :: 0 <= k < |t.columns| ==> r.columns[k] == if t.columns[k] == src then dst else t.columns[k]
    ensures src in t.columns ==> forall i :: 0 <= i < |r.rows| ==> r.rows[i][dst] == t.rows[i][src]
    ensures forall i, c :: 0 <= i < |r.rows| && c in t.columns && c != src ==> r.rows[i][c] == t.rows[i][c]
  {
    if src !in t.columns || src == dst then t
    else
      var cols := seq(|t.columns|, k requires 0 <= k < |t.columns| => if t.columns[k] == src then dst else t.columns[k]);
      forall c | c in cols ensures (c in t.columns && c != src) || c == dst {
        var k :| 0 <= k < |cols| && cols[k] == c;
      }
      forall c | (c in t.columns && c != src) || c == dst ensures c in cols {
        var k :| 0 <= k < |t.columns| && t.columns[k] == (if c == dst then src else c);
        assert cols[k] == c;
      }
      assert Distinct(cols) by {
        forall i, j | 0 <= i < j < |cols| ensures cols[i] != cols[j] {
          assert t.columns[i] != t.columns[j];
        }
      }
      var rows := seq(|t.rows|, i requires 0 <= i < |t.rows| => RenameKey(t.rows[i], src, dst));
      Table(cols, rows)
  }

  function RenameKey(row: Row, src: string, dst: string): (r: Row)
    requires src in row && dst !in row
    ensures r.Keys == row.Keys - {src} + {dst}
    ensures r[dst] == row[src]
    ensures forall c :: c in row && c != src ==> r[c] == row[c]
  {
    (map c | c in row.Keys - {src} :: row[c])[dst := row[src]]
  }

  // ---------------------------------------------------------------------
  // pd.DataFrame(list_of_dicts)

  /** A Python dict as an ordered list of entries. */
  type Dict = seq<(string, Cell)>

  function Keys(d: Dict): (ks: seq<string>)
    ensures |ks| == |d|
    ensures forall j :: 0 <= j < |d| ==> ks[j] == d[j].0
  {
    seq(|d|, j requires 0 <= j < |d| => d[j].0)
  }

  /** A dict's keys are distinct. */
  predicate DictOk(d: Dict) {
    Distinct(Keys(d))
  }

  /** `d.get(k)`: the value under `k`, `Null` when there is none. */
  function Get(d: Dict, k: string): (v: Cell)
    ensures DictOk(d) ==> forall j :: 0 <= j < |d| && d[j].0 == k ==> v == d[j].1
    ensures (forall j :: 0 <= j < |d| ==> d[j].0 != k) ==> v == Null
  {
    if |d| == 0 then Null
    else if d[0].0 == k then d[0].1
    else
      assert DictOk(d) ==> DictOk(d[1..]) by {
        assert Keys(d[1..]) == Keys(d)[1..];
      }
      Get(d[1..], k)
  }

  /** Some dict of `data` has the key `c`. */
  predicate HasKey(data: seq<Dict>, c: string) {
    exists i, j :: 0 <= i < |data| && 0 <= j < |data[i]| && data[i][j].0 == c
  }

  lemma HasKeyCons(data: seq<Dict>, c: string)
    requires |data| > 0
    ensures HasKey(data, c) <==> c in Keys(data[0]) || HasKey(data[1..], c)
  {
    if HasKey(data, c) {
      var i, j :| 0 <= i < |data| && 0 <= j < |data[i]| && data[i][j].0 == c;
      if i == 0 {
        assert Keys(data[0])[j] == c;
      } else {
        assert data[1..][i - 1][j].0 == c;
      }
    }
    if c in Keys(data[0]) {
      var j :| 0 <= j < |Keys(data[0])| && Keys(data[0])[j] == c;
      assert data[0][j].0 == c;
    }
    if HasKey(data[1..], c) {
      var i, j :| 0 <= i < |data[1..]| && 0 <= j < |data[1..][i]| && data[1..][i][j].0 == c;
      assert data[i + 1][j].0 == c;
    }
  }

  /** The columns of a DataFrame built from dicts: every key, in order of
      first appearance. */
  function ColumnsOf(data: seq<Dict>): (cols: seq<string>)
    ensures Distinct(cols)
    ensures forall c :: c in cols <==> HasKey(data, c)
  {
    ColumnsFrom([], data)
  }

  function ColumnsFrom(cols: seq<string>, data: seq<Dict>): (r: seq<string>)
    requires Distinct(cols)
    ensures Distinct(r)
    ensures forall c :: c in r <==> c in cols || HasKey(data, c)
    decreases |data|
  {
    if |data| == 0 then cols
    else
      var next := AddNew(cols, Keys(data[0]));
      var r := ColumnsFrom(next, data[1..]);
      assert forall c :: HasKey(data, c) <==> c in Keys(data[0]) || HasKey(data[1..], c) by {
        forall c ensures HasKey(data, c) <==> c in Keys(data[0]) || HasKey(data[1..], c) {
          HasKeyCons(data, c);
        }
      }
      r
  }

  /** One dict as a row over `cols`: absent keys become `Null`. */
  function DictRow(d: Dict, cols: seq<string>): (r: Row)
    ensures r.Keys == set c | c in cols
    ensures forall c :: c in cols ==> r[c] == Get(d, c)
  {
    map c | c in cols :: Get(d, c)
  }

  /** `pd.DataFrame(data)`. */
  function FromDicts(data: seq<Dict>): (t: Table)
    ensures WellFormed(t)
    ensures t.columns == ColumnsOf(data)
    ensures |t.rows| == |data|
    ensures forall i, c :: 0 <= i < |data| && c in t.columns ==> t.rows[i][c] == Get(data[i], c)
  {
    var cols := ColumnsOf(data);
    Table(cols, seq(|data|, i requires 0 <= i < |data| => DictRow(data[i], cols)))
  }

  /** The value under `k` in a dict with distinct keys is the entry's own
      value: no entry is lost or mixed up by the conversion. */
  lemma FromDictsKeepsEntries(data: seq<Dict>, i: nat, j: nat)
    requires i < |data| && j < |data[i]| && DictOk(data[i])
    ensures data[i][j].0 in FromDicts(data).columns
    ensures FromDicts(data).rows[i][data[i][j].0] == data[i][j].1
  {
    var c := data[i][j].0;
    assert HasKey(data, c);
  }

  // ---------------------------------------------------------------------
  // dict item assignment and dict(zip(keys, values))

  /** The first position of `k` in `ks`. */
  function IndexOf(ks: seq<string>, k: string): (i: nat)
    requires k in ks
    ensures i < |ks| && ks[i] == k
    ensures forall j :: 0 <= j < i ==> ks[j] != k
  {
    if ks[0] == k then 0 else 1 + IndexOf(ks[1..], k)
  }

  /** `d[k] = v`: an existing key keeps its place and takes the new value;
      a new key goes at the end. */
  function Put(d: Dict, k: string, v: Cell): (r: Dict)
    ensures k in Keys(d) ==> Keys(r) == Keys(d)
    ensures k !in Keys(d) ==> r == d + [(k, v)]
    ensures forall j :: 0 <= j < |d| && d[j].0 != k ==> r[j] == d[j]
  {
    if k in Keys(d) then
      var i := IndexOf(Keys(d), k);
      var r := d[i := (k, v)];
      assert Keys(r) == Keys(d);
      r
    else d + [(k, v)]
  }

  /** Assigning keeps the keys distinct, and the key now holds the new
      value while every other key keeps its own. */
  lemma PutGet(d: Dict, k: string, v: Cell)
    requires DictOk(d)
    ensures DictOk(Put(d, k, v))
    ensures Get(Put(d, k, v), k) == v
    ensures forall c :: c != k ==> Get(Put(d, k, v), c) == Get(d, c)
  {
    var r := Put(d, k, v);
    if k in Keys(d) {
      var i := IndexOf(Keys(d), k);
      assert r[i] == (k, v);
    } else {
      assert Keys(r) == Keys(d) + [k];
      assert r[|d|] == (k, v);
    }
    forall c | c != k ensures Get(r, c) == Get(d, c) {
      if c in Keys(d) {
        var j := IndexOf(Keys(d), c);
        assert r[j] == d[j];
      } else {
        assert forall j :: 0 <= j < |r| ==> r[j].0 != c by {
          forall j | 0 <= j < |r| ensures r[j].0 != c {
            if j < |d| && d[j].0 != k { assert Keys(d)[j] == d[j].0; }
          }
        }
      }
    }
  }

  /** `dict(zip(keys, values))`: pairs up to the shorter list, later
      duplicates overwriting earlier values. */
  function Zip(keys: seq<string>, vals: seq<Cell>): (r: Dict)
    ensures DictOk(r)
    ensures Distinct(keys) && |vals| >= |keys| ==>
      r == seq(|keys|, j requires 0 <= j < |keys| => (keys[j], vals[j]))
  {
    ZipInto([], keys, vals)
  }

  function ZipInto(d: Dict, keys: seq<string>, vals: seq<Cell>): (r: Dict)
    requires DictOk(d)
    ensures DictOk(r)
    ensures Distinct(Keys(d) + keys) && |vals| >= |keys| ==>
      r == d + seq(|keys|, j requires 0 <= j < |keys| => (keys[j], vals[j]))
    decreases |keys|
  {
    if |keys| == 0 || |vals| == 0 then d
    else
      PutGet(d, keys[0], vals[0]);
      var r := ZipInto(Put(d, keys[0], vals[0]), keys[1..], vals[1..]);
      if Distinct(Keys(d) + keys) && |vals| >= |keys| then
        ZipStep(d, keys, vals);
        r
      else r
  }

  lemma ZipStep(d: Dict, keys: seq<string>, vals: seq<Cell>)
    requires |keys| > 0 && |vals| >= |keys|
    requires Distinct(Keys(d) + keys)
    ensures var next := Put(d, keys[0], vals[0]);
      Distinct(Keys(next) + keys[1..])
      && next + seq(|keys| - 1, j requires 0 <= j < |keys| - 1 => (keys[1..][j], vals[1..][j]))
         == d + seq(|keys|, j requires 0 <= j < |keys| => (keys[j], vals[j]))
  {
    var next := Put(d, keys[0], vals[0]);
    assert keys[0] !in Keys(d) by {
      assert (Keys(d) + keys)[|Keys(d)|] == keys[0];
      forall j | 0 <= j < |Keys(d)| ensures Keys(d)[j] != keys[0] {
        assert (Keys(d) + keys)[j] == Keys(d)[j];
      }
    }
    assert Keys(next) == Keys(d) + [keys[0]];
    assert Keys(next) + keys[1..] == Keys(d) + keys;
  }
}

=== FILE: text.dfy ===
/**
  The handful of Python `str` operations the pipeline relies on, over
  `string` (= `seq<char>`): `lower`, `strip`, `split`/`join`, `replace`,
  `zfill`, `isdigit`, `str(int)` and the regular-expression classes `\w`
  and whitespace. Character classes are the ASCII subset of Python's
  Unicode classes.
 */
module Text {

  // ---------------------------------------------------------------------
  // Character classes

  /** `str.isspace()` on ASCII: space, \t \n \v \f \r and 0x1C-0x1F. */
  predicate IsSpace(c: char) {
    c == ' ' || (9 <= c as int <= 13) || (28 <= c as int <= 31)
  }

  predicate IsDigit(c: char) { '0' <= c <= '9' }

  predicate IsUpper(c: char) { 'A' <= c <= 'Z' }

  /** The regular-expression class `\w` on ASCII. */
  predicate IsWordChar(c: char) {
    IsDigit(c) || ('a' <= c <= 'z') || IsUpper(c) || c == '_'
  }

  function LowerChar(c: char): (r: char)
    ensures !IsUpper(r)
    ensures !IsUpper(c) ==> r == c
  {
    if IsUpper(c) then (c as int + 32) as char else c
  }

  // ---------------------------------------------------------------------
  // Whole-string predicates

  predicate NoUpper(s: string) {
    forall i :: 0 <= i < |s| ==> !IsUpper(s[i])
  }

  predicate NoSpace(s: string) {
    forall i :: 0 <= i < |s| ==> !IsSpace(s[i])
  }

  predicate IsDigits(s: string) {
    |s| > 0 && forall i :: 0 <= i < |s| ==> IsDigit(s[i])
  }

  /** No leading or trailing whitespace, every whitespace character is a
      plain space, and no two whitespace characters are adjacent. */
  predicate SingleSpaced(s: string) {
    forall i :: 0 <= i < |s| && IsSpace(s[i]) ==>
      s[i] == ' ' && 0 < i < |s| - 1 && !IsSpace(s[i + 1])
  }

  /** Every character of `r` is a space or occurs in `s`. */
  predicate CharsFrom(r: string, s: string) {
    forall i :: 0 <= i < |r| ==> r[i] == ' ' || r[i] in s
  }

  /** No position `i` has `s[i] == a` followed by `s[i+1] == b`. */
  predicate NoPair(s: string, a: char, b: char) {
    forall i, j :: 0 <= i && j == i + 1 < |s| ==> !(s[i] == a && s[j] == b)
  }

  lemma CharsFromTrans(r: string, s: string, t: string)
    requires CharsFrom(r, s) && CharsFrom(s, t)
    ensures CharsFrom(r, t)
  {
    forall i | 0 <= i < |r|
      ensures r[i] == ' ' || r[i] in t
    {
      if r[i] != ' ' {
        var j :| 0 <= j < |s| && s[j] == r[i];
      }
    }
  }

  lemma CharsFromNoUpper(r: string, s: string)
    requires CharsFrom(r, s) && NoUpper(s)
    ensures NoUpper(r)
  {
    forall i | 0 <= i < |r|
      ensures !IsUpper(r[i])
    {
      if r[i] != ' ' {
        var j :| 0 <= j < |s| && s[j] == r[i];
      }
    }
  }

  // ---------------------------------------------------------------------
  // lower()

  function Lower(s: string): (r: string)
    ensures |r| == |s|
    ensures forall i :: 0 <= i < |s| ==> r[i] == LowerChar(s[i])
    ensures NoUpper(r)
  {
    seq(|s|, i requires 0 <= i < |s| => LowerChar(s[i]))
  }

  lemma LowerAppend(a: string, b: string)
    ensures Lower(a + b) == Lower(a) + Lower(b)
  {
  }

  lemma LowerIdentity(s: string)
    requires NoUpper(s)
    ensures Lower(s) == s
  {
  }

  // ---------------------------------------------------------------------
  // strip()

  function TrimStart(s: string): (r: string)
    ensures |r| <= |s| && r == s[|s| - |r|..]
    ensures |r| > 0 ==> !IsSpace(r[0])
    ensures forall i :: 0 <= i < |s| - |r| ==> IsSpace(s[i])
  {
    if |s| > 0 && IsSpace(s[0]) then TrimStart(s[1..]) else s
  }

  function TrimEnd(s: string): (r: string)
    ensures |r| <= |s| && r == s[..|r|]
    ensures |r| > 0 ==> !IsSpace(r[|r| - 1])
    ensures forall i :: |r| <= i < |s| ==> IsSpace(s[i])
  {
    if |s| > 0 && IsSpace(s[|s| - 1]) then TrimEnd(s[..|s| - 1]) else s
  }

  /** `str.strip()`: the longest infix with no surrounding whitespace. */
  function Strip(s: string): (r: string)
    ensures |r| > 0 ==> !IsSpace(r[0]) && !IsSpace(r[|r| - 1])
    ensures |r| <= |s|
  {
    TrimEnd(TrimStart(s))
  }

  /** Every character `strip()` keeps comes from its input. */
  lemma StripCharsFrom(s: string)
    ensures CharsFrom(Strip(s), s)
  {
    var k := StripSlice(s);
    CharsFromSlice(s, k, k + |Strip(s)|);
  }

  /** `strip()` removes whitespace only from the two ends. */
  lemma StripInfix(s: string)
    ensures |s| - |TrimStart(s)| + |Strip(s)| <= |s|
    ensures Strip(s) == s[|s| - |TrimStart(s)|..|s| - |TrimStart(s)| + |Strip(s)|]
  {
  }

  /** Where the infix `strip()` keeps starts. */
  lemma StripSlice(s: string) returns (k: nat)
    ensures k + |Strip(s)| <= |s| && Strip(s) == s[k..k + |Strip(s)|]
  {
    StripInfix(s);
    k := |s| - |TrimStart(s)|;
  }

  lemma StripNoPair(s: string, x: char, y: char)
    requires NoPair(s, x, y)
    ensures NoPair(Strip(s), x, y)
  {
    var k := StripSlice(s);
    NoPairSlice(s, k, k + |Strip(s)|, x, y);
  }

  lemma StripIdentity(s: string)
    requires |s| > 0 ==> !IsSpace(s[0]) && !IsSpace(s[|s| - 1])
    ensures Strip(s) == s
  {
  }

  // ---------------------------------------------------------------------
  // split() and join()

  /** The maximal run of non-whitespace characters at the front of `s`. */
  function TakeWord(s: string): (w: string)
    ensures |w| <= |s| && w == s[..|w|]
    ensures NoSpace(w)
    ensures |w| < |s| ==> IsSpace(s[|w|])
    ensures |s| > 0 && !IsSpace(s[0]) ==> |w| > 0
  {
    if |s| == 0 || IsSpace(s[0]) then "" else [s[0]] + TakeWord(s[1..])
  }

  /** `str.split()` with no separator: the maximal whitespace-free runs. */
  function Split(s: string): (ws: seq<string>)
    ensures forall k :: 0 <= k < |ws| ==> |ws[k]| > 0 && NoSpace(ws[k])
    decreases |s|
  {
    if |s| == 0 then []
    else if IsSpace(s[0]) then Split(s[1..])
    else
      var w := TakeWord(s);
      [w] + Split(s[|w|..])
  }

  lemma CharsFromSlice(s: string, i: nat, j: nat)
    requires i <= j <= |s|
    ensures CharsFrom(s[i..j], s)
  {
    forall k | 0 <= k < j - i ensures s[i..j][k] in s {
      assert s[i..j][k] == s[i + k];
    }
  }

  lemma {:induction false} SplitCharsFrom(s: string)
    ensures forall k :: 0 <= k < |Split(s)| ==> CharsFrom(Split(s)[k], s)
    decreases |s|
  {
    if |s| > 0 {
      var n := if IsSpace(s[0]) then 1 else |TakeWord(s)|;
      SplitCharsFrom(s[n..]);
      CharsFromSlice(s, n, |s|);
      CharsFromSlice(s, 0, n);
      var ws := Split(s);
      forall k | 0 <= k < |ws| ensures CharsFrom(ws[k], s) {
        if IsSpace(s[0]) {
          CharsFromTrans(ws[k], s[n..], s);
        } else if k > 0 {
          assert ws[k] == Split(s[n..])[k - 1];
          CharsFromTrans(ws[k], s[n..], s);
        }
      }
    }
  }

  /** `sep.join(ws)`. */
  function Join(ws: seq<string>, sep: string): string {
    if |ws| == 0 then ""
    else if |ws| == 1 then ws[0]
    else ws[0] + sep + Join(ws[1..], sep)
  }

  lemma {:induction false} JoinSingleSpaced(ws: seq<string>)
    requires forall k :: 0 <= k < |ws| ==> |ws[k]| > 0 && NoSpace(ws[k])
    ensures SingleSpaced(Join(ws, " "))
    ensures |ws| > 0 ==> |Join(ws, " ")| > 0 && Join(ws, " ")[0] == ws[0][0]
    decreases |ws|
  {
    if |ws| >= 2 {
      JoinSingleSpaced(ws[1..]);
      var j := Join(ws[1..], " ");
      var r := ws[0] + " " + j;
      forall i | 0 <= i < |r| && IsSpace(r[i])
        ensures r[i] == ' ' && 0 < i < |r| - 1 && !IsSpace(r[i + 1])
      {
        if i == |ws[0]| {
          assert r[i + 1] == j[0];
        } else {
          assert r[i] == j[i - |ws[0]| - 1];
          if i + 1 < |r| {
            assert r[i + 1] == j[i + 1 - |ws[0]| - 1];
          }
        }
      }
    }
  }

  lemma {:induction false} JoinCharsFrom(ws: seq<string>, s: string)
    requires forall k :: 0 <= k < |ws| ==> CharsFrom(ws[k], s)
    ensures CharsFrom(Join(ws, " "), s)
    decreases |ws|
  {
    if |ws| >= 2 {
      JoinCharsFrom(ws[1..], s);
      var j := Join(ws[1..], " ");
      var r := ws[0] + " " + j;
      forall i | 0 <= i < |r| ensures r[i] == ' ' || r[i] in s {
        if i < |ws[0]| {
          assert r[i] == ws[0][i];
        } else if i > |ws[0]| {
          assert r[i] == j[i - |ws[0]| - 1];
        }
      }
    }
  }

  /** `" ".join(s.split())`: runs of whitespace become one space and the
      ends are trimmed. */
  function Collapse(s: string): (r: string)
    ensures SingleSpaced(r)
    ensures CharsFrom(r, s)
  {
    var ws := Split(s);
    JoinSingleSpaced(ws);
    SplitCharsFrom(s);
    JoinCharsFrom(ws, s);
    Join(ws, " ")
  }

  lemma {:induction false} TakeWordWhole(s: string)
    requires NoSpace(s)
    ensures TakeWord(s) == s
    decreases |s|
  {
    if |s| > 0 {
      TakeWordWhole(s[1..]);
    }
  }

  lemma {:induction false} TakeWordPrefix(a: string, b: string)
    requires NoSpace(a)
    requires |b| > 0 && IsSpace(b[0])
    ensures TakeWord(a + b) == a
    decreases |a|
  {
    if |a| == 0 {
      assert a + b == b;
    } else {
      assert (a + b)[1..] == a[1..] + b;
      TakeWordPrefix(a[1..], b);
    }
  }

  lemma SplitWord(s: string)
    requires |s| > 0 && NoSpace(s)
    ensures Split(s) == [s]
  {
    TakeWordWhole(s);
    assert s[|s|..] == [];
  }

  /** A single-spaced string is its own collapse. */
  lemma {:induction false} CollapseIdentity(s: string)
    requires SingleSpaced(s)
    ensures Collapse(s) == s
    decreases |s|
  {
    if |s| == 0 {
    } else if NoSpace(s) {
      SplitWord(s);
    } else {
      var k := FirstSpace(s);
      var w := s[..k];
      var rest := s[k + 1..];
      assert s == w + [s[k]] + rest;
      SplitAtSpace(w, s[k], rest);
      SplitWord(w);
      SingleSpacedSuffix(s, k + 1);
      CollapseIdentity(rest);
      var ws := Split(rest);
      assert |ws| > 0;
      assert Split(s) == [w] + ws;
      assert ([w] + ws)[1..] == ws;
    }
  }

  lemma SingleSpacedSuffix(s: string, n: nat)
    requires SingleSpaced(s) && n <= |s|
    requires n > 0 ==> IsSpace(s[n - 1])
    ensures SingleSpaced(s[n..])
    ensures n < |s| ==> !IsSpace(s[n])
  {
    var rest := s[n..];
    forall j | 0 <= j < |rest| && IsSpace(rest[j])
      ensures rest[j] == ' ' && 0 < j < |rest| - 1 && !IsSpace(rest[j + 1])
    {
      assert rest[j] == s[n + j];
      if j + 1 < |rest| {
        assert rest[j + 1] == s[n + j + 1];
      }
    }
  }

  /** Two single-spaced pieces joined by one space are single-spaced. */
  lemma SingleSpacedGlue(a: string, b: string)
    requires SingleSpaced(a) && SingleSpaced(b) && |a| > 0 && |b| > 0
    ensures SingleSpaced(a + " " + b)
  {
    var s := a + " " + b;
    assert !IsSpace(a[|a| - 1]) && !IsSpace(b[0]);
    forall i | 0 <= i < |s| && IsSpace(s[i])
      ensures s[i] == ' ' && 0 < i < |s| - 1 && !IsSpace(s[i + 1])
    {
      if i < |a| {
        assert s[i] == a[i];
        assert s[i + 1] == a[i + 1];
      } else if i == |a| {
        assert s[i + 1] == b[0];
      } else {
        assert s[i] == b[i - |a| - 1];
        if i + 1 < |s| {
          assert s[i + 1] == b[i - |a|];
        }
      }
    }
  }

  /** Index of the first whitespace character of `s`. */
  function FirstSpace(s: string): (k: nat)
    requires exists i :: 0 <= i < |s| && IsSpace(s[i])
    ensures k < |s| && IsSpace(s[k])
    ensures forall j :: 0 <= j < k ==> !IsSpace(s[j])
  {
    if IsSpace(s[0]) then 0
    else
      assert exists i :: 0 <= i < |s[1..]| && IsSpace(s[1..][i]) by {
        var i :| 0 <= i < |s| && IsSpace(s[i]);
        assert i > 0 && s[1..][i - 1] == s[i];
      }
      1 + FirstSpace(s[1..])
  }

  lemma {:induction false} TakeWordAppend(a: string, b: string)
    requires |TakeWord(a)| < |a|
    ensures TakeWord(a + b) == TakeWord(a)
    decreases |a|
  {
    if |a| > 0 && !IsSpace(a[0]) {
      assert (a + b)[1..] == a[1..] + b;
      TakeWordAppend(a[1..], b);
    }
  }

  lemma SplitSpaceFront(c: char, b: string)
    requires IsSpace(c)
    ensures Split([c] + b) == Split(b)
  {
    assert ([c] + b)[1..] == b;
  }

  lemma SplitWordFront(s: string)
    requires |s| > 0 && !IsSpace(s[0])
    ensures Split(s) == [TakeWord(s)] + Split(s[|TakeWord(s)|..])
  {
  }

  /** Splitting at a whitespace character splits the word list cleanly. */
  lemma {:induction false} SplitAtSpace(a: string, c: char, b: string)
    requires IsSpace(c)
    ensures Split(a + [c] + b) == Split(a) + Split(b)
    decreases |a|
  {
    var s := a + [c] + b;
    if |a| == 0 {
      assert s == [c] + b;
      SplitSpaceFront(c, b);
    } else if IsSpace(a[0]) {
      assert s[1..] == a[1..] + [c] + b;
      SplitAtSpace(a[1..], c, b);
    } else if |TakeWord(a)| == |a| {
      SplitAtSpaceWhole(a, c, b);
    } else {
      SplitAtSpaceInner(a, c, b);
    }
  }

  lemma SplitAtSpaceWhole(a: string, c: char, b: string)
    requires IsSpace(c) && |a| > 0 && !IsSpace(a[0]) && |TakeWord(a)| == |a|
    ensures Split(a + [c] + b) == Split(a) + Split(b)
  {
    var s := a + [c] + b;
    assert a[..|a|] == a;
    TakeWordPrefix(a, [c] + b);
    assert s == a + ([c] + b);
    SplitWordFront(s);
    assert s[|a|..] == [c] + b;
    SplitSpaceFront(c, b);
    SplitWordFront(a);
    assert a[|a|..] == [];
    assert Split([]) == [];
    assert Split(a) == [a];
    assert Split(s) == [a] + Split(b);
  }

  lemma {:induction false} SplitAtSpaceInner(a: string, c: char, b: string)
    requires IsSpace(c) && |a| > 0 && !IsSpace(a[0]) && |TakeWord(a)| < |a|
    ensures Split(a + [c] + b) == Split(a) + Split(b)
    decreases |a|, 0
  {
    var w := TakeWord(a);
    InnerFront(a, c, b);
    SplitWordFront(a);
    calc {
      Split(a + [c] + b);
      [w] + Split(a[|w|..] + [c] + b);
      { SplitAtSpace(a[|w|..], c, b); }
      [w] + (Split(a[|w|..]) + Split(b));
      ([w] + Split(a[|w|..])) + Split(b);
      Split(a) + Split(b);
    }
  }

  /** The first word of `a` is also the first word of `a + [c] + b` when
      `a` holds more than that word. */
  lemma InnerFront(a: string, c: char, b: string)
    requires |a| > 0 && !IsSpace(a[0]) && |TakeWord(a)| < |a|
    ensures Split(a + [c] + b) == [TakeWord(a)] + Split(a[|TakeWord(a)|..] + [c] + b)
  {
    var s := a + [c] + b;
    var w := TakeWord(a);
    TakeWordAppend(a, [c] + b);
    assert s == a + ([c] + b);
    SplitWordFront(s);
    assert s[|w|..] == a[|w|..] + [c] + b;
  }

  /** Collapsing ignores how many whitespace characters separate two parts. */
  lemma CollapseDoubleSpace(a: string, b: string)
    ensures Collapse(a + "  " + b) == Collapse(a + " " + b)
  {
    SplitAtSpace(a, ' ', " " + b);
    assert a + "  " + b == a + [' '] + (" " + b);
    SplitAtSpace(a, ' ', b);
    assert a + " " + b == a + [' '] + b;
    assert Split(" " + b) == Split(b) by {
      assert TrimStart(" " + b) == TrimStart(b) by {
        assert (" " + b)[1..] == b;
      }
    }
  }

  // ---------------------------------------------------------------------
  // replace()

  predicate MatchAt(s: string, i: int, pat: string) {
    0 <= i && i + |pat| <= |s| && s[i..i + |pat|] == pat
  }

  /** `s.replace(pat, rep)`: non-overlapping occurrences, left to right. */
  function Replace(s: string, pat: string, rep: string): (r: string)
    requires |pat| > 0
    ensures |s| < |pat| ==> r == s
    decreases |s|
  {
    if |s| < |pat| then s
    else if s[..|pat|] == pat then rep + Replace(s[|pat|..], pat, rep)
    else [s[0]] + Replace(s[1..], pat, rep)
  }

  /** Every character of the result comes from the text or from the
      replacement. */
  lemma {:induction false} ReplaceFrom(s: string, pat: string, rep: string)
    requires |pat| > 0
    ensures forall i :: 0 <= i < |Replace(s, pat, rep)| ==>
      Replace(s, pat, rep)[i] in s || Replace(s, pat, rep)[i] in rep
    decreases |s|
  {
    if |s| >= |pat| {
      var m := s[..|pat|] == pat;
      var n := if m then |pat| else 1;
      var h := if m then rep else [s[0]];
      var t := Replace(s[n..], pat, rep);
      ReplaceFrom(s[n..], pat, rep);
      var r := Replace(s, pat, rep);
      assert r == h + t;
      forall i | 0 <= i < |r| ensures r[i] in s || r[i] in rep {
        if i < |h| {
          assert r[i] == h[i];
          if !m {
            assert r[i] == s[0];
          } else {
            assert r[i] == rep[i];
          }
        } else {
          assert r[i] == t[i - |h|];
          if t[i - |h|] in s[n..] {
            var j :| 0 <= j < |s[n..]| && s[n..][j] == t[i - |h|];
            assert s[n + j] == r[i];
          }
        }
      }
    }
  }

  lemma ReplaceCharsFrom(s: string, pat: string, rep: string)
    requires |pat| > 0
    requires forall i :: 0 <= i < |rep| ==> rep[i] == ' '
    ensures CharsFrom(Replace(s, pat, rep), s)
  {
    var r := Replace(s, pat, rep);
    ReplaceFrom(s, pat, rep);
    forall i | 0 <= i < |r| ensures r[i] == ' ' || r[i] in s {
      if r[i] in rep {
        var j :| 0 <= j < |rep| && rep[j] == r[i];
      }
    }
  }

  /** When the first two characters of the pattern never occur adjacently,
      `replace` changes nothing. */
  lemma {:induction false} ReplaceAbsent(s: string, pat: string, rep: string)
    requires |pat| >= 2
    requires NoPair(s, pat[0], pat[1])
    ensures Replace(s, pat, rep) == s
    decreases |s|
  {
    if |s| >= |pat| {
      assert s[..|pat|] != pat by {
        assert !(s[0] == pat[0] && s[1] == pat[1]);
      }
      ReplaceAbsent(s[1..], pat, rep);
    }
  }

  /** `replace` copies a prefix containing no occurrence of a one-character
      pattern. */
  lemma {:induction false} ReplaceAppendOne(a: string, b: string, pat: string, rep: string)
    requires |pat| == 1 && pat[0] !in a
    ensures Replace(a + b, pat, rep) == a + Replace(b, pat, rep)
    decreases |a|
  {
    if |a| == 0 {
      assert a + b == b;
    } else {
      assert (a + b)[..1] != pat by {
        assert (a + b)[0] == a[0];
      }
      assert (a + b)[1..] == a[1..] + b;
      ReplaceAppendOne(a[1..], b, pat, rep);
    }
  }

  /** `replace` copies a prefix in which no match of a longer pattern can
      start: its first two characters never occur adjacently there. */
  lemma {:induction false} ReplaceAppend(a: string, b: string, pat: string, rep: string)
    requires |pat| >= 2 && NoPair(a, pat[0], pat[1])
    requires |a| > 0 && |b| > 0 ==> !(a[|a| - 1] == pat[0] && b[0] == pat[1])
    ensures Replace(a + b, pat, rep) == a + Replace(b, pat, rep)
    decreases |a|
  {
    var s := a + b;
    if |a| == 0 {
      assert s == b;
    } else if |s| >= |pat| {
      NoMatchAtFront(a, b, pat);
      assert Replace(s, pat, rep) == [a[0]] + Replace(a[1..] + b, pat, rep) by {
        assert s[0] == a[0] && s[1..] == a[1..] + b;
      }
      NoPairSuffix(a, pat[0], pat[1]);
      ReplaceAppend(a[1..], b, pat, rep);
      assert [a[0]] + (a[1..] + Replace(b, pat, rep)) == a + Replace(b, pat, rep) by {
        assert a == [a[0]] + a[1..];
      }
    } else {
      assert Replace(s, pat, rep) == s;
      assert Replace(b, pat, rep) == b;
    }
  }

  lemma NoPairSuffix(s: string, x: char, y: char)
    requires |s| > 0 && NoPair(s, x, y)
    ensures NoPair(s[1..], x, y)
  {
    NoPairSlice(s, 1, |s|, x, y);
  }

  /** `replace` on text holding exactly one occurrence of a pattern. */
  lemma ReplaceMiddle(a: string, pat: string, b: string, rep: string)
    requires |pat| >= 2 && NoPair(a, pat[0], pat[1]) && NoPair(b, pat[0], pat[1])
    requires |a| > 0 ==> !(a[|a| - 1] == pat[0] && pat[0] == pat[1])
    ensures Replace(a + pat + b, pat, rep) == a + rep + b
  {
    ReplaceAppend(a, pat + b, pat, rep);
    assert (pat + b)[..|pat|] == pat;
    ReplaceHere(pat + b, pat, rep);
    assert (pat + b)[|pat|..] == b;
    ReplaceAbsent(b, pat, rep);
    assert a + pat + b == a + (pat + b);
  }

  lemma NoMatchAtFront(a: string, b: string, pat: string)
    requires |pat| >= 2 && |a| > 0 && |a + b| >= |pat| && NoPair(a, pat[0], pat[1])
    requires |b| > 0 ==> !(a[|a| - 1] == pat[0] && b[0] == pat[1])
    ensures (a + b)[..|pat|] != pat
  {
    var s := a + b;
    assert s[0] == a[0];
    if |a| > 1 {
      assert s[1] == a[1];
      assert !(a[0] == pat[0] && a[1] == pat[1]);
    } else {
      assert s[1] == b[0];
    }
    assert s[..|pat|][0] == s[0] && s[..|pat|][1] == s[1];
  }

  lemma NoPairSlice(s: string, i: nat, j: nat, x: char, y: char)
    requires i <= j <= |s| && NoPair(s, x, y)
    ensures NoPair(s[i..j], x, y)
  {
    forall k | 0 <= k < j - i - 1 ensures !(s[i..j][k] == x && s[i..j][k + 1] == y) {
      assert s[i..j][k] == s[i + k] && s[i..j][k + 1] == s[i + k + 1];
    }
  }

  /** Whether two adjacent-pair conditions glue at a boundary. */
  lemma NoPairAppend(a: string, b: string, x: char, y: char)
    requires NoPair(a, x, y) && NoPair(b, x, y)
    requires |a| > 0 && |b| > 0 ==> !(a[|a| - 1] == x && b[0] == y)
    ensures NoPair(a + b, x, y)
  {
    var s := a + b;
    forall i | 0 <= i < |s| - 1 ensures !(s[i] == x && s[i + 1] == y) {
      if i + 1 < |a| {
        assert s[i] == a[i] && s[i + 1] == a[i + 1];
      } else if i + 1 == |a| {
        assert s[i] == a[i] && s[i + 1] == b[0];
      } else {
        assert s[i] == b[i - |a|] && s[i + 1] == b[i + 1 - |a|];
      }
    }
  }

  /** A one-character pattern that the replacement does not contain is gone
      after `replace`. */
  lemma {:induction false} ReplaceRemovesChar(s: string, pat: string, rep: string)
    requires |pat| == 1 && pat[0] !in rep
    ensures pat[0] !in Replace(s, pat, rep)
    decreases |s|
  {
    if |s| >= 1 {
      if s[..1] == pat {
        ReplaceRemovesChar(s[1..], pat, rep);
      } else {
        assert s[0] != pat[0] by {
          assert s[..1][0] == s[0];
        }
        ReplaceRemovesChar(s[1..], pat, rep);
      }
    }
  }

  lemma ReplaceNoUpper(s: string, pat: string, rep: string)
    requires |pat| > 0 && NoUpper(s) && NoUpper(rep)
    ensures NoUpper(Replace(s, pat, rep))
  {
    var r := Replace(s, pat, rep);
    ReplaceFrom(s, pat, rep);
    forall i | 0 <= i < |r| ensures !IsUpper(r[i]) {
      if r[i] in s {
        var j :| 0 <= j < |s| && s[j] == r[i];
      } else {
        var j :| 0 <= j < |rep| && rep[j] == r[i];
      }
    }
  }

  /** `replace` substitutes an occurrence at the front. */
  lemma ReplaceHere(s: string, pat: string, rep: string)
    requires |pat| > 0 && |s| >= |pat| && s[..|pat|] == pat
    ensures Replace(s, pat, rep) == rep + Replace(s[|pat|..], pat, rep)
  {
  }

  /** `replace` of one character by one character rewrites exactly the
      positions holding that character. */
  lemma {:induction false} ReplaceCharPointwise(s: string, a: char, b: char)
    ensures |Replace(s, [a], [b])| == |s|
    ensures forall i :: 0 <= i < |s| ==> Replace(s, [a], [b])[i] == if s[i] == a then b else s[i]
    decreases |s|
  {
    if |s| > 0 {
      ReplaceCharPointwise(s[1..], a, b);
      var t := Replace(s[1..], [a], [b]);
      if s[..1] == [a] {
        assert s[0] == a;
        assert Replace(s, [a], [b]) == [b] + t;
      } else {
        assert s[0] != a by {
          assert s[..1] == [s[0]];
        }
        assert Replace(s, [a], [b]) == [s[0]] + t;
      }
    }
  }

  // ---------------------------------------------------------------------
  // re.sub(r"[^\w]+", " ", s)

  /** The word characters of `s`, in order. */
  function WordChars(s: string): (r: string)
    ensures |r| <= |s|
    ensures forall i :: 0 <= i < |r| ==> IsWordChar(r[i])
  {
    if |s| == 0 then "" else (if IsWordChar(s[0]) then [s[0]] else "") + WordChars(s[1..])
  }

  lemma {:induction false} WordCharsAppend(a: string, b: string)
    ensures WordChars(a + b) == WordChars(a) + WordChars(b)
    decreases |a|
  {
    if |a| > 0 {
      assert (a + b)[1..] == a[1..] + b;
      WordCharsAppend(a[1..], b);
    } else {
      assert a + b == b;
    }
  }

  lemma {:induction false} WordCharsNone(s: string)
    requires forall i :: 0 <= i < |s| ==> !IsWordChar(s[i])
    ensures WordChars(s) == ""
    decreases |s|
  {
    if |s| > 0 {
      WordCharsNone(s[1..]);
    }
  }

  /** `strip()` removes only whitespace, which holds no word character. */
  lemma StripWordChars(s: string)
    ensures WordChars(Strip(s)) == WordChars(s)
  {
    TrimStartWordChars(s);
    TrimEndWordChars(TrimStart(s));
  }

  lemma TrimStartWordChars(s: string)
    ensures WordChars(TrimStart(s)) == WordChars(s)
  {
    var k := TrimStartSplit(s);
    var p, t := s[..k], TrimStart(s);
    SpacesNoWord(p);
    WordCharsNone(p);
    WordCharsAppend(p, t);
    calc {
      WordChars(s);
      WordChars(p + t);
      WordChars(p) + WordChars(t);
      "" + WordChars(t);
      WordChars(t);
    }
  }

  lemma SpacesNoWord(s: string)
    requires forall i :: 0 <= i < |s| ==> IsSpace(s[i])
    ensures forall i :: 0 <= i < |s| ==> !IsWordChar(s[i])
  {
  }

  /** What `TrimStart` drops is a prefix of whitespace. */
  lemma TrimStartSplit(s: string) returns (k: nat)
    ensures k <= |s| && s == s[..k] + TrimStart(s)
    ensures forall i :: 0 <= i < k ==> IsSpace(s[..k][i])
  {
    var t := TrimStart(s);
    k := |s| - |t|;
    assert s == s[..k] + t;
  }

  lemma TrimEndWordChars(t: string)
    ensures WordChars(TrimEnd(t)) == WordChars(t)
  {
    var r := TrimEnd(t);
    assert t == r + t[|r|..];
    assert forall i :: 0 <= i < |t| - |r| ==> IsSpace(t[|r|..][i]);
    WordCharsNone(t[|r|..]);
    WordCharsAppend(r, t[|r|..]);
  }

  lemma LowerCharWord(c: char)
    ensures IsWordChar(LowerChar(c)) == IsWordChar(c)
    ensures LowerChar(c) == ' ' <==> c == ' '
  {
  }

  lemma {:induction false} WordCharsLower(s: string)
    ensures WordChars(Lower(s)) == Lower(WordChars(s))
    decreases |s|
  {
    if |s| > 0 {
      LowerCharWord(s[0]);
      assert Lower(s)[1..] == Lower(s[1..]);
      WordCharsLower(s[1..]);
      var w := WordChars(s[1..]);
      if IsWordChar(s[0]) {
        assert Lower([s[0]] + w) == [LowerChar(s[0])] + Lower(w);
      }
    }
  }

  /** The length of the maximal run of non-word characters at the front. */
  function NonWordRun(s: string): (n: nat)
    ensures n <= |s|
    ensures n < |s| ==> IsWordChar(s[n])
    ensures forall i :: 0 <= i < n ==> !IsWordChar(s[i])
  {
    if |s| > 0 && !IsWordChar(s[0]) then
      var n := NonWordRun(s[1..]);
      assert forall i :: 1 <= i < n + 1 ==> s[i] == s[1..][i - 1];
      n + 1
    else 0
  }

  /** `re.sub(r"[^\w]+", " ", s)`: every maximal run of non-word characters
      becomes one space. */
  function SubNonWord(s: string): (r: string)
    ensures forall i :: 0 <= i < |r| ==> IsWordChar(r[i]) || r[i] == ' '
    ensures NoPair(r, ' ', ' ')
    ensures |s| > 0 ==> |r| > 0 && (IsWordChar(r[0]) <==> IsWordChar(s[0]))
    ensures NoUpper(s) ==> NoUpper(r)
    decreases |s|
  {
    if |s| == 0 then ""
    else if IsWordChar(s[0]) then [s[0]] + SubNonWord(s[1..])
    else
      " " + SubNonWord(s[NonWordRun(s)..])
  }

  /** The substitution keeps every word character, in order. */
  lemma {:induction false} SubNonWordKeepsWords(s: string)
    ensures WordChars(SubNonWord(s)) == WordChars(s)
    decreases |s|
  {
    if |s| > 0 {
      if IsWordChar(s[0]) {
        SubNonWordKeepsWords(s[1..]);
        assert ([s[0]] + SubNonWord(s[1..]))[1..] == SubNonWord(s[1..]);
      } else {
        var n := NonWordRun(s);
        var d := s[n..];
        SubNonWordKeepsWords(d);
        assert (" " + SubNonWord(d))[1..] == SubNonWord(d);
        assert s == s[..n] + d;
        assert forall i :: 0 <= i < n ==> !IsWordChar(s[..n][i]);
        WordCharsNone(s[..n]);
        WordCharsAppend(s[..n], d);
      }
    }
  }

  /** A leading run of word characters is copied. */
  lemma {:induction false} SubNonWordWordPrefix(a: string, b: string)
    requires forall i :: 0 <= i < |a| ==> IsWordChar(a[i])
    ensures SubNonWord(a + b) == a + SubNonWord(b)
    decreases |a|
  {
    if |a| == 0 {
      assert a + b == b;
    } else {
      assert (a + b)[1..] == a[1..] + b;
      SubNonWordWordPrefix(a[1..], b);
    }
  }

  /** A leading run of non-word characters becomes one space. */
  lemma SubNonWordRun(m: string, b: string)
    requires |m| > 0 && forall i :: 0 <= i < |m| ==> !IsWordChar(m[i])
    requires |b| > 0 ==> IsWordChar(b[0])
    ensures SubNonWord(m + b) == " " + SubNonWord(b)
  {
    var s := m + b;
    assert s[0] == m[0];
    var n := NonWordRun(s);
    assert forall i :: 0 <= i < |m| ==> s[i] == m[i];
    assert |b| > 0 ==> s[|m|] == b[0];
    assert n == |m|;
    assert s[n..] == b;
  }

  /** Text of word characters separated by single spaces is left alone. */
  lemma {:induction false} SubNonWordIdentity(s: string)
    requires forall i :: 0 <= i < |s| ==> IsWordChar(s[i]) || s[i] == ' '
    requires NoPair(s, ' ', ' ')
    ensures SubNonWord(s) == s
    decreases |s|
  {
    if |s| > 0 {
      if IsWordChar(s[0]) {
        SubNonWordIdentity(s[1..]);
      } else {
        if |s| > 1 {
          assert s[1] != ' ';
        }
        assert NonWordRun(s) == 1;
        SubNonWordIdentity(s[1..]);
      }
    }
  }

  // ---------------------------------------------------------------------
  // zfill() and digit strings

  function Zeros(n: nat): (z: string)
    ensures |z| == n
    ensures forall i :: 0 <= i < n ==> z[i] == '0'
  {
    seq(n, _ => '0')
  }

  /** `s.zfill(width)`: left-pads with '0' to `width`, keeping a leading
      sign character in front of the padding. */
  function ZFill(s: string, width: int): (r: string)
    ensures |r| == if |s| >= width then |s| else width
    ensures |s| >= width ==> r == s
    ensures IsDigits(s) ==> IsDigits(r)
    ensures IsDigits(s) ==> r == Zeros(|r| - |s|) + s
  {
    if |s| >= width then s
    else if |s| > 0 && (s[0] == '+' || s[0] == '-') then [s[0]] + Zeros(width - |s|) + s[1..]
    else Zeros(width - |s|) + s
  }

  function DigitVal(c: char): nat
    requires IsDigit(c)
  {
    c as int - '0' as int
  }

  /** The number a digit string denotes. */
  function DigitsValue(s: string): nat
    requires forall i :: 0 <= i < |s| ==> IsDigit(s[i])
  {
    if |s| == 0 then 0 else 10 * DigitsValue(s[..|s| - 1]) + DigitVal(s[|s| - 1])
  }

  lemma {:induction false} ZerosPrefixValue(n: nat, s: string)
    requires forall i :: 0 <= i < |s| ==> IsDigit(s[i])
    ensures forall i :: 0 <= i < |Zeros(n) + s| ==> IsDigit((Zeros(n) + s)[i])
    ensures DigitsValue(Zeros(n) + s) == DigitsValue(s)
    decreases |s|
  {
    var z := Zeros(n) + s;
    if |s| == 0 {
      assert z == Zeros(n);
      ZerosValue(n);
    } else {
      assert z[..|z| - 1] == Zeros(n) + s[..|s| - 1];
      ZerosPrefixValue(n, s[..|s| - 1]);
    }
  }

  lemma {:induction false} ZerosValue(n: nat)
    ensures DigitsValue(Zeros(n)) == 0
    decreases n
  {
    if n > 0 {
      assert Zeros(n)[..n - 1] == Zeros(n - 1);
      ZerosValue(n - 1);
    }
  }

  /** Zero-padding a digit string keeps its numeric value and yields exactly
      `width` digits when the string is not already longer. */
  lemma ZFillDigits(s: string, width: int)
    requires IsDigits(s)
    ensures IsDigits(ZFill(s, width))
    ensures |ZFill(s, width)| == if |s| >= width then |s| else width
    ensures DigitsValue(ZFill(s, width)) == DigitsValue(s)
    ensures ZFill(s, width)[|ZFill(s, width)| - |s|..] == s
  {
    var r := ZFill(s, width);
    ZerosPrefixValue(|r| - |s|, s);
  }

  // ---------------------------------------------------------------------
  // str(int)

  function DigitChar(d: nat): (c: char)
    requires d < 10
    ensures IsDigit(c) && DigitVal(c) == d
  {
    ('0' as int + d) as char
  }

  /** `str(n)` for a natural number: decimal digits, no leading zero. */
  function NatToString(n: nat): (s: string)
    ensures IsDigits(s)
    ensures DigitsValue(s) == n
    ensures |s| > 1 ==> s[0] != '0'
    decreases n
  {
    if n < 10 then [DigitChar(n)]
    else
      var p := NatToString(n / 10);
      var s := p + [DigitChar(n % 10)];
      assert s[..|s| - 1] == p;
      s
  }

  /** `str(i)` for any integer. */
  function IntToString(i: int): (s: string)
    ensures i >= 0 ==> s == NatToString(i)
    ensures i < 0 ==> |s| >= 2 && s[0] == '-' && s[1..] == NatToString(-i)
  {
    if i >= 0 then NatToString(i) else "-" + NatToString(-i)
  }

  // ---------------------------------------------------------------------
  // Small helpers

  /** `s[:n]` for a non-negative bound. */
  function Take(s: string, n: nat): (r: string)
    ensures |r| == if |s| <= n then |s| else n
    ensures r == s[..|r|]
  {
    if |s| <= n then s else s[..n]
  }

  predicate StartsWith(s: string, p: string) {
    |p| <= |s| && s[..|p|] == p
  }

  predicate Contains(s: string, c: char) {
    c in s
  }

  /** `s.split(c)[0]`: the text before the first `c` (all of `s` if none). */
  function BeforeChar(s: string, c: char): (r: string)
    ensures |r| <= |s| && r == s[..|r|]
    ensures c !in r
    ensures |r| < |s| ==> s[|r|] == c
  {
    if |s| == 0 || s[0] == c then "" else [s[0]] + BeforeChar(s[1..], c)
  }
}

=== FILE: urls.dfy ===
/**
  URLs and cache keys of the HTTP clients: `_build_url` and
  `_build_cache_key` of src/extract/http.py and the cache key of
  `get_data` in src/extract/apis/base_api_client.py, with Python's
  `sorted`, `urlencode` and `quote_plus` written out.
 */
module Urls {
  import opened Wrappers
  import opened Codecs
  import opened Text

  /** Query parameters: the items of a dict, keys distinct. */
  type Params = seq<(string, string)>

  predicate DistinctKeys(ps: Params) {
    forall i, j :: 0 <= i < j < |ps| ==> ps[i].0 != ps[j].0
  }

  // ---------------------------------------------------------------------
  // String order

  /** Python's `<` on `str`: code point by code point, a proper prefix
      first. */
  predicate StrLess(a: string, b: string)
    decreases |a|
  {
    if |a| == 0 then |b| > 0
    else if |b| == 0 then false
    else if a[0] == b[0] then StrLess(a[1..], b[1..])
    else a[0] < b[0]
  }

  lemma {:induction false} StrLessIrreflexive(a: string)
    ensures !StrLess(a, a)
    decreases |a|
  {
    if |a| > 0 {
      StrLessIrreflexive(a[1..]);
    }
  }

  lemma {:induction false} StrLessTransitive(a: string, b: string, c: string)
    requires StrLess(a, b) && StrLess(b, c)
    ensures StrLess(a, c)
    decreases |a|
  {
    if |a| > 0 && a[0] == b[0] && b[0] == c[0] {
      StrLessTransitive(a[1..], b[1..], c[1..]);
    }
  }

  lemma {:induction false} StrLessTotal(a: string, b: string)
    requires a != b
    ensures StrLess(a, b) || StrLess(b, a)
    decreases |a|
  {
    if |a| > 0 && |b| > 0 && a[0] == b[0] {
      assert a == [a[0]] + a[1..] && b == [b[0]] + b[1..];
      StrLessTotal(a[1..], b[1..]);
    }
  }

  lemma StrLessAsymmetric(a: string, b: string)
    requires StrLess(a, b)
    ensures !StrLess(b, a)
  {
    if StrLess(b, a) {
      StrLessTransitive(a, b, a);
      StrLessIrreflexive(a);
    }
  }

  // ---------------------------------------------------------------------
  // sorted(params.items())

  /** Keys strictly increasing. */
  predicate Sorted(ps: Params) {
    forall i, j :: 0 <= i < j < |ps| ==> StrLess(ps[i].0, ps[j].0)
  }

  function Insert(p: (string, string), ps: Params): (r: Params)
    requires Sorted(ps)
    requires forall i :: 0 <= i < |ps| ==> ps[i].0 != p.0
    ensures Sorted(r)
    ensures multiset(r) == multiset(ps) + multiset{p}
  {
    if |ps| == 0 then [p]
    else if StrLess(p.0, ps[0].0) then
      forall j | 0 < j < |ps| ensures StrLess(p.0, ps[j].0) {
        StrLessTransitive(p.0, ps[0].0, ps[j].0);
      }
      ConsSorted(p, ps);
      [p] + ps
    else
      StrLessTotal(p.0, ps[0].0);
      var rest := Insert(p, ps[1..]);
      assert multiset(ps) == multiset{ps[0]} + multiset(ps[1..]) by {
        assert ps == [ps[0]] + ps[1..];
      }
      HeadBelowRest(p, ps, rest);
      ConsSorted(ps[0], rest);
      [ps[0]] + rest
  }

  lemma ConsSorted(h: (string, string), ps: Params)
    requires Sorted(ps) && forall x :: x in ps ==> StrLess(h.0, x.0)
    ensures Sorted([h] + ps)
  {
    forall i, j | 0 <= i < j < |[h] + ps| ensures StrLess(([h] + ps)[i].0, ([h] + ps)[j].0) {
      if i > 0 {
        assert ([h] + ps)[i] == ps[i - 1];
      }
      assert ([h] + ps)[j] == ps[j - 1];
    }
  }

  /** The head of a sorted sequence lies below every key of a rearrangement
      of its tail with one larger item added. */
  lemma HeadBelowRest(p: (string, string), ps: Params, rest: Params)
    requires |ps| > 0 && Sorted(ps) && StrLess(ps[0].0, p.0)
    requires multiset(rest) == multiset(ps[1..]) + multiset{p}
    ensures forall x :: x in rest ==> StrLess(ps[0].0, x.0)
  {
    forall x | x in rest ensures StrLess(ps[0].0, x.0) {
      assert x in multiset(rest);
      if x != p {
        assert x in multiset(ps[1..]);
        var j :| 0 <= j < |ps[1..]| && ps[1..][j] == x;
        assert ps[j + 1] == x;
      }
    }
  }

  /** `sorted(params.items())`: the items in increasing key order. */
  function SortParams(ps: Params): (r: Params)
    requires DistinctKeys(ps)
    ensures Sorted(r)
    ensures multiset(r) == multiset(ps)
  {
    if |ps| == 0 then []
    else
      var rest := SortParams(ps[1..]);
      OthersDiffer(ps, rest);
      assert ps == [ps[0]] + ps[1..];
      Insert(ps[0], rest)
  }

  /** A rearrangement of the other parameters has no key equal to the
      first one's. */
  lemma OthersDiffer(ps: Params, rest: Params)
    requires |ps| > 0 && DistinctKeys(ps) && multiset(rest) == multiset(ps[1..])
    ensures forall i :: 0 <= i < |rest| ==> rest[i].0 != ps[0].0
  {
    forall i | 0 <= i < |rest| ensures rest[i].0 != ps[0].0 {
      assert rest[i] in multiset(ps[1..]);
      var j :| 0 <= j < |ps[1..]| && ps[1..][j] == rest[i];
      assert ps[j + 1] == rest[i];
    }
  }

  /** A sorted sequence is fixed by its elements. */
  lemma {:induction false} SortedUnique(a: Params, b: Params)
    requires Sorted(a) && Sorted(b) && multiset(a) == multiset(b)
    ensures a == b
    decreases |a|
  {
    if |a| > 0 {
      assert |b| == |multiset(b)| == |a|;
      SortedHeads(a, b);
      SameTails(a, b);
      SortedTail(a);
      SortedTail(b);
      SortedUnique(a[1..], b[1..]);
      assert a == [a[0]] + a[1..] && b == [b[0]] + b[1..];
    }
  }

  /** Both sorted orders start with the least element. */
  lemma SortedHeads(a: Params, b: Params)
    requires Sorted(a) && Sorted(b) && multiset(a) == multiset(b) && |a| > 0 && |b| > 0
    ensures a[0] == b[0]
  {
    assert a[0] in multiset(b) && b[0] in multiset(a);
    var j :| 0 <= j < |b| && b[j] == a[0];
    var i :| 0 <= i < |a| && a[i] == b[0];
    if i > 0 && j > 0 {
      StrLessAsymmetric(a[0].0, a[i].0);
    } else if i > 0 {
      StrLessIrreflexive(a[0].0);
    } else if j > 0 {
      StrLessIrreflexive(b[0].0);
    }
  }

  lemma SameTails<T>(a: seq<T>, b: seq<T>)
    requires |a| > 0 && |b| > 0 && a[0] == b[0] && multiset(a) == multiset(b)
    ensures multiset(a[1..]) == multiset(b[1..])
  {
    assert a == [a[0]] + a[1..] && b == [b[0]] + b[1..];
    assert multiset(a[1..]) == multiset(a) - multiset{a[0]};
    assert multiset(b[1..]) == multiset(b) - multiset{b[0]};
  }

  lemma SortedTail(a: Params)
    requires Sorted(a) && |a| > 0
    ensures Sorted(a[1..])
  {
    forall i, j | 0 <= i < j < |a[1..]| ensures StrLess(a[1..][i].0, a[1..][j].0) {
      assert a[1..][i] == a[i + 1] && a[1..][j] == a[j + 1];
    }
  }

  // ---------------------------------------------------------------------
  // quote_plus and urlencode

  /** Bytes `quote_plus` keeps: ASCII letters, digits and `_.-~`. */
  predicate Unreserved(b: byte) {
    ('A' as int <= b <= 'Z' as int) || ('a' as int <= b <= 'z' as int)
    || ('0' as int <= b <= '9' as int)
    || b == '_' as int || b == '.' as int || b == '-' as int || b == '~' as int
  }

  function HexDigit(v: int): char
    requires 0 <= v < 16
  {
    if v < 10 then ('0' as int + v) as char else ('A' as int + v - 10) as char
  }

  function HexValue(c: char): Option<int> {
    if '0' <= c <= '9' then Some(c as int - '0' as int)
    else if 'A' <= c <= 'F' then Some(c as int - 'A' as int + 10)
    else None
  }

  /** One byte as `quote_plus` writes it. */
  function QuoteByte(b: byte): (r: string)
    ensures 1 <= |r| <= 3
    ensures forall k :: 0 <= k < |r| ==> r[k] != '=' && r[k] != '&'
  {
    if Unreserved(b) then [b as char]
    else if b == 32 then "+"
    else ['%', HexDigit(b / 16), HexDigit(b % 16)]
  }

  function QuoteBytes(bs: Bytes): (r: string)
    ensures forall k :: 0 <= k < |r| ==> r[k] != '=' && r[k] != '&'
  {
    if |bs| == 0 then "" else QuoteByte(bs[0]) + QuoteBytes(bs[1..])
  }

  /** `urllib.parse.quote_plus(s)`: the UTF-8 bytes, space as `+`, every
      other reserved byte as `%XX`. */
  function QuotePlus(s: string): (r: string)
    ensures forall k :: 0 <= k < |r| ==> r[k] != '=' && r[k] != '&'
  {
    QuoteBytes(Utf8Encode(s))
  }

  /** `unquote_plus` on bytes: the reference inverse of QuoteBytes. */
  function UnquoteBytes(s: string): Option<Bytes>
    decreases |s|
  {
    if |s| == 0 then Some([])
    else if s[0] == '+' then
      match UnquoteBytes(s[1..]) case None => None case Some(r) => Some([32] + r)
    else if s[0] == '%' then
      if |s| < 3 || HexValue(s[1]).None? || HexValue(s[2]).None? then None
      else
        match UnquoteBytes(s[3..])
        case None => None
        case Some(r) => Some([HexValue(s[1]).value * 16 + HexValue(s[2]).value] + r)
    else if s[0] as int < 256 && Unreserved(s[0] as int) then
      match UnquoteBytes(s[1..]) case None => None case Some(r) => Some([s[0] as int] + r)
    else None
  }

  lemma UnquoteQuoteByte(b: byte, rest: string)
    ensures UnquoteBytes(QuoteByte(b) + rest) ==
      match UnquoteBytes(rest) case None => None case Some(r) => Some([b] + r)
  {
    var q := QuoteByte(b);
    var s := q + rest;
    if Unreserved(b) {
      assert s[1..] == rest;
    } else if b == 32 {
      assert s[1..] == rest;
    } else {
      assert s[1] == HexDigit(b / 16) && s[2] == HexDigit(b % 16);
      assert s[3..] == rest;
    }
  }

  /** Quoting loses nothing: the bytes can be read back. */
  lemma {:induction false} QuoteBytesRoundTrip(bs: Bytes)
    ensures UnquoteBytes(QuoteBytes(bs)) == Some(bs)
  {
    if |bs| > 0 {
      QuoteBytesRoundTrip(bs[1..]);
      UnquoteQuoteByte(bs[0], QuoteBytes(bs[1..]));
      assert bs == [bs[0]] + bs[1..];
    }
  }

  /** Different strings quote differently. */
  lemma QuotePlusInjective(a: string, b: string)
    requires QuotePlus(a) == QuotePlus(b)
    ensures a == b
  {
    QuoteBytesRoundTrip(Utf8Encode(a));
    QuoteBytesRoundTrip(Utf8Encode(b));
    Utf8RoundTrip(a);
    Utf8RoundTrip(b);
  }

  /** `urlencode(items)`: `key=value` pairs joined by `&`. */
  function UrlEncode(ps: Params): string {
    if |ps| == 0 then ""
    else
      var pair := QuotePlus(ps[0].0) + "=" + QuotePlus(ps[0].1);
      if |ps| == 1 then pair else pair + "&" + UrlEncode(ps[1..])
  }

  // ---------------------------------------------------------------------
  // Cache keys and URLs

  /** `HttpClient._build_cache_key`: the endpoint alone without
      parameters, else the endpoint, `?` and the sorted, encoded
      parameters. */
  function CacheKey(endpoint: string, ps: Params): (r: string)
    requires DistinctKeys(ps)
    ensures |ps| == 0 ==> r == endpoint
    ensures |ps| > 0 ==> r == endpoint + "?" + UrlEncode(SortParams(ps))
  {
    if |ps| == 0 then endpoint else endpoint + "?" + UrlEncode(SortParams(ps))
  }

  /** The key of `BaseApiClient.get_data`: always with the `?`. */
  function ApiKey(url: string, ps: Params): (r: string)
    requires DistinctKeys(ps)
    ensures |r| > |url| && r[..|url|] == url && r[|url|] == '?'
    ensures r[|url| + 1..] == UrlEncode(SortParams(ps))
  {
    url + "?" + UrlEncode(SortParams(ps))
  }

  /** The same parameters in any order give the same key. */
  lemma CacheKeyOrderFree(endpoint: string, p: Params, q: Params)
    requires DistinctKeys(p) && DistinctKeys(q) && multiset(p) == multiset(q)
    ensures CacheKey(endpoint, p) == CacheKey(endpoint, q)
    ensures ApiKey(endpoint, p) == ApiKey(endpoint, q)
  {
    SortedUnique(SortParams(p), SortParams(q));
    assert |p| == |multiset(p)| == |q|;
  }

  /** `endpoint.lstrip('/')`. */
  function LStripSlash(s: string): (r: string)
    ensures |r| <= |s| && r == s[|s| - |r|..]
    ensures |r| == 0 || r[0] != '/'
    ensures forall k :: 0 <= k < |s| - |r| ==> s[k] == '/'
  {
    if |s| > 0 && s[0] == '/' then LStripSlash(s[1..]) else s
  }

  /** `HttpClient._build_url`: an absolute http(s) endpoint as it is,
      otherwise below the base URL with one `/` between. */
  function BuildUrl(base: string, endpoint: string): (r: string)
    ensures StartsWith(endpoint, "http://") || StartsWith(endpoint, "https://") ==> r == endpoint
    ensures !(StartsWith(endpoint, "http://") || StartsWith(endpoint, "https://")) ==>
      StartsWith(r, base + "/") && (|r| == |base| + 1 || r[|base| + 1] != '/')
      && r[|base| + 1..] == LStripSlash(endpoint)
  {
    if StartsWith(endpoint, "http://") || StartsWith(endpoint, "https://") then endpoint
    else
      var r := base + "/" + LStripSlash(endpoint);
      assert r[..|base| + 1] == base + "/";
      r
  }

  /** Leading slashes do not matter for a relative endpoint. */
  lemma BuildUrlSlashes(base: string, endpoint: string)
    requires !StartsWith(endpoint, "/") && !StartsWith(endpoint, "http://") && !StartsWith(endpoint, "https://")
    ensures BuildUrl(base, "/" + endpoint) == BuildUrl(base, endpoint)
  {
    var s := "/" + endpoint;
    assert s[1..] == endpoint;
    assert !StartsWith(s, "http://") by { assert s[0] == '/'; }
    assert !StartsWith(s, "https://") by { assert s[0] == '/'; }
  }
}

=== FILE: validation.dfy ===
/**
  `validate_wide_format_input` of src/transform/validation.py: checks a
  scraped wide table before it is transformed.
 */
module Validation {
  import opened Text
  import opened Tables

  const EmptyError := "DataFrame is empty"
  const CategoryError := "'category' column not found"
  /** The null-ratio message; the percentage the source appends is not
      modelled. */
  const NullError := "DataFrame has more than 10% null values"

  /** Some column lower-cases to "category". */
  predicate HasCategory(t: Table) {
    exists k :: 0 <= k < |t.columns| && Lower(t.columns[k]) == "category"
  }

  /** The null cells of one row over `cols`. */
  function RowNulls(row: Row, cols: seq<string>): (n: nat)
    ensures n <= |cols|
    ensures n == 0 <==> forall k :: 0 <= k < |cols| && cols[k] in row ==> row[cols[k]] != Null
    ensures n == |cols| <==> forall k :: 0 <= k < |cols| ==> cols[k] in row && row[cols[k]] == Null
  {
    if |cols| == 0 then 0
    else (if cols[0] in row && row[cols[0]] == Null then 1 else 0) + RowNulls(row, cols[1..])
  }

  /** `df.isna().sum().sum()`. */
  function Nulls(rows: seq<Row>, cols: seq<string>): nat {
    if |rows| == 0 then 0 else RowNulls(rows[0], cols) + Nulls(rows[1..], cols)
  }

  /** `null_ratio > 0.10`, with the ratio taken exactly. */
  predicate TooManyNulls(t: Table)
    requires |t.rows| * |t.columns| > 0
  {
    Nulls(t.rows, t.columns) as real / (|t.rows| * |t.columns|) as real > 0.10
  }

  /** `validate_wide_format_input(df)`: an empty table fails with one
      error; otherwise a missing category column and a null ratio over ten
      per cent each add an error, in that order, and the table passes
      exactly when there is none. */
  function ValidateWideFormat(t: Table): (r: (bool, seq<string>))
    ensures r.0 <==> |r.1| == 0
    ensures IsEmpty(t) ==> r.1 == [EmptyError]
    ensures !IsEmpty(t) ==> EmptyError !in r.1
    ensures !IsEmpty(t) ==> (CategoryError in r.1 <==> !HasCategory(t))
    ensures !IsEmpty(t) ==> (NullError in r.1 <==> 10 * Nulls(t.rows, t.columns) > |t.rows| * |t.columns|)
    ensures |r.1| <= 2
    ensures forall e :: e in r.1 ==> e in [EmptyError, CategoryError, NullError]
  {
    if IsEmpty(t) then (false, [EmptyError])
    else
      var errors := (if HasCategory(t) then [] else [CategoryError]);
      PositiveCells(t);
      RatioOverTenth(Nulls(t.rows, t.columns), |t.rows| * |t.columns|);
      var errors := errors + (if TooManyNulls(t) then [NullError] else []);
      (|errors| == 0, errors)
  }

  lemma PositiveCells(t: Table)
    requires !IsEmpty(t)
    ensures |t.rows| * |t.columns| > 0
  {
  }

  /** The ratio test in integers. */
  lemma RatioOverTenth(n: nat, total: nat)
    requires total > 0
    ensures n as real / total as real > 0.10 <==> 10 * n > total
  {
    var q, nr, tr := n as real / total as real, n as real, total as real;
    assert q * tr == nr;
    if q > 0.10 {
      MulLess(0.10, q, tr);
      assert 10.0 * nr > tr;
      assert (10 * n) as real == 10.0 * nr;
    } else {
      MulAtMost(q, 0.10, tr);
      assert 10.0 * nr <= tr;
      assert (10 * n) as real == 10.0 * nr;
    }
  }

  lemma MulLess(a: real, b: real, c: real)
    requires a < b && c > 0.0
    ensures a * c < b * c
  {
  }

  lemma MulAtMost(a: real, b: real, c: real)
    requires a <= b && c > 0.0
    ensures a * c <= b * c
  {
  }

  // ---------------------------------------------------------------------
  // Properties

  /** There are never more nulls than cells. */
  lemma {:induction false} NullsBounded(rows: seq<Row>, cols: seq<string>)
    ensures Nulls(rows, cols) <= |rows| * |cols|
  {
    if |rows| > 0 {
      NullsBounded(rows[1..], cols);
      assert |rows| * |cols| == |cols| + (|rows| - 1) * |cols|;
    }
  }

  /** Every cell null: the count is the number of cells. */
  lemma {:induction false} AllNulls(t: Table)
    requires WellFormed(t)
    requires forall i, c :: 0 <= i < |t.rows| && c in t.columns ==> t.rows[i][c] == Null
    ensures Nulls(t.rows, t.columns) == |t.rows| * |t.columns|
  {
    AllNullRows(t.rows, t.columns);
  }

  lemma {:induction false} AllNullRows(rows: seq<Row>, cols: seq<string>)
    requires forall i, c :: 0 <= i < |rows| && c in cols ==> c in rows[i] && rows[i][c] == Null
    ensures Nulls(rows, cols) == |rows| * |cols|
  {
    if |rows| > 0 {
      AllNullRows(rows[1..], cols);
      forall k | 0 <= k < |cols| ensures cols[k] in rows[0] && rows[0][cols[k]] == Null {
        assert cols[k] in cols;
      }
      assert |rows| * |cols| == |cols| + (|rows| - 1) * |cols|;
    }
  }

  /** A table without nulls never gets the null-ratio error. */
  lemma {:induction false} NoNullsNoError(rows: seq<Row>, cols: seq<string>)
    requires forall i, k :: 0 <= i < |rows| && 0 <= k < |cols| && cols[k] in rows[i] ==> rows[i][cols[k]] != Null
    ensures Nulls(rows, cols) == 0
  {
    if |rows| > 0 {
      NoNullsNoError(rows[1..], cols);
    }
  }

  /** A non-empty table of nulls only always fails the null check. */
  lemma AllNullTableFails(t: Table)
    requires WellFormed(t) && !IsEmpty(t)
    requires forall i, c :: 0 <= i < |t.rows| && c in t.columns ==> t.rows[i][c] == Null
    ensures NullError in ValidateWideFormat(t).1 && !ValidateWideFormat(t).0
  {
    AllNulls(t);
    PositiveCells(t);
  }
}

=== FILE: wage_tables.dfy ===
/**
  Reading the wage and expense tables of a county page of the Living Wage
  Calculator, as the two scraper variants do it:
  src/extract/wage_scraper.py (the extractor) and
  src/extract/scrapers/wage_scraper.py (the scraper).

  HTML parsing is not modelled: a table arrives with the cells of the first
  row of each header group (text already stripped, colspan already read)
  and the stripped texts of each body row's data cells.
 */
module WageTables {
  import opened Wrappers
  import opened Text
  import opened Tables
  import opened Currency

  /** One header cell: its stripped text and its colspan. */
  datatype HeaderCell = HeaderCell(text: string, colspan: int)

  /** One `results_table`: for each `thead`, the cells of its first row
      (`None` when it has none); the body rows, `None` without a `tbody`. */
  datatype HtmlTable = HtmlTable(theads: seq<Option<seq<HeaderCell>>>, body: Option<seq<seq<string>>>)

  /** The two implementations. */
  datatype Variant = Extractor | Scraper

  const HeaderFormatError := "Unexpected table header format"
  /** `str` of the `AttributeError` raised by `find_all` on the `None`
      that `find` returns for a missing row or body. */
  const NoFindAll := "'NoneType' object has no attribute 'find_all'"

  // ---------------------------------------------------------------------
  // Headers

  /** The adult labels: header cells with a non-blank text, with their
      colspans. */
  function AdultConfigs(cells: seq<HeaderCell>): (r: seq<HeaderCell>)
    ensures forall j :: 0 <= j < |r| ==> r[j].text != "" && r[j] in cells
    ensures forall c :: c in cells && c.text != "" ==> c in r
  {
    if |cells| == 0 then []
    else (if cells[0].text != "" then [cells[0]] else []) + AdultConfigs(cells[1..])
  }

  /** Each adult label repeated over its colspan; a colspan below one
      repeats it no times, as `range` does. */
  function Labels(adults: seq<HeaderCell>): seq<string> {
    if |adults| == 0 then []
    else Repeat(adults[0].text, adults[0].colspan) + Labels(adults[1..])
  }

  function Repeat(s: string, n: int): (r: seq<string>)
    ensures |r| == if n < 0 then 0 else n
    ensures forall j :: 0 <= j < |r| ==> r[j] == s
    decreases n
  {
    if n <= 0 then [] else [s] + Repeat(s, n - 1)
  }

  /** One header of the combined table. */
  function Combined(adult: string, child: string): string {
    adult + " - " + child
  }

  function Min(a: int, b: int): int { if a < b then a else b }

  function Count(n: int): nat { if n < 0 then 0 else n }

  /** The inner loop `for _ in range(colspan)`: one combined header per
      child cell left, then the next child index. */
  function Expand(text: string, n: int, child: seq<string>, col: nat): (r: (seq<string>, nat))
    requires col <= |child|
    ensures var m := Min(Count(n), |child| - col);
      r.1 == col + m && |r.0| == m
      && forall k :: 0 <= k < m ==> r.0[k] == Combined(text, child[col + k])
    decreases n
  {
    if n <= 0 then ([], col)
    else if col < |child| then
      var (hs, next) := Expand(text, n - 1, child, col + 1);
      ([Combined(text, child[col])] + hs, next)
    else Expand(text, n - 1, child, col)
  }

  /** The outer loop over the adult labels, starting at child index `col`. */
  function Spread(adults: seq<HeaderCell>, child: seq<string>, col: nat): seq<string>
    requires col <= |child|
  {
    if |adults| == 0 then []
    else
      var (hs, next) := Expand(adults[0].text, adults[0].colspan, child, col);
      hs + Spread(adults[1..], child, next)
  }

  /** The combined headers pair the k-th repeated adult label with the
      child cell k places after `col`, until either runs out. */
  lemma {:induction false} SpreadPairs(adults: seq<HeaderCell>, child: seq<string>, col: nat)
    requires col <= |child|
    ensures var ls := Labels(adults);
      var m := Min(|ls|, |child| - col);
      |Spread(adults, child, col)| == m
      && forall k :: 0 <= k < m ==> Spread(adults, child, col)[k] == Combined(ls[k], child[col + k])
  {
    var ls := Labels(adults);
    var m := Min(|ls|, |child| - col);
    if |adults| > 0 {
      var a := adults[0];
      var (hs, next) := Expand(a.text, a.colspan, child, col);
      var rest := Labels(adults[1..]);
      var rep := Repeat(a.text, a.colspan);
      assert ls == rep + rest;
      SpreadPairs(adults[1..], child, next);
      var m1 := Min(|rest|, |child| - next);
      var tail := Spread(adults[1..], child, next);
      assert |hs| == next - col;
      assert |hs| + m1 == m;
      forall k | 0 <= k < m
        ensures (hs + tail)[k] == Combined(ls[k], child[col + k])
      {
        if k < |hs| {
          assert ls[k] == rep[k];
        } else {
          assert ls[k] == rest[k - |hs|];
        }
      }
    }
  }

  /** The texts of the child-count row. */
  function Texts(cells: seq<HeaderCell>): (r: seq<string>)
    ensures |r| == |cells|
    ensures forall j :: 0 <= j < |r| ==> r[j] == cells[j].text
  {
    seq(|cells|, j requires 0 <= j < |cells| => cells[j].text)
  }

  /** The first header: the first child cell, or "Category" when blank. */
  function FirstHeader(child0: string): string {
    if child0 != "" then child0 else "Category"
  }

  /** `_extract_headers` / `_extract_table_headers`. The extractor refuses a
      table with fewer than two header groups; the scraper indexes into it
      and fails the same way Python does. */
  function Headers(t: HtmlTable, v: Variant): (r: Result<seq<string>, string>)
    ensures v == Extractor && |t.theads| < 2 ==> r == Failure(HeaderFormatError)
    ensures v == Scraper && |t.theads| < 2 ==> r.Failure? && r.error in {IndexError, NoFindAll}
    ensures r.Failure? && r.error != HeaderFormatError ==> r.error in {IndexError, NoFindAll}
    ensures |t.theads| >= 2 && (t.theads[0].None? || t.theads[1].None?) ==> r == Failure(NoFindAll)
    ensures r.Success? <==>
      |t.theads| >= 2 && t.theads[0].Some? && t.theads[1].Some? && |t.theads[1].value| > 0
    ensures r.Success? ==>
      var child := Texts(t.theads[1].value);
      var ls := Labels(AdultConfigs(t.theads[0].value));
      var m := Min(|ls|, |child| - 1);
      |r.value| == 1 + m
      && r.value[0] == FirstHeader(child[0])
      && forall k :: 0 <= k < m ==> r.value[1 + k] == Combined(ls[k], child[1 + k])
  {
    if v == Extractor && |t.theads| < 2 then Failure(HeaderFormatError)
    else if |t.theads| == 0 then Failure(IndexError)
    else if t.theads[0].None? then Failure(NoFindAll)
    else if |t.theads| < 2 then Failure(IndexError)
    else if t.theads[1].None? then Failure(NoFindAll)
    else if |t.theads[1].value| == 0 then Failure(IndexError)
    else Success(HeaderRow(t.theads[0].value, t.theads[1].value))
  }

  /** The header row built from the adult row and the child-count row. */
  function HeaderRow(adultRow: seq<HeaderCell>, childRow: seq<HeaderCell>): (r: seq<string>)
    requires |childRow| > 0
    ensures var child := Texts(childRow);
      var ls := Labels(AdultConfigs(adultRow));
      var m := Min(|ls|, |child| - 1);
      |r| == 1 + m
      && r[0] == FirstHeader(child[0])
      && forall k :: 0 <= k < m ==> r[1 + k] == Combined(ls[k], child[1 + k])
  {
    var child := Texts(childRow);
    var adults := AdultConfigs(adultRow);
    SpreadPairs(adults, child, 1);
    [FirstHeader(child[0])] + Spread(adults, child, 1)
  }

  // ---------------------------------------------------------------------
  // Rows

  /** `_extract_rows` / `_extract_table_rows`: without a body the extractor
      gives no rows and the scraper fails. */
  function BodyRows(t: HtmlTable, v: Variant): (r: Result<seq<seq<string>>, string>)
    ensures t.body.Some? ==> r == Success(t.body.value)
    ensures t.body.None? && v == Extractor ==> r == Success([])
    ensures t.body.None? && v == Scraper ==> r == Failure(NoFindAll)
  {
    match t.body
    case Some(rows) => Success(rows)
    case None => if v == Extractor then Success([]) else Failure(NoFindAll)
  }

  /** A body row fitted to `n` headers: padded with `None` or cut. */
  function Fit(row: seq<string>, n: nat): (r: seq<Cell>)
    ensures |r| == n
    ensures forall j :: 0 <= j < n ==> r[j] == if j < |row| then Str(row[j]) else Null
  {
    seq(n, j requires 0 <= j < n => if j < |row| then Str(row[j]) else Null)
  }

  /** `dict(zip(headers, row))` with `county_fips` set to the county code
      padded to three. */
  function RowDict(headers: seq<string>, row: seq<string>, county: string): (d: Dict)
    ensures DictOk(d)
    ensures Get(d, "county_fips") == Str(ZFill(county, 3))
  {
    var z := Zip(headers, Fit(row, |headers|));
    PutGet(z, "county_fips", Str(ZFill(county, 3)));
    Put(z, "county_fips", Str(ZFill(county, 3)))
  }

  /** With distinct headers none of which is `county_fips`, the dict holds
      the headers in order, then `county_fips`; each header holds its cell,
      or `None` past the row's end. */
  lemma RowDictContents(headers: seq<string>, row: seq<string>, county: string)
    requires Distinct(headers) && "county_fips" !in headers
    ensures var d := RowDict(headers, row, county);
      Keys(d) == headers + ["county_fips"]
      && forall j :: 0 <= j < |headers| ==>
        Get(d, headers[j]) == if j < |row| then Str(row[j]) else Null
  {
    var cells := Fit(row, |headers|);
    var z := Zip(headers, cells);
    assert Keys(z) == headers;
    var d := RowDict(headers, row, county);
    PutGet(z, "county_fips", Str(ZFill(county, 3)));
    assert d == z + [("county_fips", Str(ZFill(county, 3)))];
    forall j | 0 <= j < |headers|
      ensures Get(d, headers[j]) == if j < |row| then Str(row[j]) else Null
    {
      assert d[j] == (headers[j], cells[j]);
    }
  }

  /** `_extract_table`: headers, then rows, then one dict per row in order. */
  function ExtractTable(t: HtmlTable, county: string, v: Variant): (r: Result<seq<Dict>, string>)
    ensures r.Success? <==> Headers(t, v).Success? && BodyRows(t, v).Success?
    ensures Headers(t, v).Failure? ==> r.Failure? && r.error == Headers(t, v).error
    ensures r.Success? ==>
      var rows := BodyRows(t, v).value;
      |r.value| == |rows|
      && forall i :: 0 <= i < |rows| ==> r.value[i] == RowDict(Headers(t, v).value, rows[i], county)
  {
    var headers :- Headers(t, v);
    var rows :- BodyRows(t, v);
    Success(seq(|rows|, i requires 0 <= i < |rows| => RowDict(headers, rows[i], county)))
  }

  /** The two tables of a county page. */
  datatype CountyData = CountyData(wagesData: seq<Dict>, expensesData: seq<Dict>)

  /** `_parse_page` / `parse`: the first table gives the wages and the
      second the expenses; fewer than two is an error naming the count. */
  function ParsePage(tables: seq<HtmlTable>, county: string, v: Variant): (r: Result<CountyData, string>)
    ensures |tables| < 2 ==> r == Failure("Expected at least 2 tables, found " + NatToString(|tables|))
    ensures r.Success? <==> (|tables| >= 2
      && ExtractTable(tables[0], county, v).Success? && ExtractTable(tables[1], county, v).Success?)
    ensures r.Success? ==>
      r.value.wagesData == ExtractTable(tables[0], county, v).value
      && r.value.expensesData == ExtractTable(tables[1], county, v).value
  {
    if |tables| < 2 then Failure("Expected at least 2 tables, found " + NatToString(|tables|))
    else
      var wages :- ExtractTable(tables[0], county, v);
      var expenses :- ExtractTable(tables[1], county, v);
      Success(CountyData(wages, expenses))
  }

  // ---------------------------------------------------------------------
  // Where the page is

  /** `get_county_data`'s endpoint: the codes padded to two and three. */
  function CountyEndpoint(state: string, county: string): (r: string)
    ensures |r| >= 9 && r[..9] == "counties/"
    ensures |r| == 9 + |ZFill(state, 2)| + |ZFill(county, 3)|
  {
    "counties/" + ZFill(state, 2) + ZFill(county, 3)
  }

  /** Digit codes of at most two and three digits give a five-digit code
      whose value is the state's times 1000 plus the county's. */
  lemma CountyEndpointDigits(state: string, county: string)
    requires IsDigits(state) && |state| <= 2 && IsDigits(county) && |county| <= 3
    ensures var r := CountyEndpoint(state, county);
      |r| == 14 && IsDigits(r[9..])
      && DigitsValue(r[9..]) == 1000 * DigitsValue(state) + DigitsValue(county)
  {
    var a, b := ZFill(state, 2), ZFill(county, 3);
    EndpointTail(state, county);
    ZFillDigits(state, 2);
    ZFillDigits(county, 3);
    DigitsValueAppend(a, b);
  }

  lemma EndpointTail(state: string, county: string)
    ensures CountyEndpoint(state, county)[9..] == ZFill(state, 2) + ZFill(county, 3)
  {
    var a, b := ZFill(state, 2), ZFill(county, 3);
    assert ("counties/" + a + b)[9..] == a + b;
  }

  /** The scraper's `build_url`: the codes as given, without padding. */
  function BuildUrl(base: string, state: string, county: string): (r: string)
    ensures |r| == |base| + 10 + |state| + |county|
    ensures r[..|base|] == base && r[|base| + 10..] == state + county
  {
    base + "/counties/" + state + county
  }

  /** For full-width codes the two variants ask for the same page; for a
      shorter code the scraper's URL leaves it unpadded. */
  lemma VariantsAgreeOnFullCodes(base: string, state: string, county: string)
    requires |state| == 2 && |county| == 3
    ensures BuildUrl(base, state, county) == base + "/" + CountyEndpoint(state, county)
  {
  }

  lemma VariantsDifferOnShortCodes(base: string, state: string, county: string)
    requires IsDigits(state) && IsDigits(county) && |state| <= 2 && |county| <= 3
    requires |state| < 2 || |county| < 3
    ensures BuildUrl(base, state, county) != base + "/" + CountyEndpoint(state, county)
  {
    var u := base + "/" + CountyEndpoint(state, county);
    assert |u| == |base| + 15;
  }
}

=== FILE: wrappers.dfy ===
/**
  Failure-compatible wrappers shared by every module of the model.

  Python signals failure by raising; the model returns a `Result` whose
  `Failure` carries the text `str(e)` the exception would print, or a
  structured error where the caller inspects the kind of failure.
 */
module Wrappers {

  /** `str` of the `IndexError` Python raises on a list index past the
      end, which several steps of the pipeline can let escape. */
  const IndexError := "list index out of range"

  datatype Option<+T> = None | Some(value: T) {
    predicate IsFailure() { None? }

    function PropagateFailure<U>(): Option<U>
      requires None?
    {
      None
    }

    function Extract(): T
      requires Some?
    {
      value
    }

    function GetOr(default: T): T {
      match this
      case Some(v) => v
      case None => default
    }
  }

  datatype Result<+R, +E> = Success(value: R) | Failure(error: E) {
    predicate IsFailure() { Failure? }

    function PropagateFailure<U>(): Result<U, E>
      requires Failure?
    {
      Failure(error)
    }

    function Extract(): R
      requires Success?
    {
      value
    }
  }
}
